=== FILE: README.md ===
# Certificate monitor: the lifecycle decision logic

The certificate monitor keeps an inventory of TLS certificates in a DynamoDB
table. Each certificate is a record keyed by `CertificateID`, with a common
name, an expiry date in `YYYY-MM-DD` form, an environment, an owner and a
status. The records come from several places:

- a scan of Windows and Linux hosts;
- a sync with AWS Certificate Manager across accounts and regions;
- spreadsheet uploads and a spreadsheet import script;
- the dashboard's HTTP API.

The system then keeps the records current:

- A scheduled monitor recomputes statuses and e-mails the owners of certificates that expire soon.
- A ticket creator opens a ServiceNow incident for every expiring certificate that has none yet.
- A webhook handler lets the incident's progress drive the certificate's status.
- Maintenance scripts repair the table in bulk.

This project models the decisions these programs make:

- how the status is derived from the days left;
- which certificates are expiring and which need a ticket;
- what every handler writes, and what it refuses;
- how the records of a scan, a sync or an import are built and merged with what is stored;
- how the bulk repairs count their work.

Each Python module is one Dafny module:

| Dafny module | file | Python module |
|---|---|---|
| `CertificateHelpers` | `certificate_helpers.dfy` | `src/utils/certificate_helpers.py` |
| `CertificateMonitor` | `certificate_monitor.dfy` | `lambda/certificate_monitor.py` |
| `TicketCreator` | `ticket_creator.dfy` | `lambda/servicenow_ticket_creator.py` |
| `WebhookHandler` | `webhook_handler.dfy` | `lambda/servicenow_webhook_handler.py` |
| `ServerScanner` | `server_scanner.dfy` | `lambda/server_certificate_scanner.py` |
| `AcmSync` | `acm_sync.dfy` | `lambda/acm_certificate_sync.py` |
| `ExcelProcessor` | `excel_processor.dfy` | `lambda/excel_processor.py` |
| `CertificateApi` | `lambda_function.dfy` | `lambda_function.py` |
| `DashboardApi` | `dashboard_api.dfy` | `dashboard_api.py` |
| `CertificateImport` | `import_certificates.dfy` | `src/scripts/import_certificates.py` |
| `Configuration` | `config.dfy` | `src/utils/config.py` |
| `FixAllTests` | `fix_all_tests.dfy` | `fix_all_tests.py` |
| `FixOwner` | `fix_owner.dfy` | `fix_owner.py` |
| `FixCommonName` | `fix_commonname.dfy` | `archive/fix_commonname.py` |
| `FixExpiredStatus` | `fix_expired_status.dfy` | `archive/fix_expired_status.py` |

Shared modules hold what several programs have in common:

- `Values`: records as maps from attribute name to text, number or null.
- `Text`: the `str` operations the programs use.
- `Dates`: calendar dates, the ISO text form and its round trip, and the two ways of counting days.
- `Statuses`: the 30-day rule and the two-tier 30/90-day rule.
- `Batching`: fixed-size batches.
- `Store`: the certificates table as a class over a map, with get, put, update and delete.
- `UpdateExpressions`: request bodies and DynamoDB `SET` expressions.
- `EmailNames`: the owner name derived from an e-mail address.
- `Maintenance`: the scan-decide-write loop shared by the repair scripts.

Anything outside these programs becomes an input:

- the clock;
- generated UUIDs;
- AWS calls and whether they fail;
- what the incident service answers;
- what a host's scan command prints.

## Model

| member | source | states |
|---|---|---|
| Statuses.StatusForDays | src/utils/certificate_helpers.py:52-57 | Expired exactly when fewer than 0 days are left, Due for Renewal exactly for 0 to 30 days, Active exactly beyond 30 |
| Statuses.StatusForDaysMonotone | src/utils/certificate_helpers.py:52-57 | more days left never gives a more urgent status under the 30-day rule |
| Statuses.TwoTierStatus | archive/fix_expired_status.py:56-64 | Expired below 0 days, Expiring Soon for 0 to 30, Due for Renewal for 31 to 90, Active beyond 90, each an if-and-only-if |
| Statuses.TwoTierStatusMonotone | archive/fix_expired_status.py:56-64 | more days left never gives a more urgent status under the two-tier rule |
| Statuses.TwoTierRefinesThirtyDay | fix_all_tests.py:93-100 | the two rules agree on Expired; the two-tier Expiring Soon is exactly the 30-day Due for Renewal; the 30-day Active splits into the two-tier Due for Renewal and Active |
| Dates.ParseIso | src/utils/certificate_helpers.py:24 | `strptime(s, '%Y-%m-%d')` yields only valid calendar dates (and by Dates.ParseFormatIso reads every formatted date back) |
| Dates.ParseNumericDate | lambda/excel_processor.py:225-240 | a numeric format of `%Y`, `%m`, `%d` with one separator yields a valid calendar date or nothing |
| Dates.FormatIso | lambda/acm_certificate_sync.py:435 | `strftime('%Y-%m-%d')` renders ten characters, dashes at positions 4 and 7 |
| Dates.ParseFormatIso | lambda/excel_processor.py:219 | reading back a formatted date gives the same date |
| Dates.DayNumberOrder | src/utils/certificate_helpers.py:78 | comparing day numbers is comparing dates in calendar order |
| Dates.DaysFromNowByDay | lambda/certificate_monitor.py:324-333 | counting from a moment after midnight gives one day fewer than counting from midnight (src/utils/certificate_helpers.py:25-27); a certificate that expires today has -1 days left |
| Text.ParseInt | src/utils/config.py:87 | `int(s)` succeeds exactly when the stripped text is an optional `+` or `-` followed by one or more decimal digits, and then gives the value of those digits, negated after a `-` (leading zeros allowed); blank text and any other character fail |
| Text.IntToStringParses | src/utils/config.py:87 | `int(str(n)) == n` for every integer |
| Text.StripShape | fix_owner.py:40 | `strip` never lengthens its input and leaves no whitespace at either end |
| Text.SplitOn | fix_owner.py:20 | `split` on one character gives at least one piece, and no piece contains the separator |
| Text.IndexOf | fix_owner.py:20 | the position of the first occurrence of the character |
| Text.BeforeFirst | fix_owner.py:20 | `split(c)[0]`: the longest prefix without `c`, ending just before the first `c` when there is one |
| Text.Lower | lambda/excel_processor.py:152 | `lower()`, character by character |
| Text.ReplaceChar | lambda/excel_processor.py:152 | `replace(a, b)` for one character: every `a` becomes `b`, nothing else changes |
| Batching.Batches | lambda/server_certificate_scanner.py:237-240 | the batches are non-empty, at most `size` long, all full but the last, `ceil(n/size)` of them, and concatenate to the input |
| Batching.BatchCountQuotient | src/scripts/import_certificates.py:181 | `(n + size - 1) // size` is the number of batches, for every positive size |
| Store.Upserted | lambda/servicenow_webhook_handler.py:320-330 | `update_item` sets exactly the given attributes on the stored record, or on a new record holding only its key |
| Store.UpsertKeepsKeys | lambda/servicenow_webhook_handler.py:320-330 | an update that does not touch `CertificateID` keeps every record filed under its own key |
| Store.CertificateTable.Get | lambda_function.py:211 | `get_item` returns the record stored under the key, or nothing |
| Store.CertificateTable.Put | lambda_function.py:187 | `put_item` replaces the record under its key and leaves every other record alone |
| Store.CertificateTable.Update | lambda_function.py:244 | `update_item` upserts one record and leaves every other record alone |
| Store.CertificateTable.Delete | lambda_function.py:282 | `delete_item` removes exactly the one key |
| Store.CertificateTable.constructor | lambda_function.py:10 | a table holding the given records, each under its own key |
| CertificateHelpers.CalculateDaysUntilExpiry | src/utils/certificate_helpers.py:13-30 | an unreadable date counts as 0 days |
| CertificateHelpers.DaysUntilStoredDate | src/utils/certificate_helpers.py:13-30 | a readable date counts whole calendar days from today's midnight; one expiring today has 0 days left |
| CertificateHelpers.DetermineCertificateStatus | src/utils/certificate_helpers.py:33-58 | a manual renewal state is kept whatever the date; otherwise the 30-day rule applies to the days left |
| CertificateHelpers.UnreadableDateIsDue | src/utils/certificate_helpers.py:27-30 | a record with an unreadable date and no manual state becomes Due for Renewal |
| CertificateHelpers.IsCertificateExpiring | src/utils/certificate_helpers.py:61-81 | true exactly when all three dates read and current <= expiry <= threshold |
| CertificateHelpers.ExpiringWindowWidens | src/utils/certificate_helpers.py:61-81 | moving the threshold later never drops a certificate from the window |
| CertificateHelpers.ValidateCertificateData | src/utils/certificate_helpers.py:84-112 | valid exactly when well formed, and an error message exactly when not valid; the first missing field of CommonName, ExpiryDate, Environment is reported, then the date format, then the environment; a truthy ExpiryDate that is not text raises (the uncaught TypeError), and nothing else does |
| CertificateHelpers.FormatCertificateForDisplay | src/utils/certificate_helpers.py:125-151 | a copy with DaysUntilExpiry and the derived status added when dated, LastUpdated added only when absent, and every other attribute unchanged |
| CertificateHelpers.Differences | src/utils/certificate_helpers.py:181-192 | a key is listed exactly when present in both records with differing values |
| CertificateHelpers.CreateAuditLogEntry | src/utils/certificate_helpers.py:154-197 | old and new values kept only when truthy; Changes present exactly when both are given and some common key differs, and then it is the differences |
| CertificateHelpers.GetCertificateStatusColor | src/utils/certificate_helpers.py:200-217 | one colour per known status; gray exactly for unknown statuses |
| CertificateHelpers.NotificationUrgency | src/utils/certificate_helpers.py:238 | HIGH exactly for at most 7 days, MEDIUM for 8 to 14, LOW beyond |
| CertificateHelpers.NotificationUrgencyMonotone | src/utils/certificate_helpers.py:238 | a later expiry is never more urgent |
| CertificateHelpers.FormatExpiryNotification | src/utils/certificate_helpers.py:220-241 | exactly the eight fields, each read with its `.get` default: certificate_name (Unknown), certificate_id, expiry_date, environment and application (empty), owner (Unassigned), the days left and the urgency of those days; a certificate without a date reads as 0 days and so HIGH urgency |
| CertificateHelpers.SortBy | src/utils/certificate_helpers.py:261 | the result is a permutation of the input, ordered by the key |
| CertificateHelpers.SortCertificatesByExpiry | src/utils/certificate_helpers.py:244-261 | a permutation ordered by expiry, soonest first when ascending; an undated record sorts as 9999-12-31 and an unreadable date after every date |
| CertificateHelpers.GroupBy | src/utils/certificate_helpers.py:273-280 | one group for each key that occurs, each holding exactly the certificates with that key, in input order |
| CertificateHelpers.GroupsPartition | src/utils/certificate_helpers.py:273-280 | every certificate lands in exactly one group, the one its key names |
| CertificateHelpers.GroupCertificatesByStatus | src/utils/certificate_helpers.py:264-281 | grouped by Status, default Unknown |
| CertificateHelpers.GroupCertificatesByEnvironment | src/utils/certificate_helpers.py:284-301 | grouped by Environment, default Unknown |
| CertificateHelpers.Members | src/utils/certificate_helpers.py:275-279 | a group holds only certificates of the input with that key, in input order |
| CertificateMonitor.CalculateNewStatus | lambda/certificate_monitor.py:382-401 | Expired once the date has passed, even over a manual renewal state; inside the window Due for Renewal unless a manual state is kept; Active beyond it; an unreadable date keeps the current status |
| CertificateMonitor.CalculateNewStatusIdempotent | lambda/certificate_monitor.py:382-401 | recomputing a status that was just computed changes nothing |
| CertificateMonitor.DaysUntilExpiry | lambda/certificate_monitor.py:324-333 | a number of days exactly when the date reads, otherwise the "Unknown" answer |
| CertificateMonitor.StatusOutcomeFor | lambda/certificate_monitor.py:347-378 | a record without an ID, or whose expiry date is missing or not text, raises and counts as failed; otherwise it is unchanged exactly when CalculateNewStatus gives back its current status, fails exactly when the status changed and the write raises, and is otherwise updated to CalculateNewStatus's status |
| CertificateMonitor.Outcomes | lambda/certificate_monitor.py:347-378 | one outcome per certificate, in order |
| CertificateMonitor.UpdateCertificateStatuses | lambda/certificate_monitor.py:335-380 | the table and the two counters after the loop are those of the functional sweep (`Outcomes` applied in order), and the table stays keyed by ID |
| CertificateMonitor.ApplyOutcomesCounts | lambda/certificate_monitor.py:335-380 | the updated and failed counters never exceed the number of certificates |
| CertificateMonitor.ApplyOutcomesFrame | lambda/certificate_monitor.py:356-366 | a touched record belongs to an update outcome and gains only Status and LastUpdatedOn; its other attributes keep their values |
| CertificateMonitor.StatusSweepFrame | lambda/certificate_monitor.py:335-380 | the whole sweep counts each certificate at most once and writes only Status and LastUpdatedOn of changed records |
| CertificateMonitor.ApplyOutcomesSettled | lambda/certificate_monitor.py:356 | when every status is already current a run writes nothing and counts nothing |
| CertificateMonitor.AddressedTo | lambda/certificate_monitor.py:150-172 | the certificates a recipient receives, taken from the input in order |
| CertificateMonitor.GroupsKeys | lambda/certificate_monitor.py:150-172 | a group exists exactly for the recipients some certificate is addressed to |
| CertificateMonitor.GroupsContents | lambda/certificate_monitor.py:150-172 | each group holds exactly the certificates addressed to its recipient, in input order |
| CertificateMonitor.GroupCertificatesByOwner | lambda/certificate_monitor.py:150-172 | the loop builds one group per non-empty owner e-mail and per non-empty support e-mail that differs from the owner, holding exactly the certificates addressed to it |
| CertificateMonitor.AddressedAtMostTwice | lambda/certificate_monitor.py:160-170 | a certificate reaches only its owner and its support contact, never an empty address |
| CertificateMonitor.AddressedToOnce | lambda/certificate_monitor.py:160-170 | within one group a certificate occurs as often as in the input, so an owner who is also the support contact gets it once |
| CertificateMonitor.SentOrFailed | lambda/certificate_monitor.py:120-148 | every deliverable recipient is either sent to or failed, never both |
| CertificateMonitor.ProcessNotifications | lambda/certificate_monitor.py:120-148 | the sent and failed counts are the deliverable recipients whose send succeeds and fails, and they add up to all deliverable recipients |
| CertificateMonitor.FieldValues | lambda/certificate_monitor.py:447-455 | one field value per certificate |
| CertificateMonitor.CountByField | lambda/certificate_monitor.py:447-455 | each value's count is its number of occurrences (missing counted as Unknown); the counts add up to the number of certificates |
| CertificateMonitor.UrgencyCountsTotal | lambda/certificate_monitor.py:457-475 | every certificate with a readable date is counted once, as urgent or as warning, and the others in neither |
| CertificateMonitor.CountUrgency | lambda/certificate_monitor.py:465-470 | under 7 days counts as urgent, any other readable date as warning, an unreadable one in neither |
| CertificateMonitor.CategorizeByUrgency | lambda/certificate_monitor.py:457-475 | the loop's counts are those of the recursive count, and they add up to the readable certificates |
| TicketCreator.CalculatePriority | lambda/servicenow_ticket_creator.py:454-480 | priority 1 exactly when expired, 2 for 0 to 6 days, 3 for 7 to 13, 4 for 14 to 29, 5 from 30 days on |
| TicketCreator.PriorityMonotone | lambda/servicenow_ticket_creator.py:454-480 | a later expiry never gets a more urgent (lower) priority |
| TicketCreator.GetUrgencyLabel | lambda/servicenow_ticket_creator.py:568-587 | CRITICAL exactly when expired, PLANNING exactly from 30 days on |
| TicketCreator.UrgencyLabelFollowsPriority | lambda/servicenow_ticket_creator.py:568-587 | the label is a function of the priority, and two days get the same label exactly when they get the same priority |
| TicketCreator.DaysUntilExpiry | lambda/servicenow_ticket_creator.py:436-451 | days from the current moment for a readable date; 0 for a date that is not `YYYY-MM-DD` text |
| TicketCreator.UnreadableDatePriority | lambda/servicenow_ticket_creator.py:449-451 | an unreadable date counts as 0 days and so gets priority 2, not 1 |
| TicketCreator.NeedingTickets | lambda/servicenow_ticket_creator.py:170-203 | only certificates from the input that have no incident number and are not Renewal Done or Renewed |
| TicketCreator.FilterCertificatesNeedingTickets | lambda/servicenow_ticket_creator.py:170-203 | the loop keeps exactly the certificates of the recursive filter `NeedingTickets`, in order |
| TicketCreator.NeedingTicketsCount | lambda/servicenow_ticket_creator.py:187-201 | every certificate that needs a ticket is kept as often as it occurs, and no other |
| TicketCreator.NeedingTicketsSplit | lambda/servicenow_ticket_creator.py:187-201 | every certificate is either kept or already covered (incident or renewal done), never both |
| TicketCreator.NeedingTicketsIdempotent | lambda/servicenow_ticket_creator.py:170-203 | filtering twice keeps the same certificates |
| TicketCreator.TicketOutcomeFor | lambda/servicenow_ticket_creator.py:238-265 | skipped exactly under DRY_RUN; created only when the incident opened and the record with that ID took its number |
| TicketCreator.TicketOutcomes | lambda/servicenow_ticket_creator.py:236-265 | one outcome per certificate, in order |
| TicketCreator.ProcessTicketCreation | lambda/servicenow_ticket_creator.py:206-267 | the table and counters after the loop are those of the functional run (`TicketOutcomes` applied in order), and the table stays keyed by ID |
| TicketCreator.ApplyTicketsCounts | lambda/servicenow_ticket_creator.py:236-265 | each certificate is counted exactly once, and every failure leaves one error message |
| TicketCreator.SkippedLeaveTable | lambda/servicenow_ticket_creator.py:244-247 | when every certificate is skipped the table is left as it was |
| TicketCreator.TicketCreationCounts | lambda/servicenow_ticket_creator.py:206-267 | all zero for no certificates; all failed when the credentials cannot be read; all skipped with the table untouched under DRY_RUN; otherwise each counted once |
| TicketCreator.CreateSummary | lambda/servicenow_ticket_creator.py:656-683 | total expiring is needing plus already covered; the ticket counters are the run's |
| TicketCreator.SummaryCountsCovered | lambda/servicenow_ticket_creator.py:656-683 | with the filter's list, "already have tickets" is exactly the certificates the filter left out |
| WebhookHandler.NewStatus | lambda/servicenow_webhook_handler.py:62-69 | Unknown exactly for a state that is not one of the six text codes |
| WebhookHandler.StateName | lambda/servicenow_webhook_handler.py:52-59 | Unknown exactly for a state that is not one of the six text codes |
| WebhookHandler.StatusFollowsStateName | lambda/servicenow_webhook_handler.py:52-69 | the two tables agree: New leads to Pending Assignment, In Progress to Renewal in Progress, On Hold to On Hold, Resolved and Closed to Renewal Done, Canceled to Renewal Canceled, each both ways |
| WebhookHandler.ActionName | lambda/servicenow_webhook_handler.py:336 | `INCIDENT_` followed by the state name upper-cased with blanks turned into underscores |
| WebhookHandler.ValidateWebhookSignature | lambda/servicenow_webhook_handler.py:184-231 | fails open: refused exactly when a signature was compared and differs |
| WebhookHandler.AssignmentChanges | lambda/servicenow_webhook_handler.py:286-315 | the five incident and status attributes, plus AssignedTo, AssignedToEmail and AssignedOn exactly when someone other than Unassigned is named; never the key |
| WebhookHandler.AssignmentClauses | lambda/servicenow_webhook_handler.py:291-312 | eight clauses with an assignee, five without |
| WebhookHandler.AssignmentValues | lambda/servicenow_webhook_handler.py:293-315 | a placeholder value for exactly the clauses that are written |
| WebhookHandler.AssignmentUpdateWrites | lambda/servicenow_webhook_handler.py:286-326 | the update expression is well formed (every reference supplied, nothing supplied unused) and writes exactly the assignment changes |
| WebhookHandler.AssignmentBound | lambda/servicenow_webhook_handler.py:286-326 | every placeholder and name reference the clauses use is supplied |
| WebhookHandler.AssignmentTight | lambda/servicenow_webhook_handler.py:286-326 | every supplied placeholder and name is used by some clause |
| WebhookHandler.AssignmentNamesUsed | lambda/servicenow_webhook_handler.py:291-298 | both `#lu` and `#status` appear in the clauses |
| WebhookHandler.PlaceholderUsed | lambda/servicenow_webhook_handler.py:293-315 | each placeholder that may be supplied appears in a clause |
| WebhookHandler.AssignmentApplied | lambda/servicenow_webhook_handler.py:320-326 | applying the clauses sets exactly the assignment changes |
| WebhookHandler.BuildAssignmentUpdate | lambda/servicenow_webhook_handler.py:286-317 | the clause-by-clause build gives the clauses, names and values of the functional definitions, and the expression text is `SET` followed by the clauses joined by commas |
| WebhookHandler.UpdateCertificateAssignment | lambda/servicenow_webhook_handler.py:260-361 | succeeds exactly when `assigned_to` is an object, the ID is a usable key and the write does not raise; then the record is upserted with the assignment changes; otherwise the table is unchanged |
| WebhookHandler.LambdaHandler | lambda/servicenow_webhook_handler.py:72-181 | 500 for a body that is not JSON, before the signature; 401 for a refused signature; 500 for JSON that is not an object; then 400 for a missing correlation_id and then incident_number, 500 for a failed update, else 200; the table changes only on 200, and then by the assignment changes with `updated_on` defaulting to now |
| UpdateExpressions.Assign | lambda_function.py:227 | `body[key] = value` keeps the body well formed; an existing key keeps its place and a new key goes last |
| UpdateExpressions.AppliedSnoc | lambda_function.py:244-249 | one more clause writes its attribute over what the earlier clauses wrote |
| UpdateExpressions.AppliedFrame | lambda_function.py:244-249 | what an update writes depends only on the names and values its clauses use |
| UpdateExpressions.TrimEnd | lambda_function.py:242 | `rstrip(chars)` removes a suffix and leaves no stripped character at the end |
| UpdateExpressions.ListedJoin | lambda_function.py:230-240 | the loop's text is the clauses joined by `", "` followed by one more `", "` |
| UpdateExpressions.TrimmedIsJoined | lambda_function.py:242 | stripping `", "` after the loop gives `SET ` and the clauses joined by commas, provided the last placeholder does not end in a comma or blank |
| UpdateExpressions.TrimSeparator | lambda_function.py:242 | stripping `", "` off a text that ends in neither character gives the text back |
| UpdateExpressions.KeptKeys | dashboard_api.py:212-213 | the kept keys are members of the body, in body order |
| UpdateExpressions.KeptKeysMembers | dashboard_api.py:212-213 | a key is kept exactly when it is in the body, is not CertificateID and, in the dashboard's variant, is not blank |
| UpdateExpressions.KeptFields | dashboard_api.py:212-218 | exactly the kept members, with their values |
| UpdateExpressions.ClausesFor | lambda_function.py:236-240 | one clause `#key = :key` per key, in order |
| UpdateExpressions.NamesFor | lambda_function.py:236-238 | `#key` names each key |
| UpdateExpressions.ValuesFor | lambda_function.py:237-239 | `:key` holds each key's value |
| UpdateExpressions.NamesUsed | lambda_function.py:236-238 | every name supplied is one of the keys' |
| UpdateExpressions.ValuesUsed | lambda_function.py:237-239 | every placeholder supplied is one of the keys' |
| UpdateExpressions.KeysBound | lambda_function.py:234-249 | the loop supplies every name and placeholder its clauses use |
| UpdateExpressions.KeysTight | lambda_function.py:234-249 | the loop supplies nothing its clauses do not use |
| UpdateExpressions.KeysWritten | lambda_function.py:234-249 | the call writes exactly the listed keys, each with its value |
| UpdateExpressions.KeptWritten | dashboard_api.py:212-229 | the call is well formed and writes exactly the kept members with their values |
| UpdateExpressions.AddMember | lambda_function.py:235-240 | one turn of the loop: a kept member adds its clause, its name and its value, and the text grows by its clause |
| UpdateExpressions.SetClauses | lambda_function.py:230-242 | the loop over the body builds the clauses, names and values of the kept keys in body order, and the expression is the stripped text |
| CertificateApi.BuildRecipients | lambda_function.py:25-30 | at most two distinct recipients: exactly the owner and the support contact among those that contain `@`, the owner first |
| CertificateApi.SendStatusChangeNotification | lambda_function.py:17-157 | sent exactly when some recipient has an address and SES does not raise; then it goes to exactly those recipients and carries the old and new status and the incident |
| CertificateApi.IncidentFromNotes | lambda_function.py:216-224 | no incident text when the notes lack `Incident:`; the handler raises exactly for notes that are a non-zero number |
| CertificateApi.IncidentShape | lambda_function.py:220-224 | the incident read from the notes never holds a `.` and has no whitespace at either end |
| CertificateApi.IncidentExample | lambda_function.py:220-224 | the notes `Incident: INC1. Renew` give `INC1` |
| CertificateApi.HandleGet | lambda_function.py:166-177 | lists every stored record exactly when the scan does not raise; a raising scan answers the outer handler's 500 (lambda_function.py:300-315) |
| CertificateApi.Stamped | lambda_function.py:184-185 | the body with CreatedAt and UpdatedAt set to now and every other member unchanged |
| CertificateApi.HandlePost | lambda_function.py:180-196 | the stamped body replaces the record under its ID; a body without a non-empty text ID, or a failing write, answers 500 and changes nothing; the response and table are those of CertificateApi.PostOutcome |
| CertificateApi.HandlePut | lambda_function.py:199-269 | 400 without a truthy ID; otherwise every member but the ID, with UpdatedAt stamped, is upserted; a notification goes out only when the body names a different status than the stored one, and always does when someone can receive it and SES works; a raised error changes nothing |
| CertificateApi.HandleDelete | lambda_function.py:272-291 | 400 and no change without an id; a `delete_item` that raises answers the outer handler's 500 (lambda_function.py:300-315) and changes nothing; otherwise exactly that record is removed; the response and table are those of CertificateApi.DeleteOutcome |
| CertificateApi.LambdaHandler | lambda_function.py:159-315 | GET lists, or answers 500 when its scan raises, and changes nothing; an unknown method answers 405 and changes nothing; POST and PUT without a readable body answer 500; otherwise the response and the new table of POST, PUT and DELETE are exactly those of HandlePost, HandlePut and HandleDelete (their outcome functions); only PUT can notify |
| DashboardApi.ParseIsoDate | dashboard_api.py:265 | the date part of `fromisoformat` yields only valid calendar dates |
| DashboardApi.ParseClock | dashboard_api.py:265 | the time part of `fromisoformat` yields a time of day within one day |
| DashboardApi.FromIsoFormat | dashboard_api.py:265 | `fromisoformat` yields a valid moment, and midnight for a bare date |
| DashboardApi.ExpiryInstant | dashboard_api.py:265 | a moment is read only from text; anything else raises and is caught |
| DashboardApi.CalculateStatus | dashboard_api.py:262-276 | Unknown exactly when the date cannot be read; otherwise one of the three 30-day statuses |
| DashboardApi.CalculateDays | dashboard_api.py:278-286 | 0 when the date cannot be read |
| DashboardApi.StatusAgreesWithDays | dashboard_api.py:262-286 | for a readable date the status is the 30-day rule applied to the days reported beside it; Expired exactly when they are negative |
| DashboardApi.FormattedDateDays | dashboard_api.py:262-286 | a `YYYY-MM-DD` date reads as its midnight, and its days and status are the shared ones that count from the current moment |
| DashboardApi.MissingFields | dashboard_api.py:105-106 | a field is reported exactly when it is required and missing or falsy, in the required order |
| DashboardApi.AllFieldsMissing | dashboard_api.py:105-106 | when every field is missing every field is reported, in order |
| DashboardApi.EmptyFormMissesAll | dashboard_api.py:105-116 | an empty form is refused naming all five required fields in order |
| DashboardApi.CertificateId | dashboard_api.py:119 | the body's own ID when truthy, otherwise `cert-` and the generated UUID; never falsy |
| DashboardApi.Stored | dashboard_api.py:128-148 | only the sixteen record attributes, and none of them blank |
| DashboardApi.NewCertificate | dashboard_api.py:118-148 | the stored record holds only known attributes, none of them blank |
| DashboardApi.NumberTextNotBlank | dashboard_api.py:136 | `str(days)` is never a blank value, so DaysUntilExpiry is always stored |
| DashboardApi.NewCertificateDerivesStatus | dashboard_api.py:121-148 | a new certificate carries the status and days the server derives, whatever status the form sent; it is version 1 and is filed under the form's ID or else the generated one |
| DashboardApi.NewCertificateKeepsFields | dashboard_api.py:128-148 | every required field the form sent is stored as sent unless it is the text `None` |
| DashboardApi.HandleAddCertificate | dashboard_api.py:98-183 | 500 and no change for an unreadable body; 400 naming the missing fields and no change; otherwise the new record is put whole, and the answer is 500 when the audit write fails though the record stays |
| DashboardApi.Prepared | dashboard_api.py:199-205 | the body stays well formed after its own assignments |
| DashboardApi.UpdateOverridesStatus | dashboard_api.py:199-229 | with an expiry date, an update writes the derived status and days whatever status the form sent, and the time stamp |
| DashboardApi.UpdateKeepsBody | dashboard_api.py:204-229 | without an expiry date, an update writes exactly the body's non-blank members other than the key, and the time stamp |
| DashboardApi.HandleUpdateCertificate | dashboard_api.py:185-260 | 500 and no change for an unreadable body, a non-text key or a failing write; 400 for a missing ID; otherwise the record is upserted with the kept members of the prepared body |
| DashboardApi.HandleGetCertificates | dashboard_api.py:50-95 | lists every stored record exactly when the scan does not raise, and answers 500 "Failed to fetch certificates" when it does |
| DashboardApi.LambdaHandler | dashboard_api.py:7-48 | the response and the new table of POST are exactly those of HandleAddCertificate, of PUT exactly those of HandleUpdateCertificate (their outcome functions); any other method answers as HandleGetCertificates (the listing, or 500 when the scan raises) and changes nothing; Created only for POST and Updated only for PUT |
| ServerScanner.CalculateCertificateStatus | lambda/server_certificate_scanner.py:572-594 | Unknown exactly when the date does not read; otherwise the 30-day rule counted from the current moment |
| ServerScanner.DetermineEnvironment | lambda/server_certificate_scanner.py:597-618 | the first family whose marker occurs in the lower-cased name, in the order PROD, TEST, DEV, STAGING, each an if-and-only-if; UNKNOWN exactly when no marker of any family occurs |
| ServerScanner.EnvironmentIgnoresCase | lambda/server_certificate_scanner.py:607 | a host name and its upper-cased form get the same environment |
| ServerScanner.CnFrom | lambda/server_certificate_scanner.py:444 | `CN=([^,]+)`: nothing exactly when no `CN=` is followed by a non-comma; otherwise the non-empty run after the first such `CN=` up to the next comma |
| ServerScanner.ExtractCommonName | lambda/server_certificate_scanner.py:444-445 | the whole subject when there is no `CN=` match; otherwise the text after the first `CN=` up to the next comma, non-empty and without commas |
| ServerScanner.CommonNameOfLeadingCn | lambda/server_certificate_scanner.py:444-445 | a subject starting `CN=<name>,` names `name` |
| ServerScanner.CertificateRecord | lambda/server_certificate_scanner.py:463-482 | the record's ID is the instance ID, `_` and the thumbprint; it carries the expiry text, the status derived from it, the scan time and the source |
| ServerScanner.FirstWord | lambda/server_certificate_scanner.py:454 | `split()[0]` is a non-empty word when there is one |
| ServerScanner.WindowsExpiryReadable | lambda/server_certificate_scanner.py:447-457 | a Valid Until text that was reformatted always reads back as a date, so its status is never Unknown |
| ServerScanner.WindowsCertificate | lambda/server_certificate_scanner.py:423-488 | a record exactly for a non-blank block that has Subject, Valid Until and Thumbprint and whose `get_caller_identity` call does not raise, filed under instance and thumbprint |
| ServerScanner.WindowsCertificates | lambda/server_certificate_scanner.py:418-490 | at most one record per block, each with an ID, expiry, status and scan time |
| ServerScanner.ParseWindowsCertificateOutput | lambda/server_certificate_scanner.py:407-490 | the loop returns exactly the records of the recursive parser `WindowsCertificates` |
| ServerScanner.LinuxCertificate | lambda/server_certificate_scanner.py:513-553 | the record is filed under instance and fingerprint and carries the expiry text, status and scan time |
| ServerScanner.Readable | lambda/server_certificate_scanner.py:510-559 | the entries a record is built from, in order: an entry is kept exactly when its fields can be read and its `get_caller_identity` call does not raise, and none is added |
| ServerScanner.AllReadable | lambda/server_certificate_scanner.py:510-559 | when every entry can be read and no identity call raises, none is skipped |
| ServerScanner.LinuxCertificates | lambda/server_certificate_scanner.py:493-569 | no records when the output is not a JSON list; otherwise one record per entry that Readable keeps, in order, an entry whose fields cannot be read or whose identity call raises being skipped |
| ServerScanner.Preserved | lambda/server_certificate_scanner.py:643-645 | the incoming record keeps all its values and gains exactly the hand-maintained attributes it lacks and the stored record has |
| ServerScanner.PreservedIdempotent | lambda/server_certificate_scanner.py:643-645 | preserving a second time adds nothing |
| ServerScanner.StoreOutcome | lambda/server_certificate_scanner.py:621-674 | skipped leaves the table as it was; added puts a new ID whole; updated changes only ExpiryDate, Status and LastScannedOn of the stored record and nothing else in the table |
| ServerScanner.StoreTwice | lambda/server_certificate_scanner.py:621-674 | storing the same scanned record twice leaves the table as storing it once |
| ServerScanner.StoreCertificate | lambda/server_certificate_scanner.py:621-674 | the table and result are those of `StoreOutcome`, and the returned record is the merged one exactly when the ID was known |
| ServerScanner.ParsedCertificates | lambda/server_certificate_scanner.py:273-275 | every record parsed from a host's output has an ID |
| ServerScanner.ScanServers | lambda/server_certificate_scanner.py:220-311 | the batched loop over the hosts yields the table and counters of the functional scan, and added + updated + skipped == found |
| ServerScanner.ScanInstance | lambda/server_certificate_scanner.py:261-304 | one host: the table and counters after it are those of the functional step |
| ServerScanner.StoreCertificates | lambda/server_certificate_scanner.py:280-290 | the store loop over one host's certificates gives the table and counters of the functional store loop |
| ServerScanner.StoreAllCounts | lambda/server_certificate_scanner.py:280-290 | every certificate stored is counted exactly once as added, updated or skipped, and no other counter moves |
| ServerScanner.InstanceStepBalanced | lambda/server_certificate_scanner.py:261-304 | one host keeps added + updated + skipped == found |
| ServerScanner.InstanceSweepBalanced | lambda/server_certificate_scanner.py:261-304 | one batch keeps added + updated + skipped == found |
| ServerScanner.ScanBalanced | lambda/server_certificate_scanner.py:239-309 | after any number of batches, sent or not, added + updated + skipped == found |
| AcmSync.ExpiryValue | lambda/acm_certificate_sync.py:435 | null exactly when the certificate has no expiry |
| AcmSync.ExpiryValueReadsBack | lambda/acm_certificate_sync.py:435 | the stored expiry text reads back as the certificate's expiry date |
| AcmSync.AcmFields | lambda/acm_certificate_sync.py:432-444 | the synced attributes with the service's values, the region and the sync time; `Source = 'ACM'` only for a record without a source |
| AcmSync.Changes | lambda/acm_certificate_sync.py:447-451 | exactly the synced attributes that have a value and differ from the stored one; never the key or a hand-maintained attribute |
| AcmSync.ChangedNames | lambda/acm_certificate_sync.py:447-450 | the changed fields, in listed order |
| AcmSync.Assignments | lambda/acm_certificate_sync.py:450 | one `field = :placeholder` part per changed field |
| AcmSync.PlanUpdate | lambda/acm_certificate_sync.py:446-454 | the loop collects exactly the changes; an update is needed exactly when there are some, and the expression sets them in listed order |
| AcmSync.UpdateIdempotent | lambda/acm_certificate_sync.py:409-471 | re-applying the same observation at the same time finds nothing to change |
| AcmSync.UpdateKeepsManualFields | lambda/acm_certificate_sync.py:409-412 | an update keeps every attribute it does not sync, so every hand-maintained attribute |
| AcmSync.Take | lambda/acm_certificate_sync.py:489 | `s[:n]` is a prefix of at most `n` characters, the whole text when it is short enough |
| AcmSync.NewCertificateIdShape | lambda/acm_certificate_sync.py:489 | a new ID starts with `acm-`, the account and the region, and holds at most 50 characters of the domain |
| AcmSync.DaysLeft | lambda/acm_certificate_sync.py:495-497 | a day count exactly when the certificate has an expiry |
| AcmSync.NoOwnerKeys | lambda/acm_certificate_sync.py:508-530 | no part of a new record sets an owner or support address |
| AcmSync.IdentityFields | lambda/acm_certificate_sync.py:509-515 | the key, names, account and region of a new record, so it is found again by account and common name |
| AcmSync.ExpiryFields | lambda/acm_certificate_sync.py:491-505 | Unknown with '0' days without an expiry; otherwise the 30-day rule on the date-only day count |
| AcmSync.ProvenanceFields | lambda/acm_certificate_sync.py:517-529 | source ACM, import tag ACM-Sync, version 1, the service's attributes and the times |
| AcmSync.NewRecord | lambda/acm_certificate_sync.py:474-530 | filed under a fresh ID and found again by account and common name |
| AcmSync.NewRecordStatus | lambda/acm_certificate_sync.py:491-524 | the status follows the 30-day rule on the date-only count, stored as text that reads back as that count; without an expiry it is Unknown with '0' days |
| AcmSync.NewRecordProvenance | lambda/acm_certificate_sync.py:508-530 | a new record says where it came from and leaves the owner addresses to people |
| AcmSync.NewRecordUpToDate | lambda/acm_certificate_sync.py:409-530 | a record just added, seen again in the same run, needs no update |
| AcmSync.HeldIsUpToDate | lambda/acm_certificate_sync.py:447-451 | a record holding every synced value and a source needs no update |
| AcmSync.NewRecordSynced | lambda/acm_certificate_sync.py:432-440 | a new record already holds every synced attribute as the sync would set it |
| AcmSync.FindExistingCertificate | lambda/acm_certificate_sync.py:353-406 | a record for the account and common name exactly when one is stored and the lookup does not raise |
| AcmSync.ScanLimitOne | lambda/acm_certificate_sync.py:389-401 | whatever the Limit=1 scan returns does match |
| AcmSync.ScanLimitOneMisses | lambda/acm_certificate_sync.py:389-401 | with the scan as written, a table whose first item is another certificate hides the stored one |
| AcmSync.ScanAll | lambda/acm_certificate_sync.py:389-401 | a scan that reads on returns a match, or nothing only when no record in its order matches |
| AcmSync.ScanAllFinds | lambda/acm_certificate_sync.py:389-401 | reading on finds nothing exactly when no record is stored for the account and common name |
| AcmSync.UpdateExistingCertificate | lambda/acm_certificate_sync.py:409-471 | updated exactly when something changed and the write works, and then only the changes are set; otherwise the table is unchanged |
| AcmSync.AddNewCertificate | lambda/acm_certificate_sync.py:474-539 | added exactly when the write works, and then the new record is put under its ID |
| AcmSync.ProcessCertificate | lambda/acm_certificate_sync.py:328-350 | the lookup answers a stored record of the account and common name, or nothing exactly when there is none or it raises; the result and table are those of AcmSync.Step: the stored match is refreshed with its changed fields (Updated) or left alone when nothing changed or the write fails (Skipped); with no match a new record is added (Added) unless the write fails (Skipped) |
| AcmSync.ListedNone | lambda/acm_certificate_sync.py:212-214 | the certificates found over the regions are none exactly when no region that was read listed one |
| AcmSync.ListedAppend | lambda/acm_certificate_sync.py:212-214 | the certificates found over two runs of regions add up |
| AcmSync.Count | lambda/acm_certificate_sync.py:221-232 | one certificate adds one to the sum of added, updated and skipped and leaves found unchanged |
| AcmSync.RegionSweepCounts | lambda/acm_certificate_sync.py:219-232 | a region's sweep leaves found unchanged, adds one count per certificate and loses no stored record |
| AcmSync.RegionSweepAllFailing | lambda/acm_certificate_sync.py:219-232 | when every write of a region fails, the sweep changes nothing and counts every certificate as skipped |
| AcmSync.SyncRegion | lambda/acm_certificate_sync.py:219-232 | the counts and the table after the loop are those of the functional sweep AcmSync.RegionSweep folding process_certificate over the certificates in order; found is unchanged, each certificate adds one to exactly one of added, updated, skipped, and no stored record is lost |
| AcmSync.SyncAccountCertificates | lambda/acm_certificate_sync.py:191-237 | the counts and the table after the loop are those of the sweep AcmSync.AccountSweep over the regions in order; found is the number listed over the regions that could be read, added + updated + skipped == found, and no stored record is lost |
| ExcelProcessor.FirstStandard | lambda/excel_processor.py:155-161 | the standard name of a table entry the heading fits, with no earlier entry fitting; nothing only when no entry fits |
| ExcelProcessor.FindStandard | lambda/excel_processor.py:155-161 | the inner loop stops at the first entry whose standard name or variants the normalised heading matches |
| ExcelProcessor.MapExcelColumns | lambda/excel_processor.py:125-167 | every heading, and only the headings, is mapped: to the first standard name it fits, otherwise to itself |
| ExcelProcessor.StandardHeadingKept | lambda/excel_processor.py:151-165 | a standard name used as a heading is mapped to itself, so renaming a renamed sheet changes nothing |
| ExcelProcessor.MonthNumber | lambda/excel_processor.py:231-233 | `%B`/`%b` give the position, from 1, of the month name read regardless of case, and nothing for an unknown word |
| ExcelProcessor.Strptime | lambda/excel_processor.py:238 | a format that accepts the text yields a valid calendar date |
| ExcelProcessor.FirstReading | lambda/excel_processor.py:236-241 | the date is the reading of a format that accepts the text; nothing only when every format raises |
| ExcelProcessor.ParsedExpiry | lambda/excel_processor.py:210-245 | nothing exactly for an empty cell; the ISO text of a date cell; for text or a number, the date read by the first of the eight formats that accepts the stripped text, in ISO form, and the stripped text itself when no format accepts it |
| ExcelProcessor.ReadDate | lambda/excel_processor.py:236-241 | the loop returns the first format's reading |
| ExcelProcessor.ParseExpiryDate | lambda/excel_processor.py:210-245 | the cell's date in `YYYY-MM-DD`, the stripped text when no format reads it, nothing for an empty cell |
| ExcelProcessor.ParsedExpiryCanonical | lambda/excel_processor.py:226 | a `YYYY-MM-DD` date comes back unchanged, so parsing is idempotent on its own output |
| ExcelProcessor.DayFirstText | lambda/excel_processor.py:227 | a `DD/MM/YYYY` text has ten characters with `/` at positions 2 and 5 |
| ExcelProcessor.DayFirstFields | lambda/excel_processor.py:227 | such a text splits into its day, month and year and holds no `-` |
| ExcelProcessor.DayFirstReadings | lambda/excel_processor.py:226-228 | it fails `%Y-%m-%d`, is read correctly by `%d/%m/%Y`, and `%m/%d/%Y` would swap day and month |
| ExcelProcessor.DayFirstWins | lambda/excel_processor.py:225-239 | an ambiguous slash date is read day first, because that format is tried before the month-first one |
| ExcelProcessor.CalculateCertificateStatus | lambda/excel_processor.py:247-267 | one of Unknown, Expired, Due for Renewal, Active |
| ExcelProcessor.CertificateStatusRule | lambda/excel_processor.py:251-267 | Unknown exactly when there is no `YYYY-MM-DD` date to read; otherwise the 30-day rule on the days from now |
| ExcelProcessor.Cleaned | lambda/excel_processor.py:206 | exactly the attributes that are neither None nor empty text, with their values |
| ExcelProcessor.PrepareCertificateData | lambda/excel_processor.py:169-208 | as written: a record with no empty or null attribute |
| ExcelProcessor.PreparedRecordShape | lambda/excel_processor.py:183-203 | the record carries its ID, ImportedFrom Excel, Version 1 and the status computed from the expiry cell |
| ExcelProcessor.RawShape | lambda/excel_processor.py:183-203 | the same attributes before cleaning, whatever the cells hold |
| ExcelProcessor.PreparedCopies | lambda/excel_processor.py:185-198 | a copied attribute is kept exactly when the text of its cell (or default) is not empty, and then holds that text |
| ExcelProcessor.Present | lambda/excel_processor.py:214 | the row without its empty cells, other cells unchanged |
| ExcelProcessor.PrepareCertificate | lambda/excel_processor.py:169-208 | the intended record: no empty or null attribute, and filed under its ID |
| ExcelProcessor.IntendedSkipsEmptyCells | lambda/excel_processor.py:185-198 | in the intended record a copied attribute comes from a cell that is not empty and holds its text |
| ExcelProcessor.EmptyCellStoredAsNan | lambda/excel_processor.py:193 | as written an empty owner cell is stored as the text 'nan'; the intended record leaves it out |
| ExcelProcessor.Labelled | lambda/excel_processor.py:77-86 | the row has exactly the renamed headings as keys, each holding one of the row's cells |
| ExcelProcessor.FailedRowsSound | lambda/excel_processor.py:104-107 | the error list names exactly the faulty rows, each once, in increasing order |
| ExcelProcessor.ImportedKeys | lambda/excel_processor.py:86-99 | importing never drops a stored record, and every row whose put works is stored under its ID |
| ExcelProcessor.ImportedPrefix | lambda/excel_processor.py:86-99 | the table after `n` rows depends only on the first `n` records |
| ExcelProcessor.RenamedHeadings | lambda/excel_processor.py:73-77 | one name per heading, its mapped name |
| ExcelProcessor.SheetRecords | lambda/excel_processor.py:86-92 | as written: one record per row, each built by prepare_certificate_data |
| ExcelProcessor.IntendedSheetRecords | lambda/excel_processor.py:86-92 | the intended sweep: one record per row, each built without the empty cells |
| ExcelProcessor.AsWrittenAgreesWithoutEmptyCells | lambda/excel_processor.py:185-198 | on a sheet without empty cells the records as written and as intended are the same |
| ExcelProcessor.FullRowPresent | lambda/excel_processor.py:185-198 | a row without empty cells keeps all of its cells |
| ExcelProcessor.ImportRow | lambda/excel_processor.py:88-101 | the row's record is the one prepare_certificate_data builds, filed under its ID; it is put unless the put raises, and the row counts only when the log write works as well |
| ExcelProcessor.ImportSheetRow | lambda/excel_processor.py:86-107 | one more row imported: its prepare_certificate_data record is put unless the put raises, and the row is counted as processed or failed |
| ExcelProcessor.CountRow | lambda/excel_processor.py:101-107 | the counts and error list extend by that row |
| ExcelProcessor.RecordsExtend | lambda/excel_processor.py:86-92 | the records so far extended by the next row's |
| ExcelProcessor.ImportedStep | lambda/excel_processor.py:95 | one more put, unless its write fails |
| ExcelProcessor.RenameColumns | lambda/excel_processor.py:73-77 | the headings after renaming |
| ExcelProcessor.ImportRows | lambda/excel_processor.py:86-107 | every row imported in order with its prepare_certificate_data record, the failed rows collected |
| ExcelProcessor.ImportedNothing | lambda/excel_processor.py:83-84 | nothing processed and no errors before the first row |
| ExcelProcessor.ImportedAll | lambda/excel_processor.py:86-114 | after the loop the table holds the puts of every record of the sheet, and processed + errors == rows |
| ExcelProcessor.ProcessExcelFile | lambda/excel_processor.py:59-123 | the table gains the puts of every row's record as prepare_certificate_data builds it (empty cells stored as `nan`); total = rows, processed + errors = total, the errors are the faulty rows and at most ten are detailed |
| CertificateImport.DateutilParse | src/scripts/import_certificates.py:63 | whatever it reads is a valid calendar date |
| CertificateImport.ParseDate | src/scripts/import_certificates.py:50-68 | nothing exactly for a falsy cell or a number; a date cell gives its `YYYY-MM-DD`; an unreadable text is kept as it is |
| CertificateImport.ParseDateReadsBack | src/scripts/import_certificates.py:56-64 | every date parse_date recognises is written in a form that reads back as that date |
| CertificateImport.HeaderNames | src/scripts/import_certificates.py:78-81 | at most one name per header cell |
| CertificateImport.Enumerated | src/scripts/import_certificates.py:94 | `enumerate(headers, 1)`: the k-th name heads the k-th column |
| CertificateImport.AsWrittenColumns | src/scripts/import_certificates.py:78-94 | as written: the header row reads exactly when every non-empty header is text, and then gives the names of the intended header row (HeaderColumns) numbered 0, 1, 2, ... whatever columns they came from |
| CertificateImport.HeaderColumns | src/scripts/import_certificates.py:78-81 | the intended header row: at most one column per header cell |
| CertificateImport.HeaderColumnsSound | src/scripts/import_certificates.py:78-81 | read exactly when every non-empty header is text; each column is headed by its own cell's stripped text, and every non-empty header heads a column |
| CertificateImport.NoGapAligned | src/scripts/import_certificates.py:78-94 | without an empty header cell, the script pairs every header with its own column |
| CertificateImport.GapShiftsHeaders | src/scripts/import_certificates.py:78-102 | with headers Status, nothing, Expiry Date, the script files the middle cell as the expiry date; the intended reading files the last |
| CertificateImport.GapShifts | src/scripts/import_certificates.py:78-102 | in general, after a gap every later header is paired with the column to its left |
| CertificateImport.RowData | src/scripts/import_certificates.py:91-102 | no empty cell is filed |
| CertificateImport.ReadRow | src/scripts/import_certificates.py:91-107 | the row's data, and has_data exactly when some cell under a header is not empty |
| CertificateImport.CertificateFor | src/scripts/import_certificates.py:113-136 | the base attributes always, an optional one exactly when its cell is truthy |
| CertificateImport.CertificateKeyAndStatus | src/scripts/import_certificates.py:110-122 | the key is `cert-` and the drawn ID; the status comes from the Status column, Unknown without one |
| CertificateImport.CertificateNameAndExpiry | src/scripts/import_certificates.py:116-117 | the name comes from the double-space `Certificate  Name` column when present; the expiry is null exactly when parse_date gives nothing |
| CertificateImport.KeySetsApart | src/scripts/import_certificates.py:113-136 | no attribute is both always carried and optional |
| CertificateImport.OptionalOnlyWhenTruthy | src/scripts/import_certificates.py:129-136 | an optional attribute is present exactly when its cell is truthy, and holds the cell's text |
| CertificateImport.Imported | src/scripts/import_certificates.py:90-138 | at most one certificate per row |
| CertificateImport.ImportedKeyed | src/scripts/import_certificates.py:110-114 | every imported certificate carries a non-empty text key |
| CertificateImport.ReadExcelFile | src/scripts/import_certificates.py:70-145 | no certificates for an unreadable file or a header that is not text; otherwise the headers are paired with columns as written (the non-empty headers enumerated from 1), one certificate per row holding data, the rest counted as skipped |
| CertificateImport.ReadRows | src/scripts/import_certificates.py:90-138 | the row loop: the certificates are those of the rows holding data, in order, and the other rows are counted as skipped |
| CertificateImport.ReadAgreesWithoutGap | src/scripts/import_certificates.py:78-102 | when every header cell is non-empty text, the reading as written and the intended reading give the same certificates |
| CertificateImport.Clean | src/scripts/import_certificates.py:189 | exactly the attributes whose value is not empty text |
| CertificateImport.Counted | src/scripts/import_certificates.py:185-191 | every put of a batch that goes through is counted; when the request raises, a partial batch has counted all its puts (it is sent at exit) and a full batch one fewer (it is sent at the 25th put) |
| CertificateImport.FailedBatchCountedNotWritten | src/scripts/import_certificates.py:185-197 | a failed batch has counted successes though none of its records is written |
| CertificateImport.AllWrittenImportsAll | src/scripts/import_certificates.py:178-197 | when every batch goes through, every record is put once, in order, and counted as a success |
| CertificateImport.CleanBatches | src/scripts/import_certificates.py:178-181 | ceil(n / 25) batches, each of at most 25 records |
| CertificateImport.CleanBatchesKeyed | src/scripts/import_certificates.py:189 | cleaning keeps every record's key |
| CertificateImport.PrefixStep | src/scripts/import_certificates.py:185-197 | one more batch extends the counts by its counted puts or its size in errors, and the writes by its own writes |
| CertificateImport.WriteBatch | src/scripts/import_certificates.py:186-191 | the buffered batch: its records reach the table only when its request is sent and goes through, the puts counted before a raise are returned, and a failed request writes nothing |
| CertificateImport.SendRequest | src/scripts/import_certificates.py:186-191 | sending a request puts its records in order |
| CertificateImport.WriteBatches | src/scripts/import_certificates.py:178-197 | the table holds exactly the records of the requests that went through; successes count the counted puts, errors the records of failed batches |
| CertificateImport.ImportCertificates | src/scripts/import_certificates.py:167-204 | no certificates writes nothing and fails; otherwise the table gains the records of the batches whose request goes through, the counts are those of the tally, and the import succeeds exactly when some put was counted |
| CertificateImport.ImportAllWritten | src/scripts/import_certificates.py:174-197 | when every batch goes through, successes equal the number of certificates and errors are 0 |
| Configuration.EnvironmentName | src/utils/config.py:53 | the environment given when it is not empty, else `ENVIRONMENT`, else `dev` |
| Configuration.NewConfig | src/utils/config.py:46-54 | that environment, and `AWS_REGION` or `eu-west-1` as region |
| Configuration.TemplateName | src/utils/config.py:21-27 | `cert-management-`, the environment, then the resource's suffix |
| Configuration.ResourceName | src/utils/config.py:56-79 | the override variable when it is set and not empty, else the template name |
| Configuration.TemplateEnvironment | src/utils/config.py:21-27 | an environment read off a name is one whose template name it is |
| Configuration.TemplateNameReadsBack | src/utils/config.py:21-27 | a template name gives back its environment |
| Configuration.TemplateNamesSeparateEnvironments | src/utils/config.py:21-27 | two environments never share a resource name |
| Configuration.TemplateNamesSeparateResources | src/utils/config.py:21-27 | two resources of one environment never share a name |
| Configuration.SenderEmail | src/utils/config.py:81-83 | the value of `SENDER_EMAIL` when the variable is set, the default sender otherwise |
| Configuration.ExpiryThresholdDays | src/utils/config.py:85-87 | 30 when `EXPIRY_THRESHOLD` is not set; a number only when the variable holds some text |
| Configuration.ThresholdReadsBack | src/utils/config.py:85-87 | a threshold written as a number is read back as that number |
| Configuration.MissingVariables | src/utils/config.py:120-121 | exactly the required variables that are unset or empty |
| Configuration.Validate | src/utils/config.py:111-126 | raises exactly in Lambda with a table variable missing, naming every missing one |
| Configuration.LocalAlwaysValid | src/utils/config.py:119 | outside Lambda validation never raises |
| Configuration.OverriddenTablesValid | src/utils/config.py:56-64 | with both table variables set, validation passes and the tables carry those names |
| Configuration.MissingTableRaises | src/utils/config.py:119-123 | in Lambda without the certificates table, validation raises and names it first |
| Configuration.DetectionExclusive | src/utils/config.py:202-209 | exactly one of Lambda and local holds; an empty Lambda variable counts as Lambda yet validation skips its checks |
| Configuration.ReuseRule | src/utils/config.py:144 | the cache is kept without an environment or with its own, and replaced for a different one |
| Configuration.ConfigCache.constructor | src/utils/config.py:130 | no configuration is cached at start |
| Configuration.ConfigCache.GetConfig | src/utils/config.py:133-146 | the cached configuration when it is reused, otherwise a new one that replaces it |
| Configuration.ConfigCache.TableNames | src/utils/config.py:149-163 | the two table names of the configuration get_config leaves cached |
| Configuration.ConfigCache.BucketNames | src/utils/config.py:183-198 | the three bucket names of that configuration |
| Configuration.ConfigCache.EmailConfig | src/utils/config.py:166-180 | the sender and that configuration's region |
| Configuration.CachedEnvironmentSticks | src/utils/config.py:143-146 | once cached, a call without an environment keeps the first configuration even after `ENVIRONMENT` changes |
| EmailNames.WordLength | fix_owner.py:26 | the length of the leading run of non-blank characters |
| EmailNames.Words | fix_owner.py:26 | `split()`: non-empty words without blanks |
| EmailNames.Capitalize | fix_owner.py:26 | `str.capitalize`: same length, first letter upper case, the rest lower case |
| EmailNames.Spaced | fix_owner.py:23 | every `.`, `-` and `_` becomes a space, nothing else changes |
| EmailNames.ExtractNameFromEmail | fix_owner.py:11-28 | `Unknown` for an empty address or one without `@` |
| EmailNames.NameFromLocalPart | fix_owner.py:19-26 | otherwise the name is the capitalised words of the part before the first `@`, which holds no `@` |
| EmailNames.WordsHoldNoSeparator | fix_owner.py:23-26 | no word of the name holds `.`, `-` or `_` |
| EmailNames.ThreeWordName | fix_owner.py:11-28 | `a-b.c@domain` gives the three words capitalised and joined by spaces |
| EmailNames.DocumentedExample | fix_owner.py:14 | `Vinaya-c.nayanegali@capgemini.com` gives `Vinaya C Nayanegali`, as the docstring says |
| Maintenance.UpdatedStep | fix_owner.py:87-101 | one more record: its write is merged into the stored record when there is one and it goes through |
| Maintenance.NoWritesNoChange | fix_owner.py:60-79 | a run that writes nothing leaves the table as it was |
| Maintenance.AllFailedNoChange | fix_owner.py:99-101 | a run whose every write raises leaves the table as it was |
| Maintenance.UpdatedElsewhere | fix_owner.py:88-89 | a record whose key is not scanned keeps its record |
| Maintenance.Ids | fix_owner.py:61 | one key per scanned record |
| Maintenance.DistinctIds | fix_owner.py:49-50 | two records of one scan have different keys |
| Maintenance.Bump | fix_owner.py:54-101 | one more record is counted once |
| Maintenance.TallyTotal | fix_owner.py:54-108 | updated + skipped + errors == records scanned |
| Maintenance.TallyCounts | fix_owner.py:97-101 | updated counts the writes that went through, errors those that raised |
| Maintenance.TallyStep | fix_owner.py:60-101 | the counters after one more record |
| Maintenance.Apply | fix_owner.py:87-101 | the table after the write of record `i`, if it needs one and it goes through |
| Maintenance.SettledAll | fix_owner.py:60-101 | when every write goes through, every stored record ends settled, and no key is added or lost |
| Maintenance.SettledPrefix | fix_owner.py:60-101 | after the first `i` writes, those records are settled and the rest are as scanned |
| Maintenance.SettledStep | fix_owner.py:60-101 | one more write settles one more record and leaves the others |
| FixOwner.UseExtractedName | fix_owner.py:40-41 | the derived-name format is chosen exactly when the stripped answer is empty or `1`; `2` chooses the address |
| FixOwner.NewOwner | fix_owner.py:70-74 | the name derived from `OwnerEmail` in the derived-name format, otherwise the address itself |
| FixOwner.Decide | fix_owner.py:60-79 | skipped exactly when there is no address or `Owner` already holds the new owner; otherwise the new owner, which differs from the current one |
| FixOwner.WriteFor | fix_owner.py:88-96 | a write exactly for a record to set, of `Owner` and `LastUpdatedOn` only |
| FixOwner.Writes | fix_owner.py:60-96 | one write per scanned record, none touching the key |
| FixOwner.WriteSettles | fix_owner.py:76-96 | a record once written is skipped by the next run |
| FixOwner.FixOwners | fix_owner.py:40-101 | the format is the one UseExtractedName reads from the answer; the table gains each write that goes through, and updated, skipped and errors count the records as the shared tally does |
| FixOwner.SecondRunIdle | fix_owner.py:60-101 | after a run without errors, a second run in the same format sets no owner |
| FixCommonName.Decide | archive/fix_commonname.py:32-45 | skipped exactly when there is no name or `CommonName` already holds it; otherwise the name to copy |
| FixCommonName.WriteFor | archive/fix_commonname.py:52-60 | a write exactly for a record to set, of `CommonName` and `LastUpdatedOn` only |
| FixCommonName.Writes | archive/fix_commonname.py:32-60 | one write per scanned record, none touching the key |
| FixCommonName.WriteSettles | archive/fix_commonname.py:42-60 | a record once written is skipped by the next run |
| FixCommonName.FixCommonNames | archive/fix_commonname.py:26-65 | the table gains each write that goes through, with the counts of the shared tally |
| FixCommonName.SecondRunIdle | archive/fix_commonname.py:32-65 | after a run without errors, a second run sets no name |
| FixExpiredStatus.ClassifyCases | archive/fix_expired_status.py:36-67 | passed over without a date or with one `%Y-%m-%d` rejects; otherwise Expired below 0 days, Expiring Soon to 30, Due for Renewal to 90, Active beyond |
| FixExpiredStatus.ExpiredFromExpiryDay | archive/fix_expired_status.py:53-57 | expired exactly from the first moment after midnight of the expiry day |
| FixExpiredStatus.WriteFor | archive/fix_expired_status.py:69-88 | a write exactly when the record has a status and holds a different one, of Status, DaysUntilExpiry and LastUpdatedOn |
| FixExpiredStatus.Writes | archive/fix_expired_status.py:36-88 | one write per scanned record, none touching the key |
| FixExpiredStatus.ClassifyIgnores | archive/fix_expired_status.py:38-67 | attributes other than the expiry date do not change the outcome |
| FixExpiredStatus.WriteSettles | archive/fix_expired_status.py:69-88 | a record once written holds its own status |
| FixExpiredStatus.Count | archive/fix_expired_status.py:56-67 | one more status counted in its own band |
| FixExpiredStatus.Note | archive/fix_expired_status.py:41-67 | only records with a readable date are counted |
| FixExpiredStatus.Outcomes | archive/fix_expired_status.py:36-67 | the outcome of each scanned record |
| FixExpiredStatus.SpreadTotal | archive/fix_expired_status.py:100-104 | the reported distribution counts exactly the records with a readable date |
| FixExpiredStatus.SpreadStep | archive/fix_expired_status.py:36-67 | the distribution after one more record |
| FixExpiredStatus.FixRecord | archive/fix_expired_status.py:37-92 | the table and the distribution after record `i`, and whether its write went through |
| FixExpiredStatus.FixStatuses | archive/fix_expired_status.py:27-92 | the table gains each write that goes through, updated counts those writes, and the distribution is that of the readable dates |
| FixExpiredStatus.SecondRunIdle | archive/fix_expired_status.py:36-92 | after a run without errors, a second run at the same moment writes nothing |
| FixAllTests.Plan | fix_all_tests.py:64-111 | each of the three repairs is queued exactly when its single-purpose script would make it, with the same value; an unreadable date is noted |
| FixAllTests.WriteFor | fix_all_tests.py:113-135 | a write exactly when something is queued, never touching the key, always stamping LastUpdatedOn |
| FixAllTests.PartsAgree | fix_all_tests.py:64-109 | each queued part is the write of the single-purpose script without its stamp |
| FixAllTests.CombinesScripts | fix_all_tests.py:53-139 | one combined write happens exactly when one of the three scripts would write or the date is unreadable, and merges their attributes |
| FixAllTests.Plans | fix_all_tests.py:53-111 | the repairs of each scanned record |
| FixAllTests.Writes | fix_all_tests.py:113-135 | one write per scanned record, none touching the key |
| FixAllTests.SummaryStep | fix_all_tests.py:64-139 | the counts after one more record |
| FixAllTests.SummaryCounts | fix_all_tests.py:70-139 | errors count the writes that raised; the repair counts do not depend on which writes fail |
| FixAllTests.FixRecord | fix_all_tests.py:53-142 | the table and the counts after record `i` |
| FixAllTests.FixAll | fix_all_tests.py:27-142 | the table gains each write that goes through, and the counts are those of the queued repairs |
| FixAllTests.CommonNameSettles | fix_all_tests.py:65-70 | writing the name into CommonName settles that check |
| FixAllTests.OwnerSettles | fix_all_tests.py:73-82 | writing the derived name into Owner settles that check |
| FixAllTests.StatusSettles | fix_all_tests.py:85-109 | writing the computed status settles that check |
| FixAllTests.ChangesShape | fix_all_tests.py:64-121 | a write sets exactly the queued attributes with their values, and never the name, address or date it reads |
| FixAllTests.WriteRepairs | fix_all_tests.py:64-139 | a record once written has no repair left |
| FixAllTests.SecondRunRepairsNothing | fix_all_tests.py:53-142 | after a run without errors, a second run at the same moment queues no repair |
| FixAllTests.InvalidDateRewritten | fix_all_tests.py:110-135 | a record with an unreadable date is written on every run, with only a new stamp when nothing else is due |
| FixAllTests.FailedRunStillCounts | fix_all_tests.py:70-139 | when every write fails the table is unchanged, yet the repair counts are those of a clean run |

## Left out

- Every AWS client call except the certificates table: SES, SNS, S3, SSM `send_command`/`get_command_invocation`, ACM and STS listing, Secrets Manager, the logs table. Their answers, and whether they raise, are parameters; where the program makes the same call once per record (the scanner's `get_caller_identity` at lambda/server_certificate_scanner.py:481 and :552), whether it raises is an input of that record, and the answer is the one account of the run. A certificates-table call that raises, where the program answers it (an error response, a failure count), is a flag or a set of failing positions: among them the scan of CertificateApi.HandleGet and DashboardApi.HandleGetCertificates and the delete of CertificateApi.HandleDelete. A raise the program does not catch ends the run and is not modelled.
- The ServiceNow HTTP exchange (token and incident POST): only whether it succeeds is an input.
- The HMAC-SHA256 computation in the webhook handler: its comparison result is an input. The fail-open policy around it is modelled.
- `datetime.now`/`utcnow`, `uuid4` and `time.sleep`: the current moment, generated IDs and time stamps are parameters. One stamp is used per call, where the source reads the clock again for each record.
- `strptime`, `fromisoformat`, dateutil, `re`, pandas and openpyxl are modelled as recognisers for the formats these programs use. The OpenSSL `notAfter` text and the regex fields of the scan output arrive already split.
- CertificateImport.DateutilParse: dateutil reads far more forms than the ISO and month-first numeric dates modelled here.
- `Decimal`/float handling and JSON encoding (DecimalEncoder, `convert_decimal`), CORS headers, response bodies beyond status code and message.
- ExcelProcessor.CellText: a number cell holds a whole number and reads as its digits. pandas reads a numeric column that has an empty cell as float64, so `str()` there gives `123456789012.0` where the model gives `123456789012`. Non-integral numbers are not modelled at all. The column dtype rule is not modelled.
- CertificateImport.CellText: a number cell holds a whole number. openpyxl gives a `float` for a non-integral cell, and `str()` of it is not modelled.
- E-mail, notification and ticket body text (HTML and plain), logging and `print` output, the audit-log table entries written next to each change.
- `input()` in fix_owner.py is a parameter (the answer); argparse and the other one-off scripts are not part of this model.
- Attributes that are not text (a number where Python calls `strip` or `lower`) read as the attribute's default, where Python would raise. In fix_expired_status.py a non-text date is an unreadable date.
- `is_certificate_expiring` has three copies, and CertificateHelpers.IsCertificateExpiring follows the one in src/utils/certificate_helpers.py:61-81. The copies agree on text arguments, the only ones the model passes. They differ on other values. The helpers copy catches every exception and answers false. The copies in lambda/certificate_monitor.py:102-118 and lambda/servicenow_ticket_creator.py:144-167 catch only `ValueError`. So a truthy `ExpiryDate` that is not text makes `strptime` raise `TypeError` out of their table scans (certificate_monitor.py:84 and :92, servicenow_ticket_creator.py:126 and :134). Those scans are not part of this model, and neither is that raise.
- CertificateHelpers.SortCertificatesByExpiry: states a permutation in expiry order, but not that `sorted` is stable (equal dates keep their input order).
- AcmSync.FindExistingCertificate: the index query and the fallback scan are modelled as one lookup over the whole table, and a lookup that raises finds nothing. The `Limit=1` of the fallback scan is treated under Findings.
- TicketCreator.CalculatePriority: the docstring at lambda/servicenow_ticket_creator.py:458-463 gives 7-14 and 15-30 days for priorities 3 and 4, but the code compares with `< 14` and `< 30`. The model follows the code.
- Configuration.ExpiryThresholdDays: `int()` also accepts `_` between digits; the model reads only an optional sign and decimal digits.
- Text.Lower and Text.Upper change only ASCII letters; Python's `lower`/`upper`/`capitalize` also change other scripts' letters.
- VALID_ENVIRONMENTS and VALID_STATUSES in src/utils/config.py and `to_dict` are not used by the decisions modelled here.
- CertificateApi.HandleGet, DashboardApi.HandleGetCertificates and the `IsScanOf` premise of the repair scripts: a bare `table.scan()` returns one page of at most 1 MB, and six programs read only that page: lambda_function.py:167, dashboard_api.py:54, fix_all_tests.py:36, fix_owner.py:49, archive/fix_commonname.py:21 and archive/fix_expired_status.py:22. The model reads the whole table there. So CertificateApi.HandleGet and DashboardApi.HandleGetCertificates list every record. The `IsScanOf` premise of the `SecondRunIdle` and `SecondRunRepairsNothing` lemmas of the repair scripts also assumes the whole table. The monitor and the ticket creator follow `LastEvaluatedKey`, so for them this is exact.
- Text.ParseInt: reads ASCII decimal digits only; `int()` also accepts `_` between digits and decimal digits of other scripts.
- CertificateImport.WriteBatch: a request either writes all of its records or raises. DynamoDB's partial answer (`UnprocessedItems`, which `batch_writer` sends again) is not modelled.
- ExcelProcessor.Strptime: a space in a format matches exactly one space in the text, where `strptime` accepts any run of whitespace there.
- ExcelProcessor.Labelled: when two headings map to the same attribute, the row keeps the last one's cell; pandas would hand back both cells together.
- DashboardApi.FromIsoFormat: reads `YYYY-MM-DD` optionally followed by `T` or a space and `HH:MM:SS`; fractions of a second, offsets and the other forms `fromisoformat` accepts are not read.
- Concurrency between Lambda invocations and DynamoDB's eventual consistency: every run sees the table as its own writes left it.

## Findings

| source | as written | input that shows it | evidently intended | confidence | as-written member | corrected member |
|---|---|---|---|---|---|---|
| lambda/acm_certificate_sync.py:389-401 | the fallback scan passes `Limit=1`, so DynamoDB reads one item and then applies the filter | a table whose first scanned item is another certificate, with the match second | find the stored record of the account and common name wherever it lies, so it is updated and not added a second time | not executed | AcmSync.ScanLimitOne (AcmSync.ScanLimitOneMisses) | AcmSync.ScanAll (AcmSync.ScanAllFinds) |
| lambda/excel_processor.py:185-198 | `str(row.get(...))` of an empty spreadsheet cell is the text `nan`, which the cleaning step keeps | a row whose OwnerEmail cell is empty | leave out an attribute whose cell is empty, as an absent column is left out | not executed | ExcelProcessor.PrepareCertificateData (ExcelProcessor.EmptyCellStoredAsNan) | ExcelProcessor.PrepareCertificate (ExcelProcessor.IntendedSkipsEmptyCells) |
| src/scripts/import_certificates.py:78-94 | empty header cells are dropped and the k-th remaining header is paired with column k | headers `Status`, empty, `Expiry Date` | each header heads its own column | not executed | CertificateImport.AsWrittenColumns (CertificateImport.GapShiftsHeaders) | CertificateImport.HeaderColumns (CertificateImport.HeaderColumnsSound) |

=== FILE: acm_sync.dfy ===
/**
 * The certificate-authority sync (lambda/acm_certificate_sync.py): for
 * every region of an account it lists the managed certificates, looks each
 * one up in the certificates table by account and common name, and either
 * refreshes the synced attributes of the stored record or adds a new
 * record.  The attributes people maintain by hand are never written by an
 * update.
 *
 * The listing, the clock and the table's failures are inputs: a region
 * whose client cannot be built is `None`, the clock is a `SyncClock`, and
 * the lookups and writes that raise are the sets `lookupFaults` and
 * `writeFaults`, each keyed by the account, the region and the domain the
 * call is made for.
 */
module AcmSync {

  import opened Wrappers
  import opened Values
  import opened Text
  import opened Dates
  import opened Statuses
  import opened Store

  /** The call a fault is about: the account, the region and the domain name. */
  type CallKey = (string, string, string)

  /** One listed certificate; `certType` and `keyAlgorithm` are absent when the service omits them. */
  datatype AcmCertificate = AcmCertificate(
    arn: string,
    domainName: string,
    status: string,
    certType: Option<string>,
    keyAlgorithm: Option<string>,
    notAfter: Option<Date>)

  /** The expiry moment, when present, is a calendar date (its UTC date part). */
  predicate Readable(c: AcmCertificate)
  {
    c.notAfter.Some? ==> ValidDate(c.notAfter.value)
  }

  /**
   * The clock of one run: today's UTC date, the ISO timestamp written to
   * the record and the `%Y%m%d%H%M%S` stamp used in new IDs.
   */
  datatype SyncClock = SyncClock(today: Date, timestamp: string, stamp: string)

  datatype SyncResult = Added | Updated | Skipped

  // ----- the update of a record that exists -----

  /** The order in which the synced attributes are listed, and so written. */
  const FieldOrder: seq<string> :=
    ["ACM_ARN", "ACM_Status", "ExpiryDate", "Region", "LastSyncedFromACM", "ACM_Type", "ACM_KeyAlgorithm", "Source"]

  const SyncedFields: set<string> :=
    {"ACM_ARN", "ACM_Status", "ExpiryDate", "Region", "LastSyncedFromACM", "ACM_Type", "ACM_KeyAlgorithm", "Source"}

  function OrUnknown(v: Option<string>): string
  {
    if v.Some? then v.value else "UNKNOWN"
  }

  /** `NotAfter.strftime('%Y-%m-%d')`, or `None` without an expiry. */
  function ExpiryValue(c: AcmCertificate): (v: Value)
    requires Readable(c)
    ensures v == Null <==> c.notAfter.None?
  {
    if c.notAfter.Some? then Text(FormatIso(c.notAfter.value)) else Null
  }

  /** The stored expiry reads back as the certificate's expiry date. */
  lemma ExpiryValueReadsBack(c: AcmCertificate)
    requires Readable(c)
    ensures ExpiryValue(c).Text? ==> ParseIso(ExpiryValue(c).s) == c.notAfter
  {
    if c.notAfter.Some? {
      ParseFormatIso(c.notAfter.value);
    }
  }

  /**
   * The attributes the sync owns, as it would set them: the service's
   * identity, state, expiry, type and key algorithm, the region and the
   * sync time, and `Source = 'ACM'` only for a record without a source.
   */
  function AcmFields(existing: Record, c: AcmCertificate, region: string, timestamp: string): (fields: Record)
    requires Readable(c)
    ensures fields.Keys == SyncedFields - (if "Source" in existing then {"Source"} else {})
    ensures fields["ACM_ARN"] == Text(c.arn) && fields["ACM_Status"] == Text(c.status)
    ensures fields["ExpiryDate"] == ExpiryValue(c)
    ensures fields["Region"] == Text(region) && fields["LastSyncedFromACM"] == Text(timestamp)
    ensures fields["ACM_Type"] == Text(OrUnknown(c.certType))
    ensures fields["ACM_KeyAlgorithm"] == Text(OrUnknown(c.keyAlgorithm))
    ensures "Source" in fields ==> fields["Source"] == Text("ACM")
  {
    var synced := map[
      "ACM_ARN" := Text(c.arn),
      "ACM_Status" := Text(c.status),
      "ExpiryDate" := ExpiryValue(c),
      "Region" := Text(region),
      "LastSyncedFromACM" := Text(timestamp),
      "ACM_Type" := Text(OrUnknown(c.certType)),
      "ACM_KeyAlgorithm" := Text(OrUnknown(c.keyAlgorithm))];
    if "Source" in existing then synced else synced["Source" := Text("ACM")]
  }

  /** A field goes into the update when it has a value and the record does not already hold it. */
  predicate Pending(existing: Record, fields: Record, f: string)
  {
    f in fields && fields[f] != Null && (f !in existing || existing[f] != fields[f])
  }

  /**
   * The attributes the update sets.  They are synced attributes only:
   * never the key and never an attribute maintained by hand.
   */
  function Changes(existing: Record, fields: Record): (ch: Record)
    requires fields.Keys <= SyncedFields
    ensures ch.Keys <= SyncedFields
    ensures IdKey !in ch && ch.Keys !! PreserveFields
    ensures forall f :: f in ch <==> Pending(existing, fields, f)
    ensures forall f :: f in ch ==> f in fields && ch[f] == fields[f]
  {
    map f | f in fields && Pending(existing, fields, f) :: fields[f]
  }

  /** The fields of `order` that go into the update, in that order. */
  function ChangedNames(existing: Record, fields: Record, order: seq<string>): (names: seq<string>)
    ensures forall f :: f in names <==> f in order && Pending(existing, fields, f)
    ensures |names| <= |order|
  {
    if |order| == 0 then []
    else
      var names := ChangedNames(existing, fields, order[..|order| - 1]);
      var f := order[|order| - 1];
      assert forall g :: g in order <==> g in order[..|order| - 1] || g == f;
      if Pending(existing, fields, f) then names + [f] else names
  }

  /** `f"{field} = :{field.replace('_', '')}"` */
  function Assignment(f: string): string
  {
    f + " = :" + RemoveAll(f, "_")
  }

  function Assignments(names: seq<string>): (parts: seq<string>)
    ensures |parts| == |names|
    ensures forall i :: 0 <= i < |names| ==> parts[i] == Assignment(names[i])
  {
    if |names| == 0 then [] else Assignments(names[..|names| - 1]) + [Assignment(names[|names| - 1])]
  }

  /**
   * The loop of update_existing_certificate: it walks the fields in their
   * listed order and collects the ones to write.  The update is needed
   * exactly when some field changed; the expression sets those fields in
   * order.
   */
  method PlanUpdate(existing: Record, fields: Record, order: seq<string>)
    returns (needsUpdate: bool, expression: string, changes: Record)
    requires fields.Keys <= SyncedFields
    requires forall f :: f in fields ==> f in order
    ensures changes == Changes(existing, fields)
    ensures needsUpdate <==> changes != map[]
    ensures needsUpdate ==> expression == "SET " + Join(Assignments(ChangedNames(existing, fields, order)), ", ")
  {
    needsUpdate := false;
    var names: seq<string> := [];
    changes := map[];
    for i := 0 to |order|
      invariant names == ChangedNames(existing, fields, order[..i])
      invariant forall f :: f in changes <==> f in order[..i] && Pending(existing, fields, f)
      invariant forall f :: f in changes ==> f in fields && changes[f] == fields[f]
      invariant needsUpdate <==> changes.Keys != {}
    {
      var f := order[i];
      ChangedNamesStep(existing, fields, order, i);
      if Pending(existing, fields, f) {
        needsUpdate := true;
        names := names + [f];
        changes := changes[f := fields[f]];
      }
    }
    assert order[..|order|] == order;
    SameChanges(existing, fields, order, changes);
    expression := "SET " + Join(Assignments(names), ", ");
  }

  lemma ChangedNamesStep(existing: Record, fields: Record, order: seq<string>, i: nat)
    requires i < |order|
    ensures forall g :: g in order[..i + 1] <==> g in order[..i] || g == order[i]
    ensures ChangedNames(existing, fields, order[..i + 1])
            == if Pending(existing, fields, order[i]) then ChangedNames(existing, fields, order[..i]) + [order[i]]
               else ChangedNames(existing, fields, order[..i])
  {
    assert order[..i + 1][..i] == order[..i];
    assert forall g :: g in order[..i + 1] <==> g in order[..i] || g == order[i];
  }

  /** The attributes the loop collected are the pending ones. */
  lemma SameChanges(existing: Record, fields: Record, order: seq<string>, changes: Record)
    requires fields.Keys <= SyncedFields
    requires forall f :: f in fields ==> f in order
    requires forall f :: f in changes <==> f in order && Pending(existing, fields, f)
    requires forall f :: f in changes ==> f in fields && changes[f] == fields[f]
    ensures changes == Changes(existing, fields)
  {
    assert changes.Keys == Changes(existing, fields).Keys;
  }

  /**
   * Re-applying the same observation at the same time finds nothing to
   * change: the update brings every synced attribute up to date, and the
   * `Source` it may set makes the second run leave `Source` alone.
   */
  lemma UpdateIdempotent(existing: Record, c: AcmCertificate, region: string, timestamp: string)
    requires Readable(c)
    ensures var synced := existing + Changes(existing, AcmFields(existing, c, region, timestamp));
            Changes(synced, AcmFields(synced, c, region, timestamp)) == map[]
  {
    var fields := AcmFields(existing, c, region, timestamp);
    var synced := existing + Changes(existing, fields);
    var again := AcmFields(synced, c, region, timestamp);
    forall f | f in again
      ensures !Pending(synced, again, f)
    {
      assert f in fields && again[f] == fields[f];
    }
    assert Changes(synced, again).Keys == {};
  }

  /** An update keeps every attribute it does not sync, and so every attribute maintained by hand. */
  lemma UpdateKeepsManualFields(existing: Record, c: AcmCertificate, region: string, timestamp: string)
    requires Readable(c)
    ensures var synced := existing + Changes(existing, AcmFields(existing, c, region, timestamp));
            synced.Keys == existing.Keys + Changes(existing, AcmFields(existing, c, region, timestamp)).Keys
            && forall f :: f in existing && f !in SyncedFields ==> synced[f] == existing[f]
  {
  }

  // ----- a new record -----

  function Take(s: string, n: nat): (r: string)
    ensures |r| <= n && StartsWith(s, r)
    ensures |s| <= n ==> r == s
  {
    if |s| <= n then s else s[..n]
  }

  /** `acm-{account}-{region}-{domain[:50]}-{stamp}` */
  function NewCertificateId(c: AcmCertificate, account: string, region: string, stamp: string): string
  {
    "acm-" + account + "-" + region + "-" + Take(c.domainName, 50) + "-" + stamp
  }

  /**
   * A new ID starts with the account and region, and only the first 50
   * characters of the domain go into it, so its length is bounded by the
   * account, region and stamp.
   */
  lemma NewCertificateIdShape(c: AcmCertificate, account: string, region: string, stamp: string)
    ensures var id := NewCertificateId(c, account, region, stamp);
            StartsWith(id, "acm-" + account + "-" + region + "-")
            && |id| <= |account| + |region| + |stamp| + 7 + 50
  {
    var prefix := "acm-" + account + "-" + region + "-";
    var id := NewCertificateId(c, account, region, stamp);
    assert id == prefix + (Take(c.domainName, 50) + "-" + stamp);
    assert id[..|prefix|] == prefix;
  }

  /** The date-only count of days left, when there is an expiry. */
  function DaysLeft(c: AcmCertificate, today: Date): (days: Option<int>)
    requires Readable(c) && ValidDate(today)
    ensures days.Some? <==> c.notAfter.Some?
  {
    if c.notAfter.Some? then Some(DaysFromToday(c.notAfter.value, today)) else None
  }

  const IdentityKeys: set<string> := {IdKey, "CommonName", "CertificateName", "AccountNumber", "Region", "Environment", "Application"}
  const ExpiryKeys: set<string> := {"Status", "ExpiryDate", "DaysUntilExpiry"}
  const ProvenanceKeys: set<string> := {"Source", "ACM_ARN", "ACM_Status", "ACM_Type", "ACM_KeyAlgorithm", "Type",
                                        "CreatedOn", "LastUpdatedOn", "LastSyncedFromACM", "ImportedFrom", "Version"}

  /** The three parts of a new record set different attributes. */
  lemma ExpiryKeysApart()
    ensures ExpiryKeys !! ProvenanceKeys && ExpiryKeys !! IdentityKeys
  {
  }

  lemma IdentityKeysApart()
    ensures IdentityKeys !! ProvenanceKeys
  {
  }

  /** None of the parts sets an owner address. */
  lemma NoOwnerKeys()
    ensures "OwnerEmail" !in IdentityKeys && "OwnerEmail" !in ExpiryKeys && "OwnerEmail" !in ProvenanceKeys
    ensures "SupportEmail" !in IdentityKeys && "SupportEmail" !in ExpiryKeys && "SupportEmail" !in ProvenanceKeys
  {
  }

  /** An attribute of one part, set by no later part, keeps its value in the merged record. */
  lemma MergedAttribute(e: Record, p: Record, i: Record, k: string)
    requires k in e + p + i
    ensures k in i ==> (e + p + i)[k] == i[k]
    ensures k !in i && k in p ==> (e + p + i)[k] == p[k]
    ensures k !in i && k !in p ==> (e + p + i)[k] == e[k]
  {
  }

  /** The identity part of a new record: its key, names, account and region, and placeholders for the owners' entries. */
  function IdentityFields(c: AcmCertificate, account: string, region: string, stamp: string): (r: Record)
    ensures r.Keys == IdentityKeys
    ensures r[IdKey] == Text(NewCertificateId(c, account, region, stamp))
    ensures Matches(r, account, c.domainName) && r["Region"] == Text(region)
  {
    map[
      IdKey := Text(NewCertificateId(c, account, region, stamp)),
      "CommonName" := Text(c.domainName),
      "CertificateName" := Text(c.domainName),
      "AccountNumber" := Text(account),
      "Region" := Text(region),
      "Environment" := Text("Unknown"),
      "Application" := Text("Unknown")]
  }

  /**
   * The expiry part: the status by the 30-day rule on the date-only count
   * of days, which is stored as text that reads back as that count;
   * Unknown, with '0' days, without an expiry.
   */
  function ExpiryFields(c: AcmCertificate, today: Date): (r: Record)
    requires Readable(c) && ValidDate(today)
    ensures r.Keys == ExpiryKeys
    ensures r["ExpiryDate"] == ExpiryValue(c)
    ensures DaysLeft(c, today).None? ==> r["Status"] == Text(Unknown) && r["DaysUntilExpiry"] == Text("0")
    ensures DaysLeft(c, today).Some? ==>
              var days := DaysLeft(c, today).value;
              r["Status"] == Text(StatusForDays(days)) && r["DaysUntilExpiry"] == Text(IntToString(days))
  {
    var days := DaysLeft(c, today);
    map[
      "Status" := Text(if days.Some? then StatusForDays(days.value) else Unknown),
      "ExpiryDate" := ExpiryValue(c),
      "DaysUntilExpiry" := Text(if days.Some? then IntToString(days.value) else "0")]
  }

  /** The provenance part: the service's attributes, the source, the import tag and the times. */
  function ProvenanceFields(c: AcmCertificate, timestamp: string): (r: Record)
    ensures r.Keys == ProvenanceKeys
    ensures r["Source"] == Text("ACM") && r["ImportedFrom"] == Text("ACM-Sync") && r["Version"] == Number(1)
    ensures r["ACM_ARN"] == Text(c.arn) && r["ACM_Status"] == Text(c.status)
    ensures r["ACM_Type"] == Text(OrUnknown(c.certType)) && r["Type"] == Text(OrUnknown(c.certType))
    ensures r["ACM_KeyAlgorithm"] == Text(OrUnknown(c.keyAlgorithm))
    ensures r["CreatedOn"] == Text(timestamp) && r["LastSyncedFromACM"] == Text(timestamp)
  {
    map[
      "Source" := Text("ACM"),
      "ACM_ARN" := Text(c.arn),
      "ACM_Status" := Text(c.status),
      "ACM_Type" := Text(OrUnknown(c.certType)),
      "ACM_KeyAlgorithm" := Text(OrUnknown(c.keyAlgorithm)),
      "Type" := Text(OrUnknown(c.certType)),
      "CreatedOn" := Text(timestamp),
      "LastUpdatedOn" := Text(timestamp),
      "LastSyncedFromACM" := Text(timestamp),
      "ImportedFrom" := Text("ACM-Sync"),
      "Version" := Number(1)]
  }

  /**
   * The record add_new_certificate writes: filed under a fresh ID and
   * found again by account and common name.
   */
  function NewRecord(c: AcmCertificate, account: string, region: string, clock: SyncClock): (r: Record)
    requires Readable(c) && ValidDate(clock.today)
    ensures HasId(r) && r[IdKey] == Text(NewCertificateId(c, account, region, clock.stamp))
    ensures Matches(r, account, c.domainName)
  {
    var identity := IdentityFields(c, account, region, clock.stamp);
    var expiry := ExpiryFields(c, clock.today);
    var provenance := ProvenanceFields(c, clock.timestamp);
    expiry + provenance + identity
  }

  /**
   * A new record's status follows the 30-day rule on the date-only count
   * of days, stored as text that reads back as that count; without an
   * expiry it is Unknown with '0' days.
   */
  lemma NewRecordStatus(c: AcmCertificate, account: string, region: string, clock: SyncClock)
    requires Readable(c) && ValidDate(clock.today)
    ensures var r := NewRecord(c, account, region, clock);
            "Status" in r && "DaysUntilExpiry" in r && "ExpiryDate" in r
            && r["ExpiryDate"] == ExpiryValue(c)
            && (DaysLeft(c, clock.today).None? ==> r["Status"] == Text(Unknown) && r["DaysUntilExpiry"] == Text("0"))
            && (DaysLeft(c, clock.today).Some? ==>
                  var days := DaysLeft(c, clock.today).value;
                  r["Status"] == Text(StatusForDays(days))
                  && r["DaysUntilExpiry"].Text? && ParseInt(r["DaysUntilExpiry"].s) == Some(days))
  {
    var expiry := ExpiryFields(c, clock.today);
    var provenance := ProvenanceFields(c, clock.timestamp);
    var identity := IdentityFields(c, account, region, clock.stamp);
    ExpiryKeysApart();
    MergedAttribute(expiry, provenance, identity, "Status");
    MergedAttribute(expiry, provenance, identity, "DaysUntilExpiry");
    MergedAttribute(expiry, provenance, identity, "ExpiryDate");
    if DaysLeft(c, clock.today).Some? {
      IntToStringParses(DaysLeft(c, clock.today).value);
    }
  }

  /**
   * A new record says where it came from and leaves the owner addresses
   * for people to fill in.
   */
  lemma NewRecordProvenance(c: AcmCertificate, account: string, region: string, clock: SyncClock)
    requires Readable(c) && ValidDate(clock.today)
    ensures var r := NewRecord(c, account, region, clock);
            "Source" in r && r["Source"] == Text("ACM")
            && "ImportedFrom" in r && r["ImportedFrom"] == Text("ACM-Sync")
            && "Version" in r && r["Version"] == Number(1)
            && "OwnerEmail" !in r && "SupportEmail" !in r
  {
    var identity := IdentityFields(c, account, region, clock.stamp);
    var expiry := ExpiryFields(c, clock.today);
    var provenance := ProvenanceFields(c, clock.timestamp);
    IdentityKeysApart();
    NoOwnerKeys();
    MergedAttribute(expiry, provenance, identity, "Source");
    MergedAttribute(expiry, provenance, identity, "ImportedFrom");
    MergedAttribute(expiry, provenance, identity, "Version");
  }

  /**
   * A record just added, seen again in the same run, is found by the lookup
   * and its synced attributes already match: nothing to change but `Source`
   * is kept and the sync time is the same.
   */
  lemma NewRecordUpToDate(c: AcmCertificate, account: string, region: string, clock: SyncClock)
    requires Readable(c) && ValidDate(clock.today)
    ensures var r := NewRecord(c, account, region, clock);
            Changes(r, AcmFields(r, c, region, clock.timestamp)) == map[]
  {
    NewRecordSynced(c, account, region, clock);
    HeldIsUpToDate(NewRecord(c, account, region, clock), c, region, clock.timestamp);
  }

  /** A record that holds every synced attribute, and a source, needs no update. */
  lemma HeldIsUpToDate(r: Record, c: AcmCertificate, region: string, timestamp: string)
    requires Readable(c)
    requires "Source" in r && "ACM_ARN" in r && "ACM_Status" in r && "ExpiryDate" in r && "Region" in r
             && "LastSyncedFromACM" in r && "ACM_Type" in r && "ACM_KeyAlgorithm" in r
             && r["ACM_ARN"] == Text(c.arn) && r["ACM_Status"] == Text(c.status)
             && r["ExpiryDate"] == ExpiryValue(c) && r["Region"] == Text(region)
             && r["LastSyncedFromACM"] == Text(timestamp)
             && r["ACM_Type"] == Text(OrUnknown(c.certType))
             && r["ACM_KeyAlgorithm"] == Text(OrUnknown(c.keyAlgorithm))
    ensures Changes(r, AcmFields(r, c, region, timestamp)) == map[]
  {
    var fields := AcmFields(r, c, region, timestamp);
    forall f | f in fields
      ensures !Pending(r, fields, f)
    {
    }
    assert Changes(r, fields).Keys == {};
  }

  /** A new record already holds every synced attribute as the sync would set it. */
  lemma NewRecordSynced(c: AcmCertificate, account: string, region: string, clock: SyncClock)
    requires Readable(c) && ValidDate(clock.today)
    ensures var r := NewRecord(c, account, region, clock);
            "Source" in r && "ACM_ARN" in r && "ACM_Status" in r && "ExpiryDate" in r && "Region" in r
            && "LastSyncedFromACM" in r && "ACM_Type" in r && "ACM_KeyAlgorithm" in r
            && r["ACM_ARN"] == Text(c.arn) && r["ACM_Status"] == Text(c.status)
            && r["ExpiryDate"] == ExpiryValue(c) && r["Region"] == Text(region)
            && r["LastSyncedFromACM"] == Text(clock.timestamp)
            && r["ACM_Type"] == Text(OrUnknown(c.certType))
            && r["ACM_KeyAlgorithm"] == Text(OrUnknown(c.keyAlgorithm))
  {
    var identity := IdentityFields(c, account, region, clock.stamp);
    var expiry := ExpiryFields(c, clock.today);
    var provenance := ProvenanceFields(c, clock.timestamp);
    ExpiryKeysApart();
    IdentityKeysApart();
    forall k | k in ProvenanceKeys
      ensures k in NewRecord(c, account, region, clock) && NewRecord(c, account, region, clock)[k] == provenance[k]
    {
      MergedAttribute(expiry, provenance, identity, k);
    }
    MergedAttribute(expiry, provenance, identity, "ExpiryDate");
    MergedAttribute(expiry, provenance, identity, "Region");
  }

  // ----- finding the stored record -----

  /** The stored record is the one for the same account and common name. */
  predicate Matches(r: Record, account: string, domain: string)
  {
    "AccountNumber" in r && r["AccountNumber"] == Text(account)
    && "CommonName" in r && r["CommonName"] == Text(domain)
  }

  predicate Stored(items: map<string, Record>, account: string, domain: string)
  {
    exists id :: id in items && Matches(items[id], account, domain)
  }

  /**
   * find_existing_certificate, reading the whole table: a record for the
   * account and common name when there is one, unless the lookup raises.
   */
  method FindExistingCertificate(table: CertificateTable, account: string, domain: string, lookupFails: bool)
    returns (found: Option<string>)
    ensures found.Some? ==> found.value in table.items && Matches(table.items[found.value], account, domain)
    ensures found.None? <==> lookupFails || !Stored(table.items, account, domain)
  {
    found := None;
    if lookupFails {
      return;
    }
    var rest := table.items.Keys;
    while rest != {} && found.None?
      invariant rest <= table.items.Keys
      invariant found.None? ==>
                  forall id :: id in table.items && id !in rest ==> !Matches(table.items[id], account, domain)
      invariant found.Some? ==> found.value in table.items && Matches(table.items[found.value], account, domain)
      decreases |rest|
    {
      var id :| id in rest;
      if Matches(table.items[id], account, domain) {
        found := Some(id);
      }
      rest := rest - {id};
    }
  }

  /**
   * The fallback scan as written, `scan(FilterExpression=..., Limit=1)`:
   * the table evaluates one item, in its own order, and filters it; only
   * when that first item is the match is anything found.
   */
  function ScanLimitOne(items: map<string, Record>, order: seq<string>, account: string, domain: string): (found: Option<string>)
    ensures found.Some? ==> found.value in items && Matches(items[found.value], account, domain)
  {
    if |order| > 0 && order[0] in items && Matches(items[order[0]], account, domain) then Some(order[0]) else None
  }

  /** The scan that reads on until a match: the first matching record in the table's order. */
  function ScanAll(items: map<string, Record>, order: seq<string>, account: string, domain: string): (found: Option<string>)
    ensures found.Some? ==> found.value in items && Matches(items[found.value], account, domain)
    ensures found.None? ==> forall i :: 0 <= i < |order| && order[i] in items ==> !Matches(items[order[i]], account, domain)
  {
    if |order| == 0 then None
    else if order[0] in items && Matches(items[order[0]], account, domain) then Some(order[0])
    else
      var found := ScanAll(items, order[1..], account, domain);
      assert forall i :: 1 <= i < |order| ==> order[i] == order[1..][i - 1];
      found
  }

  /** Reading on finds the stored record whenever the order covers the table. */
  lemma ScanAllFinds(items: map<string, Record>, order: seq<string>, account: string, domain: string)
    requires forall id :: id in items ==> id in order
    ensures ScanAll(items, order, account, domain).None? <==> !Stored(items, account, domain)
  {
    if Stored(items, account, domain) {
      var id :| id in items && Matches(items[id], account, domain);
      var i :| 0 <= i < |order| && order[i] == id;
      assert order[i] in items && Matches(items[order[i]], account, domain);
    }
  }

  /**
   * With the scan as written, a table whose first item is another
   * certificate hides the stored record, and the sync adds a duplicate.
   */
  lemma ScanLimitOneMisses()
    ensures var stored := map["a" := map[], "b" := map["AccountNumber" := Text("1"), "CommonName" := Text("x")]];
            Stored(stored, "1", "x")
            && ScanLimitOne(stored, ["a", "b"], "1", "x") == None
            && ScanAll(stored, ["a", "b"], "1", "x") == Some("b")
  {
    var stored := map["a" := map[], "b" := map["AccountNumber" := Text("1"), "CommonName" := Text("x")]];
    assert "b" in stored && Matches(stored["b"], "1", "x");
    assert !Matches(stored["a"], "1", "x");
    assert ["a", "b"][1..] == ["b"];
  }

  // ----- one certificate -----

  /** update_existing_certificate: the synced attributes that changed are set, unless the write raises. */
  method UpdateExistingCertificate(table: CertificateTable, id: string, c: AcmCertificate, region: string,
                                   timestamp: string, writeFails: bool)
    returns (result: SyncResult)
    requires table.Valid() && id in table.items && Readable(c)
    modifies table
    ensures table.Valid()
    ensures var changes := Changes(old(table.items[id]), AcmFields(old(table.items[id]), c, region, timestamp));
            (result == Updated <==> changes != map[] && !writeFails)
            && result != Added
            && table.items == (if result == Updated then old(table.items)[id := old(table.items[id]) + changes]
                               else old(table.items))
  {
    var existing := table.items[id];
    var fields := AcmFields(existing, c, region, timestamp);
    var needsUpdate, expression, changes := PlanUpdate(existing, fields, FieldOrder);
    if !needsUpdate {
      return Skipped;
    }
    if writeFails {
      return Skipped;
    }
    table.Update(id, changes);
    return Updated;
  }

  /** add_new_certificate: the new record is put, unless the write raises. */
  method AddNewCertificate(table: CertificateTable, c: AcmCertificate, account: string, region: string,
                           clock: SyncClock, writeFails: bool)
    returns (result: SyncResult)
    requires table.Valid() && Readable(c) && ValidDate(clock.today)
    modifies table
    ensures table.Valid()
    ensures result == Added <==> !writeFails
    ensures result != Updated
    ensures var r := NewRecord(c, account, region, clock);
            table.items == (if result == Added then old(table.items)[r[IdKey].s := r] else old(table.items))
  {
    if writeFails {
      return Skipped;
    }
    table.Put(NewRecord(c, account, region, clock));
    return Added;
  }

  /**
   * What find_existing_certificate may answer: a stored record of the
   * account and common name, or nothing exactly when there is none or the
   * lookup raises.
   */
  predicate LookupAnswer(items: map<string, Record>, account: string, domain: string, lookupFails: bool,
                         matched: Option<string>)
  {
    (matched.None? <==> lookupFails || !Stored(items, account, domain))
    && (matched.Some? ==> matched.value in items && Matches(items[matched.value], account, domain))
  }

  /** process_certificate as a step on the table, given the record the lookup found. */
  function Step(items: map<string, Record>, c: AcmCertificate, account: string, region: string, clock: SyncClock,
                matched: Option<string>, writeFails: bool): (SyncResult, map<string, Record>)
    requires Readable(c) && ValidDate(clock.today)
    requires matched.Some? ==> matched.value in items
  {
    match matched
    case Some(id) =>
      var changes := Changes(items[id], AcmFields(items[id], c, region, clock.timestamp));
      if changes != map[] && !writeFails then (Updated, items[id := items[id] + changes]) else (Skipped, items)
    case None =>
      var r := NewRecord(c, account, region, clock);
      if writeFails then (Skipped, items) else (Added, items[NewCertificateId(c, account, region, clock.stamp) := r])
  }

  /** process_certificate: refresh the stored record when one is found, add a record otherwise. */
  method ProcessCertificate(table: CertificateTable, c: AcmCertificate, account: string, region: string,
                            clock: SyncClock, lookupFaults: set<CallKey>, writeFaults: set<CallKey>)
    returns (result: SyncResult, matched: Option<string>)
    requires table.Valid() && Readable(c) && ValidDate(clock.today)
    modifies table
    ensures table.Valid()
    ensures matched.None? <==> (account, region, c.domainName) in lookupFaults || !Stored(old(table.items), account, c.domainName)
    ensures matched.Some? ==>
              var id := matched.value;
              id in old(table.items) && Matches(old(table.items[id]), account, c.domainName)
              && var changes := Changes(old(table.items[id]), AcmFields(old(table.items[id]), c, region, clock.timestamp));
                 (result == Updated <==> changes != map[] && (account, region, c.domainName) !in writeFaults)
                 && result != Added
                 && table.items == (if result == Updated then old(table.items)[id := old(table.items[id]) + changes]
                                    else old(table.items))
    ensures matched.None? ==>
              (result == Added <==> (account, region, c.domainName) !in writeFaults)
              && result != Updated
              && var r := NewRecord(c, account, region, clock);
                 table.items == (if result == Added then old(table.items)[r[IdKey].s := r] else old(table.items))
    ensures LookupAnswer(old(table.items), account, c.domainName, (account, region, c.domainName) in lookupFaults, matched)
    ensures (result, table.items) == Step(old(table.items), c, account, region, clock, matched, (account, region, c.domainName) in writeFaults)
  {
    matched := FindExistingCertificate(table, account, c.domainName, (account, region, c.domainName) in lookupFaults);
    if matched.Some? {
      result := UpdateExistingCertificate(table, matched.value, c, region, clock.timestamp, (account, region, c.domainName) in writeFaults);
    } else {
      result := AddNewCertificate(table, c, account, region, clock, (account, region, c.domainName) in writeFaults);
    }
  }

  // ----- the account -----

  /** One region: the certificates listed there, or `None` when its client could not be built. */
  datatype RegionListing = RegionListing(region: string, certificates: Option<seq<AcmCertificate>>)

  datatype SyncStats = SyncStats(found: nat, added: nat, updated: nat, skipped: nat)

  /** The certificates listed over the regions that could be read. */
  function Listed(regions: seq<RegionListing>): (n: nat)
    ensures regions == [] ==> n == 0
  {
    if |regions| == 0 then 0
    else
      var last := regions[|regions| - 1];
      Listed(regions[..|regions| - 1]) + (if last.certificates.Some? then |last.certificates.value| else 0)
  }

  /** Nothing is found exactly when no region that was read listed a certificate. */
  lemma {:induction false} ListedNone(regions: seq<RegionListing>)
    ensures Listed(regions) == 0 <==>
              forall i :: 0 <= i < |regions| && regions[i].certificates.Some? ==> regions[i].certificates.value == []
  {
    if regions != [] {
      var front := regions[..|regions| - 1];
      ListedNone(front);
      assert forall i :: 0 <= i < |front| ==> front[i] == regions[i];
    }
  }

  /** The certificates found over two runs of regions add up. */
  lemma {:induction false} ListedAppend(a: seq<RegionListing>, b: seq<RegionListing>)
    ensures Listed(a + b) == Listed(a) + Listed(b)
  {
    if b != [] {
      var b' := b[..|b| - 1];
      ListedAppend(a, b');
      assert (a + b)[..|a + b| - 1] == a + b';
    } else {
      assert a + b == a;
    }
  }

  predicate AllReadable(regions: seq<RegionListing>)
  {
    forall i :: 0 <= i < |regions| && regions[i].certificates.Some? ==> ReadableAll(regions[i].certificates.value)
  }

  predicate ReadableAll(certs: seq<AcmCertificate>)
  {
    forall j :: 0 <= j < |certs| ==> Readable(certs[j])
  }

  /** One more certificate counted under its result. */
  function Count(stats: SyncStats, result: SyncResult): (stats': SyncStats)
    ensures stats'.found == stats.found
    ensures stats'.added + stats'.updated + stats'.skipped == stats.added + stats.updated + stats.skipped + 1
  {
    match result
    case Added => stats.(added := stats.added + 1)
    case Updated => stats.(updated := stats.updated + 1)
    case Skipped => stats.(skipped := stats.skipped + 1)
  }

  /**
   * The certificates of a region processed in turn from the counts
   * `stats` and the table `items`, given what each lookup answered: the
   * counts and the table after them, or `None` when some answer is not
   * one the lookup could give at that point.
   */
  ghost function RegionSweep(stats: SyncStats, items: map<string, Record>, certs: seq<AcmCertificate>,
                             matches: seq<Option<string>>, account: string, region: string, clock: SyncClock,
                             lookupFaults: set<CallKey>, writeFaults: set<CallKey>): Option<(SyncStats, map<string, Record>)>
    requires ValidDate(clock.today) && |matches| == |certs|
  {
    if certs == [] then Some((stats, items))
    else
      var n := |certs| - 1;
      RegionStep(RegionSweep(stats, items, certs[..n], matches[..n], account, region, clock, lookupFaults, writeFaults),
                 certs[n], matches[n], account, region, clock, lookupFaults, writeFaults)
  }

  /** One certificate after those before it, given what its lookup answered. */
  ghost function RegionStep(front: Option<(SyncStats, map<string, Record>)>, c: AcmCertificate, m: Option<string>,
                            account: string, region: string, clock: SyncClock,
                            lookupFaults: set<CallKey>, writeFaults: set<CallKey>): Option<(SyncStats, map<string, Record>)>
    requires ValidDate(clock.today)
  {
    match front
    case None => None
    case Some(f) =>
      if !Readable(c) || !LookupAnswer(f.1, account, c.domainName, (account, region, c.domainName) in lookupFaults, m) then None
      else
        var step := Step(f.1, c, account, region, clock, m, (account, region, c.domainName) in writeFaults);
        Some((Count(f.0, step.0), step.1))
  }

  /** Every certificate of a region lands in exactly one count, and no stored record is lost. */
  lemma {:induction false} RegionSweepCounts(stats: SyncStats, items: map<string, Record>, certs: seq<AcmCertificate>,
                                             matches: seq<Option<string>>, account: string, region: string,
                                             clock: SyncClock, lookupFaults: set<CallKey>, writeFaults: set<CallKey>)
    requires ValidDate(clock.today) && |matches| == |certs|
    requires RegionSweep(stats, items, certs, matches, account, region, clock, lookupFaults, writeFaults).Some?
    ensures var r := RegionSweep(stats, items, certs, matches, account, region, clock, lookupFaults, writeFaults).value;
            r.0.found == stats.found
            && r.0.added + r.0.updated + r.0.skipped == stats.added + stats.updated + stats.skipped + |certs|
            && items.Keys <= r.1.Keys
  {
    if certs != [] {
      var n := |certs| - 1;
      RegionSweepCounts(stats, items, certs[..n], matches[..n], account, region, clock, lookupFaults, writeFaults);
    }
  }

  /** A region whose writes all fail changes nothing and counts every certificate as skipped. */
  lemma {:induction false} RegionSweepAllFailing(stats: SyncStats, items: map<string, Record>, certs: seq<AcmCertificate>,
                                                 matches: seq<Option<string>>, account: string, region: string,
                                                 clock: SyncClock, lookupFaults: set<CallKey>, writeFaults: set<CallKey>)
    requires ValidDate(clock.today) && |matches| == |certs|
    requires forall j :: 0 <= j < |certs| ==> (account, region, certs[j].domainName) in writeFaults
    requires RegionSweep(stats, items, certs, matches, account, region, clock, lookupFaults, writeFaults).Some?
    ensures RegionSweep(stats, items, certs, matches, account, region, clock, lookupFaults, writeFaults).value
            == (stats.(skipped := stats.skipped + |certs|), items)
  {
    if certs != [] {
      var n := |certs| - 1;
      RegionSweepAllFailing(stats, items, certs[..n], matches[..n], account, region, clock, lookupFaults, writeFaults);
    }
  }

  /** A lookup answer the lookup could give lets the step through. */
  lemma RegionStepTaken(stats: SyncStats, items: map<string, Record>, c: AcmCertificate, m: Option<string>,
                        account: string, region: string, clock: SyncClock,
                        lookupFaults: set<CallKey>, writeFaults: set<CallKey>, result: SyncResult, after: map<string, Record>)
    requires ValidDate(clock.today) && Readable(c)
    requires LookupAnswer(items, account, c.domainName, (account, region, c.domainName) in lookupFaults, m)
    requires (result, after) == Step(items, c, account, region, clock, m, (account, region, c.domainName) in writeFaults)
    ensures RegionStep(Some((stats, items)), c, m, account, region, clock, lookupFaults, writeFaults)
            == Some((Count(stats, result), after))
  {
  }

  lemma RegionSweepSnoc(stats: SyncStats, items: map<string, Record>, certs: seq<AcmCertificate>,
                        matches: seq<Option<string>>, m: Option<string>, j: nat, account: string, region: string,
                        clock: SyncClock, lookupFaults: set<CallKey>, writeFaults: set<CallKey>)
    requires ValidDate(clock.today) && j < |certs| && |matches| == j
    ensures RegionSweep(stats, items, certs[..j + 1], matches + [m], account, region, clock, lookupFaults, writeFaults)
            == RegionStep(RegionSweep(stats, items, certs[..j], matches, account, region, clock, lookupFaults, writeFaults),
                          certs[j], m, account, region, clock, lookupFaults, writeFaults)
  {
    assert certs[..j + 1][..j] == certs[..j];
    assert (matches + [m])[..j] == matches;
  }

  /**
   * The inner loop of sync_account_certificates: the certificates of one
   * region in turn, each counted as added, updated or skipped.  `matches`
   * records what each lookup answered; given those answers, the counts
   * and the table are those of RegionSweep.
   */
  method SyncRegion(table: CertificateTable, stats0: SyncStats, account: string, region: string,
                    certs: seq<AcmCertificate>, clock: SyncClock, lookupFaults: set<CallKey>, writeFaults: set<CallKey>)
    returns (stats: SyncStats, ghost matches: seq<Option<string>>)
    requires table.Valid() && ValidDate(clock.today)
    requires ReadableAll(certs)
    modifies table
    ensures table.Valid()
    ensures |matches| == |certs|
    ensures RegionSweep(stats0, old(table.items), certs, matches, account, region, clock, lookupFaults, writeFaults)
            == Some((stats, table.items))
    ensures stats.found == stats0.found
    ensures stats.added + stats.updated + stats.skipped == stats0.added + stats0.updated + stats0.skipped + |certs|
    ensures forall id :: id in old(table.items) ==> id in table.items
  {
    stats := stats0;
    matches := [];
    assert certs[..0] == [];
    for j := 0 to |certs|
      invariant table.Valid()
      invariant |matches| == j
      invariant RegionSweep(stats0, old(table.items), certs[..j], matches, account, region, clock, lookupFaults, writeFaults)
                == Some((stats, table.items))
    {
      ghost var before := table.items;
      ghost var counted := stats;
      var result, matched := ProcessCertificate(table, certs[j], account, region, clock, lookupFaults, writeFaults);
      RegionSweepSnoc(stats0, old(table.items), certs, matches, matched, j, account, region, clock, lookupFaults, writeFaults);
      RegionStepTaken(counted, before, certs[j], matched, account, region, clock, lookupFaults, writeFaults,
                      result, table.items);
      match result {
        case Added => stats := stats.(added := stats.added + 1);
        case Updated => stats := stats.(updated := stats.updated + 1);
        case Skipped => stats := stats.(skipped := stats.skipped + 1);
      }
      assert stats == Count(counted, result);
      matches := matches + [matched];
    }
    assert certs[..|certs|] == certs;
    RegionSweepCounts(stats0, old(table.items), certs, matches, account, region, clock, lookupFaults, writeFaults);
  }

  /**
   * The regions in turn, given what each lookup answered: the account's
   * counts and the table after them.  A region that was read adds its
   * listed certificates to the found count first; a region whose client
   * could not be built lists nothing and changes nothing.  `None` when an
   * answer is not one the lookup could give.
   */
  ghost function AccountSweep(items: map<string, Record>, regions: seq<RegionListing>,
                              matches: seq<seq<Option<string>>>, account: string, clock: SyncClock,
                              lookupFaults: set<CallKey>, writeFaults: set<CallKey>): Option<(SyncStats, map<string, Record>)>
    requires ValidDate(clock.today) && |matches| == |regions|
  {
    if regions == [] then Some((SyncStats(0, 0, 0, 0), items))
    else
      var n := |regions| - 1;
      AccountStep(AccountSweep(items, regions[..n], matches[..n], account, clock, lookupFaults, writeFaults),
                  regions[n], matches[n], account, clock, lookupFaults, writeFaults)
  }

  /** One region after those before it, given what its lookups answered. */
  ghost function AccountStep(front: Option<(SyncStats, map<string, Record>)>, listing: RegionListing,
                             m: seq<Option<string>>, account: string, clock: SyncClock,
                             lookupFaults: set<CallKey>, writeFaults: set<CallKey>): Option<(SyncStats, map<string, Record>)>
    requires ValidDate(clock.today)
  {
    match front
    case None => None
    case Some(f) =>
      match listing.certificates
      case None => if m == [] then Some(f) else None
      case Some(certs) =>
        if |m| != |certs| then None
        else RegionSweep(CountFound(f.0, |certs|), f.1, certs, m, account, listing.region, clock, lookupFaults, writeFaults)
  }

  /** The counts once a region's listed certificates are added to the found count. */
  function CountFound(stats: SyncStats, listed: nat): (stats': SyncStats)
    ensures stats'.found == stats.found + listed
    ensures (stats'.added, stats'.updated, stats'.skipped) == (stats.added, stats.updated, stats.skipped)
  {
    stats.(found := stats.found + listed)
  }

  /** A region that was read sweeps its certificates after counting them as found. */
  lemma AccountStepRead(stats: SyncStats, items: map<string, Record>, region: string, certs: seq<AcmCertificate>,
                        m: seq<Option<string>>,
                        account: string, clock: SyncClock, lookupFaults: set<CallKey>, writeFaults: set<CallKey>)
    requires ValidDate(clock.today) && |m| == |certs|
    ensures AccountStep(Some((stats, items)), RegionListing(region, Some(certs)), m, account, clock, lookupFaults, writeFaults)
            == RegionSweep(CountFound(stats, |certs|), items, certs, m, account, region, clock, lookupFaults, writeFaults)
  {
  }

  lemma AccountSweepSnoc(items: map<string, Record>, regions: seq<RegionListing>, matches: seq<seq<Option<string>>>,
                         m: seq<Option<string>>, i: nat, account: string, clock: SyncClock,
                         lookupFaults: set<CallKey>, writeFaults: set<CallKey>)
    requires ValidDate(clock.today) && i < |regions| && |matches| == i
    ensures AccountSweep(items, regions[..i + 1], matches + [m], account, clock, lookupFaults, writeFaults)
            == AccountStep(AccountSweep(items, regions[..i], matches, account, clock, lookupFaults, writeFaults),
                           regions[i], m, account, clock, lookupFaults, writeFaults)
  {
    assert regions[..i + 1][..i] == regions[..i];
    assert (matches + [m])[..i] == matches;
  }

  /**
   * sync_account_certificates: the regions in turn; a region counts its
   * listed certificates as found, and each of them as added, updated or
   * skipped, so the three sum to the found count.  Given what each lookup
   * answered (`matches`), the counts and the table are those of
   * AccountSweep.
   */
  method SyncAccountCertificates(table: CertificateTable, account: string, regions: seq<RegionListing>,
                                 clock: SyncClock, lookupFaults: set<CallKey>, writeFaults: set<CallKey>)
    returns (stats: SyncStats, ghost matches: seq<seq<Option<string>>>)
    requires table.Valid() && ValidDate(clock.today) && AllReadable(regions)
    modifies table
    ensures table.Valid()
    ensures |matches| == |regions|
    ensures AccountSweep(old(table.items), regions, matches, account, clock, lookupFaults, writeFaults)
            == Some((stats, table.items))
    ensures stats.found == Listed(regions)
    ensures stats.added + stats.updated + stats.skipped == stats.found
    ensures forall id :: id in old(table.items) ==> id in table.items
  {
    stats := SyncStats(0, 0, 0, 0);
    matches := [];
    assert regions[..0] == [];
    for i := 0 to |regions|
      invariant table.Valid()
      invariant |matches| == i
      invariant AccountSweep(old(table.items), regions[..i], matches, account, clock, lookupFaults, writeFaults)
                == Some((stats, table.items))
      invariant stats.found == Listed(regions[..i])
      invariant stats.added + stats.updated + stats.skipped == stats.found
      invariant forall id :: id in old(table.items) ==> id in table.items
    {
      assert regions[..i + 1][..i] == regions[..i];
      var listing := regions[i];
      if listing.certificates.Some? {
        var certs := listing.certificates.value;
        ghost var before, counted := table.items, stats;
        stats := CountFound(stats, |certs|);
        ghost var m;
        stats, m := SyncRegion(table, stats, account, listing.region, certs, clock, lookupFaults, writeFaults);
        AccountSweepSnoc(old(table.items), regions, matches, m, i, account, clock, lookupFaults, writeFaults);
        AccountStepRead(counted, before, listing.region, certs, m, account, clock, lookupFaults, writeFaults);
        matches := matches + [m];
      } else {
        AccountSweepSnoc(old(table.items), regions, matches, [], i, account, clock, lookupFaults, writeFaults);
        matches := matches + [[]];
      }
    }
    assert regions[..|regions|] == regions;
  }
}

=== FILE: batching.dfy ===
/**
 * Fixed-size batches: `for i in range(0, len(items), size): items[i:i + size]`.
 *
 * The host scanner sends its commands to 50 instances at a time and the
 * spreadsheet import writes 25 records at a time.
 */
module Batching {

  /** The number of batches of at most `size` items that `n` items fill: `ceil(n / size)`. */
  function BatchCount(n: nat, size: nat): nat
    requires size > 0
    decreases n
  {
    if n == 0 then 0 else if n <= size then 1 else 1 + BatchCount(n - size, size)
  }

  /** The count is the rounded-up quotient. */
  lemma {:induction false} BatchCountQuotient(n: nat, size: nat)
    requires size > 0
    ensures BatchCount(n, size) == (n + size - 1) / size
    decreases n
  {
    if n == 0 {
      assert 0 <= size - 1 < size;
    } else if n <= size {
      assert size <= n + size - 1 < 2 * size;
      DivisionByRange(n + size - 1, size, 1);
    } else {
      BatchCountQuotient(n - size, size);
      DivisionShift(n - 1, size);
    }
  }

  /** `a // size` is the `q` whose multiples of `size` bracket `a`. */
  lemma DivisionByRange(a: int, size: nat, q: int)
    requires size > 0 && q * size <= a < (q + 1) * size
    ensures a / size == q
  {
    var d, r := a / size, a % size;
    assert a == d * size + r && 0 <= r < size;
    if d < q {
      MultiplyMonotone(d + 1, q, size);
      assert false;
    } else if d > q {
      MultiplyMonotone(q + 1, d, size);
      assert false;
    }
  }

  lemma MultiplyMonotone(x: int, y: int, k: nat)
    requires x <= y
    ensures x * k <= y * k
  {
    assert y * k - x * k == (y - x) * k;
  }

  lemma DivisionShift(a: nat, size: nat)
    requires size > 0
    ensures (a + size) / size == a / size + 1
  {
    var q, r := a / size, a % size;
    assert a == q * size + r && 0 <= r < size;
    assert a + size == (q + 1) * size + r;
    DivisionByRange(a + size, size, q + 1);
  }

  /** The concatenation of the batches. */
  function Flatten<T>(bs: seq<seq<T>>): seq<T>
  {
    if |bs| == 0 then [] else bs[0] + Flatten(bs[1..])
  }

  /**
   * The slices the loop visits, in order: each is non-empty and holds at
   * most `size` items, every one but the last holds exactly `size`, there
   * are `ceil(n / size)` of them, and together they are the input.
   */
  function Batches<T>(s: seq<T>, size: nat): (bs: seq<seq<T>>)
    requires size > 0
    ensures |bs| == BatchCount(|s|, size)
    ensures forall k :: 0 <= k < |bs| ==> 0 < |bs[k]| <= size
    ensures forall k :: 0 <= k < |bs| - 1 ==> |bs[k]| == size
    ensures Flatten(bs) == s
    decreases |s|
  {
    if |s| == 0 then []
    else if |s| <= size then
      [s]
    else
      var rest := Batches(s[size..], size);
      assert s[..size] + s[size..] == s;
      [s[..size]] + rest
  }
}

=== FILE: certificate_helpers.dfy ===
/**
 * The shared certificate helpers (src/utils/certificate_helpers.py):
 * status derivation that keeps the manual renewal states, the expiry
 * window test, input validation, the display copy, audit entries,
 * status colours, notification urgency, and sorting and grouping.
 *
 * Days are counted from today's midnight (UTC), so a certificate that
 * expires today has 0 days left here.
 */
module CertificateHelpers {

  import opened Wrappers
  import opened Values
  import opened Text
  import opened Dates
  import opened Statuses

  /** States set by people that the status derivation must not overwrite. */
  const ManualStatuses: seq<string> := [RenewalInProgress, RenewalDone]

  /** The expiry date of a record, when it is text in `YYYY-MM-DD` form. */
  function ExpiryOf(expiry: Value): Option<Date>
  {
    if expiry.Text? then ParseIso(expiry.s) else None
  }

  /** calculate_days_until_expiry: days from today's midnight, 0 when the date is unreadable. */
  function CalculateDaysUntilExpiry(expiry: Value, today: Date): (days: int)
    requires ValidDate(today)
    ensures ExpiryOf(expiry).None? ==> days == 0
  {
    match ExpiryOf(expiry)
    case Some(d) => DaysFromToday(d, today)
    case None => 0
  }

  /** A stored date is counted in whole days from today, and one expiring today has 0 days left. */
  lemma DaysUntilStoredDate(d: Date, today: Date)
    requires ValidDate(d) && ValidDate(today)
    ensures CalculateDaysUntilExpiry(Text(FormatIso(d)), today) == DayNumber(d) - DayNumber(today)
    ensures CalculateDaysUntilExpiry(Text(FormatIso(today)), today) == 0
  {
    ParseFormatIso(d);
    ParseFormatIso(today);
  }

  predicate IsManual(current: Value)
  {
    current.Text? && current.s in ManualStatuses
  }

  /**
   * determine_certificate_status: a manual renewal state is kept whatever
   * the date; otherwise the 30-day rule applies to the days left.
   */
  function DetermineCertificateStatus(expiry: Value, current: Value, today: Date): (s: string)
    requires ValidDate(today)
    ensures IsManual(current) ==> s == current.s
    ensures !IsManual(current) ==>
              var days := CalculateDaysUntilExpiry(expiry, today);
              (s == Expired <==> days < 0)
              && (s == DueForRenewal <==> 0 <= days <= RenewalWindow)
              && (s == Active <==> days > RenewalWindow)
  {
    if IsManual(current) then current.s
    else StatusForDays(CalculateDaysUntilExpiry(expiry, today))
  }

  /** An unreadable date counts as 0 days, so a record outside the manual states becomes Due for Renewal. */
  lemma UnreadableDateIsDue(expiry: Value, current: Value, today: Date)
    requires ValidDate(today) && ExpiryOf(expiry).None? && !IsManual(current)
    ensures DetermineCertificateStatus(expiry, current, today) == DueForRenewal
  {
  }

  /**
   * is_certificate_expiring: the three dates all read as `YYYY-MM-DD` and
   * the expiry falls on or between the current and the threshold date.
   */
  function IsCertificateExpiring(expiry: string, current: string, threshold: string): (r: bool)
    ensures r <==> ParseIso(expiry).Some? && ParseIso(current).Some? && ParseIso(threshold).Some?
                   && !Before(ParseIso(expiry).value, ParseIso(current).value)
                   && !Before(ParseIso(threshold).value, ParseIso(expiry).value)
  {
    match (ParseIso(expiry), ParseIso(current), ParseIso(threshold))
    case (Some(e), Some(c), Some(t)) =>
      DayNumberOrder(e, c);
      DayNumberOrder(t, e);
      DayNumber(c) <= DayNumber(e) <= DayNumber(t)
    case _ => false
  }

  /** Moving the threshold later never drops a certificate from the window. */
  lemma ExpiringWindowWidens(expiry: string, current: string, t1: string, t2: string)
    requires IsCertificateExpiring(expiry, current, t1)
    requires ParseIso(t2).Some? && !Before(ParseIso(t2).value, ParseIso(t1).value)
    ensures IsCertificateExpiring(expiry, current, t2)
  {
    var e, a, b := ParseIso(expiry).value, ParseIso(t1).value, ParseIso(t2).value;
    DayNumberOrder(a, e);
    DayNumberOrder(b, a);
    DayNumberOrder(b, e);
  }

  // ----- validate_certificate_data -----

  const ValidEnvironments: seq<string> := ["PRD", "ACC", "TST", "DEV"]

  /** "Environment must be one of: PRD, ACC, TST, DEV" */
  const EnvironmentMessage: string := "Environment must be one of: " + Join(ValidEnvironments, ", ")

  function MissingField(field: string): string
  {
    "Missing required field: " + field
  }

  /** The required fields are all present and truthy. */
  predicate RequiredPresent(data: Record)
  {
    HasTruthy(data, "CommonName") && HasTruthy(data, "ExpiryDate") && HasTruthy(data, "Environment")
  }

  /** The checks validate_certificate_data runs, all passing. */
  predicate WellFormedCertificate(data: Record)
  {
    RequiredPresent(data)
    && data["ExpiryDate"].Text? && ParseIso(data["ExpiryDate"].s).Some?
    && data["Environment"].Text? && data["Environment"].s in ValidEnvironments
  }

  /**
   * validate_certificate_data: required fields first (CommonName,
   * ExpiryDate, Environment, in that order), then the
   * date format, then the environment; (true, None) only when all pass.
   * A truthy ExpiryDate that is not text (a number from a JSON body) makes
   * `strptime` raise `TypeError`, which the `except ValueError` does not
   * catch: the call then raises, written `None` here.
   */
  function ValidateCertificateData(data: Record): (r: Option<(bool, Option<string>)>)
    ensures r.None? <==> RequiredPresent(data) && !data["ExpiryDate"].Text?
    ensures r.Some? ==> (r.value.0 <==> r.value.1.None?)
    ensures r.Some? ==> (r.value.0 <==> WellFormedCertificate(data))
    ensures !HasTruthy(data, "CommonName") ==> r == Some((false, Some(MissingField("CommonName"))))
    ensures HasTruthy(data, "CommonName") && !HasTruthy(data, "ExpiryDate") ==>
              r == Some((false, Some(MissingField("ExpiryDate"))))
    ensures HasTruthy(data, "CommonName") && HasTruthy(data, "ExpiryDate") && !HasTruthy(data, "Environment") ==>
              r == Some((false, Some(MissingField("Environment"))))
    ensures RequiredPresent(data) && data["ExpiryDate"].Text? && ParseIso(data["ExpiryDate"].s).None? ==>
              r == Some((false, Some("ExpiryDate must be in YYYY-MM-DD format")))
    ensures RequiredPresent(data) && data["ExpiryDate"].Text? && ParseIso(data["ExpiryDate"].s).Some?
            && !(data["Environment"].Text? && data["Environment"].s in ValidEnvironments) ==>
              r == Some((false, Some(EnvironmentMessage)))
  {
    if !HasTruthy(data, "CommonName") then Some((false, Some(MissingField("CommonName"))))
    else if !HasTruthy(data, "ExpiryDate") then Some((false, Some(MissingField("ExpiryDate"))))
    else if !HasTruthy(data, "Environment") then Some((false, Some(MissingField("Environment"))))
    else if !data["ExpiryDate"].Text? then None
    else if ParseIso(data["ExpiryDate"].s).None? then Some((false, Some("ExpiryDate must be in YYYY-MM-DD format")))
    else if !(data["Environment"].Text? && data["Environment"].s in ValidEnvironments) then
      Some((false, Some(EnvironmentMessage)))
    else Some((true, None))
  }

  // ----- format_certificate_for_display -----

  /**
   * format_certificate_for_display: a copy of the record with the days
   * left and the derived status added when it has an expiry date, and a
   * LastUpdated stamp added when it has none; nothing else changes.
   */
  method FormatCertificateForDisplay(cert: Record, today: Date, timestamp: string) returns (formatted: Record)
    requires ValidDate(today)
    ensures formatted.Keys == cert.Keys + (if "ExpiryDate" in cert then {"DaysUntilExpiry", "Status"} else {}) + {"LastUpdated"}
    ensures forall k :: k in cert && k !in {"DaysUntilExpiry", "Status", "LastUpdated"} ==> formatted[k] == cert[k]
    ensures "ExpiryDate" in cert ==>
              formatted["DaysUntilExpiry"] == Number(CalculateDaysUntilExpiry(cert["ExpiryDate"], today))
              && formatted["Status"] == Text(DetermineCertificateStatus(cert["ExpiryDate"], if "Status" in cert then cert["Status"] else Null, today))
    ensures "ExpiryDate" !in cert ==> forall k :: k in {"DaysUntilExpiry", "Status"} && k in cert ==> formatted[k] == cert[k]
    ensures formatted["LastUpdated"] == (if "LastUpdated" in cert then cert["LastUpdated"] else Text(timestamp))
  {
    formatted := cert;
    if "ExpiryDate" in cert {
      formatted := formatted["DaysUntilExpiry" := Number(CalculateDaysUntilExpiry(cert["ExpiryDate"], today))];
    }
    if "ExpiryDate" in cert {
      var current := if "Status" in cert then cert["Status"] else Null;
      formatted := formatted["Status" := Text(DetermineCertificateStatus(cert["ExpiryDate"], current, today))];
    }
    if "LastUpdated" !in formatted {
      formatted := formatted["LastUpdated" := Text(timestamp)];
    }
  }

  // ----- create_audit_log_entry -----

  /** The `{'old': ..., 'new': ...}` pair recorded for a changed key. */
  datatype Change = Change(before: Value, after: Value)

  datatype AuditEntry = AuditEntry(
    logId: string,
    certificateId: string,
    action: string,
    timestamp: string,
    user: string,
    oldValues: Option<Record>,
    newValues: Option<Record>,
    changes: Option<map<string, Change>>)

  /** An optional dictionary that Python treats as true: present and non-empty. */
  predicate Given(values: Option<Record>)
  {
    values.Some? && values.value != map[]
  }

  /** The keys present in both records whose values differ, with both values. */
  function Differences(before: Record, after: Record): (d: map<string, Change>)
    ensures forall k :: k in d <==> k in after && k in before && before[k] != after[k]
  {
    map k | k in after && k in before && before[k] != after[k] :: Change(before[k], after[k])
  }

  /**
   * create_audit_log_entry: old and new values are recorded when given,
   * and Changes holds exactly the keys of both whose values differ; it is
   * left out when there are none.
   */
  method CreateAuditLogEntry(certificateId: string, action: string, oldValues: Option<Record>,
                             newValues: Option<Record>, user: string, logId: string, timestamp: string)
    returns (entry: AuditEntry)
    ensures entry.logId == logId && entry.certificateId == certificateId && entry.action == action
    ensures entry.timestamp == timestamp && entry.user == user
    ensures entry.oldValues == (if Given(oldValues) then oldValues else None)
    ensures entry.newValues == (if Given(newValues) then newValues else None)
    ensures entry.changes.Some? <==>
              Given(oldValues) && Given(newValues) && Differences(oldValues.value, newValues.value) != map[]
    ensures entry.changes.Some? ==> entry.changes.value == Differences(oldValues.value, newValues.value)
    ensures entry.changes.Some? ==> forall k :: k in entry.changes.value ==>
              entry.changes.value[k].before != entry.changes.value[k].after
  {
    entry := AuditEntry(logId, certificateId, action, timestamp, user, None, None, None);
    if Given(oldValues) {
      entry := entry.(oldValues := oldValues);
    }
    if Given(newValues) {
      entry := entry.(newValues := newValues);
    }
    if Given(oldValues) && Given(newValues) {
      var before, after := oldValues.value, newValues.value;
      var changes: map<string, Change> := map[];
      var remaining := after.Keys;
      while remaining != {}
        invariant remaining <= after.Keys
        invariant forall k :: k in changes <==> k in after.Keys - remaining && k in before && before[k] != after[k]
        invariant forall k :: k in changes ==> changes[k] == Change(before[k], after[k])
        decreases remaining
      {
        var key :| key in remaining;
        if key in before && before[key] != after[key] {
          changes := changes[key := Change(before[key], after[key])];
        }
        remaining := remaining - {key};
      }
      assert changes == Differences(before, after);
      if changes != map[] {
        entry := entry.(changes := Some(changes));
      }
    }
  }

  // ----- get_certificate_status_color -----

  const KnownStatuses: set<string> := {Active, DueForRenewal, Expired, RenewalInProgress, RenewalDone}

  /** get_certificate_status_color: one colour per known status, gray for anything else. */
  function GetCertificateStatusColor(status: string): (color: string)
    ensures status == Active || status == RenewalDone ==> color == "green"
    ensures status == DueForRenewal ==> color == "yellow"
    ensures status == Expired ==> color == "red"
    ensures status == RenewalInProgress ==> color == "blue"
    ensures color == "gray" <==> status !in KnownStatuses
  {
    if status == Active then "green"
    else if status == DueForRenewal then "yellow"
    else if status == Expired then "red"
    else if status == RenewalInProgress then "blue"
    else if status == RenewalDone then "green"
    else "gray"
  }

  // ----- format_expiry_notification -----

  /** The urgency format_expiry_notification attaches to the days left. */
  function NotificationUrgency(days: int): (u: string)
    ensures u == "HIGH" <==> days <= 7
    ensures u == "MEDIUM" <==> 7 < days <= 14
    ensures u == "LOW" <==> days > 14
  {
    if days <= 7 then "HIGH" else if days <= 14 then "MEDIUM" else "LOW"
  }

  function UrgencyRank(u: string): int
  {
    if u == "HIGH" then 0 else if u == "MEDIUM" then 1 else 2
  }

  /** A later expiry is never more urgent. */
  lemma NotificationUrgencyMonotone(d1: int, d2: int)
    requires d1 <= d2
    ensures UrgencyRank(NotificationUrgency(d1)) <= UrgencyRank(NotificationUrgency(d2))
  {
  }

  /** `record.get(key, default)` */
  function GetOr(r: Record, key: string, default: Value): Value
  {
    if key in r then r[key] else default
  }

  /**
   * format_expiry_notification: the fields of the notification, with the
   * defaults for missing attributes and the urgency of the days left.
   */
  function FormatExpiryNotification(cert: Record, today: Date): (n: Record)
    requires ValidDate(today)
    ensures n.Keys == {"certificate_name", "certificate_id", "expiry_date", "days_until_expiry",
                       "environment", "application", "owner", "urgency"}
    ensures n["certificate_name"] == GetOr(cert, "CommonName", Text("Unknown"))
    ensures n["certificate_id"] == GetOr(cert, "CertificateID", Text(""))
    ensures n["expiry_date"] == GetOr(cert, "ExpiryDate", Text(""))
    ensures n["environment"] == GetOr(cert, "Environment", Text(""))
    ensures n["application"] == GetOr(cert, "Application", Text(""))
    ensures n["owner"] == GetOr(cert, "Owner", Text("Unassigned"))
    ensures n["days_until_expiry"] == Number(CalculateDaysUntilExpiry(GetOr(cert, "ExpiryDate", Text("")), today))
    ensures n["urgency"] == Text(NotificationUrgency(n["days_until_expiry"].n))
    ensures "ExpiryDate" !in cert ==> n["urgency"] == Text("HIGH")
  {
    var days := CalculateDaysUntilExpiry(GetOr(cert, "ExpiryDate", Text("")), today);
    map[
      "certificate_name" := GetOr(cert, "CommonName", Text("Unknown")),
      "certificate_id" := GetOr(cert, "CertificateID", Text("")),
      "expiry_date" := GetOr(cert, "ExpiryDate", Text("")),
      "days_until_expiry" := Number(days),
      "environment" := GetOr(cert, "Environment", Text("")),
      "application" := GetOr(cert, "Application", Text("")),
      "owner" := GetOr(cert, "Owner", Text("Unassigned")),
      "urgency" := Text(NotificationUrgency(days))
    ]
  }

  // ----- sort_certificates_by_expiry -----

  const LastDay: Date := Date(9999, 12, 31)

  /**
   * The sort key, in half days: midnight of the expiry date; 9999-12-31
   * for a record without one; and, for a date that does not read,
   * `datetime.max`, the last moment of 9999-12-31.
   */
  function ExpiryKey(cert: Record): int
  {
    assert ValidDate(LastDay);
    if "ExpiryDate" !in cert then 2 * DayNumber(LastDay)
    else match ExpiryOf(cert["ExpiryDate"])
      case Some(d) => 2 * DayNumber(d)
      case None => 2 * DayNumber(LastDay) + 1
  }

  /** Keys `a` then `b` are in the requested direction. */
  predicate KeysInOrder(a: int, b: int, ascending: bool)
  {
    if ascending then a <= b else a >= b
  }

  /** `s` is ordered by `key` in the requested direction. */
  predicate SortedBy(s: seq<Record>, key: Record -> int, ascending: bool)
  {
    forall i, j :: 0 <= i < j < |s| ==> KeysInOrder(key(s[i]), key(s[j]), ascending)
  }

  /** `c` placed after the last element it may follow, as a stable sort does. */
  function InsertBy(sorted: seq<Record>, c: Record, key: Record -> int, ascending: bool): seq<Record>
  {
    if |sorted| == 0 || KeysInOrder(key(sorted[|sorted| - 1]), key(c), ascending) then sorted + [c]
    else InsertBy(sorted[..|sorted| - 1], c, key, ascending) + [sorted[|sorted| - 1]]
  }

  lemma {:induction false} InsertByPermutes(sorted: seq<Record>, c: Record, key: Record -> int, ascending: bool)
    ensures multiset(InsertBy(sorted, c, key, ascending)) == multiset(sorted) + multiset{c}
  {
    var n := |sorted|;
    if !(n == 0 || KeysInOrder(key(sorted[n - 1]), key(c), ascending)) {
      assert sorted == sorted[..n - 1] + [sorted[n - 1]];
      InsertByPermutes(sorted[..n - 1], c, key, ascending);
    }
  }

  lemma {:induction false} InsertBySorted(sorted: seq<Record>, c: Record, key: Record -> int, ascending: bool)
    requires SortedBy(sorted, key, ascending)
    ensures SortedBy(InsertBy(sorted, c, key, ascending), key, ascending)
  {
    var n := |sorted|;
    if n == 0 || KeysInOrder(key(sorted[n - 1]), key(c), ascending) {
      var r := sorted + [c];
      forall i, j | 0 <= i < j < |r|
        ensures KeysInOrder(key(r[i]), key(r[j]), ascending)
      {
        if j == n && i < n - 1 {
          assert KeysInOrder(key(sorted[i]), key(sorted[n - 1]), ascending);
        }
      }
    } else {
      var init, last := sorted[..n - 1], sorted[n - 1];
      InsertBySorted(init, c, key, ascending);
      InsertByPermutes(init, c, key, ascending);
      var front := InsertBy(init, c, key, ascending);
      forall x | x in front
        ensures KeysInOrder(key(x), key(last), ascending)
      {
        assert x in multiset(front);
        if x != c {
          assert x in multiset(init);
          var i :| 0 <= i < |init| && init[i] == x;
          assert KeysInOrder(key(sorted[i]), key(sorted[n - 1]), ascending);
        }
      }
      var r := front + [last];
      forall i, j | 0 <= i < j < |r|
        ensures KeysInOrder(key(r[i]), key(r[j]), ascending)
      {
        if j == |front| {
          assert r[i] in front;
        }
      }
    }
  }

  /** Python's `sorted(s, key=key, reverse=not ascending)`. */
  function SortBy(s: seq<Record>, key: Record -> int, ascending: bool): (r: seq<Record>)
    ensures multiset(r) == multiset(s)
    ensures SortedBy(r, key, ascending)
  {
    if |s| == 0 then []
    else
      assert s == s[..|s| - 1] + [s[|s| - 1]];
      var front := SortBy(s[..|s| - 1], key, ascending);
      InsertByPermutes(front, s[|s| - 1], key, ascending);
      InsertBySorted(front, s[|s| - 1], key, ascending);
      InsertBy(front, s[|s| - 1], key, ascending)
  }

  /**
   * sort_certificates_by_expiry: the same certificates, ordered by expiry
   * (soonest first when ascending, latest first otherwise); a record
   * without an expiry date sorts as 9999-12-31 and one whose date does
   * not read sorts after every date.
   */
  function SortCertificatesByExpiry(certs: seq<Record>, ascending: bool): (r: seq<Record>)
    ensures multiset(r) == multiset(certs)
    ensures forall i, j :: 0 <= i < j < |r| ==>
              if ascending then ExpiryKey(r[i]) <= ExpiryKey(r[j]) else ExpiryKey(r[i]) >= ExpiryKey(r[j])
  {
    var r := SortBy(certs, ExpiryKey, ascending);
    assert SortedBy(r, ExpiryKey, ascending);
    r
  }

  // ----- group_certificates_by_status / group_certificates_by_environment -----

  /** `cert.get(field, 'Unknown')` */
  function GroupKey(cert: Record, field: string): Value
  {
    GetOr(cert, field, Text(Unknown))
  }

  /** The certificates whose group key is `key`, in input order. */
  function Members(certs: seq<Record>, field: string, key: Value): (r: seq<Record>)
    ensures forall c :: c in r ==> c in certs && GroupKey(c, field) == key
    ensures |r| <= |certs|
  {
    if |certs| == 0 then []
    else
      var front := Members(certs[..|certs| - 1], field, key);
      var c := certs[|certs| - 1];
      if GroupKey(c, field) == key then front + [c] else front
  }

  lemma {:induction false} MembersNone(certs: seq<Record>, field: string, key: Value)
    requires forall i :: 0 <= i < |certs| ==> GroupKey(certs[i], field) != key
    ensures Members(certs, field, key) == []
  {
    if |certs| > 0 {
      MembersNone(certs[..|certs| - 1], field, key);
    }
  }

  lemma {:induction false} MembersHas(certs: seq<Record>, field: string, i: int)
    requires 0 <= i < |certs|
    ensures certs[i] in Members(certs, field, GroupKey(certs[i], field))
  {
    if i < |certs| - 1 {
      MembersHas(certs[..|certs| - 1], field, i);
    }
  }

  /**
   * The grouping loop: one group per key that occurs, each holding, in
   * input order, exactly the certificates with that key.
   */
  method GroupBy(certs: seq<Record>, field: string) returns (grouped: map<Value, seq<Record>>)
    ensures forall k :: k in grouped <==> exists i :: 0 <= i < |certs| && GroupKey(certs[i], field) == k
    ensures forall k :: k in grouped ==> grouped[k] == Members(certs, field, k)
  {
    grouped := map[];
    for n := 0 to |certs|
      invariant forall k :: k in grouped <==> exists i :: 0 <= i < n && GroupKey(certs[i], field) == k
      invariant forall k :: k in grouped ==> grouped[k] == Members(certs[..n], field, k)
    {
      assert certs[..n + 1][..n] == certs[..n];
      var before := grouped;
      var key := GroupKey(certs[n], field);
      if key !in grouped {
        MembersNone(certs[..n], field, key);
        grouped := grouped[key := []];
      }
      grouped := grouped[key := grouped[key] + [certs[n]]];
      forall k | k in grouped
        ensures grouped[k] == Members(certs[..n + 1], field, k)
      {
        if k != key {
          assert k in before;
        }
      }
    }
    assert certs[..|certs|] == certs;
  }

  /** Every certificate lands in exactly one group: the one named by its key. */
  lemma GroupsPartition(certs: seq<Record>, field: string, grouped: map<Value, seq<Record>>, i: int)
    requires forall k :: k in grouped ==> grouped[k] == Members(certs, field, k)
    requires forall k :: k in grouped <==> exists j :: 0 <= j < |certs| && GroupKey(certs[j], field) == k
    requires 0 <= i < |certs|
    ensures GroupKey(certs[i], field) in grouped && certs[i] in grouped[GroupKey(certs[i], field)]
    ensures forall k :: k in grouped && certs[i] in grouped[k] ==> k == GroupKey(certs[i], field)
  {
    MembersHas(certs, field, i);
  }

  /** group_certificates_by_status */
  method GroupCertificatesByStatus(certs: seq<Record>) returns (grouped: map<Value, seq<Record>>)
    ensures forall k :: k in grouped <==> exists i :: 0 <= i < |certs| && GroupKey(certs[i], "Status") == k
    ensures forall k :: k in grouped ==> grouped[k] == Members(certs, "Status", k)
  {
    grouped := GroupBy(certs, "Status");
  }

  /** group_certificates_by_environment */
  method GroupCertificatesByEnvironment(certs: seq<Record>) returns (grouped: map<Value, seq<Record>>)
    ensures forall k :: k in grouped <==> exists i :: 0 <= i < |certs| && GroupKey(certs[i], "Environment") == k
    ensures forall k :: k in grouped ==> grouped[k] == Members(certs, "Environment", k)
  {
    grouped := GroupBy(certs, "Environment");
  }
}

=== FILE: certificate_monitor.dfy ===
/**
 * The scheduled certificate monitor (lambda/certificate_monitor.py): it
 * recomputes the status of the certificates in the expiry window and
 * writes the ones that changed, groups them by recipient for the expiry
 * e-mails, counts the e-mails sent, and breaks the run down by field and
 * by urgency.
 *
 * Days are counted from the current moment (UTC), so a certificate that
 * expires today already has -1 days left.  The renewal window is the
 * configured EXPIRY_THRESHOLD, passed in as `threshold`.
 */
module CertificateMonitor {

  import opened Wrappers
  import opened Values
  import opened Text
  import opened Dates
  import opened Statuses
  import opened Store

  predicate Sticky(status: string)
  {
    status == RenewalInProgress || status == RenewalDone
  }

  /**
   * calculate_new_status: Expired once the date has passed, even over a
   * manual renewal state; inside the window, Due for Renewal unless a
   * manual state is set, which is kept; Active otherwise.  A date that
   * does not read keeps the current status.
   */
  function CalculateNewStatus(expiry: string, current: string, now: Instant, threshold: int): (s: string)
    requires ValidInstant(now)
    ensures ParseIso(expiry).None? ==> s == current
    ensures ParseIso(expiry).Some? ==>
              var days := DaysFromNow(ParseIso(expiry).value, now);
              (days < 0 ==> s == Expired)
              && (days >= 0 && Sticky(current) ==> s == current)
              && (0 <= days <= threshold && !Sticky(current) ==> s == DueForRenewal)
              && (days >= 0 && days > threshold && !Sticky(current) ==> s == Active)
  {
    match ParseIso(expiry)
    case None => current
    case Some(d) =>
      var days := DaysFromNow(d, now);
      if days < 0 then Expired
      else if days <= threshold && !Sticky(current) then DueForRenewal
      else if Sticky(current) then current
      else Active
  }

  /** Recomputing a status that was just computed changes nothing. */
  lemma CalculateNewStatusIdempotent(expiry: string, current: string, now: Instant, threshold: int)
    requires ValidInstant(now)
    ensures var s := CalculateNewStatus(expiry, current, now, threshold);
            CalculateNewStatus(expiry, s, now, threshold) == s
  {
  }

  /** calculate_days_until_expiry of the monitor: `None` stands for the "Unknown" it returns on a bad date. */
  function DaysUntilExpiry(expiry: string, now: Instant): (days: Option<int>)
    requires ValidInstant(now)
    ensures days.Some? <==> ParseIso(expiry).Some?
  {
    match ParseIso(expiry)
    case Some(d) => Some(DaysFromNow(d, now))
    case None => None
  }

  // ----- update_certificate_statuses -----

  /** An `ExpiryDate` that `strptime` can be handed without a TypeError. */
  predicate HasTextExpiry(cert: Record)
  {
    "ExpiryDate" in cert && cert["ExpiryDate"].Text?
  }

  /** What update_certificate_statuses does with one certificate. */
  datatype StatusOutcome = Updated(id: string, status: string) | Unchanged | Failed

  /**
   * A missing CertificateID, or an expiry date that is missing or not
   * text, raises; a status that did not change is left alone; otherwise
   * the new status is written, and the write fails for the IDs in
   * `faults`.  Every raise is caught and counted as a failure.
   */
  function StatusOutcomeFor(cert: Record, now: Instant, threshold: int, faults: set<string>): (o: StatusOutcome)
    requires ValidInstant(now)
    ensures !HasId(cert) || !HasTextExpiry(cert) ==> o.Failed?
    ensures HasId(cert) && HasTextExpiry(cert) ==>
              var current := GetText(cert, "Status", "");
              var s := CalculateNewStatus(cert["ExpiryDate"].s, current, now, threshold);
              && (o.Unchanged? <==> s == current)
              && (o.Failed? <==> s != current && cert[IdKey].s in faults)
              && (o.Updated? ==> o.id == cert[IdKey].s && o.status == s)
    ensures o.Updated? ==> HasId(cert) && o.id == cert[IdKey].s && o.status != GetText(cert, "Status", "")
  {
    if !HasId(cert) || !HasTextExpiry(cert) then Failed
    else
      var current := GetText(cert, "Status", "");
      var s := CalculateNewStatus(cert["ExpiryDate"].s, current, now, threshold);
      if s == current then Unchanged
      else if cert[IdKey].s in faults then Failed
      else Updated(cert[IdKey].s, s)
  }

  /** The attributes a status change sets. */
  function StatusChange(status: string, timestamp: string): Record
  {
    map["Status" := Text(status), "LastUpdatedOn" := Text(timestamp)]
  }

  /** The outcome for each certificate, in order. */
  function Outcomes(certs: seq<Record>, now: Instant, threshold: int, faults: set<string>): (os: seq<StatusOutcome>)
    requires ValidInstant(now)
    ensures |os| == |certs|
    ensures forall i :: 0 <= i < |certs| ==> os[i] == StatusOutcomeFor(certs[i], now, threshold, faults)
  {
    if |certs| == 0 then []
    else Outcomes(certs[..|certs| - 1], now, threshold, faults) + [StatusOutcomeFor(certs[|certs| - 1], now, threshold, faults)]
  }

  datatype Tally = Tally(items: map<string, Record>, updated: nat, failed: nat)

  /** The table and the counters once the outcomes have been carried out in order. */
  function ApplyOutcomes(items: map<string, Record>, outcomes: seq<StatusOutcome>, timestamp: string): Tally
  {
    if |outcomes| == 0 then Tally(items, 0, 0)
    else
      var t := ApplyOutcomes(items, outcomes[..|outcomes| - 1], timestamp);
      match outcomes[|outcomes| - 1]
      case Updated(id, s) =>
        Tally(t.items[id := Upserted(t.items, id, StatusChange(s, timestamp))], t.updated + 1, t.failed)
      case Unchanged => t
      case Failed => t.(failed := t.failed + 1)
  }

  /** The table and the counters after update_certificate_statuses has gone through `certs`. */
  function StatusSweep(items: map<string, Record>, certs: seq<Record>, now: Instant, threshold: int,
                       timestamp: string, faults: set<string>): Tally
    requires ValidInstant(now)
  {
    ApplyOutcomes(items, Outcomes(certs, now, threshold, faults), timestamp)
  }

  /**
   * update_certificate_statuses: writes the new status and LastUpdatedOn
   * of each certificate whose status changed, counting the writes and
   * the failures.
   */
  method UpdateCertificateStatuses(table: CertificateTable, certs: seq<Record>, now: Instant, threshold: int,
                                   timestamp: string, faults: set<string>)
    returns (updated: nat, failed: nat)
    requires table.Valid() && ValidInstant(now)
    modifies table
    ensures table.Valid()
    ensures Tally(table.items, updated, failed) == StatusSweep(old(table.items), certs, now, threshold, timestamp, faults)
  {
    updated, failed := 0, 0;
    ghost var outcomes := Outcomes(certs, now, threshold, faults);
    for i := 0 to |certs|
      invariant table.Valid()
      invariant Tally(table.items, updated, failed) == ApplyOutcomes(old(table.items), outcomes[..i], timestamp)
    {
      assert outcomes[..i + 1][..i] == outcomes[..i];
      var cert := certs[i];
      match StatusOutcomeFor(cert, now, threshold, faults)
      case Updated(id, s) =>
        table.Update(id, StatusChange(s, timestamp));
        updated := updated + 1;
      case Unchanged =>
      case Failed =>
        failed := failed + 1;
    }
    assert outcomes[..|certs|] == outcomes;
  }

  /** Every certificate is counted at most once. */
  lemma {:induction false} ApplyOutcomesCounts(items: map<string, Record>, outcomes: seq<StatusOutcome>, timestamp: string)
    ensures var t := ApplyOutcomes(items, outcomes, timestamp);
            t.updated + t.failed <= |outcomes|
  {
    if |outcomes| > 0 {
      ApplyOutcomesCounts(items, outcomes[..|outcomes| - 1], timestamp);
    }
  }

  /** The outcome writes the record `id`. */
  predicate Writes(o: StatusOutcome, id: string)
  {
    o.Updated? && o.id == id
  }

  /**
   * Nothing else changes: a record that is touched belongs to an update
   * outcome, and it gains only Status and LastUpdatedOn; its other
   * attributes keep their values.
   */
  lemma {:induction false} ApplyOutcomesFrame(items: map<string, Record>, outcomes: seq<StatusOutcome>, timestamp: string)
    ensures var t := ApplyOutcomes(items, outcomes, timestamp);
            items.Keys <= t.items.Keys
            && (forall id :: id in t.items && (id !in items || t.items[id] != items[id]) ==>
                  exists i :: 0 <= i < |outcomes| && Writes(outcomes[i], id))
            && (forall id, k :: id in items && k in items[id] && k != "Status" && k != "LastUpdatedOn" ==>
                  k in t.items[id] && t.items[id][k] == items[id][k])
  {
    if |outcomes| > 0 {
      var front := outcomes[..|outcomes| - 1];
      ApplyOutcomesFrame(items, front, timestamp);
      var t0 := ApplyOutcomes(items, front, timestamp);
      var t := ApplyOutcomes(items, outcomes, timestamp);
      forall id | id in t.items && (id !in items || t.items[id] != items[id])
        ensures exists i :: 0 <= i < |outcomes| && Writes(outcomes[i], id)
      {
        if !Writes(outcomes[|outcomes| - 1], id) {
          assert id in t0.items && (id !in items || t0.items[id] != items[id]);
          var i :| 0 <= i < |front| && Writes(front[i], id);
          assert outcomes[i] == front[i];
        }
      }
    }
  }

  /** The sweep counts each certificate at most once and writes only Status and LastUpdatedOn of changed records. */
  lemma StatusSweepFrame(items: map<string, Record>, certs: seq<Record>, now: Instant,
                         threshold: int, timestamp: string, faults: set<string>)
    requires ValidInstant(now)
    ensures var t := StatusSweep(items, certs, now, threshold, timestamp, faults);
            t.updated + t.failed <= |certs|
            && items.Keys <= t.items.Keys
            && (forall id :: id in t.items && (id !in items || t.items[id] != items[id]) ==>
                  exists i :: 0 <= i < |certs| && Writes(StatusOutcomeFor(certs[i], now, threshold, faults), id))
            && (forall id, k :: id in items && k in items[id] && k != "Status" && k != "LastUpdatedOn" ==>
                  k in t.items[id] && t.items[id][k] == items[id][k])
  {
    var outcomes := Outcomes(certs, now, threshold, faults);
    ApplyOutcomesCounts(items, outcomes, timestamp);
    ApplyOutcomesFrame(items, outcomes, timestamp);
  }

  /** When every status is already current, a run writes nothing. */
  lemma {:induction false} ApplyOutcomesSettled(items: map<string, Record>, outcomes: seq<StatusOutcome>, timestamp: string)
    requires forall i :: 0 <= i < |outcomes| ==> outcomes[i] == Unchanged
    ensures ApplyOutcomes(items, outcomes, timestamp) == Tally(items, 0, 0)
  {
    if |outcomes| > 0 {
      ApplyOutcomesSettled(items, outcomes[..|outcomes| - 1], timestamp);
    }
  }

  // ----- group_certificates_by_owner -----

  function OwnerKey(cert: Record): string
  {
    Strip(GetText(cert, "OwnerEmail", ""))
  }

  function SupportKey(cert: Record): string
  {
    Strip(GetText(cert, "SupportEmail", ""))
  }

  /** With owner key `owner` and support key `support`, a certificate goes into the group of `recipient`. */
  predicate AddressedBy(owner: string, support: string, recipient: string)
  {
    (owner != "" && owner == recipient) || (support != "" && support != owner && support == recipient)
  }

  /** The certificate goes into the group of `recipient`. */
  predicate Addressed(cert: Record, recipient: string)
  {
    AddressedBy(OwnerKey(cert), SupportKey(cert), recipient)
  }

  /** The certificates addressed to `recipient`, in input order. */
  function AddressedTo(certs: seq<Record>, recipient: string): (r: seq<Record>)
    ensures forall c :: c in r ==> c in certs && Addressed(c, recipient)
  {
    if |certs| == 0 then []
    else
      var front := AddressedTo(certs[..|certs| - 1], recipient);
      var c := certs[|certs| - 1];
      if Addressed(c, recipient) then front + [c] else front
  }

  lemma AddressedToStep(certs: seq<Record>, n: int, recipient: string)
    requires 0 <= n < |certs|
    ensures AddressedTo(certs[..n + 1], recipient)
            == AddressedTo(certs[..n], recipient) + (if Addressed(certs[n], recipient) then [certs[n]] else [])
  {
    assert certs[..n + 1][..n] == certs[..n];
  }

  lemma {:induction false} AddressedToNone(certs: seq<Record>, recipient: string)
    requires forall i :: 0 <= i < |certs| ==> !Addressed(certs[i], recipient)
    ensures AddressedTo(certs, recipient) == []
  {
    if |certs| > 0 {
      AddressedToNone(certs[..|certs| - 1], recipient);
    }
  }

  /** Appends `cert` to the group of `key`, opening the group when it is new. */
  function Append(groups: map<string, seq<Record>>, key: string, cert: Record): map<string, seq<Record>>
  {
    groups[key := (if key in groups then groups[key] else []) + [cert]]
  }

  /** One step of the grouping loop: the owner's group, then the support team's when it differs. */
  function AddFor(groups: map<string, seq<Record>>, cert: Record, owner: string, support: string): map<string, seq<Record>>
  {
    var g := if owner != "" then Append(groups, owner, cert) else groups;
    if support != "" && support != owner then Append(g, support, cert) else g
  }

  function AddCertificate(groups: map<string, seq<Record>>, cert: Record): map<string, seq<Record>>
  {
    AddFor(groups, cert, OwnerKey(cert), SupportKey(cert))
  }

  /** The groups after the loop has gone through `certs`. */
  function Groups(certs: seq<Record>): map<string, seq<Record>>
  {
    if |certs| == 0 then map[]
    else AddCertificate(Groups(certs[..|certs| - 1]), certs[|certs| - 1])
  }

  lemma AddForEffect(groups: map<string, seq<Record>>, cert: Record, owner: string, support: string, k: string)
    ensures k in AddFor(groups, cert, owner, support) <==> k in groups || AddressedBy(owner, support, k)
    ensures k in AddFor(groups, cert, owner, support) ==>
              AddFor(groups, cert, owner, support)[k]
              == (if k in groups then groups[k] else []) + (if AddressedBy(owner, support, k) then [cert] else [])
  {
  }

  /** What one step does to each group: the certificate joins exactly the groups it is addressed to. */
  lemma AddCertificateEffect(groups: map<string, seq<Record>>, cert: Record, k: string)
    ensures k in AddCertificate(groups, cert) <==> k in groups || Addressed(cert, k)
    ensures k in AddCertificate(groups, cert) ==>
              AddCertificate(groups, cert)[k]
              == (if k in groups then groups[k] else []) + (if Addressed(cert, k) then [cert] else [])
  {
    AddForEffect(groups, cert, OwnerKey(cert), SupportKey(cert), k);
  }

  /** Some element of `s` satisfies `p` exactly when one in the front does, or the last one does. */
  lemma ExistsSnoc<T>(s: seq<T>, front: seq<T>, p: T -> bool)
    requires |s| > 0 && front == s[..|s| - 1]
    ensures (exists i :: 0 <= i < |s| && p(s[i])) <==> (exists i :: 0 <= i < |front| && p(front[i])) || p(s[|s| - 1])
  {
    if exists i :: 0 <= i < |s| && p(s[i]) {
      var i :| 0 <= i < |s| && p(s[i]);
      if i < |front| {
        assert front[i] == s[i];
      }
    }
    if exists i :: 0 <= i < |front| && p(front[i]) {
      var i :| 0 <= i < |front| && p(front[i]);
      assert s[i] == front[i];
    }
  }

  /** A group exists exactly for the recipients some certificate is addressed to. */
  lemma {:induction false} GroupsKeys(certs: seq<Record>, k: string)
    ensures k in Groups(certs) <==> exists i :: 0 <= i < |certs| && Addressed(certs[i], k)
  {
    if |certs| > 0 {
      var front := certs[..|certs| - 1];
      GroupsKeys(front, k);
      AddCertificateEffect(Groups(front), certs[|certs| - 1], k);
      ExistsSnoc(certs, front, c => Addressed(c, k));
    }
  }

  /** Each group holds the certificates addressed to its recipient, in input order. */
  lemma {:induction false} GroupsContents(certs: seq<Record>, k: string)
    requires k in Groups(certs)
    ensures Groups(certs)[k] == AddressedTo(certs, k)
  {
    var front := certs[..|certs| - 1];
    AddCertificateEffect(Groups(front), certs[|certs| - 1], k);
    if k in Groups(front) {
      GroupsContents(front, k);
    } else {
      GroupsKeys(front, k);
      AddressedToNone(front, k);
    }
  }

  /**
   * group_certificates_by_owner: one group per non-empty owner e-mail and
   * per non-empty support e-mail that differs from its owner, each holding
   * the certificates addressed to it in input order.
   */
  method GroupCertificatesByOwner(certs: seq<Record>) returns (grouped: map<string, seq<Record>>)
    ensures grouped == Groups(certs)
    ensures forall k :: k in grouped <==> exists i :: 0 <= i < |certs| && Addressed(certs[i], k)
    ensures forall k :: k in grouped ==> grouped[k] == AddressedTo(certs, k)
  {
    grouped := map[];
    for n := 0 to |certs|
      invariant grouped == Groups(certs[..n])
    {
      assert certs[..n + 1][..n] == certs[..n];
      var cert := certs[n];
      var ownerEmail := OwnerKey(cert);
      var supportEmail := SupportKey(cert);
      ghost var before := grouped;
      ghost var afterOwner := if ownerEmail != "" then Append(before, ownerEmail, cert) else before;
      if ownerEmail != "" {
        var group := if ownerEmail in grouped then grouped[ownerEmail] else [];
        grouped := grouped[ownerEmail := group + [cert]];
      }
      assert grouped == afterOwner;
      if supportEmail != "" && supportEmail != ownerEmail {
        var group := if supportEmail in grouped then grouped[supportEmail] else [];
        grouped := grouped[supportEmail := group + [cert]];
      }
      assert grouped == AddFor(before, cert, ownerEmail, supportEmail);
    }
    assert certs[..|certs|] == certs;
    forall k
      ensures k in grouped <==> exists i :: 0 <= i < |certs| && Addressed(certs[i], k)
    {
      GroupsKeys(certs, k);
    }
    forall k | k in grouped
      ensures grouped[k] == AddressedTo(certs, k)
    {
      GroupsContents(certs, k);
    }
  }

  /** A certificate is addressed to its owner, its support team, or nobody else: at most two groups. */
  lemma AddressedAtMostTwice(cert: Record, recipient: string)
    requires Addressed(cert, recipient)
    ensures recipient == OwnerKey(cert) || recipient == SupportKey(cert)
    ensures recipient != ""
  {
  }

  /** Within one group a certificate occurs once per time it occurs in the input. */
  lemma {:induction false} AddressedToOnce(certs: seq<Record>, recipient: string, c: Record)
    ensures multiset(AddressedTo(certs, recipient))[c] == (if Addressed(c, recipient) then multiset(certs)[c] else 0)
  {
    if |certs| > 0 {
      var front := certs[..|certs| - 1];
      assert certs == front + [certs[|certs| - 1]];
      AddressedToOnce(front, recipient, c);
    }
  }

  // ----- process_notifications -----

  /** The group key is a usable e-mail address: non-empty and containing '@'. */
  predicate Deliverable(recipient: string)
  {
    recipient != "" && '@' in recipient
  }

  function SentTo(recipients: set<string>, failing: set<string>): set<string>
  {
    set k | k in recipients && Deliverable(k) && k !in failing
  }

  function FailedFor(recipients: set<string>, failing: set<string>): set<string>
  {
    set k | k in recipients && Deliverable(k) && k in failing
  }

  /** Taking one more recipient in adds it to the sent or the failed set, or to neither. */
  lemma SentStep(done: set<string>, x: string, failing: set<string>)
    requires x !in done
    ensures SentTo(done + {x}, failing) == SentTo(done, failing) + (if Deliverable(x) && x !in failing then {x} else {})
    ensures FailedFor(done + {x}, failing) == FailedFor(done, failing) + (if Deliverable(x) && x in failing then {x} else {})
  {
  }

  /** So each counter goes up by one at most, and only the matching one. */
  lemma CountStep(done: set<string>, x: string, failing: set<string>)
    requires x !in done
    ensures |SentTo(done + {x}, failing)| == |SentTo(done, failing)| + (if Deliverable(x) && x !in failing then 1 else 0)
    ensures |FailedFor(done + {x}, failing)| == |FailedFor(done, failing)| + (if Deliverable(x) && x in failing then 1 else 0)
  {
    SentStep(done, x, failing);
    assert x !in SentTo(done, failing) && x !in FailedFor(done, failing);
  }

  /** Moving one recipient from the remaining ones to the handled ones keeps the two apart and their union. */
  lemma TakeOne(remaining: set<string>, done: set<string>, x: string)
    requires remaining !! done && x in remaining
    ensures (remaining - {x}) !! (done + {x}) && (remaining - {x}) + (done + {x}) == remaining + done
  {
  }

  /** Every deliverable recipient is either sent to or failed, never both. */
  lemma SentOrFailed(recipients: set<string>, failing: set<string>)
    ensures |SentTo(recipients, failing)| + |FailedFor(recipients, failing)| == |set k | k in recipients && Deliverable(k)|
  {
    var deliverable := set k | k in recipients && Deliverable(k);
    assert deliverable == SentTo(recipients, failing) + FailedFor(recipients, failing);
    assert SentTo(recipients, failing) !! FailedFor(recipients, failing);
  }

  /**
   * process_notifications: one e-mail per group whose key is an address;
   * it counts as sent, or as failed for the recipients whose send raises
   * (`failing`).  Keys that are not addresses are only logged.
   */
  method ProcessNotifications(groups: map<string, seq<Record>>, failing: set<string>) returns (sent: nat, failed: nat)
    ensures sent == |SentTo(groups.Keys, failing)|
    ensures failed == |FailedFor(groups.Keys, failing)|
    ensures sent + failed == |set k | k in groups && Deliverable(k)|
  {
    sent, failed := 0, 0;
    var remaining := groups.Keys;
    ghost var done: set<string> := {};
    while remaining != {}
      invariant remaining !! done && remaining + done == groups.Keys
      invariant sent == |SentTo(done, failing)|
      invariant failed == |FailedFor(done, failing)|
      decreases remaining
    {
      var ownerEmail :| ownerEmail in remaining;
      CountStep(done, ownerEmail, failing);
      TakeOne(remaining, done, ownerEmail);
      if Deliverable(ownerEmail) {
        if ownerEmail in failing {
          failed := failed + 1;
        } else {
          sent := sent + 1;
        }
      }
      remaining := remaining - {ownerEmail};
      done := done + {ownerEmail};
    }
    SentOrFailed(groups.Keys, failing);
  }

  // ----- count_by_field -----

  /** `cert.get(field, 'Unknown')` */
  function FieldValue(cert: Record, field: string): Value
  {
    if field in cert then cert[field] else Text(Unknown)
  }

  /** The field value of every certificate, in order. */
  function FieldValues(certs: seq<Record>, field: string): (vs: seq<Value>)
    ensures |vs| == |certs|
  {
    if |certs| == 0 then [] else FieldValues(certs[..|certs| - 1], field) + [FieldValue(certs[|certs| - 1], field)]
  }

  /**
   * count_by_field: the count of each value is the number of certificates
   * holding it (missing fields counted under 'Unknown'); the counts are
   * the multiset of field values, so they add up to the number of
   * certificates.
   */
  method CountByField(certs: seq<Record>, field: string) returns (counts: map<Value, nat>)
    ensures forall v :: v in counts <==> v in multiset(FieldValues(certs, field))
    ensures forall v :: v in counts ==> counts[v] == multiset(FieldValues(certs, field))[v]
    ensures |multiset(FieldValues(certs, field))| == |certs|
  {
    counts := map[];
    for i := 0 to |certs|
      invariant Tallies(counts, multiset(FieldValues(certs[..i], field)))
    {
      assert certs[..i + 1][..i] == certs[..i];
      var value := FieldValue(certs[i], field);
      TalliesStep(counts, multiset(FieldValues(certs[..i], field)), value);
      counts := counts[value := (if value in counts then counts[value] else 0) + 1];
    }
    assert certs[..|certs|] == certs;
  }

  /** `counts` holds, for each value, how often it occurs in `seen`. */
  ghost predicate Tallies(counts: map<Value, nat>, seen: multiset<Value>)
  {
    (forall v :: v in counts <==> v in seen) && (forall v :: v in counts ==> counts[v] == seen[v])
  }

  /** Counting one more occurrence of `value` keeps the tally. */
  lemma TalliesStep(counts: map<Value, nat>, seen: multiset<Value>, value: Value)
    requires Tallies(counts, seen)
    ensures Tallies(counts[value := (if value in counts then counts[value] else 0) + 1], seen + multiset{value})
  {
  }

  // ----- categorize_by_urgency -----

  /** The expiry date text of a certificate, `''` when absent. */
  function ExpiryText(cert: Record): string
  {
    GetText(cert, "ExpiryDate", "")
  }

  /** (urgent, warning) for `certs`: readable dates with under 7 days left, and the other readable dates. */
  function UrgencyCounts(certs: seq<Record>, now: Instant): (c: (nat, nat))
    requires ValidInstant(now)
  {
    if |certs| == 0 then (0, 0)
    else Bucket(UrgencyCounts(certs[..|certs| - 1], now), DaysUntilExpiry(ExpiryText(certs[|certs| - 1]), now))
  }

  /** A date under 7 days away is urgent, a later one a warning, an unreadable one neither. */
  function Bucket(counts: (nat, nat), days: Option<int>): (nat, nat)
  {
    match days
    case Some(d) => if d < 7 then (counts.0 + 1, counts.1) else (counts.0, counts.1 + 1)
    case None => counts
  }

  /** One more certificate is counted by its own days left. */
  lemma UrgencyStep(certs: seq<Record>, i: nat, now: Instant)
    requires ValidInstant(now) && i < |certs|
    ensures UrgencyCounts(certs[..i + 1], now)
            == Bucket(UrgencyCounts(certs[..i], now), DaysUntilExpiry(ExpiryText(certs[i]), now))
  {
    assert certs[..i + 1][..i] == certs[..i];
  }

  /** The certificates whose expiry date reads. */
  function Readable(certs: seq<Record>): nat
  {
    if |certs| == 0 then 0
    else Readable(certs[..|certs| - 1]) + (if ParseIso(ExpiryText(certs[|certs| - 1])).Some? then 1 else 0)
  }

  /** Every certificate with a readable date is counted once, as urgent or as warning; the others in neither. */
  lemma {:induction false} UrgencyCountsTotal(certs: seq<Record>, now: Instant)
    requires ValidInstant(now)
    ensures UrgencyCounts(certs, now).0 + UrgencyCounts(certs, now).1 == Readable(certs) <= |certs|
  {
    if |certs| > 0 {
      UrgencyCountsTotal(certs[..|certs| - 1], now);
    }
  }

  /** The loop body of categorize_by_urgency: under 7 days is urgent, otherwise a warning. */
  method CountUrgency(urgent: nat, warning: nat, days: Option<int>) returns (urgent': nat, warning': nat)
    ensures (urgent', warning') == Bucket((urgent, warning), days)
  {
    urgent', warning' := urgent, warning;
    if days.Some? {
      if days.value < 7 {
        urgent' := urgent + 1;
      } else {
        warning' := warning + 1;
      }
    }
  }

  /**
   * categorize_by_urgency: counts the certificates with under 7 days left
   * as urgent and the other readable dates as warning.  The certificates
   * it is given carry their expiry dates as text (Python raises on any
   * other value).
   */
  method CategorizeByUrgency(certs: seq<Record>, now: Instant) returns (urgent: nat, warning: nat)
    requires ValidInstant(now)
    requires forall i :: 0 <= i < |certs| ==> "ExpiryDate" in certs[i] ==> certs[i]["ExpiryDate"].Text?
    ensures (urgent, warning) == UrgencyCounts(certs, now)
    ensures urgent + warning == Readable(certs)
  {
    urgent, warning := 0, 0;
    for i := 0 to |certs|
      invariant (urgent, warning) == UrgencyCounts(certs[..i], now)
    {
      var days := DaysUntilExpiry(ExpiryText(certs[i]), now);
      UrgencyStep(certs, i, now);
      urgent, warning := CountUrgency(urgent, warning, days);
    }
    assert certs[..|certs|] == certs;
    UrgencyCountsTotal(certs, now);
  }
}

=== FILE: config.dfy ===
/**
 * Central configuration (src/utils/config.py): the environment and region
 * a deployment runs in, the names of its tables and buckets, the checks a
 * Lambda deployment makes on its variables, and the process-wide cached
 * configuration.
 *
 * The process environment (`os.environ`) is a parameter: a map from
 * variable name to value.
 */
module Configuration {

  import opened Wrappers
  import opened Text

  type Environ = map<string, string>

  const DefaultRegion := "eu-west-1"
  const DefaultExpiryThreshold := 30
  const DefaultEnvironment := "dev"
  const DefaultSender := "vinaya-c.nayanegali@capgemini.com"

  /** Every generated name starts `cert-management-`, then the environment. */
  const NamePrefix := "cert-management-"

  /** `os.environ.get(key, default)` */
  function Get(env: Environ, key: string, default: string): string
  {
    if key in env then env[key] else default
  }

  /** `os.environ.get(key)` is truthy: set and not empty. */
  predicate IsSet(env: Environ, key: string)
  {
    key in env && env[key] != ""
  }

  // ----- the deployment's environment -----

  /**
   * `environment or os.environ.get('ENVIRONMENT', 'dev')`: a non-empty
   * argument wins; otherwise the variable, even when it is empty; otherwise
   * `dev`.
   */
  function EnvironmentName(environment: Option<string>, env: Environ): (name: string)
    ensures environment.Some? && environment.value != "" ==> name == environment.value
    ensures (environment.None? || environment.value == "") && "ENVIRONMENT" in env ==> name == env["ENVIRONMENT"]
    ensures (environment.None? || environment.value == "") && "ENVIRONMENT" !in env ==> name == "dev"
  {
    if environment.Some? && environment.value != "" then environment.value
    else Get(env, "ENVIRONMENT", DefaultEnvironment)
  }

  /** A configuration: the environment and region fixed when it was made. */
  datatype Config = Config(environment: string, region: string)

  /** `Config(environment)` */
  function NewConfig(environment: Option<string>, env: Environ): (c: Config)
    ensures c.environment == EnvironmentName(environment, env)
    ensures c.region == (if "AWS_REGION" in env then env["AWS_REGION"] else "eu-west-1")
  {
    Config(EnvironmentName(environment, env), Get(env, "AWS_REGION", DefaultRegion))
  }

  // ----- table and bucket names -----

  /** The tables and buckets a deployment names. */
  datatype Resource = CertificatesTable | LogsTable | DashboardBucket | UploadsBucket | LogsBucket

  /** The variable that overrides a resource's name. */
  function OverrideVariable(r: Resource): string
  {
    match r
    case CertificatesTable => "CERTIFICATES_TABLE"
    case LogsTable => "LOGS_TABLE"
    case DashboardBucket => "DASHBOARD_BUCKET"
    case UploadsBucket => "UPLOADS_BUCKET"
    case LogsBucket => "LOGS_BUCKET"
  }

  /** What a resource's name template puts after the environment. */
  function Suffix(r: Resource): string
  {
    match r
    case CertificatesTable => "-certificates"
    case LogsTable => "-certificate-logs"
    case DashboardBucket => "-dashboard"
    case UploadsBucket => "-uploads"
    case LogsBucket => "-logs"
  }

  /** `TEMPLATE.format(env=environment)`, e.g. `cert-management-dev-certificates`. */
  function TemplateName(r: Resource, environment: string): (name: string)
    ensures |name| == |NamePrefix| + |environment| + |Suffix(r)|
  {
    NamePrefix + environment + Suffix(r)
  }

  /**
   * The `get_..._name` getters: the override variable when it is set and
   * not empty, else the template filled with the configuration's
   * environment.
   */
  function ResourceName(r: Resource, c: Config, env: Environ): (name: string)
    ensures IsSet(env, OverrideVariable(r)) ==> name == env[OverrideVariable(r)]
    ensures !IsSet(env, OverrideVariable(r)) ==> name == TemplateName(r, c.environment)
  {
    if IsSet(env, OverrideVariable(r)) then env[OverrideVariable(r)] else TemplateName(r, c.environment)
  }

  /** Reads the environment back out of a templated name, when the name has the template's shape. */
  function TemplateEnvironment(r: Resource, name: string): (environment: Option<string>)
    ensures environment.Some? ==> TemplateName(r, environment.value) == name
  {
    var p, s := NamePrefix, Suffix(r);
    if |name| >= |p| + |s| && name[..|p|] == p && name[|name| - |s|..] == s then
      var e := name[|p|..|name| - |s|];
      assert name == name[..|p|] + e + name[|name| - |s|..];
      Some(e)
    else None
  }

  /** A templated name gives back the environment it was made for. */
  lemma TemplateNameReadsBack(r: Resource, environment: string)
    ensures TemplateEnvironment(r, TemplateName(r, environment)) == Some(environment)
  {
    var name := TemplateName(r, environment);
    var p, s := NamePrefix, Suffix(r);
    assert name[..|p|] == p;
    assert name[|name| - |s|..] == s;
    assert name[|p|..|name| - |s|] == environment;
  }

  /** Two environments never share a templated name. */
  lemma TemplateNamesSeparateEnvironments(r: Resource, e1: string, e2: string)
    requires e1 != e2
    ensures TemplateName(r, e1) != TemplateName(r, e2)
  {
    TemplateNameReadsBack(r, e1);
    TemplateNameReadsBack(r, e2);
  }

  /** Within one environment, the five templated names are all different. */
  lemma TemplateNamesSeparateResources(r1: Resource, r2: Resource, environment: string)
    requires r1 != r2
    ensures TemplateName(r1, environment) != TemplateName(r2, environment)
  {
  }

  /** `get_sender_email` */
  function SenderEmail(env: Environ): (sender: string)
    ensures "SENDER_EMAIL" !in env ==> sender == DefaultSender
    ensures "SENDER_EMAIL" in env ==> sender == env["SENDER_EMAIL"]
  {
    Get(env, "SENDER_EMAIL", DefaultSender)
  }

  /**
   * `int(os.environ.get('EXPIRY_THRESHOLD', 30))`: 30 when the variable is
   * not set, else the variable read as a whole number; `None` stands for
   * the `ValueError` that text which is not a number raises.
   */
  function ExpiryThresholdDays(env: Environ): (days: Option<int>)
    ensures "EXPIRY_THRESHOLD" !in env ==> days == Some(30)
    ensures "EXPIRY_THRESHOLD" in env && days.Some? ==> Strip(env["EXPIRY_THRESHOLD"]) != ""
  {
    if "EXPIRY_THRESHOLD" in env then ParseInt(env["EXPIRY_THRESHOLD"]) else Some(DefaultExpiryThreshold)
  }

  /** A threshold written out as a number is read back as that number. */
  lemma ThresholdReadsBack(env: Environ, days: int)
    ensures ExpiryThresholdDays(env["EXPIRY_THRESHOLD" := IntToString(days)]) == Some(days)
  {
    IntToStringParses(days);
  }

  // ----- validation -----

  /** The variables a Lambda deployment must set. */
  const RequiredVariables: seq<string> := ["CERTIFICATES_TABLE", "LOGS_TABLE"]

  /** The required variables that are not set or empty, in the order they are required. */
  function MissingVariables(env: Environ): (missing: seq<string>)
    ensures forall v :: v in missing <==> v in RequiredVariables && !IsSet(env, v)
    ensures |missing| <= |RequiredVariables|
  {
    (if IsSet(env, "CERTIFICATES_TABLE") then [] else ["CERTIFICATES_TABLE"])
    + (if IsSet(env, "LOGS_TABLE") then [] else ["LOGS_TABLE"])
  }

  /** What `validate` does: return `True`, or raise with a message. */
  datatype Validation = Valid | Raised(message: string)

  /**
   * `validate`: only inside Lambda (`AWS_LAMBDA_FUNCTION_NAME` set and not
   * empty) are the table variables required; a missing one raises with
   * every missing name listed.
   */
  function Validate(env: Environ): (v: Validation)
    ensures v.Raised? <==> IsSet(env, "AWS_LAMBDA_FUNCTION_NAME") && MissingVariables(env) != []
    ensures v.Raised? ==>
              v.message == "Missing required environment variables: " + Join(MissingVariables(env), ", ")
  {
    if IsSet(env, "AWS_LAMBDA_FUNCTION_NAME") && MissingVariables(env) != [] then
      Raised("Missing required environment variables: " + Join(MissingVariables(env), ", "))
    else Valid
  }

  /** Outside Lambda, `validate` never raises. */
  lemma LocalAlwaysValid(env: Environ)
    requires IsLocalEnvironment(env)
    ensures Validate(env) == Valid
  {
  }

  /** Where both table variables are set, `validate` never raises, and the tables carry the names given. */
  lemma OverriddenTablesValid(env: Environ, c: Config)
    requires IsSet(env, "CERTIFICATES_TABLE") && IsSet(env, "LOGS_TABLE")
    ensures Validate(env) == Valid
    ensures ResourceName(CertificatesTable, c, env) == env["CERTIFICATES_TABLE"]
    ensures ResourceName(LogsTable, c, env) == env["LOGS_TABLE"]
  {
    assert MissingVariables(env) == [];
  }

  /** A Lambda deployment missing its certificates table raises, naming that variable first. */
  lemma MissingTableRaises(env: Environ)
    requires IsSet(env, "AWS_LAMBDA_FUNCTION_NAME") && !IsSet(env, "CERTIFICATES_TABLE")
    ensures Validate(env).Raised?
    ensures MissingVariables(env)[0] == "CERTIFICATES_TABLE"
  {
    assert "CERTIFICATES_TABLE" in MissingVariables(env);
  }

  // ----- where the code runs -----

  /** `is_lambda_environment`: the variable is present, whatever its value. */
  predicate IsLambdaEnvironment(env: Environ)
  {
    "AWS_LAMBDA_FUNCTION_NAME" in env
  }

  /** `is_local_environment` */
  predicate IsLocalEnvironment(env: Environ)
  {
    !IsLambdaEnvironment(env)
  }

  /**
   * Exactly one of the two detections holds; a Lambda variable that is
   * present but empty counts as Lambda here, yet makes `validate` skip its
   * checks.
   */
  lemma DetectionExclusive(env: Environ)
    ensures IsLambdaEnvironment(env) != IsLocalEnvironment(env)
    ensures IsLambdaEnvironment(env) && env["AWS_LAMBDA_FUNCTION_NAME"] == "" ==> Validate(env) == Valid
  {
  }

  // ----- the cached configuration -----

  /** Whether `get_config(environment)` keeps the cached configuration. */
  predicate Reuses(cached: Option<Config>, environment: Option<string>)
  {
    cached.Some? && !(environment.Some? && environment.value != "" && environment.value != cached.value.environment)
  }

  /** A fresh cache keeps the configuration until a different environment is asked for. */
  lemma ReuseRule(cached: Option<Config>, environment: Option<string>)
    ensures cached.None? ==> !Reuses(cached, environment)
    ensures cached.Some? && (environment.None? || environment.value == "") ==> Reuses(cached, environment)
    ensures cached.Some? && environment == Some(cached.value.environment) ==> Reuses(cached, environment)
    ensures Reuses(cached, environment) && environment.Some? && environment.value != "" ==>
              cached.value.environment == environment.value
  {
  }

  /** The process-wide `_config`. */
  class ConfigCache {

    var cached: Option<Config>

    constructor ()
      ensures cached == None
    {
      cached := None;
    }

    /**
     * `get_config`: the cached configuration when there is one and no
     * different environment is asked for; otherwise a new one, which
     * replaces the cached one.
     */
    method GetConfig(environment: Option<string>, env: Environ) returns (c: Config)
      modifies this
      ensures Reuses(old(cached), environment) ==> c == old(cached).value && cached == old(cached)
      ensures !Reuses(old(cached), environment) ==> c == NewConfig(environment, env) && cached == Some(c)
      ensures cached == Some(c)
    {
      if !Reuses(cached, environment) {
        cached := Some(NewConfig(environment, env));
      }
      c := cached.value;
    }

    /** `get_table_names` */
    method TableNames(environment: Option<string>, env: Environ) returns (certificates: string, logs: string)
      modifies this
      ensures cached.Some?
      ensures Reuses(old(cached), environment) ==> cached == old(cached)
      ensures !Reuses(old(cached), environment) ==> cached == Some(NewConfig(environment, env))
      ensures certificates == ResourceName(CertificatesTable, cached.value, env)
      ensures logs == ResourceName(LogsTable, cached.value, env)
    {
      var c := GetConfig(environment, env);
      certificates, logs := ResourceName(CertificatesTable, c, env), ResourceName(LogsTable, c, env);
    }

    /** `get_bucket_names` */
    method BucketNames(environment: Option<string>, env: Environ) returns (dashboard: string, uploads: string, logs: string)
      modifies this
      ensures cached.Some?
      ensures Reuses(old(cached), environment) ==> cached == old(cached)
      ensures !Reuses(old(cached), environment) ==> cached == Some(NewConfig(environment, env))
      ensures dashboard == ResourceName(DashboardBucket, cached.value, env)
      ensures uploads == ResourceName(UploadsBucket, cached.value, env)
      ensures logs == ResourceName(LogsBucket, cached.value, env)
    {
      var c := GetConfig(environment, env);
      dashboard := ResourceName(DashboardBucket, c, env);
      uploads := ResourceName(UploadsBucket, c, env);
      logs := ResourceName(LogsBucket, c, env);
    }

    /** `get_email_config` */
    method EmailConfig(environment: Option<string>, env: Environ) returns (sender: string, region: string)
      modifies this
      ensures cached.Some?
      ensures Reuses(old(cached), environment) ==> cached == old(cached)
      ensures !Reuses(old(cached), environment) ==> cached == Some(NewConfig(environment, env))
      ensures sender == SenderEmail(env) && region == cached.value.region
    {
      var c := GetConfig(environment, env);
      sender, region := SenderEmail(env), c.region;
    }
  }

  /**
   * Once a configuration is cached, a call without an environment keeps it
   * even when the `ENVIRONMENT` variable has changed since: the names then
   * follow the cached environment.
   */
  method CachedEnvironmentSticks(env1: Environ, env2: Environ) returns (first: Config, second: Config)
    ensures first == NewConfig(None, env1)
    ensures second == first
  {
    var cache := new ConfigCache();
    first := cache.GetConfig(None, env1);
    second := cache.GetConfig(None, env2);
  }
}

=== FILE: dashboard_api.dfy ===
/**
 * The dashboard's API (dashboard_api.py): list the certificates, add one
 * from the dashboard's form, and update one.  Status and days left are
 * always derived from the expiry date on the server; blank values are
 * never stored.
 *
 * The clock is an input twice over: `now` is the moment `utcnow()`
 * returns, and `stamp` its ISO text.  The generated UUID is an input, and
 * whether a DynamoDB write raises is an input.
 */
module DashboardApi {

  import opened Wrappers
  import opened Values
  import opened Text
  import opened Dates
  import opened Statuses
  import opened Store
  import opened UpdateExpressions

  // ----- reading the expiry date -----

  /** `YYYY-MM-DD`, with exactly two digits for the month and the day. */
  function ParseIsoDate(s: string): (d: Option<Date>)
    requires |s| == 10
    ensures d.Some? ==> ValidDate(d.value)
  {
    if s[4] == '-' && s[7] == '-' && AllDigits(s[..4]) && AllDigits(s[5..7]) && AllDigits(s[8..]) then
      MakeDate(DigitsValue(s[..4]), DigitsValue(s[5..7]), DigitsValue(s[8..]))
    else None
  }

  /** `HH:MM:SS` as microseconds since midnight. */
  function ParseClock(s: string): (micros: Option<int>)
    requires |s| == 8
    ensures micros.Some? ==> 0 <= micros.value < MicrosPerDay
  {
    if s[2] == ':' && s[5] == ':' && AllDigits(s[..2]) && AllDigits(s[3..5]) && AllDigits(s[6..]) then
      var h, m, sec := DigitsValue(s[..2]), DigitsValue(s[3..5]), DigitsValue(s[6..]);
      if h < 24 && m < 60 && sec < 60 then Some(((h * 60 + m) * 60 + sec) * 1_000_000) else None
    else None
  }

  /**
   * `datetime.fromisoformat(s)` for a date (`YYYY-MM-DD`, read as its
   * midnight) or a date and a time (`YYYY-MM-DDTHH:MM:SS`, with `T` or a
   * space between them).
   */
  function FromIsoFormat(s: string): (t: Option<Instant>)
    ensures t.Some? ==> ValidInstant(t.value)
    ensures t.Some? && |s| == 10 ==> t.value.micros == 0
  {
    if |s| == 10 then
      match ParseIsoDate(s)
      case Some(d) => Some(Instant(d, 0))
      case None => None
    else if |s| == 19 && (s[10] == 'T' || s[10] == ' ') then
      match (ParseIsoDate(s[..10]), ParseClock(s[11..]))
      case (Some(d), Some(us)) => Some(Instant(d, us))
      case _ => None
    else None
  }

  /** `datetime.fromisoformat(expiry_date.replace('Z', ''))`; `None` where that raises. */
  function ExpiryInstant(expiry: Value): (t: Option<Instant>)
    ensures t.Some? ==> expiry.Text? && ValidInstant(t.value)
  {
    if expiry.Text? then FromIsoFormat(RemoveAll(expiry.s, "Z")) else None
  }

  /** `(expiry - today).days`: whole days from `now` to `expiry`, rounded down. */
  function DaysBetween(expiry: Instant, now: Instant): int
    requires ValidInstant(expiry) && ValidInstant(now)
  {
    ((DayNumber(expiry.date) - DayNumber(now.date)) * MicrosPerDay + expiry.micros - now.micros) / MicrosPerDay
  }

  /** calculate_status: the 30-day rule, and `Unknown` when the date cannot be read. */
  function CalculateStatus(expiry: Value, now: Instant): (status: string)
    requires ValidInstant(now)
    ensures status == Unknown <==> ExpiryInstant(expiry).None?
    ensures status in {Expired, DueForRenewal, Active, Unknown}
  {
    match ExpiryInstant(expiry)
    case Some(t) => StatusForDays(DaysBetween(t, now))
    case None => Unknown
  }

  /** calculate_days_until_expiry: 0 when the date cannot be read. */
  function CalculateDays(expiry: Value, now: Instant): (days: int)
    requires ValidInstant(now)
    ensures ExpiryInstant(expiry).None? ==> days == 0
  {
    match ExpiryInstant(expiry)
    case Some(t) => DaysBetween(t, now)
    case None => 0
  }

  /** Whenever the date can be read, the status is the 30-day rule applied to the days reported beside it. */
  lemma StatusAgreesWithDays(expiry: Value, now: Instant)
    requires ValidInstant(now) && ExpiryInstant(expiry).Some?
    ensures CalculateStatus(expiry, now) == StatusForDays(CalculateDays(expiry, now))
    ensures CalculateDays(expiry, now) < 0 <==> CalculateStatus(expiry, now) == Expired
  {
  }

  lemma {:induction false} RemoveAllAbsent(s: string, c: char)
    requires c !in s
    ensures RemoveAll(s, [c]) == s
    decreases |s|
  {
    if s != "" {
      assert !StartsWith(s, [c]) by {
        assert s[..1][0] == s[0];
      }
      RemoveAllAbsent(s[1..], c);
      assert s == [s[0]] + s[1..];
    }
  }

  /**
   * A date written in the `%Y-%m-%d` form, as the dashboard's form sends
   * it, is read as its midnight, and the days left are then those of the
   * shared rule that counts from the current moment.
   */
  lemma FormattedDateDays(d: Date, now: Instant)
    requires ValidDate(d) && ValidInstant(now)
    ensures ExpiryInstant(Text(FormatIso(d))) == Some(Instant(d, 0))
    ensures CalculateDays(Text(FormatIso(d)), now) == DaysFromNow(d, now)
    ensures CalculateStatus(Text(FormatIso(d)), now) == StatusForDays(DaysFromNow(d, now))
  {
    var s := FormatIso(d);
    var y, m, dd := Pad4(d.year), Pad2(d.month), Pad2(d.day);
    assert s == y + "-" + m + "-" + dd;
    assert s[..4] == y && s[5..7] == m && s[8..] == dd;
    assert 'Z' !in s by {
      assert forall i :: 0 <= i < |s| ==> s[i] == '-' || IsDigit(s[i]);
    }
    RemoveAllAbsent(s, 'Z');
    Pad4Value(d.year);
    Pad2Value(d.month);
    Pad2Value(d.day);
  }

  // ----- adding a certificate -----

  const RequiredFields: seq<string> := ["CertificateName", "Environment", "Application", "ExpiryDate", "OwnerEmail"]

  /** The fields the body lacks or leaves falsy, in the order they are required. */
  function MissingFields(fields: seq<string>, body: Record): (missing: seq<string>)
    ensures |missing| <= |fields|
    ensures forall f :: f in missing <==> f in fields && !Truthy(Member(body, f, Null))
  {
    if fields == [] then []
    else (if Truthy(Member(body, fields[0], Null)) then [] else [fields[0]]) + MissingFields(fields[1..], body)
  }

  /** Fields that are all missing are reported all, in the order given. */
  lemma {:induction false} AllFieldsMissing(fields: seq<string>, body: Record)
    requires forall i :: 0 <= i < |fields| ==> !Truthy(Member(body, fields[i], Null))
    ensures MissingFields(fields, body) == fields
  {
    if fields != [] {
      AllFieldsMissing(fields[1..], body);
    }
  }

  /** An empty form is refused, naming every required field in order. */
  lemma EmptyFormMissesAll()
    ensures MissingFields(RequiredFields, map[]) == RequiredFields
  {
    AllFieldsMissing(RequiredFields, map[]);
  }

  /** `body.get('CertificateID') or f"cert-{uuid}"` */
  function CertificateId(body: Record, uuid: string): (id: Value)
    ensures Truthy(id)
  {
    var given := Member(body, IdKey, Null);
    if Truthy(given) then given else Text("cert-" + uuid)
  }

  /** The attributes of a certificate added from the dashboard. */
  const CertificateKeys: set<string> :=
    {IdKey, "CertificateName", "Environment", "Application", "ExpiryDate", "Type", "Status", "DaysUntilExpiry",
     "OwnerEmail", "SupportEmail", "AccountNumber", "SerialNumber", "LastUpdatedOn", "CreatedOn", "Version",
     "ImportedFrom"}

  /** The value handle_add_certificate gives `key`, before blank values are dropped. */
  function DraftValue(body: Record, key: string, id: Value, status: string, days: string, stamp: string): Value
  {
    if key == IdKey then id
    else if key in RequiredFields then Member(body, key, Null)
    else if key == "Status" then Text(status)
    else if key == "DaysUntilExpiry" then Text(days)
    else if key == "Version" then Number(1)
    else if key == "LastUpdatedOn" || key == "CreatedOn" then Text(stamp)
    else if key == "Type" then Member(body, key, Text("SSL/TLS"))
    else if key == "ImportedFrom" then Member(body, key, Text("Dashboard"))
    else if key in {"SupportEmail", "AccountNumber", "SerialNumber"} then Member(body, key, Text(""))
    else Member(body, key, Null)
  }

  /** The certificate record with its key, status, days left and time stamp given, blank values dropped. */
  function Stored(body: Record, id: Value, status: string, days: string, stamp: string): (r: Record)
    ensures forall k :: k in r ==> k in CertificateKeys && !Blank(r[k])
  {
    map k | k in CertificateKeys && !Blank(DraftValue(body, k, id, status, days, stamp))
      :: DraftValue(body, k, id, status, days, stamp)
  }

  /** The record handle_add_certificate stores. */
  function NewCertificate(body: Record, uuid: string, stamp: string, now: Instant): (r: Record)
    requires ValidInstant(now)
    ensures forall k :: k in r ==> k in CertificateKeys && !Blank(r[k])
  {
    var expiry := Member(body, "ExpiryDate", Null);
    Stored(body, CertificateId(body, uuid), CalculateStatus(expiry, now), IntToString(CalculateDays(expiry, now)), stamp)
  }

  /** `str(n)` is never one of the blank values. */
  lemma NumberTextNotBlank(n: int)
    ensures !Blank(Text(IntToString(n)))
  {
    var r := IntToString(n);
    assert r[0] == '-' || IsDigit(r[0]);
  }

  lemma StoredDerived(body: Record, id: Value, status: string, days: string, stamp: string)
    requires !Blank(Text(status)) && !Blank(Text(days))
    ensures var r := Stored(body, id, status, days, stamp);
            && "Status" in r && r["Status"] == Text(status)
            && "DaysUntilExpiry" in r && r["DaysUntilExpiry"] == Text(days)
  {
    StoredAt(body, id, status, days, stamp, "Status", Text(status));
    StoredAt(body, id, status, days, stamp, "DaysUntilExpiry", Text(days));
  }

  lemma StoredIdentity(body: Record, id: Value, status: string, days: string, stamp: string)
    ensures var r := Stored(body, id, status, days, stamp);
            && "Version" in r && r["Version"] == Number(1)
            && (IdKey in r <==> !Blank(id))
            && (IdKey in r ==> r[IdKey] == id)
  {
    StoredAt(body, id, status, days, stamp, "Version", Number(1));
    StoredAt(body, id, status, days, stamp, IdKey, id);
  }

  /** One attribute of the stored record, from its draft value. */
  lemma StoredAt(body: Record, id: Value, status: string, days: string, stamp: string, key: string, v: Value)
    requires key in CertificateKeys && DraftValue(body, key, id, status, days, stamp) == v
    ensures var r := Stored(body, id, status, days, stamp);
            (key in r <==> !Blank(v)) && (key in r ==> r[key] == v)
  {
  }

  /**
   * A new certificate always carries the status and the days left that
   * the server derives from the expiry date, whatever status the form
   * sent; it is version 1, and it is filed under the form's ID or else
   * the generated one.
   */
  lemma NewCertificateDerivesStatus(body: Record, uuid: string, stamp: string, now: Instant)
    requires ValidInstant(now)
    ensures var r, expiry := NewCertificate(body, uuid, stamp, now), Member(body, "ExpiryDate", Null);
            && "Status" in r && r["Status"] == Text(CalculateStatus(expiry, now))
            && "DaysUntilExpiry" in r && r["DaysUntilExpiry"] == Text(IntToString(CalculateDays(expiry, now)))
            && "Version" in r && r["Version"] == Number(1)
            && (IdKey in r <==> CertificateId(body, uuid) != Text("None"))
            && (IdKey in r ==> r[IdKey] == CertificateId(body, uuid))
  {
    var expiry := Member(body, "ExpiryDate", Null);
    NumberTextNotBlank(CalculateDays(expiry, now));
    StoredDerived(body, CertificateId(body, uuid), CalculateStatus(expiry, now),
                  IntToString(CalculateDays(expiry, now)), stamp);
    StoredIdentity(body, CertificateId(body, uuid), CalculateStatus(expiry, now),
                   IntToString(CalculateDays(expiry, now)), stamp);
  }

  /** Every required field the form sent is stored as sent, unless it is the text `None`. */
  lemma NewCertificateKeepsFields(body: Record, uuid: string, stamp: string, now: Instant, f: string)
    requires ValidInstant(now) && f in RequiredFields
    requires Truthy(Member(body, f, Null)) && Member(body, f, Null) != Text("None")
    ensures var r := NewCertificate(body, uuid, stamp, now);
            f in r && r[f] == body[f]
  {
    var expiry := Member(body, "ExpiryDate", Null);
    StoredKeeps(body, CertificateId(body, uuid), CalculateStatus(expiry, now),
                IntToString(CalculateDays(expiry, now)), stamp, f);
  }

  lemma StoredKeeps(body: Record, id: Value, status: string, days: string, stamp: string, f: string)
    requires f in RequiredFields && f in body && !Blank(body[f])
    ensures var r := Stored(body, id, status, days, stamp);
            f in r && r[f] == body[f]
  {
  }

  datatype Response =
    | Listing(items: set<Record>)               // 200 with the scanned records
    | Created(certificate: Record)              // 201
    | Updated                                   // 200
    | Missing(fields: seq<string>)              // 400, "Missing required fields"
    | Failed(statusCode: int, error: string)

  const AddFailed := Failed(500, "Failed to add certificate")
  const UpdateFailed := Failed(500, "Failed to update certificate")
  const FetchFailed := Failed(500, "Failed to fetch certificates")

  /** handle_get_certificates: every stored record, or 500 when the scan raises. */
  method HandleGetCertificates(table: CertificateTable, scanFails: bool) returns (response: Response)
    ensures response.Listing? <==> !scanFails
    ensures response.Listing? ==> response.items == table.items.Values
    ensures scanFails ==> response == FetchFailed
  {
    if scanFails {
      return FetchFailed;
    }
    response := Listing(table.items.Values);
  }

  /** What handle_add_certificate answers and the table it leaves. */
  function AddOutcome(items: map<string, Record>, body: Option<Record>, uuid: string, stamp: string, now: Instant,
                      writeFails: bool, logFails: bool): (Response, map<string, Record>)
    requires ValidInstant(now)
  {
    if body.None? then (AddFailed, items)
    else if MissingFields(RequiredFields, body.value) != [] then (Missing(MissingFields(RequiredFields, body.value)), items)
    else
      var c := NewCertificate(body.value, uuid, stamp, now);
      if !HasId(c) || writeFails then (AddFailed, items)
      else (if logFails then AddFailed else Created(c), items[c[IdKey].s := c])
  }

  /**
   * handle_add_certificate.  A body that is not a JSON object raises
   * (500); missing fields are refused with 400 and change nothing.  The
   * record is put whole; DynamoDB refuses one whose key is not text or
   * was dropped as blank (500).  The audit entry is written after the
   * record, so when that write fails the record is stored and the answer
   * is still 500.
   */
  method HandleAddCertificate(table: CertificateTable, body: Option<Record>, uuid: string, stamp: string,
                              now: Instant, writeFails: bool, logFails: bool)
    returns (response: Response)
    requires table.Valid() && ValidInstant(now)
    modifies table
    ensures table.Valid()
    ensures body.None? ==> response == AddFailed && table.items == old(table.items)
    ensures body.Some? && MissingFields(RequiredFields, body.value) != [] ==>
              response == Missing(MissingFields(RequiredFields, body.value)) && table.items == old(table.items)
    ensures body.Some? && MissingFields(RequiredFields, body.value) == [] ==>
              var c := NewCertificate(body.value, uuid, stamp, now);
              (HasId(c) && !writeFails ==>
                 table.items == old(table.items)[c[IdKey].s := c]
                 && response == (if logFails then AddFailed else Created(c)))
              && (!(HasId(c) && !writeFails) ==> response == AddFailed && table.items == old(table.items))
    ensures (response, table.items) == AddOutcome(old(table.items), body, uuid, stamp, now, writeFails, logFails)
  {
    if body.None? {
      return AddFailed;
    }
    var missing := MissingFields(RequiredFields, body.value);
    if missing != [] {
      return Missing(missing);
    }
    var certificate := NewCertificate(body.value, uuid, stamp, now);
    if !HasId(certificate) || writeFails {
      return AddFailed;
    }
    table.Put(certificate);
    if logFails {
      return AddFailed;
    }
    response := Created(certificate);
  }

  // ----- updating a certificate -----

  /**
   * The body after handle_update_certificate's own assignments: when
   * `derive` holds, `Status` and `DaysUntilExpiry` are set to the given
   * texts; `LastUpdatedOn` is always stamped.
   */
  function Restamped(body: Body, derive: bool, status: string, days: string, stamp: string): (r: Body)
    requires WellFormed(body)
    ensures WellFormed(r)
  {
    var derived := if derive then Assign(Assign(body, "Status", Text(status)), "DaysUntilExpiry", Text(days)) else body;
    Assign(derived, "LastUpdatedOn", Text(stamp))
  }

  /**
   * The body handle_update_certificate writes: with a truthy expiry date,
   * `Status` and `DaysUntilExpiry` are recomputed from it (a status the
   * form sent is overwritten).
   */
  function Prepared(body: Body, stamp: string, now: Instant): (r: Body)
    requires WellFormed(body) && ValidInstant(now)
    ensures WellFormed(r)
  {
    var expiry := Member(body.fields, "ExpiryDate", Null);
    Restamped(body, Truthy(expiry), CalculateStatus(expiry, now), IntToString(CalculateDays(expiry, now)), stamp)
  }

  lemma RestampedDerives(body: Body, status: string, days: string, stamp: string)
    requires WellFormed(body) && !Blank(Text(status)) && !Blank(Text(days))
    ensures var w := KeptFields(Restamped(body, true, status, days, stamp), true);
            && "Status" in w && w["Status"] == Text(status)
            && "DaysUntilExpiry" in w && w["DaysUntilExpiry"] == Text(days)
            && (!Blank(Text(stamp)) ==> "LastUpdatedOn" in w && w["LastUpdatedOn"] == Text(stamp))
  {
    var r := Restamped(body, true, status, days, stamp);
    assert r.fields == body.fields["Status" := Text(status)]["DaysUntilExpiry" := Text(days)]["LastUpdatedOn" := Text(stamp)];
    assert r.fields["Status"] == Text(status) && r.fields["DaysUntilExpiry"] == Text(days);
    assert Kept("Status", Text(status), true) && Kept("DaysUntilExpiry", Text(days), true);
  }

  lemma RestampedKeeps(body: Body, status: string, days: string, stamp: string)
    requires WellFormed(body)
    ensures var w := KeptFields(Restamped(body, false, status, days, stamp), true);
            && (!Blank(Text(stamp)) ==> "LastUpdatedOn" in w && w["LastUpdatedOn"] == Text(stamp))
            && forall k :: k != "LastUpdatedOn" ==>
                 (k in w <==> k in body.fields && k != IdKey && !Blank(body.fields[k]))
                 && (k in w ==> w[k] == body.fields[k])
  {
  }

  /**
   * Whenever the body has an expiry date, an update writes the status and
   * the days left the server derives from it, whatever status the form
   * sent, and the time stamp.
   */
  lemma UpdateOverridesStatus(body: Body, stamp: string, now: Instant)
    requires WellFormed(body) && ValidInstant(now)
    requires Truthy(Member(body.fields, "ExpiryDate", Null))
    ensures var w, expiry := KeptFields(Prepared(body, stamp, now), true), Member(body.fields, "ExpiryDate", Null);
            && "Status" in w && w["Status"] == Text(CalculateStatus(expiry, now))
            && "DaysUntilExpiry" in w && w["DaysUntilExpiry"] == Text(IntToString(CalculateDays(expiry, now)))
            && (!Blank(Text(stamp)) ==> "LastUpdatedOn" in w && w["LastUpdatedOn"] == Text(stamp))
  {
    var expiry := Member(body.fields, "ExpiryDate", Null);
    NumberTextNotBlank(CalculateDays(expiry, now));
    RestampedDerives(body, CalculateStatus(expiry, now), IntToString(CalculateDays(expiry, now)), stamp);
  }

  /**
   * Without an expiry date, an update writes exactly the body's own
   * members, less the key and the blank values, and the time stamp.
   */
  lemma UpdateKeepsBody(body: Body, stamp: string, now: Instant)
    requires WellFormed(body) && ValidInstant(now)
    requires !Truthy(Member(body.fields, "ExpiryDate", Null))
    ensures var w := KeptFields(Prepared(body, stamp, now), true);
            && (!Blank(Text(stamp)) ==> "LastUpdatedOn" in w && w["LastUpdatedOn"] == Text(stamp))
            && forall k :: k != "LastUpdatedOn" ==>
                 (k in w <==> k in body.fields && k != IdKey && !Blank(body.fields[k]))
                 && (k in w ==> w[k] == body.fields[k])
  {
    var expiry := Member(body.fields, "ExpiryDate", Null);
    RestampedKeeps(body, CalculateStatus(expiry, now), IntToString(CalculateDays(expiry, now)), stamp);
  }

  /** What handle_update_certificate answers and the table it leaves. */
  function UpdateOutcome(items: map<string, Record>, body: Option<Body>, stamp: string, now: Instant,
                         writeFails: bool, logFails: bool): (Response, map<string, Record>)
    requires ValidInstant(now)
    requires body.Some? ==> WellFormed(body.value)
  {
    if body.None? then (UpdateFailed, items)
    else
      var id := Member(body.value.fields, IdKey, Null);
      if !Truthy(id) then (Failed(400, "CertificateID is required"), items)
      else if !id.Text? || writeFails then (UpdateFailed, items)
      else
        (if logFails then UpdateFailed else Updated,
         items[id.s := Upserted(items, id.s, KeptFields(Prepared(body.value, stamp, now), true))])
  }

  /**
   * handle_update_certificate.  A body that is not a JSON object, a key
   * that is not text and a failing write raise (500) and change nothing;
   * a missing or falsy `CertificateID` is refused with 400.  Otherwise the
   * kept members of the prepared body are set on the record, which
   * `update_item` creates when it is missing.  The audit entry comes
   * after, so when its write fails the update stands and the answer is
   * 500.
   */
  method HandleUpdateCertificate(table: CertificateTable, body: Option<Body>, stamp: string, now: Instant,
                                 writeFails: bool, logFails: bool)
    returns (response: Response)
    requires table.Valid() && ValidInstant(now)
    requires body.Some? ==> WellFormed(body.value)
    modifies table
    ensures table.Valid()
    ensures body.None? ==> response == UpdateFailed && table.items == old(table.items)
    ensures body.Some? ==>
              var id := Member(body.value.fields, IdKey, Null);
              (!Truthy(id) ==> response == Failed(400, "CertificateID is required") && table.items == old(table.items))
              && (Truthy(id) && (!id.Text? || writeFails) ==> response == UpdateFailed && table.items == old(table.items))
              && (Truthy(id) && id.Text? && !writeFails ==>
                    response == (if logFails then UpdateFailed else Updated)
                    && table.items == old(table.items)[id.s := Upserted(old(table.items), id.s,
                                         KeptFields(Prepared(body.value, stamp, now), true))])
    ensures (response, table.items) == UpdateOutcome(old(table.items), body, stamp, now, writeFails, logFails)
  {
    if body.None? {
      return UpdateFailed;
    }
    var b := body.value;
    var id := Member(b.fields, IdKey, Null);
    if !Truthy(id) {
      return Failed(400, "CertificateID is required");
    }
    var expiry := Member(b.fields, "ExpiryDate", Null);
    if Truthy(expiry) {
      b := Assign(b, "Status", Text(CalculateStatus(expiry, now)));
      b := Assign(b, "DaysUntilExpiry", Text(IntToString(CalculateDays(expiry, now))));
    }
    b := Assign(b, "LastUpdatedOn", Text(stamp));
    assert b == Prepared(body.value, stamp, now);
    var expression, u := SetClauses(b, true);
    if !id.Text? || writeFails {
      return UpdateFailed;
    }
    KeptWritten(b, true);
    table.Update(id.s, Applied(u.clauses, u.names, u.values));
    if logFails {
      return UpdateFailed;
    }
    response := Updated;
  }

  // ----- dispatch -----

  /** The request: its HTTP method, if any, and its body (`None` when it is not a JSON object). */
  datatype Request = Request(httpMethod: Option<string>, body: Option<Body>)

  /**
   * lambda_handler: POST adds, PUT updates, and every other method, as
   * well as none, lists the certificates and changes nothing.  `scanFails`
   * says whether the listing's scan raises, `writeFails` and `logFails`
   * whether the write and the audit-log write of POST and PUT raise.
   */
  method LambdaHandler(table: CertificateTable, request: Request, uuid: string, stamp: string, now: Instant,
                       scanFails: bool, writeFails: bool, logFails: bool)
    returns (response: Response)
    requires table.Valid() && ValidInstant(now)
    requires request.body.Some? ==> WellFormed(request.body.value)
    modifies table
    ensures table.Valid()
    ensures request.httpMethod !in {Some("POST"), Some("PUT")} ==>
              response == (if scanFails then FetchFailed else Listing(old(table.items).Values))
              && table.items == old(table.items)
    ensures response.Created? ==> request.httpMethod == Some("POST")
    ensures response.Updated? ==> request.httpMethod == Some("PUT")
    ensures request.httpMethod == Some("POST") ==>
              var fields := if request.body.Some? then Some(request.body.value.fields) else None;
              (response, table.items) == AddOutcome(old(table.items), fields, uuid, stamp, now, writeFails, logFails)
    ensures request.httpMethod == Some("PUT") ==>
              (response, table.items) == UpdateOutcome(old(table.items), request.body, stamp, now, writeFails, logFails)
  {
    if request.httpMethod == Some("POST") {
      var fields := if request.body.Some? then Some(request.body.value.fields) else None;
      response := HandleAddCertificate(table, fields, uuid, stamp, now, writeFails, logFails);
    } else if request.httpMethod == Some("PUT") {
      response := HandleUpdateCertificate(table, request.body, stamp, now, writeFails, logFails);
    } else {
      response := HandleGetCertificates(table, scanFails);
    }
  }
}

=== FILE: dates.dfy ===
/**
 * Calendar dates, the `YYYY-MM-DD` text form every record stores its
 * expiry date in, and the two ways the tools count the days left before
 * an expiry date.
 *
 * A date is a proleptic Gregorian (year, month, day) triple; its day
 * number counts days from 0001-01-01, as Python's `date.toordinal()` does
 * (minus one).  The clock is never read: callers pass today's date or the
 * current moment as a parameter.
 */
module Dates {

  import opened Wrappers
  import opened Text

  datatype Date = Date(year: int, month: int, day: int)

  predicate IsLeap(y: int)
  {
    y % 4 == 0 && (y % 100 != 0 || y % 400 == 0)
  }

  function DaysInMonth(y: int, m: int): int
  {
    if m == 2 then (if IsLeap(y) then 29 else 28)
    else if m == 4 || m == 6 || m == 9 || m == 11 then 30
    else 31
  }

  /** The dates Python's `datetime.date` accepts. */
  predicate ValidDate(d: Date)
  {
    1 <= d.year <= 9999 && 1 <= d.month <= 12 && 1 <= d.day <= DaysInMonth(d.year, d.month)
  }

  function DaysBeforeMonth(y: int, m: int): int
    requires 1 <= m <= 13
  {
    if m == 1 then 0 else DaysBeforeMonth(y, m - 1) + DaysInMonth(y, m - 1)
  }

  function DaysBeforeYear(y: int): int
  {
    var p := y - 1;
    365 * p + p / 4 - p / 100 + p / 400
  }

  function DaysInYear(y: int): int
  {
    if IsLeap(y) then 366 else 365
  }

  /** Days since 0001-01-01. */
  function DayNumber(d: Date): int
    requires ValidDate(d)
  {
    DaysBeforeYear(d.year) + DaysBeforeMonth(d.year, d.month) + d.day - 1
  }

  /** Calendar order: year first, then month, then day. */
  predicate Before(a: Date, b: Date)
  {
    a.year < b.year
    || (a.year == b.year && a.month < b.month)
    || (a.year == b.year && a.month == b.month && a.day < b.day)
  }

  lemma {:induction false} DaysBeforeMonthGrows(y: int, m: int, n: int)
    requires 1 <= m <= n <= 13
    ensures DaysBeforeMonth(y, m) + (if m < n then DaysInMonth(y, m) else 0) <= DaysBeforeMonth(y, n)
    decreases n - m
  {
    if m < n {
      DaysBeforeMonthGrows(y, m + 1, n);
    }
  }

  lemma DaysBeforeYearStep(y: int)
    requires y >= 1
    ensures DaysBeforeYear(y + 1) == DaysBeforeYear(y) + DaysInYear(y)
  {
    DivStep4(y);
    DivStep100(y);
    DivStep400(y);
    LeapDivisors(y);
    var p := y - 1;
    var a, b, c := (if y % 4 == 0 then 1 else 0), (if y % 100 == 0 then 1 else 0), (if y % 400 == 0 then 1 else 0);
    assert DaysBeforeYear(y + 1) == 365 * p + 365 + p / 4 + a - (p / 100 + b) + p / 400 + c;
    assert DaysInYear(y) == 365 + a - b + c;
  }

  lemma LeapDivisors(y: int)
    ensures y % 400 == 0 ==> y % 100 == 0
    ensures y % 100 == 0 ==> y % 4 == 0
  {
  }

  lemma DivStep4(y: int)
    ensures y / 4 == (y - 1) / 4 + (if y % 4 == 0 then 1 else 0)
  {
  }

  lemma DivStep100(y: int)
    ensures y / 100 == (y - 1) / 100 + (if y % 100 == 0 then 1 else 0)
  {
  }

  lemma DivStep400(y: int)
    ensures y / 400 == (y - 1) / 400 + (if y % 400 == 0 then 1 else 0)
  {
  }

  lemma {:induction false} DaysBeforeYearGrows(y: int, z: int)
    requires 1 <= y < z
    ensures DaysBeforeYear(y) + DaysInYear(y) <= DaysBeforeYear(z)
    decreases z - y
  {
    DaysBeforeYearStep(y);
    if y + 1 < z {
      DaysBeforeYearGrows(y + 1, z);
    }
  }

  lemma DaysBeforeMonthFullYear(y: int)
    ensures DaysBeforeMonth(y, 13) == DaysInYear(y)
  {
    var feb := DaysInMonth(y, 2);
    assert DaysBeforeMonth(y, 2) == 31;
    assert DaysBeforeMonth(y, 3) == 31 + feb;
    assert DaysBeforeMonth(y, 4) == 62 + feb;
    assert DaysBeforeMonth(y, 5) == 92 + feb;
    assert DaysBeforeMonth(y, 6) == 123 + feb;
    assert DaysBeforeMonth(y, 7) == 153 + feb;
    assert DaysBeforeMonth(y, 8) == 184 + feb;
    assert DaysBeforeMonth(y, 9) == 215 + feb;
    assert DaysBeforeMonth(y, 10) == 245 + feb;
    assert DaysBeforeMonth(y, 11) == 276 + feb;
    assert DaysBeforeMonth(y, 12) == 306 + feb;
  }

  /** Day numbers follow calendar order, so comparing them compares dates. */
  lemma DayNumberOrder(a: Date, b: Date)
    requires ValidDate(a) && ValidDate(b)
    ensures Before(a, b) <==> DayNumber(a) < DayNumber(b)
    ensures a == b <==> DayNumber(a) == DayNumber(b)
  {
    if a.year != b.year {
      var (lo, hi) := if a.year < b.year then (a, b) else (b, a);
      DaysBeforeMonthGrows(lo.year, lo.month, 13);
      DaysBeforeMonthFullYear(lo.year);
      DaysBeforeYearGrows(lo.year, hi.year);
      DaysBeforeMonthGrows(hi.year, 1, hi.month);
      assert DayNumber(lo) < DayNumber(hi);
    } else if a.month != b.month {
      var (lo, hi) := if a.month < b.month then (a, b) else (b, a);
      DaysBeforeMonthGrows(lo.year, lo.month, hi.month);
      assert DayNumber(lo) < DayNumber(hi);
    }
  }

  // ----- the `%Y-%m-%d` text form and its relatives -----

  /** `%Y`: exactly four digits. */
  predicate IsYearText(s: string)
  {
    |s| == 4 && AllDigits(s)
  }

  /** `%m` or `%d`: one or two digits. */
  predicate IsSmallText(s: string)
  {
    1 <= |s| <= 2 && AllDigits(s)
  }

  function MakeDate(y: int, m: int, d: int): (r: Option<Date>)
    ensures r.Some? <==> ValidDate(Date(y, m, d))
    ensures r.Some? ==> r.value == Date(y, m, d)
  {
    if ValidDate(Date(y, m, d)) then Some(Date(y, m, d)) else None
  }

  /** The order in which a numeric format lists year, month and day. */
  datatype FieldOrder = YMD | DMY | MDY

  /**
   * `datetime.strptime(s, fmt)` for a format made of `%Y`, `%m` and `%d`
   * separated by one separator character, such as `%Y-%m-%d` or `%d/%m/%Y`.
   */
  function ParseNumericDate(s: string, sep: char, order: FieldOrder): (r: Option<Date>)
    ensures r.Some? ==> ValidDate(r.value)
  {
    var parts := SplitOn(s, sep);
    if |parts| != 3 then None
    else
      var ys := match order case YMD => parts[0] case DMY => parts[2] case MDY => parts[2];
      var ms := match order case YMD => parts[1] case DMY => parts[1] case MDY => parts[0];
      var ds := match order case YMD => parts[2] case DMY => parts[0] case MDY => parts[1];
      if IsYearText(ys) && IsSmallText(ms) && IsSmallText(ds) then
        MakeDate(DigitsValue(ys), DigitsValue(ms), DigitsValue(ds))
      else None
  }

  /** `datetime.strptime(s, '%Y-%m-%d')`; `None` where Python raises `ValueError`. */
  function ParseIso(s: string): (r: Option<Date>)
    ensures r.Some? ==> ValidDate(r.value)
  {
    ParseNumericDate(s, '-', YMD)
  }

  function Pad2(n: int): (r: string)
    requires 0 <= n < 100
    ensures |r| == 2 && AllDigits(r)
  {
    [DigitChar(n / 10), DigitChar(n % 10)]
  }

  function Pad4(n: int): (r: string)
    requires 0 <= n < 10000
    ensures |r| == 4 && AllDigits(r)
  {
    [DigitChar(n / 1000), DigitChar(n / 100 % 10), DigitChar(n / 10 % 10), DigitChar(n % 10)]
  }

  /** `d.strftime('%Y-%m-%d')` */
  function FormatIso(d: Date): (r: string)
    requires ValidDate(d)
    ensures |r| == 10 && r[4] == '-' && r[7] == '-'
  {
    Pad4(d.year) + "-" + Pad2(d.month) + "-" + Pad2(d.day)
  }

  lemma SplitOnJoined(a: string, c: char, b: string)
    requires c !in a
    ensures SplitOn(a + [c] + b, c) == [a] + SplitOn(b, c)
  {
    var s := a + [c] + b;
    assert s[|a|] == c;
    assert s[..|a|] == a;
    var i := IndexOf(s, c);
    assert i <= |a| by {
      assert c in s[..|a| + 1];
    }
    assert i == |a|;
    assert s[..i] == a;
    assert s[i + 1..] == b;
  }

  lemma Pad2Value(n: int)
    requires 0 <= n < 100
    ensures DigitsValue(Pad2(n)) == n
  {
    var r := Pad2(n);
    assert r[..1][..0] == "";
    assert DigitValue(r[0]) == n / 10 && DigitValue(r[1]) == n % 10;
    assert DigitsValue(r[..1]) == n / 10;
  }

  lemma Pad4Value(n: int)
    requires 0 <= n < 10000
    ensures DigitsValue(Pad4(n)) == n
  {
    var r := Pad4(n);
    assert DigitValue(r[0]) == n / 1000 && DigitValue(r[1]) == n / 100 % 10;
    assert DigitValue(r[2]) == n / 10 % 10 && DigitValue(r[3]) == n % 10;
    assert r[..1][..0] == "";
    assert DigitsValue(r[..1]) == n / 1000;
    assert r[..2][..1] == r[..1];
    assert DigitsValue(r[..2]) == n / 100;
    assert r[..3][..2] == r[..2];
    assert DigitsValue(r[..3]) == n / 10;
    assert r[..4][..3] == r[..3];
  }

  /** Reading back a formatted date gives the date: `strptime(strftime(d)) == d`. */
  lemma ParseFormatIso(d: Date)
    requires ValidDate(d)
    ensures ParseIso(FormatIso(d)) == Some(d)
  {
    var y, m, dd := Pad4(d.year), Pad2(d.month), Pad2(d.day);
    assert FormatIso(d) == y + ['-'] + (m + ['-'] + dd);
    SplitOnJoined(y, '-', m + ['-'] + dd);
    SplitOnJoined(m, '-', dd);
    assert SplitOn(FormatIso(d), '-') == [y, m, dd];
    Pad4Value(d.year);
    Pad2Value(d.month);
    Pad2Value(d.day);
  }

  // ----- counting the days left -----

  const MicrosPerDay: int := 86_400_000_000

  /** A moment: a date and the microseconds elapsed since its midnight. */
  datatype Instant = Instant(date: Date, micros: int)

  predicate ValidInstant(t: Instant)
  {
    ValidDate(t.date) && 0 <= t.micros < MicrosPerDay
  }

  /**
   * `(expiry - today).days` with `today` truncated to midnight: the whole
   * number of calendar days from today to the expiry date.
   */
  function DaysFromToday(expiry: Date, today: Date): int
    requires ValidDate(expiry) && ValidDate(today)
  {
    DayNumber(expiry) - DayNumber(today)
  }

  /**
   * `(expiry - now).days` where `expiry` is midnight of the expiry date and
   * `now` carries its time of day: Python's `timedelta.days` is the floor
   * of the difference in days.
   */
  function DaysFromNow(expiry: Date, now: Instant): int
    requires ValidDate(expiry) && ValidInstant(now)
  {
    ((DayNumber(expiry) - DayNumber(now.date)) * MicrosPerDay - now.micros) / MicrosPerDay
  }

  /**
   * Counting from a moment that is past midnight gives one day less than
   * counting from midnight; in particular a certificate that expires today
   * has -1 days left at any time after midnight.
   */
  lemma DaysFromNowByDay(expiry: Date, now: Instant)
    requires ValidDate(expiry) && ValidInstant(now)
    ensures DaysFromNow(expiry, now) == DaysFromToday(expiry, now.date) - (if now.micros > 0 then 1 else 0)
  {
    var k := DayNumber(expiry) - DayNumber(now.date);
    var q := if now.micros > 0 then k - 1 else k;
    assert q * MicrosPerDay <= k * MicrosPerDay - now.micros < (q + 1) * MicrosPerDay;
  }
}

=== FILE: email_names.dfy ===
/**
 * The owner name the maintenance scripts derive from an e-mail address
 * (`extract_name_from_email`, written out identically in fix_all_tests.py
 * and fix_owner.py): the local part, with `.`, `-` and `_` read as word
 * breaks, each word capitalised, joined by single spaces.
 */
module EmailNames {

  import opened Text

  /** The length of the run of non-whitespace at the start of `s`. */
  function WordLength(s: string): (n: nat)
    ensures n <= |s|
    ensures forall i :: 0 <= i < n ==> !IsSpace(s[i])
    ensures n == |s| || IsSpace(s[n])
  {
    if s == "" || IsSpace(s[0]) then 0 else 1 + WordLength(s[1..])
  }

  /** `s.split()`: the maximal runs of non-whitespace, in order. */
  function Words(s: string): (words: seq<string>)
    ensures forall k :: 0 <= k < |words| ==> words[k] != "" && forall i :: 0 <= i < |words[k]| ==> !IsSpace(words[k][i])
    decreases |s|
  {
    var t := StripLeft(s);
    StripLeftShape(s);
    if t == "" then []
    else
      var n := WordLength(t);
      [t[..n]] + Words(t[n..])
  }

  /** `word.capitalize()`: the first letter upper case, the rest lower case. */
  function Capitalize(word: string): (r: string)
    ensures |r| == |word|
    ensures word != "" ==> r[0] == UpperChar(word[0])
    ensures forall i :: 1 <= i < |word| ==> r[i] == LowerChar(word[i])
  {
    if word == "" then "" else [UpperChar(word[0])] + Lower(word[1..])
  }

  /** `' '.join(word.capitalize() for word in words)` */
  function JoinCapitalized(words: seq<string>): string
  {
    Join(seq(|words|, k requires 0 <= k < |words| => Capitalize(words[k])), " ")
  }

  /** A separator the script turns into a space. */
  predicate IsBreak(c: char)
  {
    c == '.' || c == '-' || c == '_'
  }

  /**
   * `.replace('.', ' ').replace('-', ' ').replace('_', ' ')`: the three
   * one-character replacements, applied together, character by character.
   */
  function Spaced(s: string): (r: string)
    ensures |r| == |s|
    ensures forall i :: 0 <= i < |s| ==> r[i] == (if IsBreak(s[i]) then ' ' else s[i])
  {
    seq(|s|, i requires 0 <= i < |s| => if IsBreak(s[i]) then ' ' else s[i])
  }

  /** `extract_name_from_email` */
  function ExtractNameFromEmail(email: string): (name: string)
    ensures email == "" || '@' !in email ==> name == "Unknown"
  {
    if email == "" || '@' !in email then "Unknown"
    else JoinCapitalized(Words(Spaced(BeforeFirst(email, '@'))))
  }

  /**
   * The derived name is made of the capitalised words of the local part:
   * what comes before the first `@`, broken at whitespace, `.`, `-` and `_`.
   */
  lemma NameFromLocalPart(email: string)
    requires email != "" && '@' in email
    ensures var local := BeforeFirst(email, '@');
            && '@' !in local
            && StartsWith(email, local) && email[|local|] == '@'
            && ExtractNameFromEmail(email) == JoinCapitalized(Words(Spaced(local)))
  {
  }

  /** `w` holds none of `.`, `-` and `_`. */
  predicate Unbroken(w: string)
  {
    forall i :: 0 <= i < |w| ==> !IsBreak(w[i])
  }

  /** No word of a split holds a separator: `.`, `-` and `_` have all become breaks. */
  lemma WordsHoldNoSeparator(s: string)
    ensures var words := Words(Spaced(s));
            forall k :: 0 <= k < |words| ==> Unbroken(words[k])
  {
    WordsFromSpaced(Spaced(s));
  }

  lemma {:induction false} WordsFromSpaced(s: string)
    requires Unbroken(s)
    ensures var words := Words(s);
            forall k :: 0 <= k < |words| ==> Unbroken(words[k])
    decreases |s|
  {
    var t := StripLeft(s);
    StripLeftShape(s);
    if t != "" {
      var n := WordLength(t);
      UnbrokenSlice(s, |s| - |t|, |s|);
      UnbrokenSlice(t, 0, n);
      UnbrokenSlice(t, n, |t|);
      assert t[0..n] == t[..n] && t[n..|t|] == t[n..];
      WordsFromSpaced(t[n..]);
      var words := Words(s);
      assert words == [t[..n]] + Words(t[n..]);
      forall k | 1 <= k < |words| ensures Unbroken(words[k]) {
        assert words[k] == Words(t[n..])[k - 1];
      }
    }
  }

  /** A slice of a word without separators has none either. */
  lemma UnbrokenSlice(s: string, a: nat, b: nat)
    requires Unbroken(s) && a <= b <= |s|
    ensures Unbroken(s[a..b])
  {
    assert forall i :: 0 <= i < b - a ==> s[a..b][i] == s[a + i];
  }

  // ----- the documented example -----

  /** A word followed by whitespace, or by nothing, is split off as the first word. */
  lemma WordFirst(word: string, rest: string)
    requires word != "" && forall i :: 0 <= i < |word| ==> !IsSpace(word[i])
    requires rest == "" || IsSpace(rest[0])
    ensures Words(word + rest) == [word] + Words(rest)
  {
    var s := word + rest;
    assert StripLeft(s) == s;
    WordLengthOf(word, rest);
    assert s[..|word|] == word && s[|word|..] == rest;
  }

  lemma {:induction false} WordLengthOf(word: string, rest: string)
    requires forall i :: 0 <= i < |word| ==> !IsSpace(word[i])
    requires rest == "" || IsSpace(rest[0])
    ensures WordLength(word + rest) == |word|
  {
    if word != "" {
      assert (word + rest)[1..] == word[1..] + rest;
      WordLengthOf(word[1..], rest);
    } else {
      assert word + rest == rest;
    }
  }

  /** Leading whitespace does not change the split. */
  lemma WordsAfterSpace(rest: string)
    ensures Words(" " + rest) == Words(rest)
  {
    assert (" " + rest)[1..] == rest;
  }

  /** A word with no whitespace, no separator and no `@`. */
  predicate Plain(w: string)
  {
    w != "" && forall i :: 0 <= i < |w| ==> !IsSpace(w[i]) && !IsBreak(w[i]) && w[i] != '@'
  }

  lemma PlainSpaced(w: string)
    requires Plain(w)
    ensures Spaced(w) == w
  {
  }

  /** `Spaced` works character by character. */
  lemma SpacedConcat(x: string, y: string)
    ensures Spaced(x + y) == Spaced(x) + Spaced(y)
  {
    var l, r := Spaced(x + y), Spaced(x) + Spaced(y);
    forall i | 0 <= i < |l|
      ensures l[i] == r[i]
    {
      if i < |x| {
        assert (x + y)[i] == x[i];
      } else {
        assert (x + y)[i] == y[i - |x|];
      }
    }
  }

  /**
   * An address `a-b.c@domain` whose three words hold no whitespace,
   * separator or `@` gives the three words capitalised, space separated.
   */
  lemma ThreeWordName(a: string, b: string, c: string, domain: string)
    requires Plain(a) && Plain(b) && Plain(c)
    ensures ExtractNameFromEmail(a + "-" + b + "." + c + "@" + domain) == Capitalize(a) + " " + Capitalize(b) + " " + Capitalize(c)
  {
    ThreeWordLocalPart(a, b, c, domain);
    ThreeWordSpaced(a, b, c);
    ThreeWordWords(a, b, c);
    JoinThree(a, b, c);
  }

  lemma ThreeWordLocalPart(a: string, b: string, c: string, domain: string)
    requires Plain(a) && Plain(b) && Plain(c)
    ensures var email := a + "-" + b + "." + c + "@" + domain;
            '@' in email && BeforeFirst(email, '@') == a + "-" + b + "." + c
  {
    var local := a + "-" + b + "." + c;
    var email := a + "-" + b + "." + c + "@" + domain;
    assert email == local + "@" + domain;
    assert email[|local|] == '@';
    assert '@' !in local by {
      forall i | 0 <= i < |local|
        ensures local[i] != '@'
      {
        if i < |a| {
          assert local[i] == a[i];
        } else if i == |a| {
        } else if i < |a| + 1 + |b| {
          assert local[i] == b[i - |a| - 1];
        } else if i == |a| + 1 + |b| {
        } else {
          assert local[i] == c[i - |a| - 2 - |b|];
        }
      }
    }
    assert email[..|local|] == local;
    BeforeFirstOf(email, '@', |local|);
  }

  lemma ThreeWordSpaced(a: string, b: string, c: string)
    requires Plain(a) && Plain(b) && Plain(c)
    ensures Spaced(a + "-" + b + "." + c) == a + " " + b + " " + c
  {
    SpacedConcat(a + "-" + b, "." + c);
    SpacedConcat(a, "-" + b);
    SpacedConcat("-", b);
    SpacedConcat(".", c);
    PlainSpaced(a);
    PlainSpaced(b);
    PlainSpaced(c);
    assert Spaced("-") == " " && Spaced(".") == " ";
    assert a + "-" + b == a + ("-" + b);
    assert a + (" " + b) + (" " + c) == a + " " + b + " " + c;
  }

  lemma ThreeWordWords(a: string, b: string, c: string)
    requires Plain(a) && Plain(b) && Plain(c)
    ensures Words(a + " " + b + " " + c) == [a, b, c]
  {
    assert a + " " + b + " " + c == a + " " + (b + " " + c);
    WordThenSpace(a, b + " " + c);
    TwoWords(b, c);
  }

  lemma TwoWords(b: string, c: string)
    requires Plain(b) && Plain(c)
    ensures Words(b + " " + c) == [b, c]
  {
    WordThenSpace(b, c);
    OneWord(c);
  }

  /** A word, a space, then the rest: the word is split off first. */
  lemma WordThenSpace(w: string, rest: string)
    requires Plain(w)
    ensures Words(w + " " + rest) == [w] + Words(rest)
  {
    assert w + " " + rest == w + (" " + rest);
    WordFirst(w, " " + rest);
    WordsAfterSpace(rest);
  }

  lemma OneWord(c: string)
    requires Plain(c)
    ensures Words(c) == [c]
  {
    WordFirst(c, "");
    assert c + "" == c;
  }

  lemma JoinThree(a: string, b: string, c: string)
    ensures JoinCapitalized([a, b, c]) == Capitalize(a) + " " + Capitalize(b) + " " + Capitalize(c)
  {
    var caps := seq(3, k requires 0 <= k < 3 => Capitalize([a, b, c][k]));
    assert caps == [Capitalize(a), Capitalize(b), Capitalize(c)];
    assert caps[1..] == [Capitalize(b), Capitalize(c)];
    assert caps[1..][1..] == [Capitalize(c)];
    assert Join(caps[1..][1..], " ") == Capitalize(c);
    assert Join(caps[1..], " ") == Capitalize(b) + " " + Capitalize(c);
    assert Join(caps, " ") == Capitalize(a) + " " + (Capitalize(b) + " " + Capitalize(c));
  }

  lemma BeforeFirstOf(s: string, c: char, i: nat)
    requires i < |s| && s[i] == c && c !in s[..i]
    ensures BeforeFirst(s, c) == s[..i]
  {
    var j := IndexOf(s, c);
  }

  /** The example of fix_owner.py: `Vinaya-c.nayanegali@capgemini.com` gives `Vinaya C Nayanegali`. */
  lemma DocumentedExample()
    ensures ExtractNameFromEmail("Vinaya-c.nayanegali@capgemini.com") == "Vinaya C Nayanegali"
  {
    ExamplePlain();
    ThreeWordName("Vinaya", "c", "nayanegali", "capgemini.com");
    ExampleAddress();
    CapitalizeVinaya();
    CapitalizeNayanegali();
    CapitalizeC();
    ExampleJoined();
  }

  lemma ExamplePlain()
    ensures Plain("Vinaya") && Plain("c") && Plain("nayanegali")
  {
  }

  lemma ExampleAddress()
    ensures "Vinaya" + "-" + "c" + "." + "nayanegali" + "@" + "capgemini.com" == "Vinaya-c.nayanegali@capgemini.com"
  {
  }

  lemma ExampleJoined()
    ensures "Vinaya" + " " + "C" + " " + "Nayanegali" == "Vinaya C Nayanegali"
  {
  }

  /** `s` holds no capital letter. */
  predicate NoCapitals(s: string)
  {
    s == "" || (!('A' <= s[0] <= 'Z') && NoCapitals(s[1..]))
  }

  /** A word whose tail holds no capital letter keeps its tail. */
  lemma CapitalizeKeepsTail(head: char, tail: string)
    requires NoCapitals(tail)
    ensures Capitalize([head] + tail) == [UpperChar(head)] + tail
  {
    LowerKeeps(tail);
    assert ([head] + tail)[1..] == tail;
  }

  lemma {:induction false} LowerKeeps(s: string)
    requires NoCapitals(s)
    ensures Lower(s) == s
  {
    if s != "" {
      LowerKeeps(s[1..]);
      assert s == [s[0]] + s[1..];
    }
  }

  lemma CapitalizeVinaya()
    ensures Capitalize("Vinaya") == "Vinaya"
  {
    assert NoCapitals("inaya");
    CapitalizeKeepsTail('V', "inaya");
    assert UpperChar('V') == 'V';
    VinayaSplit();
  }

  lemma VinayaSplit()
    ensures "Vinaya" == ['V'] + "inaya"
  {
  }

  lemma CapitalizeNayanegali()
    ensures Capitalize("nayanegali") == "Nayanegali"
  {
    assert NoCapitals("ayanegali");
    CapitalizeKeepsTail('n', "ayanegali");
    assert UpperChar('n') == 'N';
    NayanegaliSplit();
  }

  lemma NayanegaliSplit()
    ensures "nayanegali" == ['n'] + "ayanegali" && "Nayanegali" == ['N'] + "ayanegali"
  {
  }

  lemma CapitalizeC()
    ensures Capitalize("c") == "C"
  {
  }
}

=== FILE: excel_processor.dfy ===
/**
 * The spreadsheet processor (lambda/excel_processor.py): it maps the
 * spreadsheet's column headings onto the standard attribute names, turns
 * every row into a certificate record with a fresh ID, an expiry date in
 * `YYYY-MM-DD` form where one can be read, and a status by the 30-day
 * rule, and writes it together with an audit log entry, counting the rows
 * that fail.
 *
 * Reading the workbook, the fresh IDs, the clock and the failures of the
 * two table writes are inputs.
 */
module ExcelProcessor {

  import opened Wrappers
  import opened Values
  import opened Text
  import opened Dates
  import opened Statuses
  import opened Store

  // ----- column headings -----

  /** A standard attribute name and the headings, normalised, that stand for it. */
  type ColumnEntry = (string, seq<string>)

  /** The mapping table, in the order in which it is searched. */
  const ColumnTable: seq<ColumnEntry> := [
    ("SN", ["sn", "serial_number", "serialnumber", "number", "id"]),
    ("CertificateName", ["certificate_name", "certificatename", "cert_name", "name", "certificate", "domain"]),
    ("ExpiryDate", ["exp_date", "expiry_date", "expirydate", "expiration_date", "expires", "expiry"]),
    ("AccountNumber", ["account_number", "accountnumber", "account", "acc_number"]),
    ("Application", ["application", "app", "service", "system"]),
    ("Environment", ["env", "environment", "stage"]),
    ("Type", ["type", "certificate_type", "cert_type", "ssl_type"]),
    ("Status", ["status", "state", "condition"]),
    ("OwnerEmail", ["owner_email", "owneremail", "owner", "contact_email", "contact"]),
    ("SupportEmail", ["support_email", "supportemail", "support"]),
    ("IncidentNumber", ["incident_number", "incidentnumber", "incident", "ticket_number"]),
    ("RenewedBy", ["renewed_by", "renewedby", "renewed_by_user"]),
    ("RenewalLog", ["renewal_log", "renewallog", "log"]),
    ("UploadS3Key", ["upload_s3_key", "uploads3key", "s3_key"]),
    ("LastUpdatedOn", ["last_updated_on", "lastupdatedon", "updated_on", "last_updated"])]

  /** `str(col).lower().strip().replace(' ', '_')` */
  function Normalize(col: string): string
  {
    ReplaceChar(Strip(Lower(col)), ' ', '_')
  }

  /** A normalised heading stands for an entry when it is the entry's own name, lower-cased, or one of its variants. */
  predicate Fits(heading: string, entry: ColumnEntry)
  {
    heading == Lower(entry.0) || heading in entry.1
  }

  /** The first entry of the table the heading fits, if any. */
  function FirstStandard(heading: string, table: seq<ColumnEntry>): (r: Option<string>)
    ensures r.Some? ==> exists i :: 0 <= i < |table| && Fits(heading, table[i]) && table[i].0 == r.value
                                    && forall j :: 0 <= j < i ==> !Fits(heading, table[j])
    ensures r.None? ==> forall i :: 0 <= i < |table| ==> !Fits(heading, table[i])
  {
    if |table| == 0 then None
    else if Fits(heading, table[0]) then Some(table[0].0)
    else
      var r := FirstStandard(heading, table[1..]);
      assert forall i :: 1 <= i < |table| ==> table[i] == table[1..][i - 1];
      r
  }

  /** The name a heading is renamed to: its standard name, or itself when nothing fits. */
  function MappedName(col: string, table: seq<ColumnEntry>): string
  {
    match FirstStandard(Normalize(col), table)
    case Some(standard) => standard
    case None => col
  }

  /** The inner loop of map_excel_columns: the table in order, stopping at the first entry that fits. */
  method FindStandard(heading: string, table: seq<ColumnEntry>) returns (found: Option<string>)
    ensures found == FirstStandard(heading, table)
  {
    found := None;
    var i := 0;
    while i < |table|
      invariant 0 <= i <= |table|
      invariant forall j :: 0 <= j < i ==> !Fits(heading, table[j])
    {
      var entry := table[i];
      if heading == Lower(entry.0) {
        found := Some(entry.0);
        break;
      } else if heading in entry.1 {
        found := Some(entry.0);
        break;
      }
      i := i + 1;
    }
  }

  /**
   * map_excel_columns: every heading is a key of the mapping, and each is
   * mapped to the first standard name it fits, or to itself.
   */
  method MapExcelColumns(columns: seq<string>, table: seq<ColumnEntry>) returns (mapping: map<string, string>)
    ensures mapping.Keys == set c | c in columns
    ensures forall c :: c in mapping ==> mapping[c] == MappedName(c, table)
  {
    mapping := map[];
    for k := 0 to |columns|
      invariant mapping.Keys == set c | c in columns[..k]
      invariant forall c :: c in mapping ==> mapping[c] == MappedName(c, table)
    {
      var col := columns[k];
      assert columns[..k + 1] == columns[..k] + [col];
      var found := FindStandard(Normalize(col), table);
      if found.Some? {
        mapping := mapping[col := found.value];
      }
      if col !in mapping {
        mapping := mapping[col := col];
      }
    }
    assert columns[..|columns|] == columns;
  }

  /** A standard name used as a heading keeps its name: renaming twice renames nothing more. */
  lemma StandardHeadingKept(i: nat, table: seq<ColumnEntry>)
    requires i < |table|
    requires Normalize(table[i].0) == Lower(table[i].0)
    requires forall j :: 0 <= j < i ==> !Fits(Lower(table[i].0), table[j])
    ensures MappedName(table[i].0, table) == table[i].0
  {
    var heading := Normalize(table[i].0);
    assert Fits(heading, table[i]);
    var r := FirstStandard(heading, table);
    var k :| 0 <= k < |table| && Fits(heading, table[k]) && table[k].0 == r.value
             && forall j :: 0 <= j < k ==> !Fits(heading, table[j]);
    assert k == i;
  }

  // ----- cells and dates -----

  /** A spreadsheet cell: text, a whole number, a date, or empty (NaN). */
  datatype CellValue = TextCell(s: string) | NumberCell(n: int) | DateCell(d: Date) | Missing

  /** The dates a workbook holds are calendar dates. */
  type Cell = c: CellValue | c.DateCell? ==> ValidDate(c.d) witness Missing

  /** `str(value)`: an empty cell reads `'nan'`, a date carries its midnight time. */
  function CellText(c: Cell): string
  {
    match c
    case TextCell(s) => s
    case NumberCell(n) => IntToString(n)
    case DateCell(d) => FormatIso(d) + " 00:00:00"
    case Missing => "nan"
  }

  /** The date formats parse_expiry_date tries. */
  datatype DateFormat =
    | Numeric(sep: char, order: FieldOrder)   // %Y-%m-%d and the like
    | DayMonthYear(abbreviated: bool)         // %d %B %Y and %d %b %Y
    | MonthDayYear                            // %B %d, %Y

  const DateFormats: seq<DateFormat> := [
    Numeric('-', YMD), Numeric('/', DMY), Numeric('/', MDY), Numeric('-', DMY),
    Numeric('/', YMD), DayMonthYear(false), MonthDayYear, DayMonthYear(true)]

  const MonthNames: seq<string> := ["january", "february", "march", "april", "may", "june",
                                    "july", "august", "september", "october", "november", "december"]

  const MonthAbbreviations: seq<string> := ["jan", "feb", "mar", "apr", "may", "jun",
                                            "jul", "aug", "sep", "oct", "nov", "dec"]

  /** The position, from 1, of the first name equal to `word` regardless of case. */
  function MonthNumber(word: string, names: seq<string>): (m: Option<int>)
    ensures m.Some? ==> 1 <= m.value <= |names| && names[m.value - 1] == Lower(word)
    ensures m.None? ==> Lower(word) !in names
  {
    if |names| == 0 then None
    else if names[0] == Lower(word) then Some(1)
    else
      match MonthNumber(word, names[1..])
      case Some(m) => Some(m + 1)
      case None => None
  }

  /** `datetime.strptime(s, fmt)` for one format, `None` where it raises `ValueError`. */
  function Strptime(s: string, fmt: DateFormat): (r: Option<Date>)
    ensures r.Some? ==> ValidDate(r.value)
  {
    match fmt
    case Numeric(sep, order) => ParseNumericDate(s, sep, order)
    case DayMonthYear(abbreviated) =>
      var parts := SplitOn(s, ' ');
      if |parts| != 3 || !IsSmallText(parts[0]) || !IsYearText(parts[2]) then None
      else
        (match MonthNumber(parts[1], if abbreviated then MonthAbbreviations else MonthNames)
         case Some(m) => MakeDate(DigitsValue(parts[2]), m, DigitsValue(parts[0]))
         case None => None)
    case MonthDayYear =>
      var parts := SplitOn(s, ' ');
      if |parts| != 3 || parts[1] == "" || parts[1][|parts[1]| - 1] != ','
         || !IsSmallText(parts[1][..|parts[1]| - 1]) || !IsYearText(parts[2]) then None
      else
        match MonthNumber(parts[0], MonthNames)
        case Some(m) => MakeDate(DigitsValue(parts[2]), m, DigitsValue(parts[1][..|parts[1]| - 1]))
        case None => None
  }

  /** The date read by the first format that accepts `s`. */
  function FirstReading(s: string, fmts: seq<DateFormat>): (r: Option<Date>)
    ensures r.Some? ==> exists i :: 0 <= i < |fmts| && Strptime(s, fmts[i]) == r
                                    && forall j :: 0 <= j < i ==> Strptime(s, fmts[j]).None?
    ensures r.None? ==> forall i :: 0 <= i < |fmts| ==> Strptime(s, fmts[i]).None?
  {
    if |fmts| == 0 then None
    else if Strptime(s, fmts[0]).Some? then Strptime(s, fmts[0])
    else
      var r := FirstReading(s, fmts[1..]);
      assert forall i :: 1 <= i < |fmts| ==> fmts[i] == fmts[1..][i - 1];
      r
  }

  /**
   * parse_expiry_date: nothing for an empty cell, the date of a date cell,
   * otherwise the stripped text read by the first format that accepts it,
   * and the stripped text itself when none does.
   */
  function ParsedExpiry(c: Cell): (r: Option<string>)
    ensures r.None? <==> c.Missing?
    ensures c.DateCell? ==> r == Some(FormatIso(c.d))
    ensures c.TextCell? || c.NumberCell? ==>
              var s := Strip(CellText(c));
              (exists i :: 0 <= i < |DateFormats| && Strptime(s, DateFormats[i]).Some?
                           && (forall j :: 0 <= j < i ==> Strptime(s, DateFormats[j]).None?)
                           && r == Some(FormatIso(Strptime(s, DateFormats[i]).value)))
              || ((forall i :: 0 <= i < |DateFormats| ==> Strptime(s, DateFormats[i]).None?) && r == Some(s))
  {
    match c
    case Missing => None
    case DateCell(d) => Some(FormatIso(d))
    case _ =>
      var s := Strip(CellText(c));
      match FirstReading(s, DateFormats)
      case Some(d) => Some(FormatIso(d))
      case None => Some(s)
  }

  /** The format loop of parse_expiry_date, over the formats in order. */
  method ReadDate(s: string, fmts: seq<DateFormat>) returns (r: Option<Date>)
    ensures r == FirstReading(s, fmts)
  {
    for i := 0 to |fmts|
      invariant FirstReading(s, fmts[i..]) == FirstReading(s, fmts)
    {
      var parsed := Strptime(s, fmts[i]);
      assert fmts[i..][0] == fmts[i] && fmts[i..][1..] == fmts[i + 1..];
      if parsed.Some? {
        return parsed;
      }
    }
    return None;
  }

  method ParseExpiryDate(c: Cell) returns (r: Option<string>)
    ensures r == ParsedExpiry(c)
  {
    if c.Missing? {
      return None;
    }
    if c.DateCell? {
      return Some(FormatIso(c.d));
    }
    var s := Strip(CellText(c));
    var d := ReadDate(s, DateFormats);
    if d.Some? {
      return Some(FormatIso(d.value));
    }
    return Some(s);
  }

  /** A date already written `YYYY-MM-DD` comes back unchanged: parsing is idempotent on its own output. */
  lemma ParsedExpiryCanonical(d: Date)
    requires ValidDate(d)
    ensures ParsedExpiry(TextCell(FormatIso(d))) == Some(FormatIso(d))
  {
    var s := FormatIso(d);
    assert IsDigit(s[0]) && IsDigit(s[9]);
    StripIdentity(s);
    ParseFormatIso(d);
    assert Strptime(s, DateFormats[0]) == Some(d);
  }

  /** A date written day first, `DD/MM/YYYY`. */
  function DayFirstText(d: Date): (s: string)
    requires ValidDate(d)
    ensures |s| == 10 && s[2] == '/' && s[5] == '/'
  {
    Pad2(d.day) + ['/'] + Pad2(d.month) + ['/'] + Pad4(d.year)
  }

  lemma NoSeparatorIn(digits: string, c: char)
    requires AllDigits(digits) && !IsDigit(c)
    ensures c !in digits
  {
  }

  /** The three fields of a day-first text, and no `-` anywhere in it. */
  lemma DayFirstFields(d: Date)
    requires ValidDate(d)
    ensures var dd, mm, yyyy := Pad2(d.day), Pad2(d.month), Pad4(d.year);
            && SplitOn(DayFirstText(d), '/') == [dd, mm, yyyy]
            && '-' !in DayFirstText(d)
  {
    var dd, mm, yyyy := Pad2(d.day), Pad2(d.month), Pad4(d.year);
    NoSeparatorIn(dd, '/');
    NoSeparatorIn(mm, '/');
    NoSeparatorIn(yyyy, '/');
    assert DayFirstText(d) == dd + ['/'] + (mm + ['/'] + yyyy);
    SplitOnJoined(dd, '/', mm + ['/'] + yyyy);
    SplitOnJoined(mm, '/', yyyy);
    NoSeparatorIn(dd, '-');
    NoSeparatorIn(mm, '-');
    NoSeparatorIn(yyyy, '-');
  }

  /**
   * A day-first text is read as written, and read month first it would
   * give a different date whenever its day could be a month.
   */
  lemma DayFirstReadings(d: Date)
    requires ValidDate(d)
    ensures ParseNumericDate(DayFirstText(d), '-', YMD) == None
    ensures ParseNumericDate(DayFirstText(d), '/', DMY) == Some(d)
    ensures d.day <= 12 ==> ParseNumericDate(DayFirstText(d), '/', MDY) == Some(Date(d.year, d.day, d.month))
  {
    DayFirstFields(d);
    Pad2Value(d.day);
    Pad2Value(d.month);
    Pad4Value(d.year);
  }

  /**
   * Text such as "03/04/2025" fits both `%d/%m/%Y` and `%m/%d/%Y`; the
   * day-first format is tried first, so every `DD/MM/YYYY` text is read
   * day first.
   */
  lemma DayFirstWins(d: Date)
    requires ValidDate(d)
    ensures ParsedExpiry(TextCell(DayFirstText(d))) == Some(FormatIso(d))
  {
    var s := DayFirstText(d);
    assert IsDigit(s[0]) && IsDigit(s[9]);
    StripIdentity(s);
    DayFirstReadings(d);
    assert FirstReading(s, DateFormats) == Some(d) by {
      assert DateFormats[0] == Numeric('-', YMD) && DateFormats[1..][0] == Numeric('/', DMY);
    }
  }

  // ----- status and the record -----

  /** calculate_certificate_status: Unknown without a readable date, otherwise the 30-day rule from now. */
  function CalculateCertificateStatus(expiry: Option<string>, now: Instant): (status: string)
    requires ValidInstant(now)
    ensures status in {Unknown, Expired, DueForRenewal, Active}
  {
    if expiry.None? || expiry.value == "" then Unknown
    else
      match ParseIso(expiry.value)
      case Some(d) => StatusForDays(DaysFromNow(d, now))
      case None => Unknown
  }

  /** The status is Unknown exactly when there is no ISO date to read, and otherwise follows the 30-day rule. */
  lemma CertificateStatusRule(expiry: Option<string>, now: Instant)
    requires ValidInstant(now)
    ensures var status := CalculateCertificateStatus(expiry, now);
            (expiry.None? || ParseIso(expiry.value).None? ==> status == Unknown)
            && (expiry.Some? && ParseIso(expiry.value).Some? ==>
                  status == StatusForDays(DaysFromNow(ParseIso(expiry.value).value, now)))
  {
    if expiry.Some? && expiry.value == "" {
      assert ParseIso(expiry.value).None?;
    }
  }

  /** A spreadsheet row, its cells under their (renamed) headings. */
  type Row = map<string, Cell>

  /** `row.get(key)`: an absent heading reads as an empty cell. */
  function CellAt(row: Row, key: string): Cell
  {
    if key in row then row[key] else Missing
  }

  /** `str(row.get(key, default))` */
  function TextAt(row: Row, key: string, default: string): string
  {
    if key in row then CellText(row[key]) else default
  }

  /** The attributes copied from the row as text, with '' when the heading is absent. */
  const CopiedFields: set<string> :=
    {"SN", "CertificateName", "AccountNumber", "Application", "Type", "OwnerEmail", "SupportEmail",
     "IncidentNumber", "RenewedBy", "RenewalLog", "UploadS3Key"}

  /** The record before empty values are dropped. */
  function RawCertificate(row: Row, certId: string, now: Instant, currentTime: string): (raw: Record)
    requires ValidInstant(now)
  {
    var expiry := ParsedExpiry(if "ExpiryDate" in row then row["ExpiryDate"] else Missing);
    var copied := map k | k in CopiedFields :: Text(TextAt(row, k, ""));
    map[
      IdKey := Text(certId),
      "ExpiryDate" := (if expiry.Some? then Text(expiry.value) else Null),
      "Environment" := Text(TextAt(row, "Environment", "Unknown")),
      "Status" := Text(CalculateCertificateStatus(expiry, now)),
      "LastUpdatedOn" := Text(currentTime),
      "CreatedOn" := Text(currentTime),
      "ImportedFrom" := Text("Excel"),
      "Version" := Number(1)] + copied
  }

  /** `{k: v for k, v in d.items() if v is not None and v != ''}` */
  function Cleaned(raw: Record): (r: Record)
    ensures forall k :: k in r <==> k in raw && raw[k] != Null && raw[k] != Text("")
    ensures forall k :: k in r ==> r[k] == raw[k]
  {
    map k | k in raw && raw[k] != Null && raw[k] != Text("") :: raw[k]
  }

  /**
   * prepare_certificate_data as written: every copied attribute is kept
   * when its text is not empty, and the record always carries its ID,
   * status, import tag and version.
   */
  function PrepareCertificateData(row: Row, certId: string, now: Instant, currentTime: string): (r: Record)
    requires ValidInstant(now)
    ensures forall k :: k in r ==> r[k] != Null && r[k] != Text("")
  {
    Cleaned(RawCertificate(row, certId, now, currentTime))
  }

  /** The parts of a prepared record that do not depend on which cells are empty. */
  lemma PreparedRecordShape(row: Row, certId: string, now: Instant, currentTime: string)
    requires ValidInstant(now) && certId != ""
    ensures var r := PrepareCertificateData(row, certId, now, currentTime);
            HasId(r) && r[IdKey] == Text(certId)
            && "ImportedFrom" in r && r["ImportedFrom"] == Text("Excel")
            && "Version" in r && r["Version"] == Number(1)
            && "Status" in r
            && r["Status"] == Text(CalculateCertificateStatus(ParsedExpiry(CellAt(row, "ExpiryDate")), now))
  {
    var status := CalculateCertificateStatus(ParsedExpiry(CellAt(row, "ExpiryDate")), now);
    RawShape(row, certId, now, currentTime);
    assert status in {Unknown, Expired, DueForRenewal, Active};
  }

  /** The attributes the raw record always carries, whatever the cells hold. */
  lemma RawShape(row: Row, certId: string, now: Instant, currentTime: string)
    requires ValidInstant(now)
    ensures var raw := RawCertificate(row, certId, now, currentTime);
            IdKey in raw && raw[IdKey] == Text(certId)
            && "ImportedFrom" in raw && raw["ImportedFrom"] == Text("Excel")
            && "Version" in raw && raw["Version"] == Number(1)
            && "Status" in raw
            && raw["Status"] == Text(CalculateCertificateStatus(ParsedExpiry(CellAt(row, "ExpiryDate")), now))
  {
    assert IdKey !in CopiedFields && "ImportedFrom" !in CopiedFields;
    assert "Version" !in CopiedFields && "Status" !in CopiedFields;
  }

  /** A copied attribute is kept exactly when its text is not empty, and then holds that text. */
  lemma PreparedCopies(row: Row, certId: string, now: Instant, currentTime: string, k: string)
    requires ValidInstant(now) && k in CopiedFields
    ensures var r := PrepareCertificateData(row, certId, now, currentTime);
            (k in r <==> TextAt(row, k, "") != "")
            && (k in r ==> r[k] == Text(TextAt(row, k, "")))
  {
    var raw := RawCertificate(row, certId, now, currentTime);
    assert raw[k] == Text(TextAt(row, k, ""));
  }

  /** The empty cells dropped: pandas' NaN treated as an absent heading. */
  function Present(row: Row): (p: Row)
    ensures forall k :: k in p <==> k in row && !row[k].Missing?
    ensures forall k :: k in p ==> p[k] == row[k]
  {
    map k | k in row && !row[k].Missing? :: row[k]
  }

  /** The record as the processor is meant to build it: empty cells are left out like absent headings. */
  function PrepareCertificate(row: Row, certId: string, now: Instant, currentTime: string): (r: Record)
    requires ValidInstant(now)
    ensures forall k :: k in r ==> r[k] != Null && r[k] != Text("")
    ensures certId != "" ==> HasId(r) && r[IdKey] == Text(certId)
  {
    var r := PrepareCertificateData(Present(row), certId, now, currentTime);
    assert certId != "" ==> HasId(r) && r[IdKey] == Text(certId) by {
      if certId != "" {
        PreparedRecordShape(Present(row), certId, now, currentTime);
      }
    }
    r
  }

  /** In the intended record, a copied attribute comes from a cell that is not empty, and holds its text. */
  lemma IntendedSkipsEmptyCells(row: Row, certId: string, now: Instant, currentTime: string, k: string)
    requires ValidInstant(now) && k in CopiedFields
    ensures var r := PrepareCertificate(row, certId, now, currentTime);
            k in r ==> k in row && !row[k].Missing? && r[k] == Text(CellText(row[k]))
  {
    PreparedCopies(Present(row), certId, now, currentTime, k);
  }

  /**
   * As written, an empty owner cell reaches the table as the text 'nan';
   * with empty cells dropped first, the owner is left out as intended.
   */
  lemma EmptyCellStoredAsNan(certId: string, now: Instant, currentTime: string)
    requires ValidInstant(now)
    ensures var row: Row := map["OwnerEmail" := Missing];
            var asWritten := PrepareCertificateData(row, certId, now, currentTime);
            var intended := PrepareCertificate(row, certId, now, currentTime);
            "OwnerEmail" in asWritten && asWritten["OwnerEmail"] == Text("nan")
            && "OwnerEmail" !in intended
  {
    var row: Row := map["OwnerEmail" := Missing];
    PreparedCopies(row, certId, now, currentTime, "OwnerEmail");
    assert Present(row) == map[];
    PreparedCopies(Present(row), certId, now, currentTime, "OwnerEmail");
  }

  // ----- the whole file -----

  /** A worksheet: its headings and its rows of cells, one per heading. */
  datatype Sheet = Sheet(columns: seq<string>, rows: seq<seq<Cell>>)

  predicate ValidSheet(sheet: Sheet)
  {
    forall i :: 0 <= i < |sheet.rows| ==> |sheet.rows[i]| == |sheet.columns|
  }

  /** A row under the given headings; a heading that appears twice keeps its last cell. */
  function Labelled(names: seq<string>, cells: seq<Cell>): (row: Row)
    requires |names| == |cells|
    ensures forall k :: k in row <==> k in names
    ensures forall j :: 0 <= j < |names| ==> names[j] in row
    ensures forall k :: k in row ==> row[k] in cells
  {
    if |names| == 0 then map[]
    else
      var row := Labelled(names[..|names| - 1], cells[..|cells| - 1]);
      assert forall k :: k in names <==> k in names[..|names| - 1] || k == names[|names| - 1];
      row[names[|names| - 1] := cells[|cells| - 1]]
  }

  datatype ExcelSummary = ExcelSummary(totalRows: nat, processed: nat, errors: nat, errorDetails: seq<nat>)

  /** The rows whose record or log entry could not be written, in order. */
  function FailedRows(n: nat, faults: set<nat>): seq<nat>
  {
    if n == 0 then [] else FailedRows(n - 1, faults) + (if n - 1 in faults then [n - 1] else [])
  }

  /** The failed rows are exactly the faulty rows below `n`, each once, in increasing order. */
  lemma {:induction false} FailedRowsSound(n: nat, faults: set<nat>)
    ensures |FailedRows(n, faults)| <= n
    ensures forall i :: i in FailedRows(n, faults) <==> i < n && i in faults
    ensures forall a, b :: 0 <= a < b < |FailedRows(n, faults)| ==> FailedRows(n, faults)[a] < FailedRows(n, faults)[b]
  {
    if n > 0 {
      var rows := FailedRows(n - 1, faults);
      FailedRowsSound(n - 1, faults);
      assert forall i :: 0 <= i < |rows| ==> rows[i] < n - 1 by {
        forall i | 0 <= i < |rows| ensures rows[i] < n - 1 { assert rows[i] in rows; }
      }
    }
  }

  /** The table after the first `n` records have been put under their IDs, skipping the rows whose write fails. */
  function Imported(items: map<string, Record>, records: seq<Record>, ids: seq<string>, putFaults: set<nat>, n: nat)
    : map<string, Record>
    requires n <= |records| && n <= |ids|
  {
    if n == 0 then items
    else
      var before := Imported(items, records, ids, putFaults, n - 1);
      if n - 1 in putFaults then before else before[ids[n - 1] := records[n - 1]]
  }

  /** Importing never drops a certificate, and every row whose write succeeds is stored under its ID. */
  lemma {:induction false} ImportedKeys(items: map<string, Record>, records: seq<Record>, ids: seq<string>,
                                        putFaults: set<nat>, n: nat)
    requires n <= |records| && n <= |ids|
    ensures forall id :: id in items ==> id in Imported(items, records, ids, putFaults, n)
    ensures forall i :: 0 <= i < n && i !in putFaults ==> ids[i] in Imported(items, records, ids, putFaults, n)
  {
    if n > 0 {
      ImportedKeys(items, records, ids, putFaults, n - 1);
    }
  }

  /** The table after `n` puts depends only on the first `n` records. */
  lemma {:induction false} ImportedPrefix(items: map<string, Record>, a: seq<Record>, b: seq<Record>, ids: seq<string>,
                                          putFaults: set<nat>, n: nat)
    requires n <= |a| && n <= |b| && n <= |ids| && a[..n] == b[..n]
    ensures Imported(items, a, ids, putFaults, n) == Imported(items, b, ids, putFaults, n)
  {
    if n > 0 {
      assert a[..n - 1] == a[..n][..n - 1] && b[..n - 1] == b[..n][..n - 1];
      ImportedPrefix(items, a, b, ids, putFaults, n - 1);
      assert a[n - 1] == a[..n][n - 1] == b[..n][n - 1] == b[n - 1];
    }
  }

  /** The headings after `df.rename(columns=map_excel_columns(df.columns))`. */
  function RenamedHeadings(columns: seq<string>): (names: seq<string>)
    ensures |names| == |columns|
    ensures forall j :: 0 <= j < |columns| ==> names[j] == MappedName(columns[j], ColumnTable)
  {
    seq(|columns|, j requires 0 <= j < |columns| => MappedName(columns[j], ColumnTable))
  }

  /** Row `i` of the sheet under the renamed headings. */
  function SheetRow(sheet: Sheet, i: nat): Row
    requires ValidSheet(sheet) && i < |sheet.rows|
  {
    Labelled(RenamedHeadings(sheet.columns), sheet.rows[i])
  }

  /** The record prepare_certificate_data builds from each row of the sheet, under that row's ID. */
  function SheetRecords(sheet: Sheet, ids: seq<string>, now: Instant, currentTime: string): (records: seq<Record>)
    requires ValidSheet(sheet) && ValidInstant(now) && |ids| == |sheet.rows|
    ensures |records| == |sheet.rows|
  {
    seq(|sheet.rows|, i requires 0 <= i < |sheet.rows| => PrepareCertificateData(SheetRow(sheet, i), ids[i], now, currentTime))
  }

  /** The records the processor is meant to build: empty cells left out. */
  function IntendedSheetRecords(sheet: Sheet, ids: seq<string>, now: Instant, currentTime: string): (records: seq<Record>)
    requires ValidSheet(sheet) && ValidInstant(now) && |ids| == |sheet.rows|
    ensures |records| == |sheet.rows|
  {
    seq(|sheet.rows|, i requires 0 <= i < |sheet.rows| => PrepareCertificate(SheetRow(sheet, i), ids[i], now, currentTime))
  }

  /** No cell of the sheet is empty. */
  predicate NoEmptyCells(sheet: Sheet)
  {
    forall i, j :: 0 <= i < |sheet.rows| && 0 <= j < |sheet.rows[i]| ==> !sheet.rows[i][j].Missing?
  }

  /** On a sheet without empty cells the records as written are the intended ones. */
  lemma AsWrittenAgreesWithoutEmptyCells(sheet: Sheet, ids: seq<string>, now: Instant, currentTime: string)
    requires ValidSheet(sheet) && ValidInstant(now) && |ids| == |sheet.rows|
    requires NoEmptyCells(sheet)
    ensures SheetRecords(sheet, ids, now, currentTime) == IntendedSheetRecords(sheet, ids, now, currentTime)
  {
    forall i | 0 <= i < |sheet.rows|
      ensures SheetRecords(sheet, ids, now, currentTime)[i] == IntendedSheetRecords(sheet, ids, now, currentTime)[i]
    {
      FullRowPresent(SheetRow(sheet, i), sheet.rows[i]);
    }
  }

  /** A row labelled from cells none of which is empty loses nothing to Present. */
  lemma FullRowPresent(row: Row, cells: seq<Cell>)
    requires forall k :: k in row ==> row[k] in cells
    requires forall j :: 0 <= j < |cells| ==> !cells[j].Missing?
    ensures Present(row) == row
  {
    assert forall k :: k in row ==> !row[k].Missing?;
  }

  /**
   * One row of process_excel_file: the row is prepared under its ID and
   * put unless the write raises; it counts as processed only when the log
   * entry is written as well.
   */
  method ImportRow(table: CertificateTable, row: Row, id: string, now: Instant, currentTime: string,
                   putFails: bool, logFails: bool)
    returns (processed: bool, data: Record)
    requires table.Valid() && ValidInstant(now) && id != ""
    modifies table
    ensures table.Valid()
    ensures data == PrepareCertificateData(row, id, now, currentTime)
    ensures HasId(data) && data[IdKey] == Text(id)
    ensures table.items == if putFails then old(table.items) else old(table.items)[id := data]
    ensures processed <==> !putFails && !logFails
  {
    data := PrepareCertificateData(row, id, now, currentTime);
    PreparedRecordShape(row, id, now, currentTime);
    if putFails {
      return false, data;
    }
    table.Put(data);
    return !logFails, data;
  }

  /** The state of process_excel_file after its first `i` rows. */
  ghost predicate ImportedSoFar(items: map<string, Record>, start: map<string, Record>, sheet: Sheet, ids: seq<string>,
                                now: Instant, currentTime: string, putFaults: set<nat>, logFaults: set<nat>,
                                records: seq<Record>, processed: nat, errors: seq<nat>, i: nat)
    requires ValidSheet(sheet) && ValidInstant(now) && |ids| == |sheet.rows|
  {
    && i <= |sheet.rows|
    && records == SheetRecords(sheet, ids, now, currentTime)[..i]
    && items == Imported(start, records, ids, putFaults, i)
    && errors == FailedRows(i, putFaults + logFaults)
    && processed + |errors| == i
  }

  /** One pass of the loop of process_excel_file: row `i` is prepared and put, and counted as processed or failed. */
  method ImportSheetRow(table: CertificateTable, sheet: Sheet, names: seq<string>, ids: seq<string>, i: nat,
                        now: Instant, currentTime: string, putFaults: set<nat>, logFaults: set<nat>,
                        processed: nat, errors: seq<nat>, ghost records: seq<Record>, ghost start: map<string, Record>)
    returns (processed': nat, errors': seq<nat>, ghost records': seq<Record>)
    requires table.Valid() && ValidSheet(sheet) && ValidInstant(now)
    requires names == RenamedHeadings(sheet.columns)
    requires i < |sheet.rows| == |ids| && FreshIds(ids)
    requires ImportedSoFar(table.items, start, sheet, ids, now, currentTime, putFaults, logFaults,
                           records, processed, errors, i)
    modifies table
    ensures table.Valid()
    ensures ImportedSoFar(table.items, start, sheet, ids, now, currentTime, putFaults, logFaults,
                          records', processed', errors', i + 1)
  {
    var row := Labelled(names, sheet.rows[i]);
    assert row == SheetRow(sheet, i);
    assert ids[i] != "";
    var ok, data;
    ok, data := ImportRow(table, row, ids[i], now, currentTime, i in putFaults, i in logFaults);
    records' := records + [data];
    RecordsExtend(sheet, ids, now, currentTime, records, data, i);
    ImportedStep(start, records, data, ids, putFaults, i);
    processed', errors' := CountRow(processed, errors, i, ok, putFaults + logFaults);
  }

  /** A row is counted as processed when both its writes succeed, and is listed as failed otherwise. */
  method CountRow(processed: nat, errors: seq<nat>, i: nat, ok: bool, faults: set<nat>)
    returns (processed': nat, errors': seq<nat>)
    requires errors == FailedRows(i, faults) && processed + |errors| == i
    requires ok <==> i !in faults
    ensures errors' == FailedRows(i + 1, faults) && processed' + |errors'| == i + 1
  {
    if ok {
      processed', errors' := processed + 1, errors;
    } else {
      processed', errors' := processed, errors + [i];
    }
  }

  /** Appending the record of row `i` to those of the rows before it. */
  lemma RecordsExtend(sheet: Sheet, ids: seq<string>, now: Instant, currentTime: string,
                      records: seq<Record>, data: Record, i: nat)
    requires ValidSheet(sheet) && ValidInstant(now) && i < |sheet.rows| == |ids|
    requires records == SheetRecords(sheet, ids, now, currentTime)[..i]
    requires data == PrepareCertificateData(SheetRow(sheet, i), ids[i], now, currentTime)
    ensures records + [data] == SheetRecords(sheet, ids, now, currentTime)[..i + 1]
  {
    var s := SheetRecords(sheet, ids, now, currentTime);
    assert s[i] == data;
    assert s[..i + 1] == s[..i] + [s[i]];
  }

  /** The table after one more record: a put under its ID unless its write fails. */
  lemma ImportedStep(items: map<string, Record>, records: seq<Record>, data: Record, ids: seq<string>,
                     putFaults: set<nat>, i: nat)
    requires i == |records| < |ids|
    ensures Imported(items, records + [data], ids, putFaults, i + 1)
            == if i in putFaults then Imported(items, records, ids, putFaults, i)
               else Imported(items, records, ids, putFaults, i)[ids[i] := data]
  {
    var records' := records + [data];
    assert records'[..i] == records[..i];
    ImportedPrefix(items, records, records', ids, putFaults, i);
  }

  /** The headings of the sheet after map_excel_columns has renamed them. */
  method RenameColumns(columns: seq<string>) returns (names: seq<string>)
    ensures names == RenamedHeadings(columns)
  {
    var mapping := MapExcelColumns(columns, ColumnTable);
    names := seq(|columns|, j requires 0 <= j < |columns| => mapping[columns[j]]);
  }

  /** Every row gets a non-empty ID (the processor draws a fresh UUID for each). */
  predicate FreshIds(ids: seq<string>)
  {
    forall i :: 0 <= i < |ids| ==> ids[i] != ""
  }

  /** The loop of process_excel_file: every row is imported in order, and the failed rows are collected. */
  method ImportRows(table: CertificateTable, sheet: Sheet, names: seq<string>, ids: seq<string>, now: Instant,
                    currentTime: string, putFaults: set<nat>, logFaults: set<nat>)
    returns (processed: nat, errors: seq<nat>, ghost records: seq<Record>)
    requires table.Valid() && ValidSheet(sheet) && ValidInstant(now)
    requires names == RenamedHeadings(sheet.columns)
    requires |ids| == |sheet.rows| && FreshIds(ids)
    modifies table
    ensures table.Valid()
    ensures ImportedSoFar(table.items, old(table.items), sheet, ids, now, currentTime, putFaults, logFaults,
                          records, processed, errors, |sheet.rows|)
  {
    processed := 0;
    errors := [];
    records := [];
    ImportedNothing(table.items, sheet, ids, now, currentTime, putFaults, logFaults);
    for i := 0 to |sheet.rows|
      invariant table.Valid()
      invariant ImportedSoFar(table.items, old(table.items), sheet, ids, now, currentTime, putFaults, logFaults,
                              records, processed, errors, i)
    {
      processed, errors, records := ImportSheetRow(table, sheet, names, ids, i, now, currentTime, putFaults, logFaults,
                                                   processed, errors, records, old(table.items));
    }
  }

  /** Before the first row nothing has been imported. */
  lemma ImportedNothing(items: map<string, Record>, sheet: Sheet, ids: seq<string>, now: Instant, currentTime: string,
                        putFaults: set<nat>, logFaults: set<nat>)
    requires ValidSheet(sheet) && ValidInstant(now) && |ids| == |sheet.rows|
    ensures ImportedSoFar(items, items, sheet, ids, now, currentTime, putFaults, logFaults, [], 0, [], 0)
  {
  }

  /** Once every row has been imported, the records are those of the whole sheet. */
  lemma ImportedAll(items: map<string, Record>, start: map<string, Record>, sheet: Sheet, ids: seq<string>,
                    now: Instant, currentTime: string, putFaults: set<nat>, logFaults: set<nat>,
                    records: seq<Record>, processed: nat, errors: seq<nat>)
    requires ValidSheet(sheet) && ValidInstant(now) && |ids| == |sheet.rows|
    requires ImportedSoFar(items, start, sheet, ids, now, currentTime, putFaults, logFaults,
                           records, processed, errors, |sheet.rows|)
    ensures |records| == |sheet.rows|
    ensures items == Imported(start, records, ids, putFaults, |records|)
    ensures records == SheetRecords(sheet, ids, now, currentTime)
    ensures errors == FailedRows(|sheet.rows|, putFaults + logFaults)
    ensures processed + |errors| == |sheet.rows|
  {
    var all := SheetRecords(sheet, ids, now, currentTime);
    assert all[..|all|] == all;
  }

  /**
   * process_excel_file: each row is prepared under a fresh ID and put;
   * a row whose record or log write raises is an error, so the processed
   * and failed rows add up to the rows of the sheet, and at most ten
   * errors are detailed.  A row whose log write fails has still been put.
   */
  method ProcessExcelFile(table: CertificateTable, sheet: Sheet, ids: seq<string>, now: Instant, currentTime: string,
                          putFaults: set<nat>, logFaults: set<nat>)
    returns (summary: ExcelSummary, ghost records: seq<Record>)
    requires table.Valid() && ValidSheet(sheet) && ValidInstant(now)
    requires |ids| == |sheet.rows| && FreshIds(ids)
    modifies table
    ensures table.Valid()
    ensures |records| == |sheet.rows|
    ensures table.items == Imported(old(table.items), records, ids, putFaults, |records|)
    ensures records == SheetRecords(sheet, ids, now, currentTime)
    ensures summary.totalRows == |sheet.rows|
    ensures summary.processed + summary.errors == summary.totalRows
    ensures summary.errors == |FailedRows(|sheet.rows|, putFaults + logFaults)|
    ensures summary.errorDetails
            == FailedRows(|sheet.rows|, putFaults + logFaults)[..if summary.errors < 10 then summary.errors else 10]
  {
    var names := RenameColumns(sheet.columns);
    var processed, errors;
    processed, errors, records := ImportRows(table, sheet, names, ids, now, currentTime, putFaults, logFaults);
    ImportedAll(table.items, old(table.items), sheet, ids, now, currentTime, putFaults, logFaults,
                records, processed, errors);
    var shown := if |errors| < 10 then |errors| else 10;
    summary := ExcelSummary(|sheet.rows|, processed, |errors|, errors[..shown]);
  }
}

=== FILE: fix_all_tests.dfy ===
/**
 * The combined repair script (fix_all_tests.py): in one pass over the
 * table it applies the CommonName, Owner (derived name) and status
 * repairs of the three single-purpose scripts, one `update_item` per
 * record, and reports how many of each repair it queued and how many
 * writes failed.
 */
module FixAllTests {

  import opened Wrappers
  import opened Values
  import opened Store
  import opened Dates
  import opened Maintenance
  import FixCommonName
  import FixOwner
  import FixExpiredStatus

  datatype StatusFix = StatusFix(status: string, days: int)

  /** The repairs queued for one record. */
  datatype Fixes = Fixes(commonName: Option<Value>, owner: Option<Value>, status: Option<StatusFix>, invalidDate: bool)

  /**
   * The three checks of the script, each as the single-purpose script
   * makes it (the owner always as the derived name); `o` is what the
   * status check makes of the record's expiry date.
   */
  function Plan(r: Record, o: FixExpiredStatus.Outcome): (f: Fixes)
    ensures f.commonName.Some? <==> FixCommonName.Decide(r).SetName?
    ensures f.owner.Some? <==> FixOwner.Decide(r, true).SetOwner?
    ensures f.status.Some? <==> FixExpiredStatus.WriteFor(r, o, "").Some?
    ensures f.invalidDate <==> o.BadDate?
    ensures f.commonName.Some? ==> f.commonName.value == FixCommonName.NameOf(r)
    ensures f.owner.Some? ==> f.owner.value == FixOwner.NewOwner(r, true)
    ensures f.status.Some? ==> f.status.value.status == o.status
  {
    Fixes(
      match FixCommonName.Decide(r) case SetName(name) => Some(name) case _ => None,
      match FixOwner.Decide(r, true) case SetOwner(owner) => Some(owner) case _ => None,
      if o.Classified? && FixExpiredStatus.StatusOf(r) != Text(o.status) then Some(StatusFix(o.status, o.days)) else None,
      o.BadDate?)
  }

  /** `if updates:` — a record is written when a repair is queued or its date is unreadable. */
  predicate Queued(f: Fixes)
  {
    f.commonName.Some? || f.owner.Some? || f.status.Some? || f.invalidDate
  }

  function CommonNamePart(f: Fixes): Record
  {
    if f.commonName.Some? then map["CommonName" := f.commonName.value] else map[]
  }

  function OwnerPart(f: Fixes): Record
  {
    if f.owner.Some? then map["Owner" := f.owner.value] else map[]
  }

  function StatusPart(f: Fixes): Record
  {
    if f.status.Some? then map["Status" := Text(f.status.value.status), "DaysUntilExpiry" := Number(f.status.value.days)]
    else map[]
  }

  /** The attributes of the single `SET` expression, `LastUpdatedOn` last. */
  function WriteFor(f: Fixes, stamp: string): (w: Option<Record>)
    ensures w.Some? <==> Queued(f)
    ensures w.Some? ==> IdKey !in w.value && "LastUpdatedOn" in w.value && w.value["LastUpdatedOn"] == Text(stamp)
  {
    if Queued(f) then Some(CommonNamePart(f) + OwnerPart(f) + StatusPart(f) + map["LastUpdatedOn" := Text(stamp)])
    else None
  }

  /** A missing write reads as no attributes. */
  function Attributes(w: Option<Record>): Record
  {
    if w.Some? then w.value else map[]
  }

  /** The single-purpose scripts' writes, part by part. */
  lemma PartsAgree(r: Record, o: FixExpiredStatus.Outcome, stamp: string)
    ensures var f := Plan(r, o);
            var stampPart := map["LastUpdatedOn" := Text(stamp)];
            && Attributes(FixCommonName.WriteFor(FixCommonName.Decide(r), stamp))
               == (if f.commonName.Some? then CommonNamePart(f) + stampPart else map[])
            && Attributes(FixOwner.WriteFor(FixOwner.Decide(r, true), stamp))
               == (if f.owner.Some? then OwnerPart(f) + stampPart else map[])
            && Attributes(FixExpiredStatus.WriteFor(r, o, stamp))
               == (if f.status.Some? then StatusPart(f) + stampPart else map[])
  {
  }

  /** Merging parts that each end with the same stamp is merging the parts, then the stamp. */
  lemma MergeStamped(p1: Record, p2: Record, p3: Record, s: Record, b1: bool, b2: bool, b3: bool)
    ensures (if b1 then p1 + s else map[]) + (if b2 then p2 + s else map[]) + (if b3 then p3 + s else map[]) + s
            == (if b1 then p1 else map[]) + (if b2 then p2 else map[]) + (if b3 then p3 else map[]) + s
  {
  }

  /**
   * One combined write does what the three single-purpose scripts would
   * write, merged: a record is written exactly when one of them would
   * write it or its date is unreadable, and the write sets their
   * attributes together.
   */
  lemma CombinesScripts(r: Record, now: Instant, stamp: string)
    requires ValidInstant(now)
    ensures var o := FixExpiredStatus.Classify(r, now);
            var w := WriteFor(Plan(r, o), stamp);
            var a := FixCommonName.WriteFor(FixCommonName.Decide(r), stamp);
            var b := FixOwner.WriteFor(FixOwner.Decide(r, true), stamp);
            var c := FixExpiredStatus.WriteFor(r, o, stamp);
            && (w.Some? <==> a.Some? || b.Some? || c.Some? || o.BadDate?)
            && (w.Some? ==> w.value == Attributes(a) + Attributes(b) + Attributes(c) + map["LastUpdatedOn" := Text(stamp)])
  {
    var o := FixExpiredStatus.Classify(r, now);
    var f := Plan(r, o);
    PartsAgree(r, o, stamp);
    var stampPart := map["LastUpdatedOn" := Text(stamp)];
    MergeStamped(CommonNamePart(f), OwnerPart(f), StatusPart(f), stampPart,
                 f.commonName.Some?, f.owner.Some?, f.status.Some?);
  }

  /** The repairs each scanned record asks for. */
  function Plans(certificates: seq<Record>, outcomes: seq<FixExpiredStatus.Outcome>): (plans: seq<Fixes>)
    requires |outcomes| == |certificates|
    ensures |plans| == |certificates|
    ensures forall k :: 0 <= k < |certificates| ==> plans[k] == Plan(certificates[k], outcomes[k])
  {
    seq(|certificates|, k requires 0 <= k < |certificates| => Plan(certificates[k], outcomes[k]))
  }

  /** The write each record asks for. */
  function Writes(plans: seq<Fixes>, stamp: string): (writes: seq<Option<Record>>)
    ensures |writes| == |plans| && KeyUntouched(writes)
    ensures forall k :: 0 <= k < |plans| ==> writes[k] == WriteFor(plans[k], stamp)
  {
    seq(|plans|, k requires 0 <= k < |plans| => WriteFor(plans[k], stamp))
  }

  /** The `stats` the script reports, besides the total. */
  datatype Stats = Stats(commonName: nat, owner: nat, status: nat, errors: nat)

  /** One more record: its repairs count as soon as they are queued; a failed write counts as an error. */
  function Count(st: Stats, f: Fixes, failed: bool): Stats
  {
    Stats(st.commonName + (if f.commonName.Some? then 1 else 0),
          st.owner + (if f.owner.Some? then 1 else 0),
          st.status + (if f.status.Some? then 1 else 0),
          st.errors + (if Queued(f) && failed then 1 else 0))
  }

  function Summary(plans: seq<Fixes>, fails: seq<bool>): Stats
    requires |fails| == |plans|
  {
    if plans == [] then Stats(0, 0, 0, 0)
    else
      var last := |plans| - 1;
      Count(Summary(plans[..last], fails[..last]), plans[last], fails[last])
  }

  lemma SummaryStep(plans: seq<Fixes>, fails: seq<bool>, i: nat)
    requires |fails| == |plans| && i < |plans|
    ensures Summary(plans[..i + 1], fails[..i + 1]) == Count(Summary(plans[..i], fails[..i]), plans[i], fails[i])
  {
    assert plans[..i + 1][..i] == plans[..i];
    assert fails[..i + 1][..i] == fails[..i];
  }

  /**
   * The error count is the number of writes that raised, and the repair
   * counts do not depend on which writes went through.
   */
  lemma {:induction false} SummaryCounts(plans: seq<Fixes>, fails: seq<bool>, others: seq<bool>, stamp: string)
    requires |fails| == |plans| == |others|
    ensures Summary(plans, fails).errors == Tally(Writes(plans, stamp), fails).2
    ensures Summary(plans, fails).(errors := 0) == Summary(plans, others).(errors := 0)
  {
    if plans != [] {
      var last := |plans| - 1;
      SummaryCounts(plans[..last], fails[..last], others[..last], stamp);
      assert Writes(plans, stamp)[..last] == Writes(plans[..last], stamp);
    }
  }

  /**
   * The loop body for one record: plan its repairs and, when any is
   * queued, write them with the stamp.
   */
  method FixRecord(table: CertificateTable, r: Record, now: Instant, stamp: string, failed: bool, stats: Stats,
                   ghost start: map<string, Record>, ghost ids: seq<string>, ghost plans: seq<Fixes>,
                   ghost writes: seq<Option<Record>>, ghost fails: seq<bool>, ghost i: nat)
    returns (next: Stats)
    requires table.Valid() && ValidInstant(now) && HasId(r)
    requires |ids| == |plans| == |writes| == |fails| && KeyUntouched(writes) && i < |ids|
    requires ids[i] == IdOf(r) && plans[i] == Plan(r, FixExpiredStatus.Classify(r, now))
    requires writes[i] == WriteFor(plans[i], stamp) && fails[i] == failed
    requires table.items == Updated(start, ids[..i], writes[..i], fails[..i])
    requires stats == Summary(plans[..i], fails[..i])
    modifies table
    ensures table.Valid() && table.items == Updated(start, ids[..i + 1], writes[..i + 1], fails[..i + 1])
    ensures next == Summary(plans[..i + 1], fails[..i + 1])
  {
    SummaryStep(plans, fails, i);
    var f := Plan(r, FixExpiredStatus.Classify(r, now));
    next := Count(stats, f, failed);
    Apply(table, IdOf(r), WriteFor(f, stamp), failed, start, ids, writes, fails, i);
  }

  /** The script's main loop. */
  method FixAll(table: CertificateTable, certificates: seq<Record>, now: Instant, stamp: string, fails: seq<bool>)
    returns (stats: Stats)
    requires table.Valid() && ValidInstant(now)
    requires forall k :: 0 <= k < |certificates| ==> HasId(certificates[k])
    requires |fails| == |certificates|
    modifies table
    ensures table.Valid()
    ensures var plans := Plans(certificates, FixExpiredStatus.Outcomes(certificates, now));
            && table.items == Updated(old(table.items), Ids(certificates), Writes(plans, stamp), fails)
            && stats == Summary(plans, fails)
  {
    ghost var start := table.items;
    ghost var plans := Plans(certificates, FixExpiredStatus.Outcomes(certificates, now));
    ghost var ids, writes := Ids(certificates), Writes(plans, stamp);
    stats := Stats(0, 0, 0, 0);
    var i := 0;
    while i < |certificates|
      invariant 0 <= i <= |certificates|
      invariant table.Valid()
      invariant table.items == Updated(start, ids[..i], writes[..i], fails[..i])
      invariant stats == Summary(plans[..i], fails[..i])
    {
      stats := FixRecord(table, certificates[i], now, stamp, fails[i], stats, start, ids, plans, writes, fails, i);
      i := i + 1;
    }
    assert ids[..i] == ids && writes[..i] == writes && fails[..i] == fails && plans[..i] == plans;
  }

  /** No repair of the three is left to queue. */
  predicate Repaired(r: Record, now: Instant)
    requires ValidInstant(now)
  {
    var f := Plan(r, FixExpiredStatus.Classify(r, now));
    f.commonName.None? && f.owner.None? && f.status.None?
  }

  /** Writing the name into `CommonName` (and leaving the name alone) settles the CommonName check. */
  lemma CommonNameSettles(r: Record, changes: Record)
    requires "CertificateName" !in changes
    requires FixCommonName.Decide(r).SetName? ==> "CommonName" in changes && changes["CommonName"] == FixCommonName.NameOf(r)
    requires !FixCommonName.Decide(r).SetName? ==> "CommonName" !in changes
    ensures !FixCommonName.Decide(r + changes).SetName?
  {
    assert FixCommonName.NameOf(r + changes) == FixCommonName.NameOf(r);
  }

  /** Writing the derived name into `Owner` (and leaving the address alone) settles the Owner check. */
  lemma OwnerSettles(r: Record, changes: Record)
    requires "OwnerEmail" !in changes
    requires FixOwner.Decide(r, true).SetOwner? ==> "Owner" in changes && changes["Owner"] == FixOwner.NewOwner(r, true)
    requires !FixOwner.Decide(r, true).SetOwner? ==> "Owner" !in changes
    ensures !FixOwner.Decide(r + changes, true).SetOwner?
  {
    var r' := r + changes;
    assert FixOwner.EmailOf(r') == FixOwner.EmailOf(r);
    assert GetText(r', "OwnerEmail", "") == GetText(r, "OwnerEmail", "");
  }

  /** Writing the computed status (and leaving the date alone) settles the status check. */
  lemma StatusSettles(r: Record, changes: Record, now: Instant)
    requires ValidInstant(now) && "ExpiryDate" !in changes
    requires var o := FixExpiredStatus.Classify(r, now);
             FixExpiredStatus.WriteFor(r, o, "").Some? ==> "Status" in changes && changes["Status"] == Text(o.status)
    requires !FixExpiredStatus.WriteFor(r, FixExpiredStatus.Classify(r, now), "").Some? ==> "Status" !in changes
    ensures FixExpiredStatus.WriteFor(r + changes, FixExpiredStatus.Classify(r + changes, now), "").None?
  {
    FixExpiredStatus.ClassifyIgnores(r, changes, now);
  }

  /** What the combined write sets, repair by repair; it never touches the attributes the checks read. */
  lemma ChangesShape(f: Fixes, stamp: string)
    requires Queued(f)
    ensures var c := WriteFor(f, stamp).value;
            && "CertificateName" !in c && "OwnerEmail" !in c && "ExpiryDate" !in c
            && (f.commonName.Some? <==> "CommonName" in c)
            && (f.commonName.Some? ==> c["CommonName"] == f.commonName.value)
            && (f.owner.Some? <==> "Owner" in c)
            && (f.owner.Some? ==> c["Owner"] == f.owner.value)
            && (f.status.Some? <==> "Status" in c)
            && (f.status.Some? ==> c["Status"] == Text(f.status.value.status))
  {
  }

  /** A record once written has no repair left to queue. */
  lemma WriteRepairs(r: Record, now: Instant, stamp: string)
    requires ValidInstant(now)
    ensures var w := WriteFor(Plan(r, FixExpiredStatus.Classify(r, now)), stamp);
            Repaired(if w.Some? then r + w.value else r, now)
  {
    var o := FixExpiredStatus.Classify(r, now);
    var f := Plan(r, o);
    if Queued(f) {
      var changes := WriteFor(f, stamp).value;
      ChangesShape(f, stamp);
      CommonNameSettles(r, changes);
      OwnerSettles(r, changes);
      StatusSettles(r, changes, now);
    }
  }

  /**
   * After a run in which every write went through, a second run at the
   * same moment queues no CommonName, Owner or status repair.
   */
  lemma SecondRunRepairsNothing(items: map<string, Record>, certificates: seq<Record>, now: Instant, stamp: string, fails: seq<bool>)
    requires IsScanOf(certificates, items) && ValidInstant(now)
    requires |fails| == |certificates| && forall k :: 0 <= k < |fails| ==> !fails[k]
    ensures var plans := Plans(certificates, FixExpiredStatus.Outcomes(certificates, now));
            var after := Updated(items, Ids(certificates), Writes(plans, stamp), fails);
            forall id :: id in after ==> Repaired(after[id], now)
  {
    var plans := Plans(certificates, FixExpiredStatus.Outcomes(certificates, now));
    var writes := Writes(plans, stamp);
    var settled := r => Repaired(r, now);
    forall k | 0 <= k < |certificates|
      ensures Settles(certificates[k], writes[k], settled)
    {
      WriteRepairs(certificates[k], now, stamp);
    }
    SettledAll(items, certificates, writes, fails, settled);
  }

  /**
   * A record whose expiry date `strptime` rejects is written on every
   * run, with nothing but a new `LastUpdatedOn` when it needs no repair,
   * and its date stays unreadable: the script never settles on it.
   */
  lemma InvalidDateRewritten(r: Record, now: Instant, stamp: string)
    requires ValidInstant(now) && FixExpiredStatus.Classify(r, now).BadDate?
    ensures var w := WriteFor(Plan(r, FixExpiredStatus.Classify(r, now)), stamp);
            && w.Some?
            && (Repaired(r, now) ==> w.value == map["LastUpdatedOn" := Text(stamp)])
            && FixExpiredStatus.Classify(r + w.value, now).BadDate?
  {
    var f := Plan(r, FixExpiredStatus.Classify(r, now));
    FixExpiredStatus.ClassifyIgnores(r, WriteFor(f, stamp).value, now);
  }

  /**
   * When every write fails the table is left as it was, yet the repair
   * counts are those of a run in which every write went through.
   */
  lemma FailedRunStillCounts(items: map<string, Record>, certificates: seq<Record>, now: Instant, stamp: string,
                             fails: seq<bool>, clean: seq<bool>)
    requires ValidInstant(now) && forall k :: 0 <= k < |certificates| ==> HasId(certificates[k])
    requires |fails| == |clean| == |certificates|
    requires forall k :: 0 <= k < |fails| ==> fails[k] && !clean[k]
    ensures var plans := Plans(certificates, FixExpiredStatus.Outcomes(certificates, now));
            && Updated(items, Ids(certificates), Writes(plans, stamp), fails) == items
            && Summary(plans, fails).(errors := 0) == Summary(plans, clean).(errors := 0)
  {
    var plans := Plans(certificates, FixExpiredStatus.Outcomes(certificates, now));
    AllFailedNoChange(items, Ids(certificates), Writes(plans, stamp), fails);
    SummaryCounts(plans, fails, clean, stamp);
  }
}

=== FILE: fix_commonname.dfy ===
/**
 * The CommonName repair script (archive/fix_commonname.py): copy every
 * record's `CertificateName` into `CommonName` where they differ, and
 * count the records updated, skipped and failed.
 */
module FixCommonName {

  import opened Wrappers
  import opened Values
  import opened Store
  import opened Maintenance

  /** What the script does with one record. */
  datatype Decision = NoName | AlreadySet | SetName(name: Value)

  /** `cert.get('CertificateName', '')` */
  function NameOf(r: Record): Value
  {
    Member(r, "CertificateName", Text(""))
  }

  /**
   * A record with an empty name is skipped, and so is one whose
   * `CommonName` already equals its name; any other is given its name.
   */
  function Decide(r: Record): (d: Decision)
    ensures d.NoName? <==> !Truthy(NameOf(r))
    ensures d.AlreadySet? <==> Truthy(NameOf(r)) && Member(r, "CommonName", Text("")) == NameOf(r)
    ensures d.SetName? ==> d.name == NameOf(r) && Truthy(d.name) && Member(r, "CommonName", Text("")) != d.name
  {
    var name := NameOf(r);
    if !Truthy(name) then NoName
    else if Member(r, "CommonName", Text("")) == name then AlreadySet
    else SetName(name)
  }

  /** `SET CommonName = :name, LastUpdatedOn = :updated` */
  function WriteFor(d: Decision, stamp: string): (w: Option<Record>)
    ensures w.Some? <==> d.SetName?
    ensures w.Some? ==> w.value.Keys == {"CommonName", "LastUpdatedOn"}
                        && w.value["CommonName"] == d.name && w.value["LastUpdatedOn"] == Text(stamp)
  {
    match d
    case SetName(name) => Some(map["CommonName" := name, "LastUpdatedOn" := Text(stamp)])
    case _ => None
  }

  /** The write each scanned record asks for. */
  function Writes(certificates: seq<Record>, stamp: string): (writes: seq<Option<Record>>)
    ensures |writes| == |certificates| && KeyUntouched(writes)
    ensures forall k :: 0 <= k < |certificates| ==> writes[k] == WriteFor(Decide(certificates[k]), stamp)
  {
    seq(|certificates|, k requires 0 <= k < |certificates| => WriteFor(Decide(certificates[k]), stamp))
  }

  /** A record once given its name is skipped by the next run. */
  lemma WriteSettles(r: Record, stamp: string)
    requires Decide(r).SetName?
    ensures Decide(r + WriteFor(Decide(r), stamp).value).AlreadySet?
  {
    var r' := r + WriteFor(Decide(r), stamp).value;
    assert NameOf(r') == NameOf(r);
  }

  /** The script's main loop. */
  method FixCommonNames(table: CertificateTable, certificates: seq<Record>, stamp: string, fails: seq<bool>)
    returns (updated: nat, skipped: nat, errors: nat)
    requires table.Valid()
    requires forall k :: 0 <= k < |certificates| ==> HasId(certificates[k])
    requires |fails| == |certificates|
    modifies table
    ensures table.Valid()
    ensures table.items == Updated(old(table.items), Ids(certificates), Writes(certificates, stamp), fails)
    ensures (updated, skipped, errors) == Tally(Writes(certificates, stamp), fails)
  {
    ghost var start := table.items;
    ghost var ids, writes := Ids(certificates), Writes(certificates, stamp);
    updated, skipped, errors := 0, 0, 0;
    var i := 0;
    while i < |certificates|
      invariant 0 <= i <= |certificates|
      invariant table.Valid()
      invariant table.items == Updated(start, ids[..i], writes[..i], fails[..i])
      invariant (updated, skipped, errors) == Tally(writes[..i], fails[..i])
    {
      var d := Decide(certificates[i]);
      Apply(table, IdOf(certificates[i]), WriteFor(d, stamp), fails[i], start, ids, writes, fails, i);
      TallyStep(writes, fails, i);
      var t := Bump((updated, skipped, errors), d.SetName?, fails[i]);
      updated, skipped, errors := t.0, t.1, t.2;
      i := i + 1;
    }
    assert ids[..i] == ids && writes[..i] == writes && fails[..i] == fails;
  }

  /**
   * A second run over a table the script has fixed without error updates
   * nothing: every record then has an empty name or its name already in
   * `CommonName`.
   */
  lemma SecondRunIdle(items: map<string, Record>, certificates: seq<Record>, stamp: string, fails: seq<bool>)
    requires IsScanOf(certificates, items)
    requires |fails| == |certificates| && forall k :: 0 <= k < |fails| ==> !fails[k]
    ensures var after := Updated(items, Ids(certificates), Writes(certificates, stamp), fails);
            forall id :: id in after ==> !Decide(after[id]).SetName?
  {
    var writes := Writes(certificates, stamp);
    var settled := r => !Decide(r).SetName?;
    forall k | 0 <= k < |certificates|
      ensures Settles(certificates[k], writes[k], settled)
    {
      if Decide(certificates[k]).SetName? {
        WriteSettles(certificates[k], stamp);
      }
    }
    SettledAll(items, certificates, writes, fails, settled);
  }
}

=== FILE: fix_expired_status.dfy ===
/**
 * The status repair script (archive/fix_expired_status.py): recompute
 * every dated record's status under the two-tier rule, write the records
 * whose stored status differs, and report how the statuses are spread.
 */
module FixExpiredStatus {

  import opened Wrappers
  import opened Values
  import opened Store
  import opened Dates
  import opened Statuses
  import opened Maintenance

  /** What the script makes of one record. */
  datatype Outcome = NoDate | BadDate | Classified(status: string, days: int)

  /**
   * A record without an expiry date, or with one `strptime` rejects, is
   * passed over; any other gets the two-tier status of its days left,
   * counted from the moment the script started.
   */
  function Classify(r: Record, now: Instant): Outcome
    requires ValidInstant(now)
  {
    if !HasTruthy(r, "ExpiryDate") then NoDate
    else match ParseIso(GetText(r, "ExpiryDate", ""))
      case None => BadDate
      case Some(expiry) =>
        var days := DaysFromNow(expiry, now);
        Classified(TwoTierStatus(days), days)
  }

  /**
   * The outcome for each kind of record, and the four bands of days left
   * that the status stands for.
   */
  lemma ClassifyCases(r: Record, now: Instant)
    requires ValidInstant(now)
    ensures var o := Classify(r, now);
            && (o.NoDate? <==> !HasTruthy(r, "ExpiryDate"))
            && (o.BadDate? <==> HasTruthy(r, "ExpiryDate") && ParseIso(GetText(r, "ExpiryDate", "")).None?)
            && (o.Classified? ==>
                  var expiry := ParseIso(GetText(r, "ExpiryDate", ""));
                  && expiry.Some? && o.days == DaysFromNow(expiry.value, now)
                  && (o.status == Expired <==> o.days < 0)
                  && (o.status == ExpiringSoon <==> 0 <= o.days <= 30)
                  && (o.status == DueForRenewal <==> 30 < o.days <= 90)
                  && (o.status == Active <==> o.days > 90))
  {
  }

  /**
   * A certificate counts as expired from the first moment after midnight
   * of its expiry day: before that day it is not expired, and at midnight
   * itself it still has zero days left.
   */
  lemma ExpiredFromExpiryDay(r: Record, now: Instant)
    requires ValidInstant(now) && Classify(r, now).Classified?
    ensures var expiry := ParseIso(GetText(r, "ExpiryDate", "")).value;
            Classify(r, now).status == Expired
            <==> Before(expiry, now.date) || (expiry == now.date && now.micros > 0)
  {
    var expiry := ParseIso(GetText(r, "ExpiryDate", "")).value;
    ClassifyCases(r, now);
    DaysFromNowByDay(expiry, now);
    DayNumberOrder(expiry, now.date);
    DayNumberOrder(now.date, expiry);
  }

  /** `cert.get('Status', 'Unknown')` */
  function StatusOf(r: Record): Value
  {
    Member(r, "Status", Text(Unknown))
  }

  /** `SET #status = :status, DaysUntilExpiry = :days, LastUpdatedOn = :updated`, when the status differs. */
  function WriteFor(r: Record, o: Outcome, stamp: string): (w: Option<Record>)
    ensures w.Some? <==> o.Classified? && StatusOf(r) != Text(o.status)
    ensures w.Some? ==> w.value.Keys == {"Status", "DaysUntilExpiry", "LastUpdatedOn"}
                        && w.value["Status"] == Text(o.status)
                        && w.value["DaysUntilExpiry"] == Number(o.days)
                        && w.value["LastUpdatedOn"] == Text(stamp)
  {
    match o
    case Classified(status, days) =>
      if StatusOf(r) != Text(status) then
        Some(map["Status" := Text(status), "DaysUntilExpiry" := Number(days), "LastUpdatedOn" := Text(stamp)])
      else None
    case _ => None
  }

  /** The write each scanned record asks for, given what the script made of it. */
  function Writes(certificates: seq<Record>, outcomes: seq<Outcome>, stamp: string): (writes: seq<Option<Record>>)
    requires |outcomes| == |certificates|
    ensures |writes| == |certificates| && KeyUntouched(writes)
    ensures forall k :: 0 <= k < |certificates| ==> writes[k] == WriteFor(certificates[k], outcomes[k], stamp)
  {
    seq(|certificates|, k requires 0 <= k < |certificates| => WriteFor(certificates[k], outcomes[k], stamp))
  }

  /** A record is settled when it has no readable date or already holds its status. */
  predicate Settled(r: Record, now: Instant)
    requires ValidInstant(now)
  {
    var o := Classify(r, now);
    o.Classified? ==> StatusOf(r) == Text(o.status)
  }

  /** Attributes other than the expiry date do not change the outcome. */
  lemma ClassifyIgnores(r: Record, changes: Record, now: Instant)
    requires ValidInstant(now) && "ExpiryDate" !in changes
    ensures Classify(r + changes, now) == Classify(r, now)
  {
    var r' := r + changes;
    assert Member(r', "ExpiryDate", Null) == Member(r, "ExpiryDate", Null);
    assert GetText(r', "ExpiryDate", "") == GetText(r, "ExpiryDate", "");
  }

  /** The write leaves the expiry date alone, so the record then holds its own status. */
  lemma WriteSettles(r: Record, now: Instant, stamp: string)
    requires ValidInstant(now) && WriteFor(r, Classify(r, now), stamp).Some?
    ensures Settled(r + WriteFor(r, Classify(r, now), stamp).value, now)
  {
    ClassifyIgnores(r, WriteFor(r, Classify(r, now), stamp).value, now);
  }

  /** The status spread the script reports. */
  datatype Distribution = Distribution(active: nat, renewal: nat, expiring: nat, expired: nat)
  {
    function Total(): nat
    {
      active + renewal + expiring + expired
    }
  }

  /** One more classified status. */
  function Count(d: Distribution, status: string): (e: Distribution)
    ensures e.Total() == d.Total() + 1
    ensures status == Expired ==> e == d.(expired := d.expired + 1)
    ensures status == ExpiringSoon ==> e == d.(expiring := d.expiring + 1)
    ensures status == DueForRenewal ==> e == d.(renewal := d.renewal + 1)
  {
    if status == Expired then d.(expired := d.expired + 1)
    else if status == ExpiringSoon then d.(expiring := d.expiring + 1)
    else if status == DueForRenewal then d.(renewal := d.renewal + 1)
    else d.(active := d.active + 1)
  }

  /** One more record: counted when it has a readable date. */
  function Note(d: Distribution, o: Outcome): (e: Distribution)
    ensures e.Total() == d.Total() + (if o.Classified? then 1 else 0)
  {
    if o.Classified? then Count(d, o.status) else d
  }

  /** What the script makes of each scanned record. */
  function Outcomes(certificates: seq<Record>, now: Instant): (outcomes: seq<Outcome>)
    requires ValidInstant(now)
    ensures |outcomes| == |certificates|
    ensures forall k :: 0 <= k < |certificates| ==> outcomes[k] == Classify(certificates[k], now)
  {
    seq(|certificates|, k requires 0 <= k < |certificates| => Classify(certificates[k], now))
  }

  /** The spread over the records with a readable date. */
  function Spread(outcomes: seq<Outcome>): Distribution
  {
    if outcomes == [] then Distribution(0, 0, 0, 0)
    else
      var last := |outcomes| - 1;
      Note(Spread(outcomes[..last]), outcomes[last])
  }

  /** The positions of the records with a readable date. */
  function Dated(outcomes: seq<Outcome>): set<nat>
  {
    set k: nat | k < |outcomes| && outcomes[k].Classified?
  }

  lemma DatedSnoc(outcomes: seq<Outcome>)
    requires outcomes != []
    ensures var last := |outcomes| - 1;
            var front := Dated(outcomes[..last]);
            && last !in front
            && Dated(outcomes) == front + (if outcomes[last].Classified? then {last} else {})
  {
  }

  /** The four counts add up to the number of records with a readable date. */
  lemma {:induction false} SpreadTotal(outcomes: seq<Outcome>)
    ensures Spread(outcomes).Total() == |Dated(outcomes)|
  {
    if outcomes != [] {
      SpreadTotal(outcomes[..|outcomes| - 1]);
      DatedSnoc(outcomes);
    }
  }

  lemma SpreadStep(outcomes: seq<Outcome>, i: nat)
    requires i < |outcomes|
    ensures Spread(outcomes[..i + 1]) == Note(Spread(outcomes[..i]), outcomes[i])
  {
    assert outcomes[..i + 1][..i] == outcomes[..i];
  }

  /**
   * The loop body for one record: count its status, and write it when
   * the status differs.
   */
  method FixRecord(table: CertificateTable, r: Record, now: Instant, stamp: string, failed: bool, spread: Distribution,
                   ghost start: map<string, Record>, ghost ids: seq<string>, ghost writes: seq<Option<Record>>,
                   ghost fails: seq<bool>, ghost outcomes: seq<Outcome>, ghost i: nat)
    returns (next: Distribution, wrote: bool)
    requires table.Valid() && ValidInstant(now) && HasId(r)
    requires |ids| == |writes| == |fails| == |outcomes| && KeyUntouched(writes) && i < |ids|
    requires ids[i] == IdOf(r) && outcomes[i] == Classify(r, now) && writes[i] == WriteFor(r, outcomes[i], stamp)
    requires fails[i] == failed
    requires table.items == Updated(start, ids[..i], writes[..i], fails[..i])
    requires spread == Spread(outcomes[..i])
    modifies table
    ensures table.Valid() && table.items == Updated(start, ids[..i + 1], writes[..i + 1], fails[..i + 1])
    ensures next == Spread(outcomes[..i + 1])
    ensures wrote == (writes[i].Some? && !failed)
  {
    SpreadStep(outcomes, i);
    var outcome := Classify(r, now);
    next := Note(spread, outcome);
    var write := WriteFor(r, outcome, stamp);
    Apply(table, IdOf(r), write, failed, start, ids, writes, fails, i);
    wrote := write.Some? && !failed;
  }

  /** The script's main loop. */
  method FixStatuses(table: CertificateTable, certificates: seq<Record>, now: Instant, stamp: string, fails: seq<bool>)
    returns (updated: nat, spread: Distribution)
    requires table.Valid() && ValidInstant(now)
    requires forall k :: 0 <= k < |certificates| ==> HasId(certificates[k])
    requires |fails| == |certificates|
    modifies table
    ensures table.Valid()
    ensures table.items == Updated(old(table.items), Ids(certificates), Writes(certificates, Outcomes(certificates, now), stamp), fails)
    ensures updated == Tally(Writes(certificates, Outcomes(certificates, now), stamp), fails).0
    ensures spread == Spread(Outcomes(certificates, now))
  {
    ghost var start := table.items;
    ghost var outcomes := Outcomes(certificates, now);
    ghost var ids, writes := Ids(certificates), Writes(certificates, outcomes, stamp);
    updated, spread := 0, Distribution(0, 0, 0, 0);
    var i := 0;
    while i < |certificates|
      invariant 0 <= i <= |certificates|
      invariant table.Valid()
      invariant table.items == Updated(start, ids[..i], writes[..i], fails[..i])
      invariant updated == Tally(writes[..i], fails[..i]).0
      invariant spread == Spread(outcomes[..i])
    {
      TallyStep(writes, fails, i);
      var wrote;
      spread, wrote := FixRecord(table, certificates[i], now, stamp, fails[i], spread, start, ids, writes, fails, outcomes, i);
      updated := if wrote then updated + 1 else updated;
      i := i + 1;
    }
    assert ids[..i] == ids && writes[..i] == writes && fails[..i] == fails && outcomes[..i] == outcomes;
  }

  /**
   * A second run at the same moment over a table the script has fixed
   * without error updates nothing.
   */
  lemma SecondRunIdle(items: map<string, Record>, certificates: seq<Record>, now: Instant, stamp: string, fails: seq<bool>)
    requires IsScanOf(certificates, items) && ValidInstant(now)
    requires |fails| == |certificates| && forall k :: 0 <= k < |fails| ==> !fails[k]
    ensures var after := Updated(items, Ids(certificates), Writes(certificates, Outcomes(certificates, now), stamp), fails);
            forall id :: id in after ==> WriteFor(after[id], Classify(after[id], now), stamp).None?
  {
    var writes := Writes(certificates, Outcomes(certificates, now), stamp);
    var settled := r => Settled(r, now);
    forall k | 0 <= k < |certificates|
      ensures Settles(certificates[k], writes[k], settled)
    {
      if writes[k].Some? {
        WriteSettles(certificates[k], now, stamp);
      }
    }
    SettledAll(items, certificates, writes, fails, settled);
  }
}

=== FILE: fix_owner.dfy ===
/**
 * The Owner repair script (fix_owner.py): copy every record's
 * `OwnerEmail` into `Owner`, either as it stands or as the name derived
 * from it, and count the records updated, skipped and failed.
 */
module FixOwner {

  import opened Wrappers
  import opened Values
  import opened Text
  import opened Store
  import opened EmailNames
  import opened Maintenance

  /**
   * The answer to the format prompt: an empty answer counts as `1`, and
   * only `1` selects the derived name.
   */
  function UseExtractedName(answer: string): (extracted: bool)
    ensures extracted <==> Strip(answer) in {"", "1"}
    ensures answer == "1" ==> extracted
    ensures answer == "2" ==> !extracted
  {
    var choice := if Strip(answer) == "" then "1" else Strip(answer);
    choice == "1"
  }

  /** What the script does with one record. */
  datatype Decision = NoEmail | AlreadySet | SetOwner(owner: Value)

  /** `cert.get('OwnerEmail', '')` */
  function EmailOf(r: Record): Value
  {
    Member(r, "OwnerEmail", Text(""))
  }

  /** The owner the script wants: the derived name, or the address itself. */
  function NewOwner(r: Record, extracted: bool): (owner: Value)
    ensures extracted ==> owner == Text(ExtractNameFromEmail(GetText(r, "OwnerEmail", "")))
    ensures !extracted ==> owner == EmailOf(r)
  {
    if extracted then Text(ExtractNameFromEmail(GetText(r, "OwnerEmail", ""))) else EmailOf(r)
  }

  /**
   * A record without an address is skipped, and so is one whose `Owner`
   * already holds the wanted owner; any other is given it.
   */
  function Decide(r: Record, extracted: bool): (d: Decision)
    ensures d.NoEmail? <==> !Truthy(EmailOf(r))
    ensures d.AlreadySet? <==> Truthy(EmailOf(r)) && Member(r, "Owner", Text("")) == NewOwner(r, extracted)
    ensures d.SetOwner? ==> d.owner == NewOwner(r, extracted) && Member(r, "Owner", Text("")) != d.owner
  {
    if !Truthy(EmailOf(r)) then NoEmail
    else
      var owner := NewOwner(r, extracted);
      if Member(r, "Owner", Text("")) == owner then AlreadySet else SetOwner(owner)
  }

  /** `SET #owner = :owner, LastUpdatedOn = :updated` */
  function WriteFor(d: Decision, stamp: string): (w: Option<Record>)
    ensures w.Some? <==> d.SetOwner?
    ensures w.Some? ==> w.value.Keys == {"Owner", "LastUpdatedOn"}
                        && w.value["Owner"] == d.owner && w.value["LastUpdatedOn"] == Text(stamp)
  {
    match d
    case SetOwner(owner) => Some(map["Owner" := owner, "LastUpdatedOn" := Text(stamp)])
    case _ => None
  }

  /** The write each scanned record asks for. */
  function Writes(certificates: seq<Record>, extracted: bool, stamp: string): (writes: seq<Option<Record>>)
    ensures |writes| == |certificates| && KeyUntouched(writes)
    ensures forall k :: 0 <= k < |certificates| ==> writes[k] == WriteFor(Decide(certificates[k], extracted), stamp)
  {
    seq(|certificates|, k requires 0 <= k < |certificates| => WriteFor(Decide(certificates[k], extracted), stamp))
  }

  /** A record once given its owner is skipped by the next run in the same format. */
  lemma WriteSettles(r: Record, extracted: bool, stamp: string)
    requires Decide(r, extracted).SetOwner?
    ensures Decide(r + WriteFor(Decide(r, extracted), stamp).value, extracted).AlreadySet?
  {
    var r' := r + WriteFor(Decide(r, extracted), stamp).value;
    assert EmailOf(r') == EmailOf(r);
    assert GetText(r', "OwnerEmail", "") == GetText(r, "OwnerEmail", "");
  }

  /** The script's main run: the format chosen by the answer to the prompt, then the loop. */
  method FixOwners(table: CertificateTable, certificates: seq<Record>, answer: string, stamp: string, fails: seq<bool>)
    returns (extracted: bool, updated: nat, skipped: nat, errors: nat)
    requires table.Valid()
    requires forall k :: 0 <= k < |certificates| ==> HasId(certificates[k])
    requires |fails| == |certificates|
    modifies table
    ensures table.Valid()
    ensures extracted == UseExtractedName(answer)
    ensures table.items == Updated(old(table.items), Ids(certificates), Writes(certificates, extracted, stamp), fails)
    ensures (updated, skipped, errors) == Tally(Writes(certificates, extracted, stamp), fails)
  {
    extracted := UseExtractedName(answer);
    ghost var start := table.items;
    ghost var ids, writes := Ids(certificates), Writes(certificates, extracted, stamp);
    updated, skipped, errors := 0, 0, 0;
    var i := 0;
    while i < |certificates|
      invariant 0 <= i <= |certificates|
      invariant table.Valid()
      invariant table.items == Updated(start, ids[..i], writes[..i], fails[..i])
      invariant (updated, skipped, errors) == Tally(writes[..i], fails[..i])
    {
      var d := Decide(certificates[i], extracted);
      Apply(table, IdOf(certificates[i]), WriteFor(d, stamp), fails[i], start, ids, writes, fails, i);
      TallyStep(writes, fails, i);
      var t := Bump((updated, skipped, errors), d.SetOwner?, fails[i]);
      updated, skipped, errors := t.0, t.1, t.2;
      i := i + 1;
    }
    assert ids[..i] == ids && writes[..i] == writes && fails[..i] == fails;
  }

  /**
   * A second run in the same format over a table the script has fixed
   * without error updates nothing.
   */
  lemma SecondRunIdle(items: map<string, Record>, certificates: seq<Record>, extracted: bool, stamp: string, fails: seq<bool>)
    requires IsScanOf(certificates, items)
    requires |fails| == |certificates| && forall k :: 0 <= k < |fails| ==> !fails[k]
    ensures var after := Updated(items, Ids(certificates), Writes(certificates, extracted, stamp), fails);
            forall id :: id in after ==> !Decide(after[id], extracted).SetOwner?
  {
    var writes := Writes(certificates, extracted, stamp);
    var settled := r => !Decide(r, extracted).SetOwner?;
    forall k | 0 <= k < |certificates|
      ensures Settles(certificates[k], writes[k], settled)
    {
      if Decide(certificates[k], extracted).SetOwner? {
        WriteSettles(certificates[k], extracted, stamp);
      }
    }
    SettledAll(items, certificates, writes, fails, settled);
  }
}

=== FILE: import_certificates.dfy ===
/**
 * The spreadsheet import script (src/scripts/import_certificates.py):
 * read the certificate rows of a worksheet, map each to a certificate
 * record, and write the records in batches of 25.
 *
 * The worksheet is given as its cells; opening the file, the generated
 * IDs, the clock's time stamp and the outcome of every batch write are
 * inputs.
 */
module CertificateImport {

  import opened Wrappers
  import opened Values
  import opened Text
  import opened Dates
  import opened Store
  import opened Batching

  type CalendarDate = d: Date | ValidDate(d) witness Date(2000, 1, 1)

  /** A cell as openpyxl reads it: empty, text, a whole number or a date. */
  datatype Cell = Empty | Str(s: string) | Int(n: int) | When(d: CalendarDate)

  predicate CellTruthy(c: Cell)
  {
    match c
    case Empty => false
    case Str(s) => s != ""
    case Int(n) => n != 0
    case When(_) => true
  }

  /** `str(value)`; a date cell holds a `datetime` at midnight. */
  function CellText(c: Cell): string
  {
    match c
    case Empty => "None"
    case Str(s) => s
    case Int(n) => IntToString(n)
    case When(d) => FormatIso(d) + " 00:00:00"
  }

  // ----- dates -----

  /**
   * The date forms read from text: `YYYY-MM-DD`, and otherwise
   * `MM/DD/YYYY`, dateutil's month-first reading of a numeric date.
   */
  function DateutilParse(s: string): (d: Option<Date>)
    ensures d.Some? ==> ValidDate(d.value)
  {
    if ParseIso(s).Some? then ParseIso(s) else ParseNumericDate(s, '/', MDY)
  }

  /**
   * parse_date: a date cell and a readable text give `YYYY-MM-DD`; an
   * unreadable text is kept as it is; an empty or falsy cell gives
   * nothing, and so does a number, which no branch handles.
   */
  function ParseDate(c: Cell): (r: Option<string>)
    ensures r.None? <==> !CellTruthy(c) || c.Int?
    ensures c.When? ==> r == Some(FormatIso(c.d))
    ensures c.Str? && CellTruthy(c) && DateutilParse(c.s).None? ==> r == Some(c.s)
  {
    if !CellTruthy(c) then None
    else
      match c
      case When(d) => Some(FormatIso(d))
      case Str(s) =>
        (match DateutilParse(s)
         case Some(d) => Some(FormatIso(d))
         case None => Some(s))
      case _ => None
  }

  /** Whatever parse_date recognises as a date it writes in a form that reads back as that date. */
  lemma ParseDateReadsBack(c: Cell)
    requires c.When? || (c.Str? && DateutilParse(c.s).Some?)
    ensures var d := if c.When? then c.d else DateutilParse(c.s).value;
            ParseDate(c) == Some(FormatIso(d)) && ParseIso(ParseDate(c).value) == Some(d)
  {
    var d := if c.When? then c.d else DateutilParse(c.s).value;
    ParseFormatIso(d);
  }

  // ----- the header row -----

  /** A header: the column it heads and its stripped text. */
  datatype Column = Column(index: nat, name: string)

  /**
   * The header row as written: the stripped text of every non-empty
   * header cell, in order.  A header that is not text makes `strip`
   * raise, and the whole read gives no certificates.  The k-th name is
   * later paired with the k-th column, whatever column it came from.
   */
  function HeaderNames(cells: seq<Cell>): (names: Option<seq<string>>)
    ensures names.Some? ==> |names.value| <= |cells|
    ensures names.Some? <==> HeaderColumns(cells).Some?
    ensures names.Some? ==> |names.value| == |HeaderColumns(cells).value|
    ensures names.Some? ==> forall j :: 0 <= j < |names.value| ==> names.value[j] == HeaderColumns(cells).value[j].name
  {
    if cells == [] then Some([])
    else
      match HeaderNames(cells[..|cells| - 1])
      case None => None
      case Some(front) =>
        var c := cells[|cells| - 1];
        if !CellTruthy(c) then Some(front)
        else if c.Str? then Some(front + [Strip(c.s)])
        else None
  }

  /** `enumerate(headers, 1)`: the k-th name heads the k-th column. */
  function Enumerated(names: seq<string>): (cols: seq<Column>)
    ensures |cols| == |names|
    ensures forall j :: 0 <= j < |names| ==> cols[j] == Column(j, names[j])
  {
    seq(|names|, j requires 0 <= j < |names| => Column(j, names[j]))
  }

  /**
   * The columns as the script pairs them: read exactly when every
   * non-empty header is text, and then the names of the intended header
   * row, numbered 0, 1, 2, ... whatever columns they came from.
   */
  function AsWrittenColumns(cells: seq<Cell>): (cols: Option<seq<Column>>)
    ensures cols.None? <==> exists i :: 0 <= i < |cells| && CellTruthy(cells[i]) && !cells[i].Str?
    ensures cols.Some? <==> HeaderColumns(cells).Some?
    ensures cols.Some? ==> |cols.value| == |HeaderColumns(cells).value|
    ensures cols.Some? ==> forall j :: 0 <= j < |cols.value| ==> cols.value[j] == Column(j, HeaderColumns(cells).value[j].name)
  {
    HeaderColumnsSound(cells);
    match HeaderNames(cells)
    case Some(names) => Some(Enumerated(names))
    case None => None
  }

  /**
   * The header row as intended: every non-empty header cell, paired with
   * its own column.  `None` when a header is not text.
   */
  function HeaderColumns(cells: seq<Cell>): (cols: Option<seq<Column>>)
    ensures cols.Some? ==> |cols.value| <= |cells|
  {
    if cells == [] then Some([])
    else
      var last := |cells| - 1;
      match HeaderColumns(cells[..last])
      case None => None
      case Some(front) =>
        var c := cells[last];
        if !CellTruthy(c) then Some(front)
        else if c.Str? then Some(front + [Column(last, Strip(c.s))])
        else None
  }

  /**
   * The intended header row is read whenever every non-empty header is
   * text; each column it gives is headed by the stripped text of its own
   * cell, and every non-empty header cell heads a column.
   */
  lemma {:induction false} HeaderColumnsSound(cells: seq<Cell>)
    ensures var cols := HeaderColumns(cells);
            cols.None? <==> exists i :: 0 <= i < |cells| && CellTruthy(cells[i]) && !cells[i].Str?
    ensures var cols := HeaderColumns(cells);
            cols.Some? ==>
              forall j :: 0 <= j < |cols.value| ==>
                var col := cols.value[j];
                col.index < |cells| && cells[col.index].Str? && CellTruthy(cells[col.index])
                && col.name == Strip(cells[col.index].s)
    ensures var cols := HeaderColumns(cells);
            cols.Some? ==>
              forall i :: 0 <= i < |cells| && CellTruthy(cells[i]) ==> exists j :: 0 <= j < |cols.value| && cols.value[j].index == i
  {
    if cells != [] {
      var last := |cells| - 1;
      HeaderColumnsSound(cells[..last]);
      var front := HeaderColumns(cells[..last]);
      var c := cells[last];
      assert forall i :: 0 <= i < last ==> cells[..last][i] == cells[i];
      if front.None? {
        var i :| 0 <= i < last && CellTruthy(cells[..last][i]) && !cells[..last][i].Str?;
        assert CellTruthy(cells[i]) && !cells[i].Str?;
      } else if !CellTruthy(c) {
      } else if c.Str? {
        var cols := front.value + [Column(last, Strip(c.s))];
        forall i | 0 <= i < |cells| && CellTruthy(cells[i])
          ensures exists j :: 0 <= j < |cols| && cols[j].index == i
        {
          if i < last {
            assert CellTruthy(cells[..last][i]);
            var j :| 0 <= j < |front.value| && front.value[j].index == i;
            assert cols[j].index == i;
          } else {
            assert cols[|cols| - 1].index == i;
          }
        }
      } else {
        assert CellTruthy(cells[last]) && !cells[last].Str?;
      }
    }
  }

  /** Where no header cell is empty, the script pairs every header with its own column. */
  lemma {:induction false} NoGapAligned(cells: seq<Cell>)
    requires forall i :: 0 <= i < |cells| ==> cells[i].Str? && cells[i].s != ""
    ensures AsWrittenColumns(cells) == HeaderColumns(cells)
  {
    if cells != [] {
      var last := |cells| - 1;
      NoGapAligned(cells[..last]);
      NoGapNames(cells[..last]);
      var names := HeaderNames(cells[..last]).value;
      var x := Strip(cells[last].s);
      assert HeaderNames(cells) == Some(names + [x]);
      EnumeratedSnoc(names, x);
      assert AsWrittenColumns(cells) == Some(Enumerated(names) + [Column(last, x)]);
    }
  }

  lemma EnumeratedSnoc(names: seq<string>, x: string)
    ensures Enumerated(names + [x]) == Enumerated(names) + [Column(|names|, x)]
  {
    var l, r := Enumerated(names + [x]), Enumerated(names) + [Column(|names|, x)];
    forall j | 0 <= j < |l|
      ensures l[j] == r[j]
    {
      if j < |names| {
        assert (names + [x])[j] == names[j];
      }
    }
  }

  lemma {:induction false} NoGapNames(cells: seq<Cell>)
    requires forall i :: 0 <= i < |cells| ==> cells[i].Str? && cells[i].s != ""
    ensures HeaderNames(cells).Some? && |HeaderNames(cells).value| == |cells|
  {
    if cells != [] {
      NoGapNames(cells[..|cells| - 1]);
    }
  }

  /** The cell of a row in a column; a row shorter than the sheet reads as empty there. */
  function CellAt(row: seq<Cell>, index: nat): Cell
  {
    if index < |row| then row[index] else Empty
  }

  /** Text cells are stripped; other cells are kept as they are. */
  function Tidy(c: Cell): Cell
  {
    if c.Str? then Str(Strip(c.s)) else c
  }

  /** `row_data`: every non-empty cell under its header; a later column with the same header wins. */
  function RowData(columns: seq<Column>, row: seq<Cell>): (data: map<string, Cell>)
    ensures forall k :: k in data ==> data[k] != Empty
  {
    if columns == [] then map[]
    else
      var data := RowData(columns[..|columns| - 1], row);
      var col := columns[|columns| - 1];
      var v := CellAt(row, col.index);
      if v == Empty then data else data[col.name := Tidy(v)]
  }

  /** `has_data`: some column of the row holds a cell. */
  predicate HasData(columns: seq<Column>, row: seq<Cell>)
  {
    exists j :: 0 <= j < |columns| && CellAt(row, columns[j].index) != Empty
  }

  /**
   * A gap in the header row shifts every later header one column to the
   * left: with headers `Status`, nothing, `Expiry Date`, the script files
   * the note in the middle column as the expiry date.
   */
  lemma GapShiftsHeaders()
    ensures var cells := [Str("Status"), Empty, Str("Expiry Date")];
            var row := [Str("Active"), Str("note"), When(Date(2026, 1, 31))];
            && AsWrittenColumns(cells).Some? && HeaderColumns(cells).Some?
            && var shifted := RowData(AsWrittenColumns(cells).value, row);
            && var own := RowData(HeaderColumns(cells).value, row);
            && "Expiry Date" in shifted && shifted["Expiry Date"] == Str("note")
            && "Expiry Date" in own && own["Expiry Date"] == When(Date(2026, 1, 31))
  {
    StripIdentity("Status");
    StripIdentity("Expiry Date");
    StripIdentity("note");
    GapShifts("Status", "Expiry Date", [Str("Active"), Str("note"), When(Date(2026, 1, 31))]);
  }

  /**
   * With a header row of a name, a gap and a second name, the script files
   * the middle cell under the second name; the intended reading files the
   * last cell there.
   */
  lemma GapShifts(a: string, b: string, row: seq<Cell>)
    requires a != "" && b != "" && |row| == 3 && row[1] != Empty && row[2] != Empty
    ensures var cells := [Str(a), Empty, Str(b)];
            && AsWrittenColumns(cells) == Some([Column(0, Strip(a)), Column(1, Strip(b))])
            && HeaderColumns(cells) == Some([Column(0, Strip(a)), Column(2, Strip(b))])
            && var shifted := RowData(AsWrittenColumns(cells).value, row);
            && var own := RowData(HeaderColumns(cells).value, row);
            && Strip(b) in shifted && shifted[Strip(b)] == Tidy(row[1])
            && Strip(b) in own && own[Strip(b)] == Tidy(row[2])
  {
    ExampleNames(a, b);
    ExampleColumns(a, b);
    ExampleRowData([Column(0, Strip(a)), Column(1, Strip(b))], row);
    ExampleRowData([Column(0, Strip(a)), Column(2, Strip(b))], row);
  }

  lemma ExampleNames(a: string, b: string)
    requires a != "" && b != ""
    ensures AsWrittenColumns([Str(a), Empty, Str(b)]) == Some([Column(0, Strip(a)), Column(1, Strip(b))])
  {
    var c0: seq<Cell> := [];
    var c1 := c0 + [Str(a)];
    var c2 := c1 + [Empty];
    var c3 := c2 + [Str(b)];
    NamesAppendText(c0, a);
    NamesAppendEmpty(c1);
    NamesAppendText(c2, b);
    assert c3 == [Str(a), Empty, Str(b)];
    var names := [] + [Strip(a)] + [Strip(b)];
    assert HeaderNames(c3) == Some(names);
    var shifted := Enumerated(names);
    assert |shifted| == 2 && shifted[0] == Column(0, Strip(a)) && shifted[1] == Column(1, Strip(b));
    assert shifted == [Column(0, Strip(a)), Column(1, Strip(b))];
  }

  lemma ExampleColumns(a: string, b: string)
    requires a != "" && b != ""
    ensures HeaderColumns([Str(a), Empty, Str(b)]) == Some([Column(0, Strip(a)), Column(2, Strip(b))])
  {
    var c0: seq<Cell> := [];
    var c1 := c0 + [Str(a)];
    var c2 := c1 + [Empty];
    var c3 := c2 + [Str(b)];
    ColumnsAppendText(c0, a);
    ColumnsAppendEmpty(c1);
    ColumnsAppendText(c2, b);
    assert c3 == [Str(a), Empty, Str(b)];
    assert HeaderColumns(c3) == Some([] + [Column(0, Strip(a))] + [Column(2, Strip(b))]);
    assert [] + [Column(0, Strip(a))] + [Column(2, Strip(b))] == [Column(0, Strip(a)), Column(2, Strip(b))];
  }

  lemma NamesAppendText(front: seq<Cell>, s: string)
    requires HeaderNames(front).Some? && s != ""
    ensures HeaderNames(front + [Str(s)]) == Some(HeaderNames(front).value + [Strip(s)])
  {
    assert (front + [Str(s)])[..|front|] == front;
  }

  lemma NamesAppendEmpty(front: seq<Cell>)
    ensures HeaderNames(front + [Empty]) == HeaderNames(front)
  {
    assert (front + [Empty])[..|front|] == front;
  }

  lemma ColumnsAppendText(front: seq<Cell>, s: string)
    requires HeaderColumns(front).Some? && s != ""
    ensures HeaderColumns(front + [Str(s)]) == Some(HeaderColumns(front).value + [Column(|front|, Strip(s))])
  {
    assert (front + [Str(s)])[..|front|] == front;
  }

  lemma ColumnsAppendEmpty(front: seq<Cell>)
    ensures HeaderColumns(front + [Empty]) == HeaderColumns(front)
  {
    assert (front + [Empty])[..|front|] == front;
  }

  /** With two columns, the second one's cell, when not empty, is filed under its header. */
  lemma ExampleRowData(columns: seq<Column>, row: seq<Cell>)
    requires |columns| == 2 && columns[1].index < |row| && row[columns[1].index] != Empty
    ensures var data := RowData(columns, row);
            columns[1].name in data && data[columns[1].name] == Tidy(row[columns[1].index])
  {
  }

  /** The inner loop of read_excel_file: one row's data, and whether it holds any. */
  method ReadRow(columns: seq<Column>, row: seq<Cell>) returns (data: map<string, Cell>, hasData: bool)
    ensures data == RowData(columns, row)
    ensures hasData == HasData(columns, row)
    ensures hasData <==> data != map[]
  {
    data, hasData := map[], false;
    var j := 0;
    while j < |columns|
      invariant 0 <= j <= |columns|
      invariant data == RowData(columns[..j], row)
      invariant hasData <==> exists i :: 0 <= i < j && CellAt(row, columns[i].index) != Empty
      invariant hasData <==> data != map[]
    {
      assert columns[..j + 1][..j] == columns[..j];
      var v := CellAt(row, columns[j].index);
      if v != Empty {
        hasData := true;
        data := data[columns[j].name := Tidy(v)];
        assert columns[j].name in data;
      }
      j := j + 1;
    }
    assert columns[..j] == columns;
  }

  // ----- the certificate record -----

  /** The attributes every imported certificate carries. */
  const BaseKeys: set<string> :=
    {IdKey, "SerialNumber", "CertificateName", "ExpiryDate", "AccountNumber", "Application", "Environment", "Type",
     "Status", "OwnerEmail", "SupportEmail", "LastUpdatedOn"}

  /** The attributes an imported certificate carries only when the row's cell is truthy. */
  const OptionalKeys: set<string> := {"IncidentNumber", "RenewedBy", "RenewalLog", "UploadS3Key"}

  /** The worksheet column an attribute is read from. */
  function SourceColumn(key: string): string
  {
    if key == "SerialNumber" then "Serial Number"
    else if key == "Environment" then "ENVIRONMENT"
    else if key == "SupportEmail" then "Support team Email"
    else key
  }

  function Lookup(data: map<string, Cell>, key: string, default: Cell): Cell
  {
    if key in data then data[key] else default
  }

  /** The certificate's name: the `Certificate  Name` column (two spaces) when present, else `Certificate Name`. */
  function NameCell(data: map<string, Cell>): Cell
  {
    Lookup(data, "Certificate  Name", Lookup(data, "Certificate Name", Str("")))
  }

  /** The value the script gives an attribute. */
  function ImportedValue(data: map<string, Cell>, key: string, id: string, stamp: string): Value
  {
    if key == IdKey then Text("cert-" + id)
    else if key in OptionalKeys then Text(CellText(Lookup(data, key, Str(""))))
    else if key == "CertificateName" then Text(CellText(NameCell(data)))
    else if key == "ExpiryDate" then
      (match ParseDate(Lookup(data, "Expiry Date", Empty))
       case Some(s) => Text(s)
       case None => Null)
    else if key == "Status" then Text(CellText(Lookup(data, "Status", Str("Unknown"))))
    else if key == "LastUpdatedOn" then Text(stamp)
    else Text(CellText(Lookup(data, SourceColumn(key), Str(""))))
  }

  /** The record read_excel_file builds for one row. */
  function CertificateFor(data: map<string, Cell>, id: string, stamp: string): (r: Record)
    ensures forall k :: k in r <==> k in BaseKeys || (k in OptionalKeys && CellTruthy(Lookup(data, k, Empty)))
  {
    map k | k in BaseKeys + OptionalKeys && (k in BaseKeys || CellTruthy(Lookup(data, k, Empty)))
      :: ImportedValue(data, k, id, stamp)
  }

  lemma CertificateAt(data: map<string, Cell>, id: string, stamp: string, key: string, v: Value)
    requires key in BaseKeys && ImportedValue(data, key, id, stamp) == v
    ensures var r := CertificateFor(data, id, stamp); key in r && r[key] == v
  {
  }

  /**
   * Every imported certificate has a generated key and a status, which is
   * `Unknown` when the sheet has no status column.
   */
  lemma CertificateKeyAndStatus(data: map<string, Cell>, id: string, stamp: string)
    ensures var r := CertificateFor(data, id, stamp);
            && r[IdKey] == Text("cert-" + id)
            && r["Status"] == Text(CellText(Lookup(data, "Status", Str("Unknown"))))
            && ("Status" !in data ==> r["Status"] == Text("Unknown"))
  {
    CertificateAt(data, id, stamp, IdKey, Text("cert-" + id));
    CertificateAt(data, id, stamp, "Status", Text(CellText(Lookup(data, "Status", Str("Unknown")))));
  }

  /**
   * An imported certificate's name comes from the `Certificate  Name`
   * column when there is one; its expiry date is what parse_date makes of
   * the `Expiry Date` cell, and absent when parse_date gives nothing.
   */
  lemma CertificateNameAndExpiry(data: map<string, Cell>, id: string, stamp: string)
    ensures var r := CertificateFor(data, id, stamp);
            && ("Certificate  Name" in data ==> r["CertificateName"] == Text(CellText(data["Certificate  Name"])))
            && (ParseDate(Lookup(data, "Expiry Date", Empty)).None? <==> r["ExpiryDate"] == Null)
  {
    CertificateAt(data, id, stamp, "CertificateName", Text(CellText(NameCell(data))));
    CertificateAt(data, id, stamp, "ExpiryDate", ImportedValue(data, "ExpiryDate", id, stamp));
  }

  lemma OptionalAt(data: map<string, Cell>, id: string, stamp: string, key: string)
    requires key in OptionalKeys
    ensures var r := CertificateFor(data, id, stamp);
            (key in r <==> CellTruthy(Lookup(data, key, Empty)))
            && (key in r ==> r[key] == ImportedValue(data, key, id, stamp))
  {
    KeySetsApart();
  }

  /** No attribute is both always carried and optional. */
  lemma KeySetsApart()
    ensures BaseKeys !! OptionalKeys
  {
  }

  /** An optional attribute is present exactly when its cell is truthy, and then holds the cell's text. */
  lemma OptionalOnlyWhenTruthy(data: map<string, Cell>, id: string, stamp: string, key: string)
    requires key in OptionalKeys
    ensures var r := CertificateFor(data, id, stamp);
            (key in r <==> key in data && CellTruthy(data[key]))
            && (key in r ==> r[key] == Text(CellText(data[key])))
  {
    OptionalAt(data, id, stamp, key);
    assert key != IdKey;
    assert ImportedValue(data, key, id, stamp) == Text(CellText(Lookup(data, key, Str(""))));
  }

  // ----- reading the worksheet -----

  /** The worksheet: its header row and the rows below it. */
  datatype Sheet = Sheet(header: seq<Cell>, rows: seq<seq<Cell>>)

  /** The certificates of the rows that hold data, in order; `ids[i]` is the ID drawn for row `i`. */
  function Imported(columns: seq<Column>, rows: seq<seq<Cell>>, ids: seq<string>, stamp: string): (certs: seq<Record>)
    requires |ids| >= |rows|
    ensures |certs| <= |rows|
  {
    if rows == [] then []
    else
      var last := |rows| - 1;
      var front := Imported(columns, rows[..last], ids, stamp);
      if HasData(columns, rows[last]) then front + [CertificateFor(RowData(columns, rows[last]), ids[last], stamp)]
      else front
  }

  /** Every imported certificate carries a non-empty text key. */
  lemma {:induction false} ImportedKeyed(columns: seq<Column>, rows: seq<seq<Cell>>, ids: seq<string>, stamp: string)
    requires |ids| >= |rows|
    ensures forall c: Record :: c in Imported(columns, rows, ids, stamp) ==> HasId(c) && c[IdKey].s != ""
  {
    if rows != [] {
      var last := |rows| - 1;
      ImportedKeyed(columns, rows[..last], ids, stamp);
      if HasData(columns, rows[last]) {
        CertificateKeyAndStatus(RowData(columns, rows[last]), ids[last], stamp);
      }
    }
  }

  /**
   * read_excel_file: one certificate per row that holds data; the others
   * are counted as skipped.  A file that cannot be read, or a header that
   * is not text, gives no certificates.
   */
  method ReadExcelFile(sheet: Option<Sheet>, ids: seq<string>, stamp: string)
    returns (certificates: seq<Record>, skipped: nat)
    requires sheet.Some? ==> |ids| >= |sheet.value.rows|
    ensures sheet.None? || AsWrittenColumns(sheet.value.header).None? ==> certificates == [] && skipped == 0
    ensures sheet.Some? && AsWrittenColumns(sheet.value.header).Some? ==>
              certificates == Imported(AsWrittenColumns(sheet.value.header).value, sheet.value.rows, ids, stamp)
              && |certificates| + skipped == |sheet.value.rows|
  {
    if sheet.None? {
      return [], 0;
    }
    var header := AsWrittenColumns(sheet.value.header);
    if header.None? {
      return [], 0;
    }
    certificates, skipped := ReadRows(header.value, sheet.value.rows, ids, stamp);
  }

  /** The loop of read_excel_file over the rows under the header's columns. */
  method ReadRows(columns: seq<Column>, rows: seq<seq<Cell>>, ids: seq<string>, stamp: string)
    returns (certificates: seq<Record>, skipped: nat)
    requires |ids| >= |rows|
    ensures certificates == Imported(columns, rows, ids, stamp)
    ensures |certificates| + skipped == |rows|
  {
    certificates, skipped := [], 0;
    var i := 0;
    while i < |rows|
      invariant 0 <= i <= |rows|
      invariant certificates == Imported(columns, rows[..i], ids, stamp)
      invariant |certificates| + skipped == i
    {
      assert rows[..i + 1][..i] == rows[..i];
      var data, hasData := ReadRow(columns, rows[i]);
      if !hasData {
        skipped := skipped + 1;
      } else {
        certificates := certificates + [CertificateFor(data, ids[i], stamp)];
      }
      i := i + 1;
    }
    assert rows[..i] == rows;
  }

  /** Where no header cell is empty, the rows read as written are the rows read with each header over its own column. */
  lemma ReadAgreesWithoutGap(sheet: Sheet, ids: seq<string>, stamp: string)
    requires |ids| >= |sheet.rows|
    requires forall i :: 0 <= i < |sheet.header| ==> sheet.header[i].Str? && sheet.header[i].s != ""
    ensures AsWrittenColumns(sheet.header).Some? && HeaderColumns(sheet.header).Some?
    ensures Imported(AsWrittenColumns(sheet.header).value, sheet.rows, ids, stamp)
            == Imported(HeaderColumns(sheet.header).value, sheet.rows, ids, stamp)
  {
    NoGapAligned(sheet.header);
    NoGapNames(sheet.header);
  }

  // ----- writing the certificates -----

  const BatchSize: nat := 25

  /** `{k: v for k, v in cert.items() if v != ''}` */
  function Clean(r: Record): (c: Record)
    ensures forall k :: k in c <==> k in r && r[k] != Text("")
    ensures forall k :: k in c ==> c[k] == r[k]
  {
    map k | k in r && r[k] != Text("") :: r[k]
  }

  /**
   * `batch_writer` keeps the puts in a buffer and sends them in one
   * batch_write_item request once the buffer holds 25, and sends what is
   * left when the `with` block ends.
   */
  const FlushAmount: nat := 25

  /** How the write request of a batch ended: accepted, or raised (and then none of its records was written). */
  datatype BatchOutcome = Written | Failed

  /** The records of a batch that reach the table. */
  function BatchWrites(batch: seq<Record>, o: BatchOutcome): (writes: seq<Record>)
    ensures o.Written? ==> writes == batch
    ensures o.Failed? ==> writes == []
  {
    if o.Written? then batch else []
  }

  /**
   * The puts `success_count` counts for a batch of at most 25.  A request
   * that raises at the 25th put does so before that put is counted; one
   * that raises when the block ends comes after every put was counted.
   */
  function Counted(batch: seq<Record>, o: BatchOutcome): (n: nat)
    requires |batch| <= FlushAmount
    ensures n <= |batch|
    ensures o.Written? ==> n == |batch|
    ensures o.Failed? ==> (n == |batch| <==> |batch| < FlushAmount)
    ensures o.Failed? && |batch| == FlushAmount ==> n == FlushAmount - 1
  {
    if o.Written? || |batch| < FlushAmount then |batch| else FlushAmount - 1
  }

  /** Every batch holds at most 25 records. */
  predicate Sized(batches: seq<seq<Record>>)
  {
    forall k :: 0 <= k < |batches| ==> |batches[k]| <= FlushAmount
  }

  /** The records the batches write, in order. */
  function AllWrites(batches: seq<seq<Record>>, outcomes: seq<BatchOutcome>): seq<Record>
    requires |outcomes| == |batches|
  {
    if batches == [] then []
    else
      var last := |batches| - 1;
      AllWrites(batches[..last], outcomes[..last]) + BatchWrites(batches[last], outcomes[last])
  }

  /** `success_count` and `error_count`: the counted puts, and every record of a failed batch as an error. */
  function Tally(batches: seq<seq<Record>>, outcomes: seq<BatchOutcome>): (t: (nat, nat))
    requires |outcomes| == |batches| && Sized(batches)
  {
    if batches == [] then (0, 0)
    else
      var last := |batches| - 1;
      var front := Tally(batches[..last], outcomes[..last]);
      var b := batches[last];
      (front.0 + Counted(b, outcomes[last]), front.1 + (if outcomes[last].Written? then 0 else |b|))
  }

  /**
   * A failed batch counts records as imported that never reached the
   * table: all of them when it held fewer than 25, 24 when it held 25.
   */
  lemma FailedBatchCountedNotWritten(batch: seq<Record>)
    requires 0 < |batch| <= FlushAmount
    ensures Counted(batch, Failed) > 0 && BatchWrites(batch, Failed) == []
    ensures Counted(batch, Failed) + (if |batch| == FlushAmount then 1 else 0) == |batch|
  {
  }

  /** Every record carries a text key. */
  predicate Keyed(rs: seq<Record>)
  {
    forall j :: 0 <= j < |rs| ==> HasId(rs[j])
  }

  lemma KeyedConcat(a: seq<Record>, b: seq<Record>)
    requires Keyed(a) && Keyed(b)
    ensures Keyed(a + b)
  {
    forall j | 0 <= j < |a + b|
      ensures HasId((a + b)[j])
    {
      if j >= |a| {
        assert (a + b)[j] == b[j - |a|];
      }
    }
  }

  /** The table after the puts, each replacing the record under its key. */
  function PutAll(items: map<string, Record>, puts: seq<Record>): map<string, Record>
    requires Keyed(puts)
  {
    if puts == [] then items
    else
      var last := |puts| - 1;
      var r := puts[last];
      assert HasId(r);
      PutAll(items, puts[..last])[r[IdKey].s := r]
  }

  lemma {:induction false} PutAllSnoc(items: map<string, Record>, puts: seq<Record>, r: Record)
    requires Keyed(puts)
    requires HasId(r)
    ensures PutAll(items, puts + [r]) == PutAll(items, puts)[r[IdKey].s := r]
  {
    assert (puts + [r])[..|puts|] == puts;
  }

  /** Where every batch went through, each record was written, once, and counted as a success. */
  lemma {:induction false} AllWrittenImportsAll(batches: seq<seq<Record>>, outcomes: seq<BatchOutcome>)
    requires |outcomes| == |batches| && Sized(batches)
    requires forall k :: 0 <= k < |outcomes| ==> outcomes[k] == Written
    ensures AllWrites(batches, outcomes) == FlattenBack(batches)
    ensures Tally(batches, outcomes) == (|FlattenBack(batches)|, 0)
  {
    if batches != [] {
      var last := |batches| - 1;
      AllWrittenImportsAll(batches[..last], outcomes[..last]);
    }
  }

  /** The concatenation of the batches, built from the end. */
  function FlattenBack<T>(bs: seq<seq<T>>): seq<T>
  {
    if bs == [] then [] else FlattenBack(bs[..|bs| - 1]) + bs[|bs| - 1]
  }

  lemma {:induction false} FlattenBackIsFlatten<T>(bs: seq<seq<T>>)
    ensures FlattenBack(bs) == Flatten(bs)
  {
    if bs != [] {
      FlattenBackIsFlatten(bs[1..]);
      FlattenBackFront(bs);
    }
  }

  lemma {:induction false} FlattenBackFront<T>(bs: seq<seq<T>>)
    requires bs != []
    ensures FlattenBack(bs) == bs[0] + FlattenBack(bs[1..])
    decreases |bs|
  {
    if |bs| > 1 {
      var last := |bs| - 1;
      FlattenBackFront(bs[..last]);
      assert bs[..last][1..] == bs[1..][..|bs[1..]| - 1];
      assert bs[..last][0] == bs[0];
    } else {
      assert bs[1..] == [];
    }
  }

  /** The certificates, cleaned, in their batches of 25. */
  function CleanBatches(certificates: seq<Record>): (bs: seq<seq<Record>>)
    ensures |bs| == BatchCount(|certificates|, BatchSize)
    ensures Sized(bs)
  {
    Batches(seq(|certificates|, j requires 0 <= j < |certificates| => Clean(certificates[j])), BatchSize)
  }

  /** The records the batches hold all carry a text key when the certificates do. */
  lemma CleanBatchesKeyed(certificates: seq<Record>)
    requires forall c: Record :: c in certificates ==> HasId(c) && c[IdKey].s != ""
    ensures forall k :: 0 <= k < |CleanBatches(certificates)| ==> Keyed(CleanBatches(certificates)[k])
  {
    var cleaned := seq(|certificates|, j requires 0 <= j < |certificates| => Clean(certificates[j]));
    assert Keyed(cleaned) by {
      forall j | 0 <= j < |cleaned|
        ensures HasId(cleaned[j])
      {
        assert certificates[j] in certificates;
      }
    }
    var bs := CleanBatches(certificates);
    forall k | 0 <= k < |bs|
      ensures Keyed(bs[k])
    {
      forall j | 0 <= j < |bs[k]|
        ensures HasId(bs[k][j])
      {
        FlattenHas(bs, k, j);
      }
    }
  }

  lemma {:induction false} FlattenHas<T>(bs: seq<seq<T>>, k: nat, j: nat)
    requires k < |bs| && j < |bs[k]|
    ensures bs[k][j] in Flatten(bs)
  {
    if k > 0 {
      FlattenHas(bs[1..], k - 1, j);
    }
  }

  /**
   * import_certificates: no certificates is a failure and writes
   * nothing; otherwise the cleaned records go out batch by batch, and
   * the import succeeds when at least one put was counted.  The table
   * holds the records of the batches whose request went through.
   */
  method ImportCertificates(table: CertificateTable, certificates: seq<Record>, outcomes: seq<BatchOutcome>)
    returns (imported: bool, success: nat, errors: nat)
    requires table.Valid()
    requires forall c: Record :: c in certificates ==> HasId(c) && c[IdKey].s != ""
    requires |outcomes| == BatchCount(|certificates|, BatchSize)
    modifies table
    ensures table.Valid()
    ensures imported <==> success > 0
    ensures certificates == [] ==> !imported && errors == 0 && table.items == old(table.items)
    ensures (success, errors) == Tally(CleanBatches(certificates), outcomes)
    ensures var writes := AllWrites(CleanBatches(certificates), outcomes);
            Keyed(writes) && table.items == PutAll(old(table.items), writes)
  {
    if certificates == [] {
      return false, 0, 0;
    }
    CleanBatchesKeyed(certificates);
    success, errors := WriteBatches(table, CleanBatches(certificates), outcomes);
    imported := success > 0;
  }

  /** The batches, one after the other, with the count of puts and of the records of failed batches. */
  method WriteBatches(table: CertificateTable, batches: seq<seq<Record>>, outcomes: seq<BatchOutcome>)
    returns (success: nat, errors: nat)
    requires table.Valid()
    requires forall k :: 0 <= k < |batches| ==> Keyed(batches[k])
    requires |outcomes| == |batches| && Sized(batches)
    modifies table
    ensures table.Valid()
    ensures (success, errors) == Tally(batches, outcomes)
    ensures Keyed(AllWrites(batches, outcomes)) && table.items == PutAll(old(table.items), AllWrites(batches, outcomes))
  {
    ghost var start := table.items;
    success, errors := 0, 0;
    var k := 0;
    assert batches[..0] == [] && outcomes[..0] == [];
    while k < |batches|
      invariant 0 <= k <= |batches|
      invariant (success, errors) == Tally(batches[..k], outcomes[..k])
      invariant Keyed(AllWrites(batches[..k], outcomes[..k]))
      invariant table.Valid() && table.items == PutAll(start, AllWrites(batches[..k], outcomes[..k]))
    {
      PrefixStep(batches, outcomes, k);
      var counted := WriteBatch(table, start, AllWrites(batches[..k], outcomes[..k]), batches[k], outcomes[k].Failed?);
      success := success + counted;
      if !outcomes[k].Written? {
        errors := errors + |batches[k]|;
      }
      k := k + 1;
    }
    assert batches[..k] == batches && outcomes[..k] == outcomes;
  }

  /** One more batch extends the tally and the writes by that batch's own. */
  lemma PrefixStep(batches: seq<seq<Record>>, outcomes: seq<BatchOutcome>, k: nat)
    requires |outcomes| == |batches| && k < |batches| && Sized(batches)
    ensures Sized(batches[..k]) && Sized(batches[..k + 1])
    ensures var t, t' := Tally(batches[..k], outcomes[..k]), Tally(batches[..k + 1], outcomes[..k + 1]);
            var o := outcomes[k];
            t' == (t.0 + Counted(batches[k], o), t.1 + (if o.Written? then 0 else |batches[k]|))
    ensures AllWrites(batches[..k + 1], outcomes[..k + 1])
            == AllWrites(batches[..k], outcomes[..k]) + BatchWrites(batches[k], outcomes[k])
  {
    assert batches[..k + 1][..k] == batches[..k] && outcomes[..k + 1][..k] == outcomes[..k];
  }

  /**
   * One `with self.table.batch_writer()` block: each record is buffered
   * and counted; the buffer goes out when it holds 25 records, before the
   * 25th is counted, and what is left goes out when the block ends.
   * `fails` says whether the request raises: then nothing of the batch is
   * written and the count stops where the raise came.
   */
  method WriteBatch(table: CertificateTable, ghost start: map<string, Record>, ghost done: seq<Record>,
                    batch: seq<Record>, fails: bool)
    returns (counted: nat)
    requires table.Valid()
    requires Keyed(done) && Keyed(batch) && |batch| <= FlushAmount
    requires table.items == PutAll(start, done)
    modifies table
    ensures table.Valid()
    ensures var o := if fails then Failed else Written;
            Keyed(done + BatchWrites(batch, o))
            && table.items == PutAll(start, done + BatchWrites(batch, o))
            && counted == Counted(batch, o)
  {
    KeyedConcat(done, batch);
    assert done + [] == done;
    var buffer: seq<Record> := [];
    counted := 0;
    ghost var sent := false;
    while counted < |batch|
      invariant 0 <= counted <= |batch|
      invariant table.Valid()
      invariant !sent ==> buffer == batch[..counted] && counted < FlushAmount && table.items == PutAll(start, done)
      invariant sent ==> !fails && buffer == [] && counted == |batch| == FlushAmount
                         && table.items == PutAll(start, done + batch)
    {
      buffer := buffer + [batch[counted]];
      if |buffer| == FlushAmount {
        if fails {
          return;
        }
        assert buffer == batch;
        SendRequest(table, start, done, buffer);
        buffer, sent := [], true;
      }
      counted := counted + 1;
    }
    if buffer != [] {
      if fails {
        return;
      }
      assert buffer == batch[..counted] == batch;
      SendRequest(table, start, done, buffer);
    }
  }

  /** One batch_write_item request that goes through: every record it carries is put. */
  method SendRequest(table: CertificateTable, ghost start: map<string, Record>, ghost done: seq<Record>,
                     puts: seq<Record>)
    requires table.Valid()
    requires Keyed(done)
    requires Keyed(puts)
    requires table.items == PutAll(start, done)
    modifies table
    ensures table.Valid()
    ensures Keyed(done + puts)
    ensures table.items == PutAll(start, done + puts)
  {
    var n := 0;
    assert done + puts[..0] == done;
    KeyedConcat(done, puts);
    while n < |puts|
      invariant 0 <= n <= |puts|
      invariant Keyed(done + puts[..n])
      invariant table.Valid() && table.items == PutAll(start, done + puts[..n])
    {
      KeyedConcat(done, puts[..n + 1]);
      PutAllSnoc(start, done + puts[..n], puts[n]);
      assert done + puts[..n + 1] == (done + puts[..n]) + [puts[n]];
      table.Put(puts[n]);
      n := n + 1;
    }
    assert puts[..n] == puts;
  }

  /** Where every batch went through, the count of successes is the number of certificates and there is no error. */
  lemma ImportAllWritten(certificates: seq<Record>, outcomes: seq<BatchOutcome>)
    requires |outcomes| == BatchCount(|certificates|, BatchSize)
    requires forall k :: 0 <= k < |outcomes| ==> outcomes[k] == Written
    ensures Tally(CleanBatches(certificates), outcomes) == (|certificates|, 0)
  {
    var bs := CleanBatches(certificates);
    AllWrittenImportsAll(bs, outcomes);
    FlattenBackIsFlatten(bs);
  }
}

=== FILE: lambda_function.dfy ===
/**
 * The certificate API behind the dashboard (lambda_function.py): list,
 * add, update and delete certificate records over HTTP, and e-mail the
 * owner and the support contact when an update changes a certificate's
 * status.
 *
 * The e-mail's subject and HTML/text bodies, the clock and SES are not
 * modelled: the clock's ISO time is an input, and whether the SES call
 * raises is an input.  So is whether a DynamoDB write raises.
 */
module CertificateApi {

  import opened Wrappers
  import opened Values
  import opened Text
  import opened Store
  import opened UpdateExpressions

  // ----- the status-change e-mail -----

  /** `s and '@' in s` */
  predicate IsAddress(s: string)
  {
    s != "" && '@' in s
  }

  /**
   * The recipients of the status-change e-mail: the owner when the
   * address looks like one, then the support contact when it does and is
   * not the owner's address already.
   */
  method BuildRecipients(owner: string, support: string) returns (recipients: seq<string>)
    ensures |recipients| <= 2
    ensures forall i, j :: 0 <= i < j < |recipients| ==> recipients[i] != recipients[j]
    ensures forall x :: x in recipients <==> (x == owner && IsAddress(owner)) || (x == support && IsAddress(support))
    ensures IsAddress(owner) ==> |recipients| >= 1 && recipients[0] == owner
  {
    recipients := [];
    if IsAddress(owner) {
      recipients := recipients + [owner];
    }
    if IsAddress(support) && support !in recipients {
      recipients := recipients + [support];
    }
  }

  /** What send_status_change_notification did. */
  datatype Notification =
    | NotSent
    | Sent(to: seq<string>, oldStatus: Value, newStatus: Value, incident: string)

  /**
   * send_status_change_notification: nothing is sent when there is no
   * recipient; a failing SES call is swallowed (the function returns
   * `None`) and never fails the update that triggered it.
   */
  method SendStatusChangeNotification(certificate: Record, oldStatus: Value, newStatus: Value, incident: string,
                                      sendFails: bool)
    returns (n: Notification)
    ensures var owner, support := GetText(certificate, "Owner", ""), GetText(certificate, "SupportEmail", "");
            (n.Sent? <==> (IsAddress(owner) || IsAddress(support)) && !sendFails)
            && (n.Sent? ==> n.oldStatus == oldStatus && n.newStatus == newStatus && n.incident == incident
                            && 1 <= |n.to| <= 2
                            && forall x :: x in n.to <==> (x == owner && IsAddress(owner)) || (x == support && IsAddress(support)))
  {
    var owner, support := GetText(certificate, "Owner", ""), GetText(certificate, "SupportEmail", "");
    var recipients := BuildRecipients(owner, support);
    if recipients == [] {
      assert owner !in recipients && support !in recipients;
      return NotSent;
    }
    if sendFails {
      return NotSent;
    }
    assert recipients[0] in recipients;
    n := Sent(recipients, oldStatus, newStatus, incident);
  }

  /** `new_status and new_status != old_status`: an update notifies only when it names a different status. */
  predicate ShouldNotify(newStatus: Value, oldStatus: Value)
  {
    Truthy(newStatus) && newStatus != oldStatus
  }

  // ----- the incident number in the notes -----

  /**
   * The incident number the PUT handler reads from the notes: when they
   * contain `Incident:`, the text before the first `.`, with `Incident:`
   * removed and then stripped; otherwise nothing.  `None` when the notes
   * are a non-zero number, for which the `in` test raises.
   */
  function IncidentFromNotes(notes: Value): (incident: Option<string>)
    ensures incident.None? <==> notes.Number? && notes.n != 0
    ensures incident.Some? && !(notes.Text? && Contains(notes.s, "Incident:")) ==> incident.value == ""
  {
    match notes
    case Text(s) =>
      if s != "" && Contains(s, "Incident:") then Some(Strip(RemoveAll(BeforeFirst(s, '.'), "Incident:")))
      else Some("")
    case Number(n) => if n != 0 then None else Some("")
    case Null => Some("")
  }

  lemma {:induction false} RemoveAllKeeps(s: string, sub: string, c: char)
    requires sub != "" && c !in s
    ensures c !in RemoveAll(s, sub)
    decreases |s|
  {
    if s != "" {
      if StartsWith(s, sub) {
        RemoveAllKeeps(s[|sub|..], sub, c);
      } else {
        RemoveAllKeeps(s[1..], sub, c);
      }
    }
  }

  lemma {:induction false} StripLeftKeeps(s: string, c: char)
    requires c !in s
    ensures c !in StripLeft(s)
  {
    if s != "" && IsSpace(s[0]) {
      StripLeftKeeps(s[1..], c);
    }
  }

  lemma {:induction false} StripRightKeeps(s: string, c: char)
    requires c !in s
    ensures c !in StripRight(s)
  {
    if s != "" && IsSpace(s[|s| - 1]) {
      StripRightKeeps(s[..|s| - 1], c);
    }
  }

  /**
   * The incident number read from the notes never holds a `.`, and it
   * has no whitespace at either end.
   */
  lemma IncidentShape(notes: Value)
    requires IncidentFromNotes(notes).Some?
    ensures var r := IncidentFromNotes(notes).value;
            '.' !in r && (r == "" || (!IsSpace(r[0]) && !IsSpace(r[|r| - 1])))
  {
    if notes.Text? && notes.s != "" && Contains(notes.s, "Incident:") {
      var head := BeforeFirst(notes.s, '.');
      RemoveAllKeeps(head, "Incident:", '.');
      var removed := RemoveAll(head, "Incident:");
      StripLeftKeeps(removed, '.');
      StripRightKeeps(StripLeft(removed), '.');
      StripShape(removed);
    }
  }

  /** A typical note written by the ticketing flow. */
  lemma IncidentExample()
    ensures IncidentFromNotes(Text("Incident: INC1. Renew")) == Some("INC1")
  {
    var s := "Incident: INC1. Renew";
    assert StartsWith(s, "Incident:");
    ExampleHead();
    ExampleRemoved();
    ExampleStripped();
  }

  lemma ExampleHead()
    ensures BeforeFirst("Incident: INC1. Renew", '.') == "Incident: INC1"
  {
    var s := "Incident: INC1. Renew";
    assert s[..14] == "Incident: INC1";
    assert '.' !in "Incident: INC1";
    BeforeFirstAt(s, '.', 14);
  }

  lemma BeforeFirstAt(s: string, c: char, i: nat)
    requires i < |s| && s[i] == c && c !in s[..i]
    ensures BeforeFirst(s, c) == s[..i]
  {
    var j := IndexOf(s, c);
  }

  lemma ExampleRemoved()
    ensures RemoveAll("Incident: INC1", "Incident:") == " INC1"
  {
    assert StartsWith("Incident: INC1", "Incident:");
    assert "Incident: INC1"[9..] == " INC1";
    assert RemoveAll("1", "Incident:") == "1";
    assert RemoveAll("C1", "Incident:") == "C1";
    assert RemoveAll("NC1", "Incident:") == "NC1";
    assert RemoveAll("INC1", "Incident:") == "INC1";
    assert RemoveAll(" INC1", "Incident:") == " INC1";
  }

  lemma ExampleStripped()
    ensures Strip(" INC1") == "INC1"
  {
    assert StripLeft(" INC1") == StripLeft("INC1") == "INC1";
    assert StripRight("INC1") == "INC1";
  }

  // ----- requests -----

  /** The request: its HTTP method, its body (`None` when it is not a JSON object) and the path's `id`. */
  datatype Request = Request(httpMethod: Option<string>, body: Option<Body>, pathId: string)

  datatype Response =
    | Listing(items: set<Record>)               // 200 with the scanned records
    | Done(message: string)                     // 200
    | Failed(statusCode: int, error: string)

  const ServerError := Failed(500, "Failed to update certificate")

  /** GET: every stored record, or the outer handler's 500 when the scan raises. */
  method HandleGet(table: CertificateTable, scanFails: bool) returns (response: Response)
    ensures response.Listing? <==> !scanFails
    ensures response.Listing? ==> response.items == table.items.Values
    ensures scanFails ==> response == ServerError
  {
    if scanFails {
      return ServerError;
    }
    response := Listing(table.items.Values);
  }

  /** The POST body with `CreatedAt` and `UpdatedAt` set to the current time. */
  function Stamped(fields: Record, now: string): (r: Record)
    ensures r.Keys == fields.Keys + {"CreatedAt", "UpdatedAt"}
    ensures r["CreatedAt"] == r["UpdatedAt"] == Text(now)
    ensures forall k :: k in fields && k !in {"CreatedAt", "UpdatedAt"} ==> r[k] == fields[k]
  {
    fields["CreatedAt" := Text(now)]["UpdatedAt" := Text(now)]
  }

  /** What POST answers and the table it leaves. */
  function PostOutcome(items: map<string, Record>, body: Record, now: string, writeFails: bool)
    : (Response, map<string, Record>)
  {
    var r := Stamped(body, now);
    if HasId(r) && r[IdKey].s != "" && !writeFails then (Done("Certificate added successfully"), items[r[IdKey].s := r])
    else (ServerError, items)
  }

  /**
   * POST: the body, stamped with `CreatedAt` and `UpdatedAt`, is put as a
   * whole record.  DynamoDB refuses a record without a non-empty text
   * `CertificateID`, and the handler answers 500.
   */
  method HandlePost(table: CertificateTable, body: Record, now: string, writeFails: bool)
    returns (response: Response)
    requires table.Valid()
    modifies table
    ensures table.Valid()
    ensures var r := Stamped(body, now);
            (HasId(r) && r[IdKey].s != "" && !writeFails ==> response == Done("Certificate added successfully"))
            && (response.Done? ==> HasId(r) && r[IdKey].s != "" && !writeFails
                                   && table.items == old(table.items)[r[IdKey].s := r])
            && (!response.Done? ==> response == ServerError && table.items == old(table.items))
    ensures (response, table.items) == PostOutcome(old(table.items), body, now, writeFails)
  {
    var r := Stamped(body, now);
    if !(HasId(r) && r[IdKey].s != "") || writeFails {
      return ServerError;
    }
    table.Put(r);
    response := Done("Certificate added successfully");
  }

  /** What PUT answers and the table it leaves. */
  function PutOutcome(items: map<string, Record>, body: Body, now: string, writeFails: bool)
    : (Response, map<string, Record>)
    requires WellFormed(body)
  {
    var id := Member(body.fields, IdKey, Null);
    if !Truthy(id) then (Failed(400, "CertificateID is required"), items)
    else if !id.Text? || IncidentFromNotes(Member(body.fields, "Notes", Text(""))).None? || writeFails then
      (ServerError, items)
    else
      (Done("Certificate updated successfully"),
       items[id.s := Upserted(items, id.s, KeptFields(Assign(body, "UpdatedAt", Text(now)), false))])
  }

  /**
   * PUT: every member of the body but `CertificateID`, with `UpdatedAt`
   * stamped, is set on the stored certificate (which `update_item`
   * creates when it is missing); then, when the body names a different
   * status than the stored one, the owner and the support contact are
   * told.  A missing or falsy `CertificateID` is refused with 400; a key
   * that is not text, notes that are a non-zero number and a failing
   * write raise (500) and change nothing.
   */
  method HandlePut(table: CertificateTable, body: Body, now: string, writeFails: bool, sendFails: bool)
    returns (response: Response, notification: Notification)
    requires table.Valid() && WellFormed(body)
    modifies table
    ensures table.Valid()
    ensures var id := Member(body.fields, IdKey, Null);
            var stored := if id.Text? && id.s in old(table.items) then old(table.items)[id.s] else map[];
            var oldStatus := Member(stored, "Status", Text(""));
            var newStatus := Member(body.fields, "Status", Null);
            var ok := Truthy(id) && id.Text? && IncidentFromNotes(Member(body.fields, "Notes", Text(""))).Some? && !writeFails;
            (!Truthy(id) ==> response == Failed(400, "CertificateID is required"))
            && (Truthy(id) && !ok ==> response == ServerError)
            && (ok ==> response == Done("Certificate updated successfully")
                       && table.items == old(table.items)[id.s := Upserted(old(table.items), id.s,
                                            KeptFields(Assign(body, "UpdatedAt", Text(now)), false))])
            && (!ok ==> table.items == old(table.items) && notification == NotSent)
            && (notification.Sent? ==> ok && ShouldNotify(newStatus, oldStatus) && notification.oldStatus == oldStatus
                                       && notification.newStatus == newStatus)
            && (ok && ShouldNotify(newStatus, oldStatus) && !sendFails
                && (IsAddress(GetText(stored, "Owner", "")) || IsAddress(GetText(stored, "SupportEmail", "")))
                ==> notification.Sent?)
    ensures (response, table.items) == PutOutcome(old(table.items), body, now, writeFails)
  {
    notification := NotSent;
    var id := Member(body.fields, IdKey, Null);
    if !Truthy(id) {
      return Failed(400, "CertificateID is required"), NotSent;
    }
    if !id.Text? {
      return ServerError, NotSent;
    }
    var found := table.Get(id.s);
    var current: Record := if found.Some? then found.value else map[];
    var oldStatus := Member(current, "Status", Text(""));
    var newStatus := Member(body.fields, "Status", Null);
    var notes := Member(body.fields, "Notes", Text(""));
    var incident := IncidentFromNotes(notes);
    if incident.None? {
      return ServerError, NotSent;
    }
    var stamped := Assign(body, "UpdatedAt", Text(now));
    var expression, u := SetClauses(stamped, false);
    if writeFails {
      return ServerError, NotSent;
    }
    KeptWritten(stamped, false);
    table.Update(id.s, Applied(u.clauses, u.names, u.values));
    if ShouldNotify(newStatus, oldStatus) {
      notification := SendStatusChangeNotification(current, oldStatus, newStatus, incident.value, sendFails);
    }
    response := Done("Certificate updated successfully");
  }

  /** What DELETE answers and the table it leaves. */
  function DeleteOutcome(items: map<string, Record>, pathId: string, deleteFails: bool): (Response, map<string, Record>)
  {
    if pathId == "" then (Failed(400, "Certificate ID is required"), items)
    else if deleteFails then (ServerError, items)
    else (Done("Certificate deleted successfully"), items - {pathId})
  }

  /**
   * DELETE: the record named by the path's `id` goes; a missing id is
   * refused with 400, and a `delete_item` that raises answers the outer
   * handler's 500 with the table unchanged.
   */
  method HandleDelete(table: CertificateTable, pathId: string, deleteFails: bool) returns (response: Response)
    requires table.Valid()
    modifies table
    ensures table.Valid()
    ensures pathId == "" ==> response == Failed(400, "Certificate ID is required") && table.items == old(table.items)
    ensures pathId != "" && deleteFails ==> response == ServerError && table.items == old(table.items)
    ensures pathId != "" && !deleteFails ==>
              response == Done("Certificate deleted successfully") && table.items == old(table.items) - {pathId}
    ensures (response, table.items) == DeleteOutcome(old(table.items), pathId, deleteFails)
  {
    if pathId == "" {
      return Failed(400, "Certificate ID is required");
    }
    if deleteFails {
      return ServerError;
    }
    table.Delete(pathId);
    response := Done("Certificate deleted successfully");
  }

  /**
   * lambda_handler: dispatch on the HTTP method.  A body that is not a
   * JSON object makes POST and PUT raise (500); any other method,
   * including none, is refused with 405 and touches nothing.  Each flag
   * says whether the table call of its method raises: the scan of GET,
   * the write of POST and PUT, the delete of DELETE.
   */
  method LambdaHandler(table: CertificateTable, request: Request, now: string,
                       scanFails: bool, writeFails: bool, deleteFails: bool, sendFails: bool)
    returns (response: Response, notification: Notification)
    requires table.Valid()
    requires request.body.Some? ==> WellFormed(request.body.value)
    modifies table
    ensures table.Valid()
    ensures notification.Sent? ==> request.httpMethod == Some("PUT")
    ensures request.httpMethod !in {Some("GET"), Some("POST"), Some("PUT"), Some("DELETE")} ==>
              response == Failed(405, "Method not allowed") && table.items == old(table.items)
    ensures request.httpMethod == Some("GET") ==>
              response == (if scanFails then ServerError else Listing(old(table.items).Values))
              && table.items == old(table.items)
    ensures request.httpMethod in {Some("POST"), Some("PUT")} && request.body.None? ==>
              response == ServerError && table.items == old(table.items)
    ensures request.httpMethod == Some("POST") && request.body.Some? ==>
              (response, table.items) == PostOutcome(old(table.items), request.body.value.fields, now, writeFails)
    ensures request.httpMethod == Some("PUT") && request.body.Some? ==>
              (response, table.items) == PutOutcome(old(table.items), request.body.value, now, writeFails)
    ensures request.httpMethod == Some("DELETE") ==>
              (response, table.items) == DeleteOutcome(old(table.items), request.pathId, deleteFails)
  {
    notification := NotSent;
    if request.httpMethod == Some("GET") {
      response := HandleGet(table, scanFails);
    } else if request.httpMethod == Some("POST") {
      if request.body.None? {
        return ServerError, NotSent;
      }
      response := HandlePost(table, request.body.value.fields, now, writeFails);
    } else if request.httpMethod == Some("PUT") {
      if request.body.None? {
        return ServerError, NotSent;
      }
      response, notification := HandlePut(table, request.body.value, now, writeFails, sendFails);
    } else if request.httpMethod == Some("DELETE") {
      response := HandleDelete(table, request.pathId, deleteFails);
    } else {
      response := Failed(405, "Method not allowed");
    }
  }
}

=== FILE: maintenance.dfy ===
/**
 * What the maintenance scripts share: each scans the certificates table,
 * decides record by record which attributes to set, and calls
 * `update_item` for the records that need it.  A write can fail; the
 * script then counts an error and goes on.
 *
 * `ids[k]` is the key of the k-th scanned record, `writes[k]` the
 * attributes the script sets on it (`None` when it leaves it alone) and
 * `fails[k]` whether that write raised.
 */
module Maintenance {

  import opened Wrappers
  import opened Values
  import opened Store

  /** Every write leaves the key attribute alone. */
  predicate KeyUntouched(writes: seq<Option<Record>>)
  {
    forall k :: 0 <= k < |writes| && writes[k].Some? ==> IdKey !in writes[k].value
  }

  /** The table after the writes that went through, in scan order. */
  function Updated(items: map<string, Record>, ids: seq<string>, writes: seq<Option<Record>>, fails: seq<bool>): map<string, Record>
    requires |ids| == |writes| == |fails| && KeyUntouched(writes)
  {
    if ids == [] then items
    else
      var last := |ids| - 1;
      var front := Updated(items, ids[..last], writes[..last], fails[..last]);
      if writes[last].Some? && !fails[last] then front[ids[last] := Upserted(front, ids[last], writes[last].value)]
      else front
  }

  /** One more record: the table changes only at that record's key, and only when its write went through. */
  lemma UpdatedStep(items: map<string, Record>, ids: seq<string>, writes: seq<Option<Record>>, fails: seq<bool>, i: nat)
    requires |ids| == |writes| == |fails| && KeyUntouched(writes) && i < |ids|
    ensures KeyUntouched(writes[..i]) && KeyUntouched(writes[..i + 1])
    ensures var front := Updated(items, ids[..i], writes[..i], fails[..i]);
            Updated(items, ids[..i + 1], writes[..i + 1], fails[..i + 1])
            == if writes[i].Some? && !fails[i] then front[ids[i] := Upserted(front, ids[i], writes[i].value)] else front
  {
    assert ids[..i + 1][..i] == ids[..i];
    assert writes[..i + 1][..i] == writes[..i];
    assert fails[..i + 1][..i] == fails[..i];
  }

  /** Where no record needs a write, the table is left as it was. */
  lemma {:induction false} NoWritesNoChange(items: map<string, Record>, ids: seq<string>, writes: seq<Option<Record>>, fails: seq<bool>)
    requires |ids| == |writes| == |fails| && KeyUntouched(writes)
    requires forall k :: 0 <= k < |writes| ==> writes[k].None?
    ensures Updated(items, ids, writes, fails) == items
  {
    if ids != [] {
      var last := |ids| - 1;
      NoWritesNoChange(items, ids[..last], writes[..last], fails[..last]);
    }
  }

  /** Where every write raised, the table is left as it was. */
  lemma {:induction false} AllFailedNoChange(items: map<string, Record>, ids: seq<string>, writes: seq<Option<Record>>, fails: seq<bool>)
    requires |ids| == |writes| == |fails| && KeyUntouched(writes)
    requires forall k :: 0 <= k < |fails| ==> fails[k]
    ensures Updated(items, ids, writes, fails) == items
  {
    if ids != [] {
      var last := |ids| - 1;
      AllFailedNoChange(items, ids[..last], writes[..last], fails[..last]);
    }
  }

  /** A key no record carries keeps its record. */
  lemma {:induction false} UpdatedElsewhere(items: map<string, Record>, ids: seq<string>, writes: seq<Option<Record>>, fails: seq<bool>, id: string)
    requires |ids| == |writes| == |fails| && KeyUntouched(writes)
    requires id !in ids
    ensures var after := Updated(items, ids, writes, fails);
            (id in after <==> id in items) && (id in items ==> after[id] == items[id])
  {
    if ids != [] {
      var last := |ids| - 1;
      assert id !in ids[..last];
      UpdatedElsewhere(items, ids[..last], writes[..last], fails[..last], id);
    }
  }

  /** The keys of the scanned records. */
  function Ids(certificates: seq<Record>): (ids: seq<string>)
    requires forall k :: 0 <= k < |certificates| ==> HasId(certificates[k])
    ensures |ids| == |certificates|
    ensures forall k :: 0 <= k < |certificates| ==> ids[k] == IdOf(certificates[k])
  {
    seq(|certificates|, k requires 0 <= k < |certificates| && HasId(certificates[k]) => IdOf(certificates[k]))
  }

  /** `cert['CertificateID']` */
  function IdOf(r: Record): string
    requires HasId(r)
  {
    r[IdKey].s
  }

  /**
   * The scan saw the whole table, once per record: each scanned record is
   * the stored one under its own key, no key twice, and every stored key
   * scanned.
   */
  predicate IsScanOf(certificates: seq<Record>, items: map<string, Record>)
  {
    && (forall k :: 0 <= k < |certificates| ==> HasId(certificates[k]))
    && (forall k :: 0 <= k < |certificates| ==>
          IdOf(certificates[k]) in items && items[IdOf(certificates[k])] == certificates[k])
    && (forall j, k :: 0 <= j < k < |certificates| ==> IdOf(certificates[j]) != IdOf(certificates[k]))
    && (forall id :: id in items ==> exists k :: 0 <= k < |certificates| && IdOf(certificates[k]) == id)
  }

  /** Two scanned records have different keys. */
  lemma DistinctIds(certificates: seq<Record>, items: map<string, Record>, j: nat, k: nat)
    requires IsScanOf(certificates, items) && j < |certificates| && k < |certificates| && j != k
    ensures Ids(certificates)[j] != Ids(certificates)[k]
  {
    if j < k {
      assert IdOf(certificates[j]) != IdOf(certificates[k]);
    } else {
      assert IdOf(certificates[k]) != IdOf(certificates[j]);
    }
  }

  /** The counters after one more record: `wrote` when it needed a write, `failed` when that write raised. */
  function Bump(t: (nat, nat, nat), wrote: bool, failed: bool): (u: (nat, nat, nat))
    ensures u.0 + u.1 + u.2 == t.0 + t.1 + t.2 + 1
  {
    if !wrote then (t.0, t.1 + 1, t.2)
    else if failed then (t.0, t.1, t.2 + 1)
    else (t.0 + 1, t.1, t.2)
  }

  /**
   * `updated_count`, `skipped_count` and `error_count` of a script that
   * skips the records needing no write and counts a write that raised
   * as an error.
   */
  function Tally(writes: seq<Option<Record>>, fails: seq<bool>): (nat, nat, nat)
    requires |fails| == |writes|
  {
    if writes == [] then (0, 0, 0)
    else
      var last := |writes| - 1;
      Bump(Tally(writes[..last], fails[..last]), writes[last].Some?, fails[last])
  }

  /** Every record is counted once: updated, skipped or failed. */
  lemma {:induction false} TallyTotal(writes: seq<Option<Record>>, fails: seq<bool>)
    requires |fails| == |writes|
    ensures var t := Tally(writes, fails); t.0 + t.1 + t.2 == |writes|
  {
    if writes != [] {
      var last := |writes| - 1;
      TallyTotal(writes[..last], fails[..last]);
    }
  }

  /** The positions whose write was attempted and did (`failed`) or did not raise. */
  function Attempts(writes: seq<Option<Record>>, fails: seq<bool>, failed: bool): set<nat>
    requires |fails| == |writes|
  {
    set k: nat | k < |writes| && writes[k].Some? && fails[k] == failed
  }

  lemma AttemptsSnoc(writes: seq<Option<Record>>, fails: seq<bool>, failed: bool)
    requires |fails| == |writes| && writes != []
    ensures var last := |writes| - 1;
            var front := Attempts(writes[..last], fails[..last], failed);
            && last !in front
            && Attempts(writes, fails, failed) == front + (if writes[last].Some? && fails[last] == failed then {last} else {})
  {
  }

  /**
   * The updated count is the number of writes that went through, and
   * the error count the number that raised.
   */
  lemma {:induction false} TallyCounts(writes: seq<Option<Record>>, fails: seq<bool>)
    requires |fails| == |writes|
    ensures Tally(writes, fails).0 == |Attempts(writes, fails, false)|
    ensures Tally(writes, fails).2 == |Attempts(writes, fails, true)|
  {
    if writes != [] {
      var last := |writes| - 1;
      TallyCounts(writes[..last], fails[..last]);
      AttemptsSnoc(writes, fails, false);
      AttemptsSnoc(writes, fails, true);
    }
  }

  lemma TallyStep(writes: seq<Option<Record>>, fails: seq<bool>, i: nat)
    requires |fails| == |writes| && i < |writes|
    ensures Tally(writes[..i + 1], fails[..i + 1]) == Bump(Tally(writes[..i], fails[..i]), writes[i].Some?, fails[i])
  {
    assert writes[..i + 1][..i] == writes[..i];
    assert fails[..i + 1][..i] == fails[..i];
  }

  /**
   * One `update_item` call of a script's loop: the `i`-th write, when
   * there is one and it went through.
   */
  method Apply(table: CertificateTable, id: string, write: Option<Record>, failed: bool,
               ghost items: map<string, Record>, ghost ids: seq<string>, ghost writes: seq<Option<Record>>,
               ghost fails: seq<bool>, ghost i: nat)
    requires table.Valid() && |ids| == |writes| == |fails| && KeyUntouched(writes) && i < |ids|
    requires ids[i] == id && writes[i] == write && fails[i] == failed
    requires table.items == Updated(items, ids[..i], writes[..i], fails[..i])
    modifies table
    ensures KeyUntouched(writes[..i + 1])
    ensures table.Valid() && table.items == Updated(items, ids[..i + 1], writes[..i + 1], fails[..i + 1])
  {
    UpdatedStep(items, ids, writes, fails, i);
    if write.Some? && !failed {
      table.Update(id, write.value);
    }
  }

  /**
   * A record is settled after its write (or as it stands, when the
   * script leaves it alone).
   */
  predicate Settles(r: Record, write: Option<Record>, settled: Record -> bool)
  {
    if write.Some? then settled(r + write.value) else settled(r)
  }

  /**
   * After a run in which every write went through, every record the
   * table holds is settled, provided each write settles its record.
   */
  lemma SettledAll(items: map<string, Record>, certificates: seq<Record>, writes: seq<Option<Record>>,
                   fails: seq<bool>, settled: Record -> bool)
    requires IsScanOf(certificates, items)
    requires |writes| == |fails| == |certificates| && KeyUntouched(writes)
    requires forall k :: 0 <= k < |fails| ==> !fails[k]
    requires forall k :: 0 <= k < |certificates| ==> Settles(certificates[k], writes[k], settled)
    ensures var after := Updated(items, Ids(certificates), writes, fails);
            after.Keys == items.Keys && forall id :: id in after ==> settled(after[id])
  {
    var ids, n := Ids(certificates), |certificates|;
    SettledPrefix(items, certificates, writes, fails, settled, n);
    assert ids[..n] == ids && writes[..n] == writes && fails[..n] == fails;
    var after := Updated(items, ids, writes, fails);
    forall id | id in after
      ensures settled(after[id])
    {
      var k :| 0 <= k < n && IdOf(certificates[k]) == id;
    }
  }

  /**
   * After the first `i` writes: the table has the same keys, the first
   * `i` records are settled, and the others are as scanned.
   */
  predicate SettledUpTo(items: map<string, Record>, certificates: seq<Record>, writes: seq<Option<Record>>,
                        fails: seq<bool>, settled: Record -> bool, i: nat)
    requires forall k :: 0 <= k < |certificates| ==> HasId(certificates[k])
    requires |writes| == |fails| == |certificates| && i <= |certificates|
  {
    && KeyUntouched(writes[..i])
    && var ids := Ids(certificates);
       var after := Updated(items, ids[..i], writes[..i], fails[..i]);
       && after.Keys == items.Keys
       && (forall k :: 0 <= k < i ==> ids[k] in after && settled(after[ids[k]]))
       && (forall k :: i <= k < |certificates| ==> ids[k] in after && after[ids[k]] == certificates[k])
  }

  lemma {:induction false} SettledPrefix(items: map<string, Record>, certificates: seq<Record>, writes: seq<Option<Record>>,
                                         fails: seq<bool>, settled: Record -> bool, i: nat)
    requires IsScanOf(certificates, items)
    requires |writes| == |fails| == |certificates| && KeyUntouched(writes)
    requires forall k :: 0 <= k < |fails| ==> !fails[k]
    requires forall k :: 0 <= k < |certificates| ==> Settles(certificates[k], writes[k], settled)
    requires i <= |certificates|
    ensures SettledUpTo(items, certificates, writes, fails, settled, i)
  {
    if i == 0 {
      var ids := Ids(certificates);
      assert ids[..0] == [] && writes[..0] == [] && fails[..0] == [];
    } else {
      SettledPrefix(items, certificates, writes, fails, settled, i - 1);
      SettledStep(items, certificates, writes, fails, settled, i - 1);
    }
  }

  /** The `j`-th write settles its record and touches no other. */
  lemma SettledStep(items: map<string, Record>, certificates: seq<Record>, writes: seq<Option<Record>>,
                    fails: seq<bool>, settled: Record -> bool, j: nat)
    requires IsScanOf(certificates, items)
    requires |writes| == |fails| == |certificates| && KeyUntouched(writes)
    requires forall k :: 0 <= k < |fails| ==> !fails[k]
    requires j < |certificates| && Settles(certificates[j], writes[j], settled)
    requires SettledUpTo(items, certificates, writes, fails, settled, j)
    ensures SettledUpTo(items, certificates, writes, fails, settled, j + 1)
  {
    var ids := Ids(certificates);
    UpdatedStep(items, ids, writes, fails, j);
    var before := Updated(items, ids[..j], writes[..j], fails[..j]);
    var after := Updated(items, ids[..j + 1], writes[..j + 1], fails[..j + 1]);
    assert before[ids[j]] == certificates[j];
    forall k | 0 <= k < |certificates| && k != j
      ensures after[ids[k]] == before[ids[k]]
    {
      DistinctIds(certificates, items, j, k);
    }
  }
}

=== FILE: server_scanner.dfy ===
/**
 * The host certificate scanner (lambda/server_certificate_scanner.py): it
 * runs a scan command on the managed Windows and Linux hosts, 50 hosts at
 * a time, turns each certificate it reports into a record, and stores the
 * record, keeping the attributes people maintain by hand.
 *
 * The command service is not modelled: what each host's command returns
 * is an input.  The fields the scanner's regular expressions pick out of a
 * Windows certificate block, and the date OpenSSL's notAfter text reads
 * as, are inputs too.
 */
module ServerScanner {

  import opened Wrappers
  import opened Values
  import opened Text
  import opened Dates
  import opened Statuses
  import opened Store
  import opened Batching

  /** MAX_CONCURRENT_COMMANDS */
  const MaxConcurrentCommands: nat := 50

  // ----- status and environment -----

  /** calculate_certificate_status: the 30-day rule from the current moment, 'Unknown' when the date does not read. */
  function CalculateCertificateStatus(expiry: string, now: Instant): (s: string)
    requires ValidInstant(now)
    ensures ParseIso(expiry).None? <==> s == Unknown
    ensures ParseIso(expiry).Some? ==> s == StatusForDays(DaysFromNow(ParseIso(expiry).value, now))
  {
    match ParseIso(expiry)
    case Some(d) => StatusForDays(DaysFromNow(d, now))
    case None => Unknown
  }

  predicate AnyIn(s: string, words: seq<string>)
  {
    exists i :: 0 <= i < |words| && Contains(s, words[i])
  }

  /** determine_environment: the first family of markers found in the lower-cased host name. */
  function DetermineEnvironment(serverName: string): (env: string)
    ensures var n := Lower(serverName);
            (env == "PROD" <==> AnyIn(n, ["prod", "prd", "production"]))
            && (env == "TEST" <==> !AnyIn(n, ["prod", "prd", "production"]) && AnyIn(n, ["test", "tst", "qa", "uat"]))
            && (env == "DEV" <==>
                  !AnyIn(n, ["prod", "prd", "production"]) && !AnyIn(n, ["test", "tst", "qa", "uat"])
                  && AnyIn(n, ["dev", "development"]))
            && (env == "STAGING" <==>
                  !AnyIn(n, ["prod", "prd", "production"]) && !AnyIn(n, ["test", "tst", "qa", "uat"])
                  && !AnyIn(n, ["dev", "development"]) && AnyIn(n, ["stg", "stage", "staging"]))
            && (env == "UNKNOWN" <==>
                  !AnyIn(n, ["prod", "prd", "production"]) && !AnyIn(n, ["test", "tst", "qa", "uat"])
                  && !AnyIn(n, ["dev", "development"]) && !AnyIn(n, ["stg", "stage", "staging"]))
  {
    var n := Lower(serverName);
    if AnyIn(n, ["prod", "prd", "production"]) then "PROD"
    else if AnyIn(n, ["test", "tst", "qa", "uat"]) then "TEST"
    else if AnyIn(n, ["dev", "development"]) then "DEV"
    else if AnyIn(n, ["stg", "stage", "staging"]) then "STAGING"
    else "UNKNOWN"
  }

  lemma LowerUpperChar(c: char)
    ensures LowerChar(UpperChar(c)) == LowerChar(c)
  {
  }

  /** Case does not matter: a host name and its upper-cased form get the same environment. */
  lemma EnvironmentIgnoresCase(serverName: string)
    ensures DetermineEnvironment(Upper(serverName)) == DetermineEnvironment(serverName)
  {
    var a, b := Lower(Upper(serverName)), Lower(serverName);
    forall i | 0 <= i < |a|
      ensures a[i] == b[i]
    {
      LowerUpperChar(serverName[i]);
    }
    assert a == b;
  }

  // ----- the common name -----

  /** `re.search(r'CN=([^,]+)', subject)` can match at `i`: "CN=" followed by a character other than ','. */
  predicate CnAt(s: string, i: int)
  {
    0 <= i && i + 3 < |s| && s[i..i + 3] == "CN=" && s[i + 3] != ','
  }

  /** The first match at or after `i`, and its group: the characters after "CN=" up to the next ','. */
  function CnFrom(s: string, i: nat): (r: Option<string>)
    requires i <= |s|
    ensures r.None? <==> forall j :: i <= j < |s| ==> !CnAt(s, j)
    ensures r.Some? ==> exists j :: i <= j < |s| && CnAt(s, j) && r.value == BeforeFirst(s[j + 3..], ',')
                                    && forall k :: i <= k < j ==> !CnAt(s, k)
    ensures r.Some? ==> r.value != "" && ',' !in r.value
    decreases |s| - i
  {
    if i + 3 >= |s| then
      assert forall j :: i <= j < |s| ==> !CnAt(s, j);
      None
    else if CnAt(s, i) then
      var rest := s[i + 3..];
      assert rest[0] != ',';
      Some(BeforeFirst(rest, ','))
    else
      var r := CnFrom(s, i + 1);
      assert forall j :: i <= j <= i ==> !CnAt(s, j);
      r
  }

  /** The common name of a subject: the group of the first match, or the whole subject when there is none. */
  function ExtractCommonName(subject: string): (cn: string)
    ensures CnFrom(subject, 0).None? ==> cn == subject
    ensures CnFrom(subject, 0).Some? ==> cn != "" && ',' !in cn
    ensures CnFrom(subject, 0).Some? ==>
              exists j :: 0 <= j < |subject| && CnAt(subject, j) && (forall k :: 0 <= k < j ==> !CnAt(subject, k))
                          && cn == BeforeFirst(subject[j + 3..], ',')
  {
    match CnFrom(subject, 0)
    case Some(name) => name
    case None => subject
  }

  /** A subject that starts with "CN=<name>," names `name`. */
  lemma CommonNameOfLeadingCn(name: string, rest: string)
    requires name != "" && ',' !in name
    ensures ExtractCommonName("CN=" + name + "," + rest) == name
  {
    var s := "CN=" + name + "," + rest;
    assert s[..3] == "CN=" && s[3] == name[0];
    assert CnAt(s, 0);
    var t := s[3..];
    assert t == name + "," + rest;
    assert t[|name|] == ',' && t[..|name|] == name;
    assert forall j :: 0 <= j < |name| ==> t[j] != ',';
    assert BeforeFirst(t, ',') == name;
  }

  // ----- certificate records -----

  /** A host's metadata as the scan keeps it. */
  datatype Instance = Instance(id: string, name: string, platformName: string, ipAddress: string)

  /**
   * The current moment, its ISO text and the account number, which every
   * record carries.  The account is what `get_caller_identity` answers
   * whenever it answers; a call that raises is a property of the record
   * being built (`identityFails` below).
   */
  datatype Context = Context(now: Instant, timestamp: string, account: string)

  /** The attributes that describe the host and the scan. */
  function ServerFields(inst: Instance, ctx: Context, cn: string, subject: string, issuer: string,
                        fingerprint: string, source: string): Record
  {
    map[
      "CertificateName" := Text(cn), "CommonName" := Text(cn), "Subject" := Text(subject),
      "Issuer" := Text(issuer), "Thumbprint" := Text(fingerprint), "Source" := Text(source),
      "ServerID" := Text(inst.id), "ServerName" := Text(inst.name), "ServerPlatform" := Text(inst.platformName),
      "ServerIP" := Text(inst.ipAddress), "Environment" := Text(DetermineEnvironment(inst.name)),
      "SyncedFrom" := Text("SSM"), "AccountNumber" := Text(ctx.account)]
  }

  /** The record both parse functions build, given the per-platform fields. */
  function CertificateRecord(inst: Instance, ctx: Context, fingerprint: string, subject: string, issuer: string,
                             expiry: string, source: string, extra: Record): (r: Record)
    requires ValidInstant(ctx.now)
    ensures HasId(r) && r[IdKey] == Text(inst.id + "_" + fingerprint)
    ensures "ExpiryDate" in r && r["ExpiryDate"] == Text(expiry)
    ensures "Status" in r && r["Status"] == Text(CalculateCertificateStatus(expiry, ctx.now))
    ensures "LastScannedOn" in r && r["LastScannedOn"] == Text(ctx.timestamp)
    ensures "Source" in r && r["Source"] == Text(source)
  {
    var cn := ExtractCommonName(subject);
    var status := CalculateCertificateStatus(expiry, ctx.now);
    extra + ServerFields(inst, ctx, cn, subject, issuer, fingerprint, source)
    + map[IdKey := Text(inst.id + "_" + fingerprint), "ExpiryDate" := Text(expiry), "Status" := Text(status),
          "LastScannedOn" := Text(ctx.timestamp), "Source" := Text(source)]
  }

  // ----- Windows hosts -----

  /**
   * One block of the Windows command's output, between separator lines:
   * its text and what the field patterns (Subject, Issuer, Valid From,
   * Valid Until, Thumbprint) captured in it, stripped, and whether the
   * `get_caller_identity` call made while building its record raises.
   */
  datatype WindowsBlock = WindowsBlock(text: string, subject: Option<string>, issuer: Option<string>,
                                       validFrom: Option<string>, validUntil: Option<string>,
                                       thumbprint: Option<string>, identityFails: bool)

  /** `s.split()[0]`: the first whitespace-separated word, if any. */
  function FirstWord(s: string): (w: Option<string>)
    ensures w.Some? ==> w.value != ""
  {
    var t := StripLeft(s);
    StripLeftShape(s);
    if t == "" then None
    else Some(FirstWordOf(t))
  }

  function FirstWordOf(t: string): (w: string)
    requires t != "" && !IsSpace(t[0])
    ensures w != ""
  {
    if |t| == 1 || IsSpace(t[1]) then t[..1] else t[..1] + FirstWordOf(t[1..])
  }

  /**
   * The expiry text of a Windows certificate: its Valid Until date as
   * `YYYY-MM-DD` when the first word reads as `%m/%d/%Y`, else the raw
   * text.  (Valid Until text that reads as `%m/%d/%Y %I:%M:%S %p` has a
   * first word that reads as the same date.)
   */
  function WindowsExpiry(validUntil: string): (e: string)
  {
    match FirstWord(validUntil)
    case Some(w) =>
      (match ParseNumericDate(w, '/', MDY)
       case Some(d) => FormatIso(d)
       case None => validUntil)
    case None => validUntil
  }

  /** A reformatted date always reads back, so it never gets the status 'Unknown'. */
  lemma WindowsExpiryReadable(validUntil: string)
    ensures WindowsExpiry(validUntil) != validUntil ==> ParseIso(WindowsExpiry(validUntil)).Some?
  {
    var w := FirstWord(validUntil);
    if w.Some? && ParseNumericDate(w.value, '/', MDY).Some? {
      ParseFormatIso(ParseNumericDate(w.value, '/', MDY).value);
    }
  }

  /**
   * The record for one block; none for a blank block, for one missing
   * Subject, Valid Until or Thumbprint, and for one whose identity call
   * raises (the block's `except ... continue`).
   */
  function WindowsCertificate(b: WindowsBlock, inst: Instance, ctx: Context): (r: Option<Record>)
    requires ValidInstant(ctx.now)
    ensures r.Some? <==> Strip(b.text) != "" && b.subject.Some? && b.validUntil.Some? && b.thumbprint.Some?
                         && !b.identityFails
    ensures r.Some? ==> HasId(r.value) && r.value[IdKey] == Text(inst.id + "_" + b.thumbprint.value)
                        && "ExpiryDate" in r.value && r.value["ExpiryDate"] == Text(WindowsExpiry(b.validUntil.value))
                        && "Source" in r.value && r.value["Source"] == Text("Server-Windows")
  {
    if Strip(b.text) == "" then None
    else if b.identityFails then None
    else match (b.subject, b.validUntil, b.thumbprint)
      case (Some(subject), Some(until), Some(thumbprint)) =>
        var validFrom := match b.validFrom case Some(v) => if v != "" then Text(v) else Null case None => Null;
        var issuer := match b.issuer case Some(i) => i case None => Unknown;
        Some(CertificateRecord(inst, ctx, thumbprint, subject, issuer, WindowsExpiry(until), "Server-Windows",
                               map["ValidFrom" := validFrom]))
      case _ => None
  }

  /** The records for the blocks, in order. */
  function WindowsCertificates(blocks: seq<WindowsBlock>, inst: Instance, ctx: Context): (rs: seq<Record>)
    requires ValidInstant(ctx.now)
    ensures |rs| <= |blocks|
    ensures forall r :: r in rs ==> HasId(r) && "ExpiryDate" in r && "Status" in r && "LastScannedOn" in r
  {
    if |blocks| == 0 then []
    else
      var front := WindowsCertificates(blocks[..|blocks| - 1], inst, ctx);
      match WindowsCertificate(blocks[|blocks| - 1], inst, ctx)
      case Some(r) => front + [r]
      case None => front
  }

  /** parse_windows_certificate_output */
  method ParseWindowsCertificateOutput(blocks: seq<WindowsBlock>, inst: Instance, ctx: Context)
    returns (certificates: seq<Record>)
    requires ValidInstant(ctx.now)
    ensures certificates == WindowsCertificates(blocks, inst, ctx)
  {
    certificates := [];
    for i := 0 to |blocks|
      invariant certificates == WindowsCertificates(blocks[..i], inst, ctx)
    {
      assert blocks[..i + 1][..i] == blocks[..i];
      var block := blocks[i];
      if Strip(block.text) == "" {
        continue;
      }
      var certificate := WindowsCertificate(block, inst, ctx);
      if certificate.Some? {
        certificates := certificates + [certificate.value];
      }
    }
    assert blocks[..|blocks|] == blocks;
  }

  // ----- Linux hosts -----

  /**
   * One entry of the Linux command's JSON list: its fields, absent when
   * the key is missing, and the date its notAfter text reads as under
   * `%b %d %H:%M:%S %Y %Z` (`None` when it does not), and whether the
   * `get_caller_identity` call made while building its record raises.
   * `Unreadable` is an entry on which reading the fields raises: one that
   * is not an object (`.get` fails) or whose subject is not text
   * (`re.search` fails).
   */
  datatype LinuxEntry =
    | LinuxEntry(subject: Option<string>, issuer: Option<string>, notAfter: Option<string>,
                 notAfterDate: Option<Date>, fingerprint: Option<string>, path: Option<string>,
                 identityFails: bool)
    | Unreadable

  /** An entry whose record is built without raising. */
  predicate Builds(e: LinuxEntry)
  {
    e.LinuxEntry? && !e.identityFails
  }

  function OrElse(o: Option<string>, default: string): string
  {
    match o case Some(v) => v case None => default
  }

  /** The expiry text of a Linux certificate: the notAfter date as `YYYY-MM-DD`, or the raw notAfter text. */
  function LinuxExpiry(e: LinuxEntry): string
    requires e.LinuxEntry?
  {
    match e.notAfterDate
    case Some(d) => if ValidDate(d) then FormatIso(d) else OrElse(e.notAfter, "")
    case None => OrElse(e.notAfter, "")
  }

  function LinuxCertificate(e: LinuxEntry, inst: Instance, ctx: Context): (r: Record)
    requires ValidInstant(ctx.now) && Builds(e)
    ensures HasId(r) && r[IdKey] == Text(inst.id + "_" + OrElse(e.fingerprint, ""))
    ensures "ExpiryDate" in r && r["ExpiryDate"] == Text(LinuxExpiry(e))
    ensures "Status" in r && "LastScannedOn" in r
  {
    CertificateRecord(inst, ctx, OrElse(e.fingerprint, ""), OrElse(e.subject, Unknown),
                      OrElse(e.issuer, Unknown), LinuxExpiry(e), "Server-Linux",
                      map["FilePath" := Text(OrElse(e.path, ""))])
  }

  /**
   * The entries a record is built from, in order: the readable ones whose
   * identity call answers.
   */
  function Readable(es: seq<LinuxEntry>): (r: seq<LinuxEntry>)
    ensures |r| <= |es|
    ensures forall e :: e in r <==> e in es && Builds(e)
  {
    if es == [] then []
    else
      var front := Readable(es[..|es| - 1]);
      var e := es[|es| - 1];
      assert forall x :: x in es <==> x in es[..|es| - 1] || x == e;
      if Builds(e) then front + [e] else front
  }

  /** Where no entry raises, every entry gives a record. */
  lemma {:induction false} AllReadable(es: seq<LinuxEntry>)
    requires forall i :: 0 <= i < |es| ==> Builds(es[i])
    ensures Readable(es) == es
  {
    if es != [] {
      AllReadable(es[..|es| - 1]);
      assert es[..|es| - 1] + [es[|es| - 1]] == es;
    }
  }

  /**
   * The records for the entries, in order; an entry on which building the
   * record raises is skipped.  None when the output is not a JSON list
   * (`None`).
   */
  function LinuxCertificates(entries: Option<seq<LinuxEntry>>, inst: Instance, ctx: Context): (rs: seq<Record>)
    requires ValidInstant(ctx.now)
    ensures entries.None? ==> rs == []
    ensures entries.Some? ==> |rs| == |Readable(entries.value)| <= |entries.value|
    ensures entries.Some? ==> forall i :: 0 <= i < |rs| ==> rs[i] == LinuxCertificate(Readable(entries.value)[i], inst, ctx)
  {
    match entries
    case None => []
    case Some(es) =>
      var ok := Readable(es);
      assert forall i :: 0 <= i < |ok| ==> ok[i] in ok;
      seq(|ok|, i requires 0 <= i < |ok| => LinuxCertificate(ok[i], inst, ctx))
  }

  // ----- storing -----

  /**
   * The incoming record with every hand-maintained attribute the stored
   * record has and the incoming one lacks copied over.
   */
  function Preserved(incoming: Record, existing: Record): (r: Record)
    ensures r.Keys == incoming.Keys + (existing.Keys * PreserveFields)
    ensures forall k :: k in incoming ==> r[k] == incoming[k]
    ensures forall k :: k in r && k !in incoming ==> k in PreserveFields && r[k] == existing[k]
  {
    incoming + map k | k in existing && k in PreserveFields && k !in incoming :: existing[k]
  }

  /** Preserving a second time adds nothing. */
  lemma PreservedIdempotent(incoming: Record, existing: Record)
    ensures Preserved(Preserved(incoming, existing), existing) == Preserved(incoming, existing)
  {
  }

  datatype StoreResult = Added | UpdatedRecord | SkippedRecord

  /** What a scan refreshes on a stored record. */
  function ScanChange(cert: Record): Record
    requires "ExpiryDate" in cert && "Status" in cert && "LastScannedOn" in cert
  {
    map["ExpiryDate" := cert["ExpiryDate"], "Status" := cert["Status"], "LastScannedOn" := cert["LastScannedOn"]]
  }

  /**
   * The table and the result after store_certificate: a new ID is stored
   * whole; a known one gets only ExpiryDate, Status and LastScannedOn;
   * a storage error (the IDs in `faults`, or a missing attribute) leaves
   * the table as it was.
   */
  function StoreOutcome(items: map<string, Record>, cert: Record, faults: set<string>): (o: (map<string, Record>, StoreResult))
    requires HasId(cert)
    ensures o.1 == SkippedRecord ==> o.0 == items
    ensures o.1 == Added ==> cert[IdKey].s !in items && o.0 == items[cert[IdKey].s := cert]
    ensures o.1 == UpdatedRecord ==>
              var id := cert[IdKey].s;
              id in items && o.0.Keys == items.Keys
              && (forall other :: other in items && other != id ==> o.0[other] == items[other])
              && o.0[id].Keys == items[id].Keys + {"ExpiryDate", "Status", "LastScannedOn"}
              && (forall k :: k in items[id] && k !in {"ExpiryDate", "Status", "LastScannedOn"} ==> o.0[id][k] == items[id][k])
  {
    var id := cert[IdKey].s;
    if id in faults then (items, SkippedRecord)
    else if id in items then
      if "ExpiryDate" in cert && "Status" in cert && "LastScannedOn" in cert then
        (items[id := Upserted(items, id, ScanChange(cert))], UpdatedRecord)
      else (items, SkippedRecord)
    else (items[id := cert], Added)
  }

  /** Storing the same scanned record twice leaves the table as storing it once. */
  lemma StoreTwice(items: map<string, Record>, cert: Record, faults: set<string>)
    requires HasId(cert) && KeyedById(items) && "ExpiryDate" in cert && "Status" in cert && "LastScannedOn" in cert
    ensures var once := StoreOutcome(items, cert, faults).0;
            StoreOutcome(once, cert, faults).0 == once
  {
    var id := cert[IdKey].s;
    if id !in faults && id !in items {
      var once := items[id := cert];
      assert Upserted(once, id, ScanChange(cert)) == cert;
    } else if id !in faults {
      var once := items[id := Upserted(items, id, ScanChange(cert))];
      assert Upserted(once, id, ScanChange(cert)) == once[id];
    }
  }

  /**
   * store_certificate.  It also returns the incoming record as the source
   * leaves it: with the hand-maintained attributes of the stored record
   * merged in when the ID is known (only the three scanned attributes are
   * written, so the merge reaches no stored record).
   */
  method StoreCertificate(table: CertificateTable, certificate: Record, faults: set<string>)
    returns (result: StoreResult, merged: Record)
    requires table.Valid() && HasId(certificate)
    modifies table
    ensures table.Valid()
    ensures (table.items, result) == StoreOutcome(old(table.items), certificate, faults)
    ensures merged == if certificate[IdKey].s in old(table.items) && certificate[IdKey].s !in faults
                      then Preserved(certificate, old(table.items)[certificate[IdKey].s]) else certificate
  {
    merged := certificate;
    var id := certificate[IdKey].s;
    if id in faults {
      return SkippedRecord, merged;
    }
    var existing := table.Get(id);
    if existing.Some? {
      merged := Preserved(certificate, existing.value);
      if "ExpiryDate" in certificate && "Status" in certificate && "LastScannedOn" in certificate {
        table.Update(id, ScanChange(certificate));
        result := UpdatedRecord;
      } else {
        result := SkippedRecord;
      }
    } else {
      table.Put(certificate);
      result := Added;
    }
  }

  // ----- the scan loops -----

  /** What a host's scan output is, by platform. */
  datatype ScanOutput = WindowsOutput(blocks: seq<WindowsBlock>) | LinuxOutput(entries: Option<seq<LinuxEntry>>)

  /** The status of a host's command invocation, or an exception while reading it. */
  datatype Invocation = Success(output: ScanOutput) | StillRunning | CommandFailed | Raised

  datatype Target = Target(instance: Instance, invocation: Invocation)

  datatype ScanStats = ScanStats(scanned: nat, found: nat, added: nat, updated: nat, skipped: nat, errors: nat)

  datatype ScanState = ScanState(items: map<string, Record>, stats: ScanStats)

  function ParsedCertificates(output: ScanOutput, inst: Instance, ctx: Context): (rs: seq<Record>)
    requires ValidInstant(ctx.now)
    ensures forall r :: r in rs ==> HasId(r)
  {
    match output
    case WindowsOutput(blocks) => WindowsCertificates(blocks, inst, ctx)
    case LinuxOutput(entries) => LinuxCertificates(entries, inst, ctx)
  }

  /** Storing `certs` in order, counting each result. */
  function StoreAll(st: ScanState, certs: seq<Record>, faults: set<string>): ScanState
    requires forall r :: r in certs ==> HasId(r)
  {
    if |certs| == 0 then st
    else
      var s := StoreAll(st, certs[..|certs| - 1], faults);
      var (items, result) := StoreOutcome(s.items, certs[|certs| - 1], faults);
      var c := s.stats;
      ScanState(items, match result
                       case Added => c.(added := c.added + 1)
                       case UpdatedRecord => c.(updated := c.updated + 1)
                       case SkippedRecord => c.(skipped := c.skipped + 1))
  }

  /** One host: store what it reported, or count the error; a command still running is left alone. */
  function InstanceStep(st: ScanState, t: Target, ctx: Context, faults: set<string>): ScanState
    requires ValidInstant(ctx.now)
  {
    match t.invocation
    case Success(output) =>
      var certs := ParsedCertificates(output, t.instance, ctx);
      var s := StoreAll(st, certs, faults);
      s.(stats := s.stats.(found := s.stats.found + |certs|, scanned := s.stats.scanned + 1))
    case StillRunning => st
    case CommandFailed => st.(stats := st.stats.(errors := st.stats.errors + 1))
    case Raised => st.(stats := st.stats.(errors := st.stats.errors + 1))
  }

  function InstanceSweep(st: ScanState, batch: seq<Target>, ctx: Context, faults: set<string>): ScanState
    requires ValidInstant(ctx.now)
  {
    if |batch| == 0 then st
    else InstanceStep(InstanceSweep(st, batch[..|batch| - 1], ctx, faults), batch[|batch| - 1], ctx, faults)
  }

  /**
   * The state after the first `k` batches; sending the command to the
   * batches in `unsent` raises, which counts one error for the batch.
   */
  function ScanBatches(st: ScanState, batches: seq<seq<Target>>, k: nat, unsent: set<nat>, ctx: Context,
                       faults: set<string>): ScanState
    requires k <= |batches| && ValidInstant(ctx.now)
  {
    if k == 0 then st
    else
      var s := ScanBatches(st, batches, k - 1, unsent, ctx, faults);
      if k - 1 in unsent then s.(stats := s.stats.(errors := s.stats.errors + 1))
      else InstanceSweep(s, batches[k - 1], ctx, faults)
  }

  /** scan_windows_servers / scan_linux_servers */
  method ScanServers(table: CertificateTable, targets: seq<Target>, unsent: set<nat>, ctx: Context, faults: set<string>)
    returns (stats: ScanStats)
    requires table.Valid() && ValidInstant(ctx.now)
    modifies table
    ensures table.Valid()
    ensures var batches := Batches(targets, MaxConcurrentCommands);
            ScanState(table.items, stats)
            == ScanBatches(ScanState(old(table.items), ScanStats(0, 0, 0, 0, 0, 0)), batches, |batches|, unsent, ctx, faults)
    ensures stats.added + stats.updated + stats.skipped == stats.found
  {
    stats := ScanStats(0, 0, 0, 0, 0, 0);
    ghost var start := ScanState(table.items, stats);
    var batches := Batches(targets, MaxConcurrentCommands);
    for k := 0 to |batches|
      invariant table.Valid()
      invariant ScanState(table.items, stats) == ScanBatches(start, batches, k, unsent, ctx, faults)
    {
      if k in unsent {
        stats := stats.(errors := stats.errors + 1);
        continue;
      }
      var batch := batches[k];
      ghost var before := ScanState(table.items, stats);
      for j := 0 to |batch|
        invariant table.Valid()
        invariant ScanState(table.items, stats) == InstanceSweep(before, batch[..j], ctx, faults)
      {
        assert batch[..j + 1][..j] == batch[..j];
        stats := ScanInstance(table, batch[j], stats, ctx, faults);
      }
      assert batch[..|batch|] == batch;
    }
    ScanBalanced(start, batches, |batches|, unsent, ctx, faults);
  }

  /** The body of the per-host loop. */
  method ScanInstance(table: CertificateTable, t: Target, stats0: ScanStats, ctx: Context, faults: set<string>)
    returns (stats: ScanStats)
    requires table.Valid() && ValidInstant(ctx.now)
    modifies table
    ensures table.Valid()
    ensures ScanState(table.items, stats) == InstanceStep(ScanState(old(table.items), stats0), t, ctx, faults)
  {
    stats := stats0;
    match t.invocation
    case Success(output) =>
      var certificates;
      match output {
        case WindowsOutput(blocks) =>
          certificates := ParseWindowsCertificateOutput(blocks, t.instance, ctx);
        case LinuxOutput(entries) =>
          certificates := LinuxCertificates(entries, t.instance, ctx);
      }
      stats := StoreCertificates(table, certificates, stats, faults);
      stats := stats.(found := stats.found + |certificates|, scanned := stats.scanned + 1);
    case StillRunning =>
    case CommandFailed =>
      stats := stats.(errors := stats.errors + 1);
    case Raised =>
      stats := stats.(errors := stats.errors + 1);
  }

  /** The store loop over the certificates a host reported, counting each result. */
  method StoreCertificates(table: CertificateTable, certificates: seq<Record>, stats0: ScanStats, faults: set<string>)
    returns (stats: ScanStats)
    requires table.Valid() && forall r :: r in certificates ==> HasId(r)
    modifies table
    ensures table.Valid()
    ensures ScanState(table.items, stats) == StoreAll(ScanState(old(table.items), stats0), certificates, faults)
  {
    stats := stats0;
    for i := 0 to |certificates|
      invariant table.Valid()
      invariant ScanState(table.items, stats) == StoreAll(ScanState(old(table.items), stats0), certificates[..i], faults)
    {
      assert certificates[..i + 1][..i] == certificates[..i];
      var result, _ := StoreCertificate(table, certificates[i], faults);
      match result
      case Added => stats := stats.(added := stats.added + 1);
      case UpdatedRecord => stats := stats.(updated := stats.updated + 1);
      case SkippedRecord => stats := stats.(skipped := stats.skipped + 1);
    }
    assert certificates[..|certificates|] == certificates;
  }

  // ----- counter identities -----

  function Stored(c: ScanStats): int
  {
    c.added + c.updated + c.skipped
  }

  lemma {:induction false} StoreAllCounts(st: ScanState, certs: seq<Record>, faults: set<string>)
    requires forall r :: r in certs ==> HasId(r)
    ensures var s := StoreAll(st, certs, faults);
            Stored(s.stats) == Stored(st.stats) + |certs|
            && s.stats.(added := 0, updated := 0, skipped := 0) == st.stats.(added := 0, updated := 0, skipped := 0)
  {
    if |certs| > 0 {
      StoreAllCounts(st, certs[..|certs| - 1], faults);
    }
  }

  /** Invariant of the scan: every certificate found has been counted as added, updated or skipped. */
  predicate Balanced(st: ScanState)
  {
    Stored(st.stats) == st.stats.found
  }

  lemma InstanceStepBalanced(st: ScanState, t: Target, ctx: Context, faults: set<string>)
    requires ValidInstant(ctx.now) && Balanced(st)
    ensures Balanced(InstanceStep(st, t, ctx, faults))
  {
    if t.invocation.Success? {
      StoreAllCounts(st, ParsedCertificates(t.invocation.output, t.instance, ctx), faults);
    }
  }

  lemma {:induction false} InstanceSweepBalanced(st: ScanState, batch: seq<Target>, ctx: Context, faults: set<string>)
    requires ValidInstant(ctx.now) && Balanced(st)
    ensures Balanced(InstanceSweep(st, batch, ctx, faults))
  {
    if |batch| > 0 {
      InstanceSweepBalanced(st, batch[..|batch| - 1], ctx, faults);
      InstanceStepBalanced(InstanceSweep(st, batch[..|batch| - 1], ctx, faults), batch[|batch| - 1], ctx, faults);
    }
  }

  /** After any number of batches, added + updated + skipped == found. */
  lemma {:induction false} ScanBalanced(st: ScanState, batches: seq<seq<Target>>, k: nat, unsent: set<nat>,
                                        ctx: Context, faults: set<string>)
    requires k <= |batches| && ValidInstant(ctx.now) && Balanced(st)
    ensures Balanced(ScanBatches(st, batches, k, unsent, ctx, faults))
  {
    if k > 0 {
      ScanBalanced(st, batches, k - 1, unsent, ctx, faults);
      if k - 1 !in unsent {
        InstanceSweepBalanced(ScanBatches(st, batches, k - 1, unsent, ctx, faults), batches[k - 1], ctx, faults);
      }
    }
  }
}

=== FILE: statuses.dfy ===
/**
 * Certificate statuses and the rules that derive one from the number of
 * days left before expiry.
 *
 * Two rules recur across the repository: the 30-day rule (Expired, Due
 * for Renewal, Active) used by the helpers, the host scanner, the
 * spreadsheet import, the dashboard API and the CA sync, and the two-tier
 * 30/90-day rule (Expired, Expiring Soon, Due for Renewal, Active) used by
 * the maintenance scripts.  Each call site adds its own treatment of the
 * manually set states and of unreadable dates on top.
 */
module Statuses {

  const Active: string := "Active"
  const DueForRenewal: string := "Due for Renewal"
  const Expired: string := "Expired"
  const ExpiringSoon: string := "Expiring Soon"
  const RenewalInProgress: string := "Renewal in Progress"
  const RenewalDone: string := "Renewal Done"
  const Unknown: string := "Unknown"

  /** Days before expiry from which a certificate is due for renewal. */
  const RenewalWindow: int := 30

  /** Outer window of the two-tier rule. */
  const PlanningWindow: int := 90

  /** The 30-day rule. */
  function StatusForDays(days: int): (s: string)
    ensures s == Expired <==> days < 0
    ensures s == DueForRenewal <==> 0 <= days <= RenewalWindow
    ensures s == Active <==> days > RenewalWindow
  {
    if days < 0 then Expired
    else if days <= RenewalWindow then DueForRenewal
    else Active
  }

  /** How far a status is from needing attention: 0 for Expired up to 3 for Active. */
  function Calm(s: string): int
  {
    if s == Expired then 0
    else if s == ExpiringSoon then 1
    else if s == DueForRenewal then 2
    else 3
  }

  /** More days left never gives a more urgent status under the 30-day rule. */
  lemma StatusForDaysMonotone(d1: int, d2: int)
    requires d1 <= d2
    ensures Calm(StatusForDays(d1)) <= Calm(StatusForDays(d2))
  {
  }

  /** The two-tier rule of the maintenance scripts. */
  function TwoTierStatus(days: int): (s: string)
    ensures s == Expired <==> days < 0
    ensures s == ExpiringSoon <==> 0 <= days <= RenewalWindow
    ensures s == DueForRenewal <==> RenewalWindow < days <= PlanningWindow
    ensures s == Active <==> days > PlanningWindow
  {
    if days < 0 then Expired
    else if days <= RenewalWindow then ExpiringSoon
    else if days <= PlanningWindow then DueForRenewal
    else Active
  }

  /** More days left never gives a more urgent status under the two-tier rule. */
  lemma TwoTierStatusMonotone(d1: int, d2: int)
    requires d1 <= d2
    ensures Calm(TwoTierStatus(d1)) <= Calm(TwoTierStatus(d2))
  {
  }

  /**
   * The two rules agree on what has expired; the two-tier rule calls the
   * 30-day window "Expiring Soon" and moves "Due for Renewal" out to 90 days.
   */
  lemma TwoTierRefinesThirtyDay(days: int)
    ensures TwoTierStatus(days) == Expired <==> StatusForDays(days) == Expired
    ensures TwoTierStatus(days) == ExpiringSoon <==> StatusForDays(days) == DueForRenewal
    ensures StatusForDays(days) == Active <==> TwoTierStatus(days) in {DueForRenewal, Active}
  {
  }
}

=== FILE: store.dfy ===
/**
 * The certificates table, held in memory.
 *
 * The repository keeps certificate records in a DynamoDB table whose key
 * attribute is `CertificateID`.  The model keeps the table as a map from
 * that key to the record.  `put_item` replaces a whole record;
 * `update_item` sets some attributes and, as DynamoDB does, creates the
 * record (holding only its key) when it does not exist yet.
 */
module Store {

  import opened Wrappers
  import opened Values

  /** The key attribute of the certificates table. */
  const IdKey: string := "CertificateID"

  /**
   * PRESERVE_FIELDS of the host scanner and the CA sync: the attributes
   * people maintain by hand, which the automatic imports keep.
   */
  const PreserveFields: set<string> :=
    {"OwnerEmail", "SupportEmail", "Application", "Notes", "RenewalHistory", "CustomTags", "IncidentNumber"}

  /** The record carries a `CertificateID` that is text. */
  predicate HasId(r: Record)
  {
    IdKey in r && r[IdKey].Text?
  }

  /** Every record is filed under its own `CertificateID`. */
  predicate KeyedById(items: map<string, Record>)
  {
    forall id :: id in items ==> IdKey in items[id] && items[id][IdKey] == Text(id)
  }

  /**
   * The record `update_item(Key={'CertificateID': id}, ...)` leaves behind:
   * the stored record, or a fresh one holding only its key, with `changes`
   * set on top.
   */
  function Upserted(items: map<string, Record>, id: string, changes: Record): (r: Record)
    requires IdKey !in changes
    ensures r.Keys == (if id in items then items[id].Keys else {IdKey}) + changes.Keys
    ensures forall k :: k in changes ==> r[k] == changes[k]
    ensures forall k :: k in r && k !in changes ==>
              r[k] == (if id in items then items[id][k] else Text(id))
  {
    (if id in items then items[id] else map[IdKey := Text(id)]) + changes
  }

  /** An update that leaves the key attribute alone keeps every record under its own key. */
  lemma UpsertKeepsKeys(items: map<string, Record>, id: string, changes: Record)
    requires KeyedById(items) && IdKey !in changes
    ensures KeyedById(items[id := Upserted(items, id, changes)])
  {
  }

  class CertificateTable {

    var items: map<string, Record>

    predicate Valid()
      reads this
    {
      KeyedById(items)
    }

    constructor (initial: map<string, Record>)
      requires KeyedById(initial)
      ensures items == initial && Valid()
    {
      items := initial;
    }

    /** `get_item(Key={'CertificateID': id})` */
    function Get(id: string): (r: Option<Record>)
      reads this
      ensures r.Some? <==> id in items
      ensures r.Some? ==> r.value == items[id]
    {
      if id in items then Some(items[id]) else None
    }

    /** `put_item(Item=r)`: the whole record is replaced. */
    method Put(r: Record)
      requires Valid() && HasId(r)
      modifies this
      ensures items == old(items)[r[IdKey].s := r]
      ensures Valid()
    {
      items := items[r[IdKey].s := r];
    }

    /** `update_item` with a `SET` of every attribute in `changes`. */
    method Update(id: string, changes: Record)
      requires Valid() && IdKey !in changes
      modifies this
      ensures items == old(items)[id := Upserted(old(items), id, changes)]
      ensures Valid()
    {
      UpsertKeepsKeys(items, id, changes);
      items := items[id := Upserted(items, id, changes)];
    }

    /** `delete_item(Key={'CertificateID': id})` */
    method Delete(id: string)
      requires Valid()
      modifies this
      ensures items == old(items) - {id}
      ensures Valid()
    {
      items := items - {id};
    }
  }
}

=== FILE: text.dfy ===
/**
 * The string operations of Python's `str` that the certificate tools use:
 * whitespace stripping, case mapping, substring search, splitting,
 * replacement and decimal rendering of integers.
 *
 * Case mapping covers ASCII letters only; whitespace is Python's set of
 * whitespace code points.
 */
module Text {

  import opened Wrappers

  /** `c.isspace()` in Python. */
  predicate IsSpace(c: char)
  {
    c == ' ' || (9 <= c as int <= 13) || (28 <= c as int <= 31)
    || c as int == 0x85 || c as int == 0xA0 || c as int == 0x1680
    || (0x2000 <= c as int <= 0x200A) || c as int == 0x2028 || c as int == 0x2029
    || c as int == 0x202F || c as int == 0x205F || c as int == 0x3000
  }

  predicate IsDigit(c: char)
  {
    '0' <= c <= '9'
  }

  function StripLeft(s: string): string
  {
    if s != "" && IsSpace(s[0]) then StripLeft(s[1..]) else s
  }

  function StripRight(s: string): string
  {
    if s != "" && IsSpace(s[|s| - 1]) then StripRight(s[..|s| - 1]) else s
  }

  /** `s.strip()` */
  function Strip(s: string): string
  {
    StripRight(StripLeft(s))
  }

  /** `lstrip` removes a prefix, and what it leaves does not start with whitespace. */
  lemma {:induction false} StripLeftShape(s: string)
    ensures var r := StripLeft(s);
            |r| <= |s| && r == s[|s| - |r|..] && (r == "" || !IsSpace(r[0]))
  {
    if s != "" && IsSpace(s[0]) {
      StripLeftShape(s[1..]);
    }
  }

  /** `rstrip` removes a suffix, and what it leaves does not end with whitespace. */
  lemma {:induction false} StripRightShape(s: string)
    ensures var r := StripRight(s);
            |r| <= |s| && r == s[..|r|] && (r == "" || !IsSpace(r[|r| - 1]))
  {
    if s != "" && IsSpace(s[|s| - 1]) {
      StripRightShape(s[..|s| - 1]);
    }
  }

  /** `strip` leaves no whitespace at either end. */
  lemma StripShape(s: string)
    ensures var r := Strip(s);
            |r| <= |s| && (r == "" || (!IsSpace(r[0]) && !IsSpace(r[|r| - 1])))
  {
    var l := StripLeft(s);
    StripLeftShape(s);
    StripRightShape(l);
    var r := StripRight(l);
    if r != "" {
      assert r[0] == l[0];
    }
  }

  function LowerChar(c: char): char
  {
    if 'A' <= c <= 'Z' then (c as int + 32) as char else c
  }

  function UpperChar(c: char): char
  {
    if 'a' <= c <= 'z' then (c as int - 32) as char else c
  }

  /** `s.lower()` */
  function Lower(s: string): (r: string)
    ensures |r| == |s|
    ensures forall i :: 0 <= i < |s| ==> r[i] == LowerChar(s[i])
  {
    if s == "" then "" else [LowerChar(s[0])] + Lower(s[1..])
  }

  /** `s.upper()` */
  function Upper(s: string): (r: string)
    ensures |r| == |s|
    ensures forall i :: 0 <= i < |s| ==> r[i] == UpperChar(s[i])
  {
    if s == "" then "" else [UpperChar(s[0])] + Upper(s[1..])
  }

  predicate StartsWith(s: string, prefix: string)
  {
    |prefix| <= |s| && s[..|prefix|] == prefix
  }

  /** `sub in s` */
  predicate Contains(s: string, sub: string)
  {
    StartsWith(s, sub) || (s != "" && Contains(s[1..], sub))
  }

  /** Index of the first occurrence of `c` in `s`. */
  function IndexOf(s: string, c: char): (i: nat)
    requires c in s
    ensures i < |s| && s[i] == c && c !in s[..i]
  {
    if s[0] == c then 0 else 1 + IndexOf(s[1..], c)
  }

  /** `s.split(c)` for a one-character separator. */
  function SplitOn(s: string, c: char): (parts: seq<string>)
    ensures |parts| >= 1
    ensures forall k :: 0 <= k < |parts| ==> c !in parts[k]
    decreases |s|
  {
    if c !in s then [s]
    else
      var i := IndexOf(s, c);
      [s[..i]] + SplitOn(s[i + 1..], c)
  }

  /** `s.split(c)[0]`: the text before the first separator. */
  function BeforeFirst(s: string, c: char): (r: string)
    ensures StartsWith(s, r) && c !in r
    ensures r == s || (|r| < |s| && s[|r|] == c)
  {
    if c in s then s[..IndexOf(s, c)] else s
  }

  /** `s.replace(a, b)` for single characters. */
  function ReplaceChar(s: string, a: char, b: char): (r: string)
    ensures |r| == |s|
    ensures forall i :: 0 <= i < |s| ==> r[i] == (if s[i] == a then b else s[i])
  {
    if s == "" then "" else [if s[0] == a then b else s[0]] + ReplaceChar(s[1..], a, b)
  }

  /** `s.replace(sub, "")`: every non-overlapping occurrence, scanned left to right, removed. */
  function RemoveAll(s: string, sub: string): (r: string)
    requires sub != ""
    ensures |r| <= |s|
    decreases |s|
  {
    if s == "" then ""
    else if StartsWith(s, sub) then RemoveAll(s[|sub|..], sub)
    else [s[0]] + RemoveAll(s[1..], sub)
  }

  /** `sep.join(parts)` */
  function Join(parts: seq<string>, sep: string): string
  {
    if |parts| == 0 then ""
    else if |parts| == 1 then parts[0]
    else parts[0] + sep + Join(parts[1..], sep)
  }

  function DigitChar(d: int): char
    requires 0 <= d < 10
  {
    ('0' as int + d) as char
  }

  function DigitValue(c: char): int
  {
    c as int - '0' as int
  }

  /** `str(n)` for a natural number. */
  function NatToString(n: nat): (r: string)
    ensures |r| >= 1
    ensures forall i :: 0 <= i < |r| ==> IsDigit(r[i])
  {
    if n < 10 then [DigitChar(n)] else NatToString(n / 10) + [DigitChar(n % 10)]
  }

  /** `str(n)` for an integer. */
  function IntToString(n: int): string
  {
    if n < 0 then "-" + NatToString(-n) else NatToString(n)
  }

  predicate AllDigits(s: string)
  {
    forall i :: 0 <= i < |s| ==> IsDigit(s[i])
  }

  /** The value of a string of decimal digits. */
  function DigitsValue(s: string): (v: nat)
    requires AllDigits(s)
  {
    if s == "" then 0 else DigitsValue(s[..|s| - 1]) * 10 + DigitValue(s[|s| - 1])
  }

  lemma {:induction false} NatToStringValue(n: nat)
    ensures DigitsValue(NatToString(n)) == n
  {
    if n >= 10 {
      var r := NatToString(n);
      assert r[..|r| - 1] == NatToString(n / 10);
      NatToStringValue(n / 10);
    }
  }

  /** Text `int()` accepts once stripped: an optional sign followed by at least one decimal digit. */
  predicate IntShape(t: string)
  {
    (|t| > 1 && (t[0] == '-' || t[0] == '+') && AllDigits(t[1..])) || (t != "" && AllDigits(t))
  }

  /** The digits of a sign-and-digits text, without its sign. */
  function Magnitude(t: string): string
  {
    if t != "" && (t[0] == '-' || t[0] == '+') then t[1..] else t
  }

  /**
   * `int(s)`: optional surrounding whitespace, an optional sign, then decimal
   * digits; leading zeros are allowed.  Any other text is the `ValueError`
   * (`None`).
   */
  function ParseInt(s: string): (r: Option<int>)
    ensures r.Some? <==> IntShape(Strip(s))
    ensures r.Some? ==> AllDigits(Magnitude(Strip(s)))
                        && (if Strip(s)[0] == '-' then r.value == -(DigitsValue(Magnitude(Strip(s))) as int)
                            else r.value == DigitsValue(Magnitude(Strip(s))))
  {
    var t := Strip(s);
    if t == "" then None
    else if (t[0] == '-' || t[0] == '+') && |t| > 1 && AllDigits(t[1..]) then
      var magnitude: int := DigitsValue(t[1..]);
      Some(if t[0] == '-' then -magnitude else magnitude)
    else if AllDigits(t) then Some(DigitsValue(t))
    else None
  }

  /** `int(str(n))` gives back `n`. */
  lemma IntToStringParses(n: int)
    ensures ParseInt(IntToString(n)) == Some(n)
  {
    NatToStringValue(if n < 0 then -n else n);
    var r := IntToString(n);
    assert Strip(r) == r by {
      assert !IsSpace(r[0]) && !IsSpace(r[|r| - 1]);
      StripIdentity(r);
    }
    if n < 0 {
      assert r[1..] == NatToString(-n);
    }
  }

  lemma StripIdentity(s: string)
    requires s == "" || (!IsSpace(s[0]) && !IsSpace(s[|s| - 1]))
    ensures Strip(s) == s
  {
  }
}

=== FILE: ticket_creator.dfy ===
/**
 * The incident ticket creator (lambda/servicenow_ticket_creator.py): it
 * picks the expiring certificates that have no incident yet, opens one
 * incident per certificate with a priority derived from the days left,
 * records the incident number on the certificate and summarises the run.
 *
 * The incident service itself is not modelled: whether opening the
 * incident for a certificate succeeds, and the number it returns, are
 * inputs, and so are the credentials lookup and the DRY_RUN switch.
 */
module TicketCreator {

  import opened Wrappers
  import opened Values
  import opened Text
  import opened Dates
  import opened Statuses
  import opened Store

  // ----- priority and urgency -----

  /** calculate_priority: '1' (critical) for an expired certificate down to '5' (planning). */
  function CalculatePriority(days: int): (p: string)
    ensures p == "1" <==> days < 0
    ensures p == "2" <==> 0 <= days < 7
    ensures p == "3" <==> 7 <= days < 14
    ensures p == "4" <==> 14 <= days < 30
    ensures p == "5" <==> days >= 30
  {
    if days < 0 then "1"
    else if days < 7 then "2"
    else if days < 14 then "3"
    else if days < 30 then "4"
    else "5"
  }

  /** The numeric level of a priority string. */
  function PriorityLevel(p: string): int
  {
    if |p| == 1 && IsDigit(p[0]) then DigitValue(p[0]) else 0
  }

  /** A later expiry is never given a more urgent (lower) priority. */
  lemma PriorityMonotone(d1: int, d2: int)
    requires d1 <= d2
    ensures 1 <= PriorityLevel(CalculatePriority(d1)) <= PriorityLevel(CalculatePriority(d2)) <= 5
  {
  }

  /** get_urgency_label */
  function GetUrgencyLabel(days: int): (tag: string)
    ensures tag == "CRITICAL - EXPIRED" <==> days < 0
    ensures tag == "PLANNING - More than 30 days" <==> days >= 30
  {
    if days < 0 then "CRITICAL - EXPIRED"
    else if days < 7 then "HIGH - Less than 1 week"
    else if days < 14 then "MEDIUM - 1-2 weeks"
    else if days < 30 then "LOW - 2-4 weeks"
    else "PLANNING - More than 30 days"
  }

  /** The urgency label that goes with each priority. */
  function LabelOfPriority(p: string): string
  {
    if p == "1" then "CRITICAL - EXPIRED"
    else if p == "2" then "HIGH - Less than 1 week"
    else if p == "3" then "MEDIUM - 1-2 weeks"
    else if p == "4" then "LOW - 2-4 weeks"
    else "PLANNING - More than 30 days"
  }

  /**
   * The urgency label and the priority use the same four boundaries:
   * the label is a function of the priority, and different priorities
   * get different labels.
   */
  lemma UrgencyLabelFollowsPriority(d1: int, d2: int)
    ensures GetUrgencyLabel(d1) == LabelOfPriority(CalculatePriority(d1))
    ensures GetUrgencyLabel(d1) == GetUrgencyLabel(d2) <==> CalculatePriority(d1) == CalculatePriority(d2)
  {
  }

  /**
   * calculate_days_until_expiry of the ticket creator: days from the
   * current moment, and 0 when the expiry date is not a `YYYY-MM-DD` text
   * (Python's ValueError and TypeError).
   */
  function DaysUntilExpiry(expiry: Value, now: Instant): (days: int)
    requires ValidInstant(now)
    ensures expiry.Text? && ParseIso(expiry.s).Some? ==> days == DaysFromNow(ParseIso(expiry.s).value, now)
    ensures !(expiry.Text? && ParseIso(expiry.s).Some?) ==> days == 0
  {
    if expiry.Text? then
      match ParseIso(expiry.s)
      case Some(d) => DaysFromNow(d, now)
      case None => 0
    else 0
  }

  /** An unreadable date counts as 0 days left, so it gets priority '2' rather than '1'. */
  lemma UnreadableDatePriority(expiry: Value, now: Instant)
    requires ValidInstant(now)
    requires !(expiry.Text? && ParseIso(expiry.s).Some?)
    ensures CalculatePriority(DaysUntilExpiry(expiry, now)) == "2"
  {
  }

  // ----- filter_certificates_needing_tickets -----

  /** No incident number yet, and the renewal is not already done. */
  predicate NeedsTicket(cert: Record)
  {
    Strip(GetText(cert, "IncidentNumber", "")) == ""
    && GetText(cert, "Status", "") != RenewalDone
    && GetText(cert, "Status", "") != "Renewed"
  }

  /** The certificates that need a ticket, in input order. */
  function NeedingTickets(certs: seq<Record>): (r: seq<Record>)
    ensures |r| <= |certs|
    ensures forall c :: c in r ==> c in certs && NeedsTicket(c)
  {
    if |certs| == 0 then []
    else
      var front := NeedingTickets(certs[..|certs| - 1]);
      var c := certs[|certs| - 1];
      if NeedsTicket(c) then front + [c] else front
  }

  /** filter_certificates_needing_tickets */
  method FilterCertificatesNeedingTickets(certs: seq<Record>) returns (needing: seq<Record>)
    ensures needing == NeedingTickets(certs)
  {
    needing := [];
    for i := 0 to |certs|
      invariant needing == NeedingTickets(certs[..i])
    {
      assert certs[..i + 1][..i] == certs[..i];
      var cert := certs[i];
      var incidentNumber := Strip(GetText(cert, "IncidentNumber", ""));
      if incidentNumber != "" {
        continue;
      }
      var status := GetText(cert, "Status", "");
      if status == RenewalDone || status == "Renewed" {
        continue;
      }
      needing := needing + [cert];
    }
    assert certs[..|certs|] == certs;
  }

  /** The filter keeps every certificate that needs a ticket as often as it occurs, and no other. */
  lemma {:induction false} NeedingTicketsCount(certs: seq<Record>, c: Record)
    ensures multiset(NeedingTickets(certs))[c] == if NeedsTicket(c) then multiset(certs)[c] else 0
  {
    if |certs| > 0 {
      var front := certs[..|certs| - 1];
      assert certs == front + [certs[|certs| - 1]];
      NeedingTicketsCount(front, c);
    }
  }

  /** The certificates left out by the filter: those with a ticket or a finished renewal. */
  function Covered(certs: seq<Record>): nat
  {
    if |certs| == 0 then 0
    else Covered(certs[..|certs| - 1]) + (if NeedsTicket(certs[|certs| - 1]) then 0 else 1)
  }

  /** Every certificate is either kept by the filter or covered, never both. */
  lemma {:induction false} NeedingTicketsSplit(certs: seq<Record>)
    ensures |NeedingTickets(certs)| + Covered(certs) == |certs|
  {
    if |certs| > 0 {
      NeedingTicketsSplit(certs[..|certs| - 1]);
    }
  }

  /** Filtering twice keeps the same certificates. */
  lemma {:induction false} NeedingTicketsIdempotent(certs: seq<Record>)
    ensures NeedingTickets(NeedingTickets(certs)) == NeedingTickets(certs)
  {
    if |certs| > 0 {
      var front := certs[..|certs| - 1];
      var c := certs[|certs| - 1];
      NeedingTicketsIdempotent(front);
      var f := NeedingTickets(front);
      if NeedsTicket(c) {
        assert (f + [c])[..|f|] == f;
      }
    }
  }

  // ----- process_ticket_creation -----

  /** What happens to one certificate once the credentials have been read. */
  datatype TicketOutcome = Created(id: string, incident: string) | TicketFailed | Skipped

  /**
   * Under DRY_RUN the certificate is skipped.  Otherwise the incident is
   * opened (`ticket` is the number the service returns, `None` when the
   * call raises), then the number is written to the certificate's record,
   * which fails for a record without a text CertificateID and for the IDs
   * in `faults`.
   */
  function TicketOutcomeFor(cert: Record, ticket: Option<string>, dryRun: bool, faults: set<string>): (o: TicketOutcome)
    ensures o.Created? ==> !dryRun && ticket == Some(o.incident) && HasId(cert) && o.id == cert[IdKey].s && o.id !in faults
    ensures dryRun <==> o.Skipped?
  {
    if dryRun then Skipped
    else match ticket
      case None => TicketFailed
      case Some(n) => if HasId(cert) && cert[IdKey].s !in faults then Created(cert[IdKey].s, n) else TicketFailed
  }

  /** The attributes update_certificate_incident_number sets. */
  function IncidentChange(incident: string, timestamp: string): Record
  {
    map["IncidentNumber" := Text(incident), "LastUpdatedOn" := Text(timestamp)]
  }

  datatype TicketResults = TicketResults(created: nat, failed: nat, skipped: nat, errors: nat)

  datatype TicketRun = TicketRun(items: map<string, Record>, results: TicketResults)

  /** The table and the counters once the outcomes have been carried out in order. */
  function ApplyTickets(items: map<string, Record>, outcomes: seq<TicketOutcome>, timestamp: string): TicketRun
  {
    if |outcomes| == 0 then TicketRun(items, TicketResults(0, 0, 0, 0))
    else
      var run := ApplyTickets(items, outcomes[..|outcomes| - 1], timestamp);
      var r := run.results;
      match outcomes[|outcomes| - 1]
      case Created(id, n) =>
        TicketRun(run.items[id := Upserted(run.items, id, IncidentChange(n, timestamp))], r.(created := r.created + 1))
      case TicketFailed => run.(results := r.(failed := r.failed + 1, errors := r.errors + 1))
      case Skipped => run.(results := r.(skipped := r.skipped + 1))
  }

  /** The outcome for each certificate, in order. */
  function TicketOutcomes(certs: seq<Record>, tickets: seq<Option<string>>, dryRun: bool, faults: set<string>): (os: seq<TicketOutcome>)
    requires |tickets| == |certs|
    ensures |os| == |certs|
    ensures forall i :: 0 <= i < |certs| ==> os[i] == TicketOutcomeFor(certs[i], tickets[i], dryRun, faults)
  {
    if |certs| == 0 then []
    else
      TicketOutcomes(certs[..|certs| - 1], tickets[..|certs| - 1], dryRun, faults)
      + [TicketOutcomeFor(certs[|certs| - 1], tickets[|certs| - 1], dryRun, faults)]
  }

  /**
   * What process_ticket_creation leaves behind: nothing for an empty
   * list; every certificate failed, with one error, when the credentials
   * cannot be read; otherwise the outcomes carried out in order.
   */
  function TicketCreation(items: map<string, Record>, certs: seq<Record>, credentials: bool, dryRun: bool,
                          tickets: seq<Option<string>>, timestamp: string, faults: set<string>): TicketRun
    requires |tickets| == |certs|
  {
    if |certs| == 0 then TicketRun(items, TicketResults(0, 0, 0, 0))
    else if !credentials then TicketRun(items, TicketResults(0, |certs|, 0, 1))
    else ApplyTickets(items, TicketOutcomes(certs, tickets, dryRun, faults), timestamp)
  }

  /**
   * process_ticket_creation: `credentials` says whether the credentials
   * lookup succeeds, `tickets[i]` is what opening the incident for
   * `certs[i]` returns.
   */
  method ProcessTicketCreation(table: CertificateTable, certs: seq<Record>, credentials: bool, dryRun: bool,
                               tickets: seq<Option<string>>, timestamp: string, faults: set<string>)
    returns (results: TicketResults)
    requires table.Valid() && |tickets| == |certs|
    modifies table
    ensures table.Valid()
    ensures TicketRun(table.items, results)
            == TicketCreation(old(table.items), certs, credentials, dryRun, tickets, timestamp, faults)
  {
    results := TicketResults(0, 0, 0, 0);
    if |certs| == 0 {
      return;
    }
    if !credentials {
      results := results.(failed := |certs|, errors := results.errors + 1);
      return;
    }
    ghost var outcomes := TicketOutcomes(certs, tickets, dryRun, faults);
    for i := 0 to |certs|
      invariant table.Valid()
      invariant TicketRun(table.items, results) == ApplyTickets(old(table.items), outcomes[..i], timestamp)
    {
      assert outcomes[..i + 1][..i] == outcomes[..i];
      var cert := certs[i];
      if dryRun {
        results := results.(skipped := results.skipped + 1);
        continue;
      }
      match tickets[i]
      case None =>
        results := results.(failed := results.failed + 1, errors := results.errors + 1);
      case Some(incidentNumber) =>
        if HasId(cert) && cert[IdKey].s !in faults {
          table.Update(cert[IdKey].s, IncidentChange(incidentNumber, timestamp));
          results := results.(created := results.created + 1);
        } else {
          results := results.(failed := results.failed + 1, errors := results.errors + 1);
        }
    }
    assert outcomes[..|certs|] == outcomes;
  }

  /** Each certificate is counted exactly once, and every failure leaves one error message. */
  lemma {:induction false} ApplyTicketsCounts(items: map<string, Record>, outcomes: seq<TicketOutcome>, timestamp: string)
    ensures var r := ApplyTickets(items, outcomes, timestamp).results;
            r.created + r.failed + r.skipped == |outcomes| && r.errors == r.failed
  {
    if |outcomes| > 0 {
      ApplyTicketsCounts(items, outcomes[..|outcomes| - 1], timestamp);
    }
  }

  /** When every certificate is skipped the table is left as it was. */
  lemma {:induction false} SkippedLeaveTable(items: map<string, Record>, outcomes: seq<TicketOutcome>, timestamp: string)
    requires forall i :: 0 <= i < |outcomes| ==> outcomes[i].Skipped?
    ensures ApplyTickets(items, outcomes, timestamp) == TicketRun(items, TicketResults(0, 0, |outcomes|, 0))
  {
    if |outcomes| > 0 {
      SkippedLeaveTable(items, outcomes[..|outcomes| - 1], timestamp);
    }
  }

  /**
   * The counters of a run: all zero for no certificates; every
   * certificate counted once as created, failed or skipped otherwise;
   * all of them skipped, with the table untouched, under DRY_RUN.
   */
  lemma TicketCreationCounts(items: map<string, Record>, certs: seq<Record>, credentials: bool, dryRun: bool,
                             tickets: seq<Option<string>>, timestamp: string, faults: set<string>)
    requires |tickets| == |certs|
    ensures var run := TicketCreation(items, certs, credentials, dryRun, tickets, timestamp, faults);
            run.results.created + run.results.failed + run.results.skipped == |certs|
            && (!credentials && |certs| > 0 ==> run.results.failed == |certs| && run.items == items)
            && (credentials && dryRun ==> run == TicketRun(items, TicketResults(0, 0, |certs|, 0)))
  {
    if |certs| > 0 && credentials {
      var outcomes := TicketOutcomes(certs, tickets, dryRun, faults);
      ApplyTicketsCounts(items, outcomes, timestamp);
      if dryRun {
        SkippedLeaveTable(items, outcomes, timestamp);
      }
    }
  }

  // ----- create_summary -----

  datatype Summary = Summary(totalExpiring: int, needingTickets: int, alreadyHaveTickets: int,
                             created: nat, failed: nat, skipped: nat)

  /** create_summary: the certificate counts and the ticket counters of the run. */
  function CreateSummary(all: seq<Record>, needing: seq<Record>, results: TicketResults): (s: Summary)
    ensures s.totalExpiring == s.needingTickets + s.alreadyHaveTickets
    ensures s.totalExpiring == |all| && s.needingTickets == |needing|
    ensures (s.created, s.failed, s.skipped) == (results.created, results.failed, results.skipped)
  {
    Summary(|all|, |needing|, |all| - |needing|, results.created, results.failed, results.skipped)
  }

  /**
   * With the list the filter returns, "already have tickets" counts the
   * certificates the filter left out: those with an incident number and
   * those whose renewal is done.
   */
  lemma SummaryCountsCovered(all: seq<Record>, results: TicketResults)
    ensures CreateSummary(all, NeedingTickets(all), results).alreadyHaveTickets == Covered(all) >= 0
  {
    NeedingTicketsSplit(all);
  }
}

=== FILE: update_expressions.dfy ===
/**
 * Request bodies and DynamoDB `SET` update expressions.
 *
 * The HTTP handlers read a JSON object into a Python dict, whose members
 * keep the order they arrived in, and turn some of its members into an
 * `update_item` call: an `UpdateExpression` of clauses `path = :value`,
 * where a path written `#name` stands for the attribute that
 * `ExpressionAttributeNames` gives it, and `ExpressionAttributeValues`
 * gives every `:value` placeholder its value.  What such a call writes is
 * `Applied`: every clause's attribute set to its placeholder's value.
 */
module UpdateExpressions {

  import opened Values
  import opened Text
  import opened Store

  // ----- request bodies -----

  /**
   * A JSON object as a Python dict holds it: its members, and the order
   * in which its keys were inserted.
   */
  datatype Body = Body(order: seq<string>, fields: Record)

  /** Each key is listed once, and the listed keys are the members. */
  predicate WellFormed(body: Body)
  {
    (forall i, j :: 0 <= i < j < |body.order| ==> body.order[i] != body.order[j])
    && (forall k :: k in body.fields ==> k in body.order)
    && (forall k :: k in body.order ==> k in body.fields)
  }

  /** `body[key] = value`: an existing key keeps its place and a new key goes last. */
  function Assign(body: Body, key: string, value: Value): (r: Body)
    requires WellFormed(body)
    ensures WellFormed(r)
    ensures r.fields == body.fields[key := value]
    ensures r.order == if key in body.fields then body.order else body.order + [key]
  {
    Body(if key in body.fields then body.order else body.order + [key], body.fields[key := value])
  }

  // ----- update expressions -----

  /** One `path = :value` clause. */
  datatype Clause = Clause(path: string, placeholder: string)

  /** The arguments of one `update_item` call. */
  datatype UpdateExpr = UpdateExpr(clauses: seq<Clause>, names: map<string, string>, values: map<string, Value>)

  /** A path written `#name` stands for an attribute name. */
  predicate IsNameRef(path: string)
  {
    |path| > 0 && path[0] == '#'
  }

  function ClauseText(c: Clause): string
  {
    c.path + " = " + c.placeholder
  }

  function ClauseTexts(cs: seq<Clause>): (ts: seq<string>)
    ensures |ts| == |cs| && forall i :: 0 <= i < |cs| ==> ts[i] == ClauseText(cs[i])
  {
    seq(|cs|, i requires 0 <= i < |cs| => ClauseText(cs[i]))
  }

  /** Every name and placeholder the clauses use is supplied. */
  predicate Bound(u: UpdateExpr)
  {
    forall i :: 0 <= i < |u.clauses| ==>
      u.clauses[i].placeholder in u.values && (IsNameRef(u.clauses[i].path) ==> u.clauses[i].path in u.names)
  }

  /** Every name and placeholder supplied is used: DynamoDB refuses an unused one. */
  predicate Tight(u: UpdateExpr)
  {
    (forall p :: p in u.values ==> exists i :: 0 <= i < |u.clauses| && u.clauses[i].placeholder == p)
    && (forall n :: n in u.names ==> exists i :: 0 <= i < |u.clauses| && u.clauses[i].path == n)
  }

  /** The attribute a clause sets. */
  function Attribute(path: string, names: map<string, string>): string
    requires IsNameRef(path) ==> path in names
  {
    if IsNameRef(path) then names[path] else path
  }

  /** The attributes the call writes, each with its value; a later clause wins. */
  function Applied(clauses: seq<Clause>, names: map<string, string>, values: map<string, Value>): Record
    requires Bound(UpdateExpr(clauses, names, values))
  {
    if |clauses| == 0 then map[]
    else
      var c := clauses[|clauses| - 1];
      assert Bound(UpdateExpr(clauses[..|clauses| - 1], names, values)) by {
        forall i | 0 <= i < |clauses| - 1
          ensures clauses[..|clauses| - 1][i] == clauses[i]
        {
        }
      }
      Applied(clauses[..|clauses| - 1], names, values)[Attribute(c.path, names) := values[c.placeholder]]
  }

  /** Applying one more clause writes its attribute over what the earlier clauses wrote. */
  lemma AppliedSnoc(clauses: seq<Clause>, c: Clause, names: map<string, string>, values: map<string, Value>)
    requires Bound(UpdateExpr(clauses + [c], names, values))
    ensures Bound(UpdateExpr(clauses, names, values))
    ensures c.placeholder in values && (IsNameRef(c.path) ==> c.path in names)
    ensures Applied(clauses + [c], names, values)
            == Applied(clauses, names, values)[Attribute(c.path, names) := values[c.placeholder]]
  {
    var all := clauses + [c];
    assert all[|all| - 1] == c;
    assert all[..|all| - 1] == clauses;
    assert forall i :: 0 <= i < |clauses| ==> clauses[i] == all[i];
  }

  /** Two clauses write their attributes in order, the second over the first. */
  lemma AppliedPair(c1: Clause, c2: Clause, names: map<string, string>, values: map<string, Value>)
    requires Bound(UpdateExpr([c1, c2], names, values))
    ensures c1.placeholder in values && (IsNameRef(c1.path) ==> c1.path in names)
    ensures c2.placeholder in values && (IsNameRef(c2.path) ==> c2.path in names)
    ensures Applied([c1, c2], names, values)
            == map[Attribute(c1.path, names) := values[c1.placeholder]][Attribute(c2.path, names) := values[c2.placeholder]]
  {
    assert Bound(UpdateExpr([c1], names, values)) && c2.placeholder in values && (IsNameRef(c2.path) ==> c2.path in names)
      && Applied([c1, c2], names, values) == Applied([c1], names, values)[Attribute(c2.path, names) := values[c2.placeholder]] by {
      assert [c1, c2] == [c1] + [c2];
      AppliedSnoc([c1], c2, names, values);
    }
    assert c1.placeholder in values && (IsNameRef(c1.path) ==> c1.path in names)
      && Applied([c1], names, values) == map[Attribute(c1.path, names) := values[c1.placeholder]] by {
      assert [c1] == [] + [c1];
      AppliedSnoc([], c1, names, values);
    }
  }

  /** What the clauses write depends only on the names and values they use. */
  lemma {:induction false} AppliedFrame(clauses: seq<Clause>, names: map<string, string>, values: map<string, Value>,
                                        names': map<string, string>, values': map<string, Value>)
    requires Bound(UpdateExpr(clauses, names, values))
    requires forall i :: 0 <= i < |clauses| ==>
               clauses[i].placeholder in values' && values'[clauses[i].placeholder] == values[clauses[i].placeholder]
    requires forall i :: 0 <= i < |clauses| && IsNameRef(clauses[i].path) ==>
               clauses[i].path in names' && names'[clauses[i].path] == names[clauses[i].path]
    ensures Bound(UpdateExpr(clauses, names', values'))
    ensures Applied(clauses, names', values') == Applied(clauses, names, values)
  {
    if |clauses| > 0 {
      var prefix := clauses[..|clauses| - 1];
      assert forall i :: 0 <= i < |prefix| ==> prefix[i] == clauses[i];
      AppliedFrame(prefix, names, values, names', values');
    }
  }

  /** The text the loops build: each clause followed by `", "`. */
  function Listed(cs: seq<Clause>): string
  {
    if |cs| == 0 then "" else Listed(cs[..|cs| - 1]) + ClauseText(cs[|cs| - 1]) + ", "
  }

  /** `s.rstrip(chars)` */
  function TrimEnd(s: string, chars: set<char>): (r: string)
    ensures |r| <= |s| && r == s[..|r|]
    ensures r == "" || r[|r| - 1] !in chars
  {
    if s != "" && s[|s| - 1] in chars then TrimEnd(s[..|s| - 1], chars) else s
  }

  lemma {:induction false} JoinSnoc(parts: seq<string>, sep: string, x: string)
    requires |parts| > 0
    ensures Join(parts + [x], sep) == Join(parts, sep) + sep + x
  {
    if |parts| > 1 {
      assert (parts + [x])[1..] == parts[1..] + [x];
      JoinSnoc(parts[1..], sep, x);
    }
  }

  /** The loop's text is the clauses joined by `", "`, followed by one more `", "`. */
  lemma {:induction false} ListedJoin(cs: seq<Clause>)
    requires |cs| > 0
    ensures Listed(cs) == Join(ClauseTexts(cs), ", ") + ", "
  {
    var prefix := cs[..|cs| - 1];
    if |prefix| > 0 {
      ListedJoin(prefix);
      assert ClauseTexts(cs) == ClauseTexts(prefix) + [ClauseText(cs[|cs| - 1])];
      JoinSnoc(ClauseTexts(prefix), ", ", ClauseText(cs[|cs| - 1]));
    } else {
      assert ClauseTexts(cs) == [ClauseText(cs[0])];
    }
  }

  /**
   * `update_expr.rstrip(', ')` after the loop is `'SET ' + ', '.join(clauses)`
   * as long as the last placeholder does not itself end in a comma or a space.
   */
  lemma TrimmedIsJoined(cs: seq<Clause>)
    requires |cs| > 0 && |cs[|cs| - 1].placeholder| > 0
    requires cs[|cs| - 1].placeholder[|cs[|cs| - 1].placeholder| - 1] !in {',', ' '}
    ensures TrimEnd("SET " + Listed(cs), {',', ' '}) == "SET " + Join(ClauseTexts(cs), ", ")
  {
    var last := cs[|cs| - 1];
    var text := ClauseText(last);
    var joined := Join(ClauseTexts(cs), ", ");
    assert joined == Listed(cs[..|cs| - 1]) + text by {
      ListedJoin(cs);
      assert joined + ", " == Listed(cs[..|cs| - 1]) + text + ", ";
      assert joined == (joined + ", ")[..|joined|];
      assert Listed(cs[..|cs| - 1]) + text == (Listed(cs[..|cs| - 1]) + text + ", ")[..|joined|];
    }
    assert joined[|joined| - 1] == last.placeholder[|last.placeholder| - 1] by {
      assert text[|text| - 1] == last.placeholder[|last.placeholder| - 1];
    }
    assert "SET " + Listed(cs) == ("SET " + joined) + ", " by {
      ListedJoin(cs);
    }
    TrimSeparator("SET " + joined);
  }

  /** Stripping `", "` off the end of a text that ends in neither character gives the text back. */
  lemma TrimSeparator(s: string)
    requires s != "" && s[|s| - 1] !in {',', ' '}
    ensures TrimEnd(s + ", ", {',', ' '}) == s
  {
    TrimLast(s + ",", ' ', {',', ' '});
    assert s + ", " == (s + ",") + [' '];
    TrimLast(s, ',', {',', ' '});
    assert s + "," == s + [','];
  }

  /** A trailing character among those stripped goes. */
  lemma TrimLast(s: string, c: char, chars: set<char>)
    requires c in chars
    ensures TrimEnd(s + [c], chars) == TrimEnd(s, chars)
  {
    assert (s + [c])[..|s|] == s;
  }

  // ----- the loop over a request body -----

  /** `value not in [None, '', 'None']` fails. */
  predicate Blank(v: Value)
  {
    v == Null || v == Text("") || v == Text("None")
  }

  /** The members the loop turns into clauses: every one but the key, and, when asked, none that is blank. */
  predicate Kept(key: string, value: Value, dropBlank: bool)
  {
    key != IdKey && (!dropBlank || !Blank(value))
  }

  /** The kept keys, in the order of the body. */
  function KeptKeys(order: seq<string>, fields: Record, dropBlank: bool): (ks: seq<string>)
    requires forall k :: k in order ==> k in fields
    ensures forall j :: 0 <= j < |ks| ==> ks[j] in fields
  {
    if |order| == 0 then []
    else
      var last := order[|order| - 1];
      KeptKeys(order[..|order| - 1], fields, dropBlank) + (if Kept(last, fields[last], dropBlank) then [last] else [])
  }

  /** The kept keys are the keys of the body whose members are kept. */
  lemma {:induction false} KeptKeysMembers(order: seq<string>, fields: Record, dropBlank: bool)
    requires forall k :: k in order ==> k in fields
    ensures forall k :: k in KeptKeys(order, fields, dropBlank) <==> k in order && Kept(k, fields[k], dropBlank)
  {
    if |order| > 0 {
      var prefix := order[..|order| - 1];
      KeptKeysMembers(prefix, fields, dropBlank);
      assert forall k :: k in order <==> k in prefix || k == order[|order| - 1];
    }
  }

  /** The members the call writes: every one but the key, and, when asked, none that is blank. */
  function KeptFields(body: Body, dropBlank: bool): (r: Record)
    ensures forall k :: k in r <==> k in body.fields && Kept(k, body.fields[k], dropBlank)
    ensures forall k :: k in r ==> r[k] == body.fields[k]
  {
    map k | k in body.fields && Kept(k, body.fields[k], dropBlank) :: body.fields[k]
  }

  /** The clause the loop writes for a key: `#key = :key`. */
  function KeyClause(key: string): Clause
  {
    Clause("#" + key, ":" + key)
  }

  function ClausesFor(keys: seq<string>): (cs: seq<Clause>)
    ensures |cs| == |keys| && forall j :: 0 <= j < |keys| ==> cs[j] == KeyClause(keys[j])
  {
    seq(|keys|, j requires 0 <= j < |keys| => KeyClause(keys[j]))
  }

  /** A one-character prefix can be taken off again. */
  lemma Unprefixed(c: char, a: string, b: string)
    requires [c] + a == [c] + b
    ensures a == b
  {
    assert ([c] + a)[1..] == a && ([c] + b)[1..] == b;
  }

  /** `ExpressionAttributeNames` after the loop: `#key` names each key. */
  function NamesFor(keys: seq<string>): (names: map<string, string>)
    ensures forall j :: 0 <= j < |keys| ==> "#" + keys[j] in names && names["#" + keys[j]] == keys[j]
  {
    if |keys| == 0 then map[]
    else
      var last := keys[|keys| - 1];
      var before := NamesFor(keys[..|keys| - 1]);
      assert forall j :: 0 <= j < |keys| - 1 ==> keys[..|keys| - 1][j] == keys[j];
      assert forall j :: 0 <= j < |keys| - 1 && "#" + keys[j] == "#" + last ==> keys[j] == last by {
        forall j | 0 <= j < |keys| - 1 && "#" + keys[j] == "#" + last ensures keys[j] == last {
          Unprefixed('#', keys[j], last);
        }
      }
      before["#" + last := last]
  }

  /** `ExpressionAttributeValues` after the loop: `:key` holds each key's value. */
  function ValuesFor(keys: seq<string>, fields: Record): (values: map<string, Value>)
    requires forall j :: 0 <= j < |keys| ==> keys[j] in fields
    ensures forall j :: 0 <= j < |keys| ==> ":" + keys[j] in values && values[":" + keys[j]] == fields[keys[j]]
  {
    if |keys| == 0 then map[]
    else
      var last := keys[|keys| - 1];
      var before := ValuesFor(keys[..|keys| - 1], fields);
      assert forall j :: 0 <= j < |keys| - 1 ==> keys[..|keys| - 1][j] == keys[j];
      assert forall j :: 0 <= j < |keys| - 1 && ":" + keys[j] == ":" + last ==> keys[j] == last by {
        forall j | 0 <= j < |keys| - 1 && ":" + keys[j] == ":" + last ensures keys[j] == last {
          Unprefixed(':', keys[j], last);
        }
      }
      before[":" + last := fields[last]]
  }

  /**
   * The call the loop builds for a list of keys is well formed (every
   * name and placeholder supplied and used) and writes exactly those
   * keys, each with its value.
   */
  /** Every name supplied is one of the keys'. */
  lemma {:induction false} NamesUsed(keys: seq<string>, n: string)
    requires n in NamesFor(keys)
    ensures exists j :: 0 <= j < |keys| && n == "#" + keys[j]
  {
    var prefix := keys[..|keys| - 1];
    if n != "#" + keys[|keys| - 1] {
      NamesUsed(prefix, n);
      var j :| 0 <= j < |prefix| && n == "#" + prefix[j];
      assert keys[j] == prefix[j];
    }
  }

  /** Every placeholder supplied is one of the keys'. */
  lemma {:induction false} ValuesUsed(keys: seq<string>, fields: Record, p: string)
    requires forall j :: 0 <= j < |keys| ==> keys[j] in fields
    requires p in ValuesFor(keys, fields)
    ensures exists j :: 0 <= j < |keys| && p == ":" + keys[j]
  {
    var prefix := keys[..|keys| - 1];
    if p != ":" + keys[|keys| - 1] {
      assert forall j :: 0 <= j < |prefix| ==> prefix[j] == keys[j];
      ValuesUsed(prefix, fields, p);
      var j :| 0 <= j < |prefix| && p == ":" + prefix[j];
      assert keys[j] == prefix[j];
    }
  }

  /** The loop supplies every name and placeholder its clauses use. */
  lemma KeysBound(keys: seq<string>, fields: Record)
    requires forall j :: 0 <= j < |keys| ==> keys[j] in fields
    ensures Bound(UpdateExpr(ClausesFor(keys), NamesFor(keys), ValuesFor(keys, fields)))
  {
    var u := UpdateExpr(ClausesFor(keys), NamesFor(keys), ValuesFor(keys, fields));
    forall i | 0 <= i < |u.clauses|
      ensures u.clauses[i].placeholder in u.values && (IsNameRef(u.clauses[i].path) ==> u.clauses[i].path in u.names)
    {
      assert u.clauses[i] == KeyClause(keys[i]);
    }
  }

  /** The loop supplies no name or placeholder that its clauses do not use. */
  lemma KeysTight(keys: seq<string>, fields: Record)
    requires forall j :: 0 <= j < |keys| ==> keys[j] in fields
    ensures Tight(UpdateExpr(ClausesFor(keys), NamesFor(keys), ValuesFor(keys, fields)))
  {
    var u := UpdateExpr(ClausesFor(keys), NamesFor(keys), ValuesFor(keys, fields));
    forall p | p in u.values ensures exists i :: 0 <= i < |u.clauses| && u.clauses[i].placeholder == p {
      ValuesUsed(keys, fields, p);
      var j :| 0 <= j < |keys| && p == ":" + keys[j];
      assert u.clauses[j].placeholder == p;
    }
    forall n | n in u.names ensures exists i :: 0 <= i < |u.clauses| && u.clauses[i].path == n {
      NamesUsed(keys, n);
      var j :| 0 <= j < |keys| && n == "#" + keys[j];
      assert u.clauses[j].path == n;
    }
  }

  lemma {:induction false} KeysWritten(keys: seq<string>, fields: Record)
    requires forall j :: 0 <= j < |keys| ==> keys[j] in fields
    ensures var u := UpdateExpr(ClausesFor(keys), NamesFor(keys), ValuesFor(keys, fields));
            Bound(u)
            && (forall k :: k in Applied(u.clauses, u.names, u.values) <==> k in keys)
            && (forall k :: k in Applied(u.clauses, u.names, u.values) ==> Applied(u.clauses, u.names, u.values)[k] == fields[k])
  {
    KeysBound(keys, fields);
    if |keys| > 0 {
      var prefix := keys[..|keys| - 1];
      assert forall j :: 0 <= j < |prefix| ==> prefix[j] == keys[j];
      KeysWritten(prefix, fields);
      KeysStep(keys, fields);
      assert forall k :: k in keys <==> k in prefix || k == keys[|keys| - 1];
    }
  }

  /** One more key: the call writes what it wrote for the keys before, and the new key's value. */
  lemma KeysStep(keys: seq<string>, fields: Record)
    requires |keys| > 0 && forall j :: 0 <= j < |keys| ==> keys[j] in fields
    ensures var prefix := keys[..|keys| - 1];
            Bound(UpdateExpr(ClausesFor(keys), NamesFor(keys), ValuesFor(keys, fields)))
            && Bound(UpdateExpr(ClausesFor(prefix), NamesFor(prefix), ValuesFor(prefix, fields)))
            && Applied(ClausesFor(keys), NamesFor(keys), ValuesFor(keys, fields))
            == Applied(ClausesFor(prefix), NamesFor(prefix), ValuesFor(prefix, fields))[keys[|keys| - 1] := fields[keys[|keys| - 1]]]
  {
    var prefix := keys[..|keys| - 1];
    var last := keys[|keys| - 1];
    assert forall j :: 0 <= j < |prefix| ==> prefix[j] == keys[j];
    KeysBound(keys, fields);
    KeysBound(prefix, fields);
    var cs := ClausesFor(keys);
    var names := NamesFor(keys);
    var values := ValuesFor(keys, fields);
    assert cs[..|keys| - 1] == ClausesFor(prefix);
    AppliedFrame(ClausesFor(prefix), NamesFor(prefix), ValuesFor(prefix, fields), names, values);
    assert IsNameRef("#" + last);
  }

  /** One more member of the body: its key is kept or not. */
  lemma KeptKeysStep(order: seq<string>, fields: Record, dropBlank: bool, i: nat)
    requires i < |order| && forall k :: k in order ==> k in fields
    ensures KeptKeys(order[..i + 1], fields, dropBlank)
            == KeptKeys(order[..i], fields, dropBlank) + (if Kept(order[i], fields[order[i]], dropBlank) then [order[i]] else [])
  {
    assert order[..i + 1][..i] == order[..i];
  }

  /** What the loop holds after one more key. */
  lemma ExtendedByKey(keys: seq<string>, key: string, fields: Record)
    requires key in fields && forall j :: 0 <= j < |keys| ==> keys[j] in fields
    ensures ClausesFor(keys + [key]) == ClausesFor(keys) + [KeyClause(key)]
    ensures NamesFor(keys + [key]) == NamesFor(keys)["#" + key := key]
    ensures ValuesFor(keys + [key], fields) == ValuesFor(keys, fields)[":" + key := fields[key]]
  {
    assert (keys + [key])[..|keys|] == keys;
    assert ClausesFor(keys + [key])[..|keys|] == ClausesFor(keys);
  }

  /** The text after one more clause. */
  lemma ListedStep(text: string, clauses: seq<Clause>, c: Clause)
    requires text == "SET " + Listed(clauses)
    ensures text + ClauseText(c) + ", " == "SET " + Listed(clauses + [c])
  {
    assert (clauses + [c])[..|clauses|] == clauses;
  }

  /** The keys the loop turns into clauses are written with their values, and they are exactly the kept members. */
  lemma KeptWritten(body: Body, dropBlank: bool)
    requires WellFormed(body)
    ensures var keys := KeptKeys(body.order, body.fields, dropBlank);
            var u := UpdateExpr(ClausesFor(keys), NamesFor(keys), ValuesFor(keys, body.fields));
            Bound(u) && Tight(u) && Applied(u.clauses, u.names, u.values) == KeptFields(body, dropBlank)
  {
    var keys := KeptKeys(body.order, body.fields, dropBlank);
    KeptKeysMembers(body.order, body.fields, dropBlank);
    KeysWritten(keys, body.fields);
    KeysTight(keys, body.fields);
  }

  /** One turn of the loop: the member `key` adds its clause, name and value when it is kept. */
  method AddMember(key: string, value: Value, fields: Record, dropBlank: bool, text: string, clauses: seq<Clause>,
                   names: map<string, string>, values: map<string, Value>, ghost keys: seq<string>)
    returns (text': string, clauses': seq<Clause>, names': map<string, string>, values': map<string, Value>,
             ghost keys': seq<string>)
    requires key in fields && fields[key] == value
    requires forall j :: 0 <= j < |keys| ==> keys[j] in fields
    requires clauses == ClausesFor(keys) && names == NamesFor(keys) && values == ValuesFor(keys, fields)
    requires text == "SET " + Listed(clauses)
    ensures keys' == keys + (if Kept(key, value, dropBlank) then [key] else [])
    ensures forall j :: 0 <= j < |keys'| ==> keys'[j] in fields
    ensures clauses' == ClausesFor(keys') && names' == NamesFor(keys') && values' == ValuesFor(keys', fields)
    ensures text' == "SET " + Listed(clauses')
  {
    text', clauses', names', values', keys' := text, clauses, names, values, keys;
    if Kept(key, value, dropBlank) {
      ExtendedByKey(keys, key, fields);
      ListedStep(text, clauses, KeyClause(key));
      keys' := keys + [key];
      clauses' := clauses + [KeyClause(key)];
      names' := names["#" + key := key];
      values' := values[":" + key := value];
      text' := text + ClauseText(KeyClause(key)) + ", ";
    }
  }

  /**
   * The loop of the two update handlers: each kept member, in the order
   * of the body, becomes `#key = :key, `, with `#key` naming the key and
   * `:key` holding the value, and the trailing separator is stripped at
   * the end.  By `KeptWritten`, the call writes exactly the kept
   * members, with their values, and supplies no name or value that it
   * does not use.
   */
  method SetClauses(body: Body, dropBlank: bool) returns (expression: string, u: UpdateExpr)
    requires WellFormed(body)
    ensures var keys := KeptKeys(body.order, body.fields, dropBlank);
            u == UpdateExpr(ClausesFor(keys), NamesFor(keys), ValuesFor(keys, body.fields))
    ensures expression == TrimEnd("SET " + Listed(u.clauses), {',', ' '})
  {
    var text := "SET ";
    var clauses: seq<Clause> := [];
    var names: map<string, string> := map[];
    var values: map<string, Value> := map[];
    ghost var keys: seq<string> := [];
    for i := 0 to |body.order|
      invariant keys == KeptKeys(body.order[..i], body.fields, dropBlank)
      invariant clauses == ClausesFor(keys)
      invariant names == NamesFor(keys)
      invariant values == ValuesFor(keys, body.fields)
      invariant text == "SET " + Listed(clauses)
    {
      KeptKeysStep(body.order, body.fields, dropBlank, i);
      var key := body.order[i];
      text, clauses, names, values, keys := AddMember(key, body.fields[key], body.fields, dropBlank,
                                                      text, clauses, names, values, keys);
    }
    assert body.order[..|body.order|] == body.order;
    u := UpdateExpr(clauses, names, values);
    expression := TrimEnd(text, {',', ' '});
  }
}

=== FILE: values.dfy ===
/**
 * Values held in certificate records.
 *
 * The repository keeps every certificate as a loosely typed dictionary
 * (a DynamoDB item).  The model keeps the same shape: a record maps
 * attribute names to values, and a value is text, a whole number or the
 * null value that Python writes as `None`.
 */
module Wrappers {

  datatype Option<T> = None | Some(value: T)
}

module Values {

  datatype Value = Text(s: string) | Number(n: int) | Null

  type Record = map<string, Value>

  /** Python truthiness of a stored value. */
  predicate Truthy(v: Value)
  {
    match v
    case Text(s) => s != ""
    case Number(n) => n != 0
    case Null => false
  }

  /**
   * `record.get(key, default)` read as text.  A value that is not text is
   * read as the default as well (the repository only stores text in the
   * attributes read this way).
   */
  function GetText(r: Record, key: string, default: string): string
  {
    if key in r && r[key].Text? then r[key].s else default
  }

  /** `record.get(key, default)` */
  function Member(r: Record, key: string, default: Value): Value
  {
    if key in r then r[key] else default
  }

  /** `record.get(key)` is truthy. */
  predicate HasTruthy(r: Record, key: string)
  {
    key in r && Truthy(r[key])
  }

  /** The record with every attribute in `keys` removed. */
  function Without(r: Record, keys: set<string>): (s: Record)
    ensures s.Keys == r.Keys - keys
    ensures forall k :: k in s ==> s[k] == r[k]
  {
    map k | k in r && k !in keys :: r[k]
  }
}

=== FILE: webhook_handler.dfy ===
/**
 * The incident webhook handler (lambda/servicenow_webhook_handler.py):
 * when an incident opened for a certificate changes state or is
 * assigned, the incident service calls back with the incident's number,
 * state and assignee, and the certificate named by `correlation_id`
 * takes a status derived from the incident state and records the
 * assignee.
 *
 * The HMAC-SHA256 comparison, the secret lookup and the JSON decoding
 * are not modelled: their outcomes are inputs.  The audit log entry
 * cannot fail the request, so only the action it records is modelled.
 */
module WebhookHandler {

  import opened Wrappers
  import opened Values
  import opened Text
  import opened Statuses
  import opened Store
  import opened UpdateExpressions

  // ----- incident states -----

  /** INCIDENT_STATES: the display name of each incident state code. */
  const IncidentStates: map<string, string> :=
    map["1" := "New", "2" := "In Progress", "3" := "On Hold", "6" := "Resolved", "7" := "Closed", "8" := "Canceled"]

  /** STATUS_MAPPING: the certificate status each incident state leads to. */
  const StatusMapping: map<string, string> :=
    map["1" := "Pending Assignment", "2" := RenewalInProgress, "3" := "On Hold", "6" := RenewalDone,
        "7" := RenewalDone, "8" := "Renewal Canceled"]

  /** `STATUS_MAPPING.get(state, 'Unknown')`: a state that is not one of the text codes maps to 'Unknown'. */
  function NewStatus(state: Value): (status: string)
    ensures status == Unknown <==> !(state.Text? && state.s in StatusMapping)
  {
    if state.Text? && state.s in StatusMapping then StatusMapping[state.s] else Unknown
  }

  /** `INCIDENT_STATES.get(state, 'Unknown')` */
  function StateName(state: Value): (name: string)
    ensures name == Unknown <==> !(state.Text? && state.s in IncidentStates)
  {
    if state.Text? && state.s in IncidentStates then IncidentStates[state.s] else Unknown
  }

  /**
   * The two tables agree: a state has a status exactly when it has a
   * name, and each named state leads to the status of its meaning.
   */
  lemma StatusFollowsStateName(state: Value)
    ensures NewStatus(state) == Unknown <==> StateName(state) == Unknown
    ensures StateName(state) == "New" <==> NewStatus(state) == "Pending Assignment"
    ensures StateName(state) == "In Progress" <==> NewStatus(state) == RenewalInProgress
    ensures StateName(state) == "On Hold" <==> NewStatus(state) == "On Hold"
    ensures StateName(state) in {"Resolved", "Closed"} <==> NewStatus(state) == RenewalDone
    ensures StateName(state) == "Canceled" <==> NewStatus(state) == "Renewal Canceled"
  {
  }

  /** The audit action: `'INCIDENT_' + state_name.upper().replace(' ', '_')`. */
  function ActionName(stateName: string): (action: string)
    ensures |action| == |"INCIDENT_"| + |stateName|
    ensures action[..9] == "INCIDENT_"
    ensures forall i :: 9 <= i < |action| ==> action[i] != ' ' && action[i] == (if stateName[i - 9] == ' ' then '_' else UpperChar(stateName[i - 9]))
  {
    "INCIDENT_" + ReplaceChar(Upper(stateName), ' ', '_')
  }

  // ----- signature policy -----

  /** How signature validation went; the HMAC comparison itself is not modelled. */
  datatype SignatureCheck =
    | NoSignature            // no X-ServiceNow-Signature header
    | NoSecret               // the webhook secret is not configured
    | CheckFailed            // validation raised
    | Compared(matches: bool)

  /** validate_webhook_signature fails open: only a signature that was compared and differs is refused. */
  function ValidateWebhookSignature(check: SignatureCheck): (valid: bool)
    ensures !valid <==> check == Compared(false)
  {
    match check
    case Compared(matches) => matches
    case _ => true
  }

  // ----- the update -----

  /** The `assigned_to` member: absent (read as `{}`), not an object, or an object. */
  datatype AssignedTo =
    | NoAssignee
    | NotAnObject
    | Assignee(name: Option<Value>, email: Option<Value>)

  /** `assigned_to.get('name', 'Unassigned')` */
  function AssigneeName(a: AssignedTo): Value
    requires !a.NotAnObject?
  {
    if a.Assignee? && a.name.Some? then a.name.value else Text("Unassigned")
  }

  /** `assigned_to.get('email', '')` */
  function AssigneeEmail(a: AssignedTo): Value
    requires !a.NotAnObject?
  {
    if a.Assignee? && a.email.Some? then a.email.value else Text("")
  }

  /** `assignee_name and assignee_name != 'Unassigned'` */
  predicate IsAssigned(name: Value)
  {
    Truthy(name) && name != Text("Unassigned")
  }

  /** The attributes the assignment update sets. */
  function AssignmentChanges(state: Value, incident: Value, name: Value, email: Value, updatedOn: Value): (changes: Record)
    ensures IdKey !in changes
    ensures changes.Keys == {"LastUpdatedOn", "Status", "IncidentNumber", "IncidentState", "IncidentStateText"}
                            + (if IsAssigned(name) then {"AssignedTo", "AssignedToEmail", "AssignedOn"} else {})
  {
    var lead: Record := map["LastUpdatedOn" := updatedOn, "Status" := Text(NewStatus(state))];
    var middle: Record :=
      if IsAssigned(name) then lead["AssignedTo" := name]["AssignedToEmail" := email]["AssignedOn" := updatedOn]
      else lead;
    middle["IncidentNumber" := incident]["IncidentState" := state]["IncidentStateText" := Text(StateName(state))]
  }

  /** The clauses of update_certificate_assignment's update expression, in order. */
  function AssignmentClauses(withAssignee: bool): (cs: seq<Clause>)
    ensures |cs| == if withAssignee then 8 else 5
  {
    if withAssignee then
      [Clause("#lu", ":lu"), Clause("#status", ":status"),
       Clause("AssignedTo", ":assignee"), Clause("AssignedToEmail", ":assignee_email"), Clause("AssignedOn", ":assigned_on"),
       Clause("IncidentNumber", ":incident"), Clause("IncidentState", ":state"), Clause("IncidentStateText", ":state_text")]
    else
      [Clause("#lu", ":lu"), Clause("#status", ":status"),
       Clause("IncidentNumber", ":incident"), Clause("IncidentState", ":state"), Clause("IncidentStateText", ":state_text")]
  }

  /** The attribute names behind `#lu` and `#status` (both are reserved words). */
  const AssignmentNames: map<string, string> := map["#lu" := "LastUpdatedOn", "#status" := "Status"]

  /** The placeholder values of the update. */
  function AssignmentValues(state: Value, incident: Value, name: Value, email: Value, updatedOn: Value): (values: map<string, Value>)
    ensures values.Keys == {":lu", ":status", ":incident", ":state", ":state_text"}
                           + (if IsAssigned(name) then {":assignee", ":assignee_email", ":assigned_on"} else {})
  {
    var lead: map<string, Value> := map[":lu" := updatedOn, ":status" := Text(NewStatus(state))];
    var middle: map<string, Value> :=
      if IsAssigned(name) then lead[":assignee" := name][":assignee_email" := email][":assigned_on" := updatedOn]
      else lead;
    middle[":incident" := incident][":state" := state][":state_text" := Text(StateName(state))]
  }

  /**
   * The update is well formed (every placeholder and name reference is
   * supplied, and nothing supplied goes unused) and writes exactly the
   * assignment changes.
   */
  lemma AssignmentUpdateWrites(state: Value, incident: Value, name: Value, email: Value, updatedOn: Value)
    ensures var u := UpdateExpr(AssignmentClauses(IsAssigned(name)), AssignmentNames,
                                AssignmentValues(state, incident, name, email, updatedOn));
            Bound(u) && Tight(u)
            && Applied(u.clauses, u.names, u.values) == AssignmentChanges(state, incident, name, email, updatedOn)
  {
    AssignmentBound(state, incident, name, email, updatedOn);
    AssignmentTight(state, incident, name, email, updatedOn);
    AssignmentApplied(state, incident, name, email, updatedOn);
  }

  lemma AssignmentBound(state: Value, incident: Value, name: Value, email: Value, updatedOn: Value)
    ensures Bound(UpdateExpr(AssignmentClauses(IsAssigned(name)), AssignmentNames,
                             AssignmentValues(state, incident, name, email, updatedOn)))
  {
    var cs := AssignmentClauses(IsAssigned(name));
    var values := AssignmentValues(state, incident, name, email, updatedOn);
    forall i | 0 <= i < |cs|
      ensures cs[i].placeholder in values && (IsNameRef(cs[i].path) ==> cs[i].path in AssignmentNames)
    {
    }
  }

  lemma AssignmentTight(state: Value, incident: Value, name: Value, email: Value, updatedOn: Value)
    ensures Tight(UpdateExpr(AssignmentClauses(IsAssigned(name)), AssignmentNames,
                             AssignmentValues(state, incident, name, email, updatedOn)))
  {
    var cs := AssignmentClauses(IsAssigned(name));
    var values := AssignmentValues(state, incident, name, email, updatedOn);
    var n := |cs|;
    forall p | p in values
      ensures exists i :: 0 <= i < n && cs[i].placeholder == p
    {
      PlaceholderUsed(IsAssigned(name), p);
    }
    AssignmentNamesUsed(IsAssigned(name));
  }

  /** Both name references of the update appear in its clauses. */
  lemma AssignmentNamesUsed(withAssignee: bool)
    ensures forall q :: q in AssignmentNames ==>
              exists i :: 0 <= i < |AssignmentClauses(withAssignee)| && AssignmentClauses(withAssignee)[i].path == q
  {
    var cs := AssignmentClauses(withAssignee);
    assert cs[0].path == "#lu" && cs[1].path == "#status";
  }

  /** Each placeholder the update may supply appears in one of its clauses. */
  lemma PlaceholderUsed(withAssignee: bool, p: string)
    requires p in {":lu", ":status", ":incident", ":state", ":state_text"}
                  + (if withAssignee then {":assignee", ":assignee_email", ":assigned_on"} else {})
    ensures exists i :: 0 <= i < |AssignmentClauses(withAssignee)| && AssignmentClauses(withAssignee)[i].placeholder == p
  {
    var cs := AssignmentClauses(withAssignee);
    var n := |cs|;
    if p == ":lu" { assert cs[0].placeholder == p; }
    else if p == ":status" { assert cs[1].placeholder == p; }
    else if p == ":incident" { assert cs[n - 3].placeholder == p; }
    else if p == ":state" { assert cs[n - 2].placeholder == p; }
    else if p == ":state_text" { assert cs[n - 1].placeholder == p; }
    else if p == ":assignee" { assert cs[2].placeholder == p; }
    else if p == ":assignee_email" { assert cs[3].placeholder == p; }
    else { assert cs[4].placeholder == p; }
  }

  lemma AssignmentApplied(state: Value, incident: Value, name: Value, email: Value, updatedOn: Value)
    requires Bound(UpdateExpr(AssignmentClauses(IsAssigned(name)), AssignmentNames,
                              AssignmentValues(state, incident, name, email, updatedOn)))
    ensures Applied(AssignmentClauses(IsAssigned(name)), AssignmentNames,
                    AssignmentValues(state, incident, name, email, updatedOn))
            == AssignmentChanges(state, incident, name, email, updatedOn)
  {
    var values := AssignmentValues(state, incident, name, email, updatedOn);
    assert values[":lu"] == updatedOn && values[":status"] == Text(NewStatus(state));
    assert values[":incident"] == incident && values[":state"] == state && values[":state_text"] == Text(StateName(state));
    if IsAssigned(name) {
      assert values[":assignee"] == name && values[":assignee_email"] == email && values[":assigned_on"] == updatedOn;
      AppliedWithAssignee(values);
    } else {
      AppliedWithoutAssignee(values);
    }
  }

  /** The update with the assignee clauses writes eight attributes, each from its placeholder. */
  lemma AppliedWithAssignee(values: map<string, Value>)
    requires Bound(UpdateExpr(AssignmentClauses(true), AssignmentNames, values))
    ensures ":lu" in values && ":status" in values && ":assignee" in values && ":assignee_email" in values
            && ":assigned_on" in values && ":incident" in values && ":state" in values && ":state_text" in values
    ensures Applied(AssignmentClauses(true), AssignmentNames, values)
            == map["LastUpdatedOn" := values[":lu"], "Status" := values[":status"]]
                 ["AssignedTo" := values[":assignee"]]["AssignedToEmail" := values[":assignee_email"]]
                 ["AssignedOn" := values[":assigned_on"]]
                 ["IncidentNumber" := values[":incident"]]["IncidentState" := values[":state"]]
                 ["IncidentStateText" := values[":state_text"]]
  {
    var lu, st := Clause("#lu", ":lu"), Clause("#status", ":status");
    var a1, a2, a3 := Clause("AssignedTo", ":assignee"), Clause("AssignedToEmail", ":assignee_email"), Clause("AssignedOn", ":assigned_on");
    var lead := [lu, st, a1, a2, a3];
    assert Bound(UpdateExpr(lead, AssignmentNames, values))
      && ":incident" in values && ":state" in values && ":state_text" in values
      && Applied(AssignmentClauses(true), AssignmentNames, values)
         == Applied(lead, AssignmentNames, values)
              ["IncidentNumber" := values[":incident"]]["IncidentState" := values[":state"]]
              ["IncidentStateText" := values[":state_text"]] by {
      assert AssignmentClauses(true) == lead + IncidentClauses;
      TailApplied(lead, values);
    }
    AssigneeApplied(values);
    LeadApplied(values);
  }

  /** Without the assignee clauses the update writes five attributes, each from its placeholder. */
  lemma AppliedWithoutAssignee(values: map<string, Value>)
    requires Bound(UpdateExpr(AssignmentClauses(false), AssignmentNames, values))
    ensures ":lu" in values && ":status" in values && ":incident" in values && ":state" in values && ":state_text" in values
    ensures Applied(AssignmentClauses(false), AssignmentNames, values)
            == map["LastUpdatedOn" := values[":lu"], "Status" := values[":status"]]
                 ["IncidentNumber" := values[":incident"]]["IncidentState" := values[":state"]]
                 ["IncidentStateText" := values[":state_text"]]
  {
    var lu, st := Clause("#lu", ":lu"), Clause("#status", ":status");
    assert AssignmentClauses(false) == [lu, st] + IncidentClauses;
    TailApplied([lu, st], values);
    LeadApplied(values);
  }

  /** What the three assignee clauses add to what `#lu` and `#status` wrote. */
  lemma AssigneeApplied(values: map<string, Value>)
    requires Bound(UpdateExpr([Clause("#lu", ":lu"), Clause("#status", ":status"), Clause("AssignedTo", ":assignee"),
                               Clause("AssignedToEmail", ":assignee_email"), Clause("AssignedOn", ":assigned_on")],
                              AssignmentNames, values))
    ensures ":lu" in values && ":status" in values && ":assignee" in values && ":assignee_email" in values && ":assigned_on" in values
    ensures Applied([Clause("#lu", ":lu"), Clause("#status", ":status"), Clause("AssignedTo", ":assignee"),
                     Clause("AssignedToEmail", ":assignee_email"), Clause("AssignedOn", ":assigned_on")],
                    AssignmentNames, values)
            == Applied([Clause("#lu", ":lu"), Clause("#status", ":status")], AssignmentNames, values)
                 ["AssignedTo" := values[":assignee"]]["AssignedToEmail" := values[":assignee_email"]]
                 ["AssignedOn" := values[":assigned_on"]]
  {
    var lu, st := Clause("#lu", ":lu"), Clause("#status", ":status");
    var a1, a2, a3 := Clause("AssignedTo", ":assignee"), Clause("AssignedToEmail", ":assignee_email"), Clause("AssignedOn", ":assigned_on");
    assert [lu, st, a1, a2, a3] == [lu, st, a1, a2] + [a3];
    AppliedSnoc([lu, st, a1, a2], a3, AssignmentNames, values);
    assert [lu, st, a1, a2] == [lu, st, a1] + [a2];
    AppliedSnoc([lu, st, a1], a2, AssignmentNames, values);
    assert [lu, st, a1] == [lu, st] + [a1];
    AppliedSnoc([lu, st], a1, AssignmentNames, values);
  }

  /** The three incident clauses that close the update. */
  const IncidentClauses: seq<Clause> :=
    [Clause("IncidentNumber", ":incident"), Clause("IncidentState", ":state"), Clause("IncidentStateText", ":state_text")]

  /** What `#lu` and `#status` write. */
  lemma LeadApplied(values: map<string, Value>)
    requires ":lu" in values && ":status" in values
    ensures Bound(UpdateExpr([Clause("#lu", ":lu"), Clause("#status", ":status")], AssignmentNames, values))
    ensures Applied([Clause("#lu", ":lu"), Clause("#status", ":status")], AssignmentNames, values)
            == map["LastUpdatedOn" := values[":lu"], "Status" := values[":status"]]
  {
    var lu, st := Clause("#lu", ":lu"), Clause("#status", ":status");
    assert Bound(UpdateExpr([lu, st], AssignmentNames, values));
    AppliedPair(lu, st, AssignmentNames, values);
    assert Attribute(lu.path, AssignmentNames) == "LastUpdatedOn" && Attribute(st.path, AssignmentNames) == "Status";
  }

  /** What the three incident clauses add to what the leading clauses wrote. */
  lemma TailApplied(lead: seq<Clause>, values: map<string, Value>)
    requires Bound(UpdateExpr(lead + IncidentClauses, AssignmentNames, values))
    ensures Bound(UpdateExpr(lead, AssignmentNames, values))
    ensures ":incident" in values && ":state" in values && ":state_text" in values
    ensures Applied(lead + IncidentClauses, AssignmentNames, values)
            == Applied(lead, AssignmentNames, values)
                 ["IncidentNumber" := values[":incident"]]["IncidentState" := values[":state"]]
                 ["IncidentStateText" := values[":state_text"]]
  {
    var c1, c2, c3 := Clause("IncidentNumber", ":incident"), Clause("IncidentState", ":state"), Clause("IncidentStateText", ":state_text");
    assert lead + IncidentClauses == lead + [c1] + [c2] + [c3];
    AppliedSnoc(lead + [c1] + [c2], c3, AssignmentNames, values);
    AppliedSnoc(lead + [c1], c2, AssignmentNames, values);
    AppliedSnoc(lead, c1, AssignmentNames, values);
  }

  /**
   * The update expression of update_certificate_assignment, built clause
   * by clause: `#lu` and `#status`, the three assignee clauses when
   * someone is assigned, then the three incident clauses.
   */
  method BuildAssignmentUpdate(state: Value, incident: Value, name: Value, email: Value, updatedOn: Value)
    returns (expression: string, u: UpdateExpr)
    ensures u == UpdateExpr(AssignmentClauses(IsAssigned(name)), AssignmentNames,
                            AssignmentValues(state, incident, name, email, updatedOn))
    ensures expression == "SET " + Join(ClauseTexts(u.clauses), ", ")
  {
    var parts: seq<Clause> := [];
    var values: map<string, Value> := map[];
    var names: map<string, string> := map[];

    parts := parts + [Clause("#lu", ":lu")];
    names := names["#lu" := "LastUpdatedOn"];
    values := values[":lu" := updatedOn];

    parts := parts + [Clause("#status", ":status")];
    names := names["#status" := "Status"];
    values := values[":status" := Text(NewStatus(state))];

    if IsAssigned(name) {
      parts := parts + [Clause("AssignedTo", ":assignee"), Clause("AssignedToEmail", ":assignee_email"),
                        Clause("AssignedOn", ":assigned_on")];
      values := values[":assignee" := name][":assignee_email" := email][":assigned_on" := updatedOn];
    }

    parts := parts + [Clause("IncidentNumber", ":incident"), Clause("IncidentState", ":state"),
                      Clause("IncidentStateText", ":state_text")];
    values := values[":incident" := incident][":state" := state][":state_text" := Text(StateName(state))];

    assert parts == AssignmentClauses(IsAssigned(name));
    u := UpdateExpr(parts, names, values);
    expression := "SET " + Join(ClauseTexts(parts), ", ");
  }

  // ----- update_certificate_assignment -----

  /** What update_certificate_assignment reports. */
  datatype AssignmentResult =
    | Assigned(newStatus: string, assignee: Value, action: string)
    | AssignmentFailed

  /**
   * update_certificate_assignment: the certificate named `certificateId`
   * takes the assignment changes, and is created holding only its key
   * when it does not exist (`update_item` is an upsert).  The call fails,
   * leaving the table alone, when `assigned_to` is not an object (reading
   * it raises), when the id cannot be a key (not text, or empty), or when
   * the write itself raises (`writeFails`).
   */
  method UpdateCertificateAssignment(table: CertificateTable, certificateId: Value, incident: Value, state: Value,
                                     assignedTo: AssignedTo, updatedOn: Value, writeFails: bool)
    returns (result: AssignmentResult)
    requires table.Valid()
    modifies table
    ensures table.Valid()
    ensures result.Assigned? <==> !assignedTo.NotAnObject? && KeyUsable(certificateId) && !writeFails
    ensures result.Assigned? ==>
              var name := AssigneeName(assignedTo);
              result == Assigned(NewStatus(state), name, ActionName(StateName(state)))
              && table.items == old(table.items)[certificateId.s := Upserted(old(table.items), certificateId.s,
                                  AssignmentChanges(state, incident, name, AssigneeEmail(assignedTo), updatedOn))]
    ensures result.AssignmentFailed? ==> table.items == old(table.items)
  {
    if assignedTo.NotAnObject? {
      return AssignmentFailed;
    }
    var name := AssigneeName(assignedTo);
    var email := AssigneeEmail(assignedTo);
    var expression, u := BuildAssignmentUpdate(state, incident, name, email, updatedOn);
    if !KeyUsable(certificateId) || writeFails {
      return AssignmentFailed;
    }
    AssignmentUpdateWrites(state, incident, name, email, updatedOn);
    table.Update(certificateId.s, Applied(u.clauses, u.names, u.values));
    result := Assigned(NewStatus(state), name, ActionName(StateName(state)));
  }

  /** A value DynamoDB accepts as the string key `CertificateID`. */
  predicate KeyUsable(id: Value)
  {
    id.Text? && id.s != ""
  }

  // ----- lambda_handler -----

  /** The webhook body's members; a missing member reads as `Null`, a missing `updated_on` as `None`. */
  datatype Payload = Payload(incidentNumber: Value, correlationId: Value, state: Value,
                             assignedTo: AssignedTo, updatedOn: Option<Value>)

  /**
   * The request body: text that `json.loads` cannot read, JSON that is
   * not an object (a list, a number, a string), or an object.
   */
  datatype Body = Undecodable | NotAnObjectBody | Object(payload: Payload)

  /** The request: its body and how its signature check went. */
  datatype Request = Request(body: Body, signature: SignatureCheck)

  /** The handler's answer. */
  datatype Response =
    | Updated(certificateId: Value, status: string, assignee: Value)   // 200
    | Refused(statusCode: int, error: string)

  /**
   * lambda_handler.  The checks run in this order: a body that cannot be
   * decoded (500), a refused signature (401), a body that is not an object
   * (500, from the first `.get`), a falsy `correlation_id` (400), a falsy
   * `incident_number` (400), a failed update (500).  The signature is
   * checked on any decoded body, since `json.dumps` serialises a list as
   * well as an object.  `now` is the clock's ISO time, used when the body
   * has no `updated_on`.  The table changes only when the answer is 200.
   */
  method LambdaHandler(table: CertificateTable, request: Request, now: string, writeFails: bool)
    returns (response: Response)
    requires table.Valid()
    modifies table
    ensures table.Valid()
    ensures request.body.Undecodable? ==> response == Refused(500, "Internal server error")
    ensures !request.body.Undecodable? && !ValidateWebhookSignature(request.signature) ==>
              response == Refused(401, "Invalid signature")
    ensures request.body.NotAnObjectBody? && ValidateWebhookSignature(request.signature) ==>
              response == Refused(500, "Internal server error")
    ensures request.body.Object? && ValidateWebhookSignature(request.signature) ==>
              var p := request.body.payload;
              (!Truthy(p.correlationId) ==> response == Refused(400, "Missing correlation_id"))
              && (Truthy(p.correlationId) && !Truthy(p.incidentNumber) ==> response == Refused(400, "Missing incident_number"))
              && (Truthy(p.correlationId) && Truthy(p.incidentNumber) ==>
                    if !p.assignedTo.NotAnObject? && KeyUsable(p.correlationId) && !writeFails then
                      response == Updated(p.correlationId, NewStatus(p.state), AssigneeName(p.assignedTo))
                    else
                      response == Refused(500, "Failed to update certificate"))
    ensures response.Updated? ==>
              request.body.Object? &&
              var p := request.body.payload;
              var updatedOn := if p.updatedOn.Some? then p.updatedOn.value else Text(now);
              table.items == old(table.items)[p.correlationId.s := Upserted(old(table.items), p.correlationId.s,
                               AssignmentChanges(p.state, p.incidentNumber, AssigneeName(p.assignedTo),
                                                 AssigneeEmail(p.assignedTo), updatedOn))]
    ensures !response.Updated? ==> table.items == old(table.items)
  {
    if request.body.Undecodable? {
      return Refused(500, "Internal server error");
    }
    if !ValidateWebhookSignature(request.signature) {
      return Refused(401, "Invalid signature");
    }
    if request.body.NotAnObjectBody? {
      return Refused(500, "Internal server error");
    }
    var p := request.body.payload;
    var updatedOn := if p.updatedOn.Some? then p.updatedOn.value else Text(now);
    if !Truthy(p.correlationId) {
      return Refused(400, "Missing correlation_id");
    }
    if !Truthy(p.incidentNumber) {
      return Refused(400, "Missing incident_number");
    }
    var result := UpdateCertificateAssignment(table, p.correlationId, p.incidentNumber, p.state,
                                              p.assignedTo, updatedOn, writeFails);
    if result.Assigned? {
      response := Updated(p.correlationId, result.newStatus, result.assignee);
    } else {
      response := Refused(500, "Failed to update certificate");
    }
  }
}
